=== FILE: README.md ===
# Literacy Bridge ACM and TB-Loader: a verified model of the core logic

This project models, in Dafny, the sequential logic at the centre of the Literacy Bridge
tools. The Audio Content Manager (ACM) is the desktop application in which programs build
the audio content for Talking Books. The TB-Loaders, a desktop one and an Android one,
put that content on the devices. `acmCheckOut/logs.py` is a script that prints the ACM's
check-out logs from the object store.

The modules follow the source files:

- **SrnAllocation, AcmSrnHelper, AndroidSrnHelper.** The Talking Book serial-number (SRN)
  allocator is a primary block and a backup block of numbers, handed out in order. The ACM
  keeps it in a properties store and the Android TB-Loader in shared preferences. Both
  refill it from the reservation service. The ACM's inner `TbSrnInfo` class
  (`acm/src/main/java/org/literacybridge/acm/cloud/TbSrnHelper.java`) is the same allocator
  as `TbSrnAllocationInfo`, so one class models both.
- **AccessControl, DbConfiguration.** AccessControl covers the `dbNN.zip` database versions,
  the status ladder that decides whether a database opens read-write, read-only or not at
  all, and committing or discarding the changes. DbConfiguration covers the typed settings
  read from `config.properties`.
- **Matcher, GreetingMatchable.** The import assistants pair the files found with the items
  expected. They match exactly, then by a similarity score; they squash the matched items
  and can undo a match.
- **DeploymentInfo, Playlist, Category, Taxonomy, AssistantPage, AudioItemTableModel,
  DataRequestResult, TagsListModel, UIUtils, Application.** These cover the content
  store's playlists and category tree, deployment package names and pruning, decorated
  playlist names, the uuid-to-row index of the audio-item table, and the search filter of
  the main window. They also cover the strings and comparisons shown in the tables.
- **ContentInfo, ContentManager.** These cover the Android TB-Loader's download state
  machine and how it reconciles the Deployments on the device with those in the cloud.
- **DeviceContents, FileSystemExporter, StatisticsImporter, OperationLog,
  OperationLogImpl, FFMpegConverter.** These are the small text formats: device category
  lists and paths, exported file names, statistics CSV files, operation-log lines, and
  ffmpeg's list of formats.
- **LogsScript.** This covers `logs.py`'s choice of mode and its object-store prefixes
  built from dates.
- **JavaStrings, Sorting, Wrappers.** These are the library behaviour the code relies on.
  JavaStrings models `trim`, ASCII case mapping, `StringTokenizer`, `Integer.parseInt` with
  32-bit bounds, and joining. Sorting is a comparator sort. Wrappers holds the
  `Option`/`Result` types for null and exceptions.

Objects whose fields the source updates become classes with `modifies` clauses. Pure
computations become functions with lemmas relating them. I/O, the network, the clock,
the fuzzy score and the object store become parameters: values, function-typed arguments,
or recorded sequences of effects.

## Model

| member | source | states |
|---|---|---|
| SrnAllocation.KeysDistinct | acm/src/main/java/org/literacybridge/acm/cloud/TbSrnHelper.java:311-330 | the seven keys written under one id prefix are pairwise different, so no field overwrites another |
| SrnAllocation.Apply | core/src/main/java/org/literacybridge/core/tbloader/TbSrnAllocationInfo.java:82-109 | applyReservation: true exactly for a range with begin > 0 and end > begin, which sets the id and fills an empty block starting at begin; when not accepted the blocks and nextSrn are unchanged; IllegalStateException only when neither block is empty |
| SrnAllocation.Allocate | core/src/main/java/org/literacybridge/core/tbloader/TbSrnAllocationInfo.java:133-149 | allocateNext hands out nextSrn (non-zero) exactly when there is a next SRN, and otherwise returns 0 and changes nothing; the id is kept |
| SrnAllocation.ApplyRejects | core/src/main/java/org/literacybridge/core/tbloader/TbSrnAllocationInfo.java:82-108 | applyReservation returns false exactly when the range is not begin > 0 and end > begin, and then changes nothing |
| SrnAllocation.ApplyId | core/src/main/java/org/literacybridge/core/tbloader/TbSrnAllocationInfo.java:82-86 | an accepted range sets the id, and the hex id is replaced only when the id differs (setId) |
| SrnAllocation.ApplySplits | core/src/main/java/org/literacybridge/core/tbloader/TbSrnAllocationInfo.java:87-93 | with both blocks empty the range is halved into primary [begin, mid) and backup [mid, end), nextSrn = begin; exactly the numbers of the range remain, the blocks are disjoint and available() is end - begin |
| SrnAllocation.ApplyFillsPrimary | core/src/main/java/org/literacybridge/core/tbloader/TbSrnAllocationInfo.java:94-98 | with only the primary empty the whole range becomes the primary, nextSrn = begin, the backup is kept |
| SrnAllocation.ApplyFillsBackup | core/src/main/java/org/literacybridge/core/tbloader/TbSrnAllocationInfo.java:99-102 | with only the backup empty the range becomes the backup; primary and nextSrn are kept |
| SrnAllocation.ApplyThrowsWhenFull | core/src/main/java/org/literacybridge/core/tbloader/TbSrnAllocationInfo.java:103-105 | a valid range with no empty block throws IllegalStateException and the remaining numbers are unchanged |
| SrnAllocation.AllocateTakesOne | core/src/main/java/org/literacybridge/core/tbloader/TbSrnAllocationInfo.java:133-149 | allocateNext returns nextSrn, a remaining number, removes exactly it from the remaining numbers and keeps the blocks disjoint; without a next SRN it returns 0 and changes nothing |
| SrnAllocation.AllocatePromotesBackup | core/src/main/java/org/literacybridge/core/tbloader/TbSrnAllocationInfo.java:139-146 | exhausting the primary promotes the backup to primary, empties the backup and restarts nextSrn at the new primary |
| SrnAllocation.OperationsStayInt32 | core/src/main/java/org/literacybridge/core/tbloader/TbSrnAllocationInfo.java:82-149 | from int-range fields and arguments, applyReservation and allocateNext keep every field and the returned SRN in the Java int range |
| SrnAllocation.AllocateRunDistinct | core/src/main/java/org/literacybridge/core/tbloader/TbSrnAllocationInfo.java:133-149 | no SRN is handed out twice: over any run of allocations every result is 0 or a remaining number and the non-zero results are pairwise different |
| SrnAllocation.AllocateRunStuck | core/src/main/java/org/literacybridge/core/tbloader/TbSrnAllocationInfo.java:133-136 | without a next SRN every further allocation returns 0 |
| SrnAllocation.AllocateRunLength | core/src/main/java/org/literacybridge/core/tbloader/TbSrnAllocationInfo.java:133-149 | k allocations in a row give k results |
| SrnAllocation.AvailableIgnoresNext | core/src/main/java/org/literacybridge/core/tbloader/TbSrnAllocationInfo.java:155-164 | available() counts whole block widths: it does not depend on nextSrn and is never negative |
| SrnAllocation.LongFieldAsWritten | core/src/main/java/org/literacybridge/core/tbloader/TbSrnAllocationInfo.java:72-80 | as written, a number is read exactly when the key is present with a Long value, and is then within the int range of the (int) cast |
| SrnAllocation.LongField | core/src/main/java/org/literacybridge/core/tbloader/TbSrnAllocationInfo.java:72-80 | the corrected reading: a missing key reads as -1; a present key reads as in the code as written |
| SrnAllocation.ReservationAsWritten | core/src/main/java/org/literacybridge/core/tbloader/TbSrnAllocationInfo.java:72-80 | as written, a reservation is read only when begin, end and id are all present, and its numbers are in the int range |
| SrnAllocation.ReservationFromMap | core/src/main/java/org/literacybridge/core/tbloader/TbSrnAllocationInfo.java:72-80 | the corrected reading accepts every map the code as written accepts, with the same reservation, and reads a missing begin as -1 |
| SrnAllocation.ApplyMap | core/src/main/java/org/literacybridge/core/tbloader/TbSrnAllocationInfo.java:72-81 | applyReservation(Map), corrected reading: a range is accepted only when the map holds begin and end, and the blocks change only when it is accepted |
| SrnAllocation.EmptyReservationThrowsAsWritten | core/src/main/java/org/literacybridge/core/tbloader/TbSrnAllocationInfo.java:72-80 | as written, the empty map (what allocateTbSrnBlock returns when the service fails) makes the (Long) cast of the Integer default throw ClassCastException |
| SrnAllocation.MissingBeginRejected | core/src/main/java/org/literacybridge/core/tbloader/TbSrnAllocationInfo.java:72-80 | with missing numbers read as -1, as the defaults intend, a reservation without "begin" is refused and leaves the allocator unchanged |
| SrnAllocation.ReservationReadingsAgree | core/src/main/java/org/literacybridge/core/tbloader/TbSrnAllocationInfo.java:72-80 | when begin, end and id are all present, the as-written and the corrected readings of the map agree |
| SrnAllocation.TbSrnAllocationInfo.constructor | core/src/main/java/org/literacybridge/core/tbloader/TbSrnAllocationInfo.java:14-22 | a new allocator has id -1, no hex id, nextSrn 0 and both blocks empty |
| SrnAllocation.TbSrnAllocationInfo.Of | core/src/main/java/org/literacybridge/core/tbloader/TbSrnAllocationInfo.java:24-39 | the seven-argument constructor stores the given fields |
| SrnAllocation.TbSrnAllocationInfo.Copy | core/src/main/java/org/literacybridge/core/tbloader/TbSrnAllocationInfo.java:45-55 | the copy constructor copies all seven fields; copying null gives a new allocator |
| SrnAllocation.TbSrnAllocationInfo.ApplyReservation | core/src/main/java/org/literacybridge/core/tbloader/TbSrnAllocationInfo.java:82-109 | the returned value (or IllegalStateException) and the new fields are those of Apply on the old fields |
| SrnAllocation.TbSrnAllocationInfo.ApplyReservationMap | core/src/main/java/org/literacybridge/core/tbloader/TbSrnAllocationInfo.java:72-81 | applyReservation(Map) reads begin, end, id and hexid (missing numbers as -1) and applies them; a cast failure is returned as the exception |
| SrnAllocation.TbSrnAllocationInfo.AllocateNext | core/src/main/java/org/literacybridge/core/tbloader/TbSrnAllocationInfo.java:133-149 | the SRN returned and the new fields are those of Allocate on the old fields |
| SrnAllocation.TbSrnAllocationInfo.HasNext | core/src/main/java/org/literacybridge/core/tbloader/TbSrnAllocationInfo.java:115-118 | hasNext holds exactly when allocateNext would hand out a non-zero SRN |
| SrnAllocation.TbSrnAllocationInfo.HasBackup | core/src/main/java/org/literacybridge/core/tbloader/TbSrnAllocationInfo.java:124-126 | with a backup block, available() counts at least the backup block's non-zero width |
| SrnAllocation.TbSrnAllocationInfo.Available | core/src/main/java/org/literacybridge/core/tbloader/TbSrnAllocationInfo.java:155-164 | available() is never negative, and with an SRN left it is positive, at least the SRNs left in the primary block |
| AcmSrnHelper.SaveSrnInfo | acm/src/main/java/org/literacybridge/acm/cloud/TbSrnHelper.java:311-330 | saveSrnInfo fails (setProperty of a null hex id) exactly when the hex id is null |
| AcmSrnHelper.TbLoaderId | acm/src/main/java/org/literacybridge/acm/cloud/TbSrnHelper.java:336-347 | getTbLoaderId is the parsed number stored under the email, and -1 when the store, the key or a parsable number is missing |
| AcmSrnHelper.LoadSrnInfo | acm/src/main/java/org/literacybridge/acm/cloud/TbSrnHelper.java:276-303 | loadSrnInfo is null without a store or with an id <= 0, and any allocator it reads has int-range fields |
| AcmSrnHelper.SaveKeepsOtherEntries | acm/src/main/java/org/literacybridge/acm/cloud/TbSrnHelper.java:311-313 | the saved store keeps every key of the store it copies, and the value of every key it does not write |
| AcmSrnHelper.SavedEntries | acm/src/main/java/org/literacybridge/acm/cloud/TbSrnHelper.java:319-327 | the email maps to the id and the seven keys under "<id>." hold the seven fields as decimal strings (the hex id as is) |
| AcmSrnHelper.SaveLoadRoundTrip | acm/src/main/java/org/literacybridge/acm/cloud/TbSrnHelper.java:276-330 | round trip: loading what saveSrnInfo wrote, for an id > 0 with a hex id and int-range fields, gives back the same allocator |
| AcmSrnHelper.IntPropertyOf | acm/src/main/java/org/literacybridge/acm/cloud/TbSrnHelper.java:283-289 | Integer.parseInt of a stored decimal string gives back the number |
| AcmSrnHelper.PrepareRequestSize | acm/src/main/java/org/literacybridge/acm/cloud/TbSrnHelper.java:210-217 | prepareForAllocation asks for two blocks with no allocator or with both blocks empty, one block with exactly one block empty, and nothing when offline or when both blocks are present |
| AcmSrnHelper.Prepare | acm/src/main/java/org/literacybridge/acm/cloud/TbSrnHelper.java:210-231 | prepareForAllocation asks for SRNs only when online and the allocator is missing or has an empty block; when it asks for none, nothing changes and the result is the available count |
| AcmSrnHelper.Refill | acm/src/main/java/org/literacybridge/acm/cloud/TbSrnHelper.java:214-226 | the refill requests exactly n SRNs; the helper changes only when the store was written, and then publishes the store saveSrnInfo made for the published allocator; on an exception nothing changes |
| AcmSrnHelper.NextSrn | acm/src/main/java/org/literacybridge/acm/cloud/TbSrnHelper.java:246-265 | a non-zero SRN is the old nextSrn and is returned only when the store was written; at most one block is requested, only when online; nothing changes unless the store was written |
| AcmSrnHelper.PreparePublishesOnlyPersisted | acm/src/main/java/org/literacybridge/acm/cloud/TbSrnHelper.java:214-230 | the helper changes only after the new store was written, and then publishes exactly the stored allocator; it returns available() of the published allocator, and an exception leaves it unchanged |
| AcmSrnHelper.PrepareWithoutReply | acm/src/main/java/org/literacybridge/acm/cloud/TbSrnHelper.java:216-230 | an empty reply from the service leaves the helper as it was and returns its available count |
| AcmSrnHelper.PrepareThenLoad | acm/src/main/java/org/literacybridge/acm/cloud/TbSrnHelper.java:218-225 | after a published change, loading the published store gives back the published allocator |
| AcmSrnHelper.AllocateNextSrnHandsOutNext | acm/src/main/java/org/literacybridge/acm/cloud/TbSrnHelper.java:246-265 | a non-zero SRN is the old nextSrn, a remaining number, and is returned only when the new state was stored and published; 0 or an exception leave the helper unchanged |
| AcmSrnHelper.AllocateNextSrnFailsSafe | acm/src/main/java/org/literacybridge/acm/cloud/TbSrnHelper.java:246-265 | without an SRN to hand out, or when the store cannot be written, nothing changes and 0 (or the exception) is returned |
| AcmSrnHelper.AllocateNextSrnRefill | acm/src/main/java/org/literacybridge/acm/cloud/TbSrnHelper.java:251-255 | one block is requested exactly when the allocation left no backup and the user is online |
| AcmSrnHelper.TbSrnHelper.Of | acm/src/main/java/org/literacybridge/acm/cloud/TbSrnHelper.java:189-197 | the helper holds the email, store and allocator it is given |
| AcmSrnHelper.TbSrnHelper.GetTbSrnInfo | acm/src/main/java/org/literacybridge/acm/cloud/TbSrnHelper.java:267-269 | getTbSrnInfo returns a fresh copy of the published allocator (a new one when there is none) |
| AcmSrnHelper.TbSrnHelper.HasAvailableSrn | acm/src/main/java/org/literacybridge/acm/cloud/TbSrnHelper.java:237-239 | hasAvailableSrn holds exactly when there is an allocator and allocating from it would give a non-zero SRN |
| AcmSrnHelper.TbSrnHelper.PrepareForAllocation | acm/src/main/java/org/literacybridge/acm/cloud/TbSrnHelper.java:210-231 | the result, the block size requested and the new state are those of Prepare on the old state |
| AcmSrnHelper.TbSrnHelper.RefillCopy | acm/src/main/java/org/literacybridge/acm/cloud/TbSrnHelper.java:214-226 | the refill of a copy: result and new state are those of Refill |
| AcmSrnHelper.TbSrnHelper.AllocateNextSrn | acm/src/main/java/org/literacybridge/acm/cloud/TbSrnHelper.java:246-265 | the result, the block size requested and the new state are those of NextSrn on the old state |
| AcmSrnHelper.Open | acm/src/main/java/org/literacybridge/acm/cloud/TbSrnHelper.java:193-197 | the constructor: an exception from loadSrnInfo propagates, otherwise a fresh helper holds the store and the allocator it loaded |
| AndroidSrnHelper.ToPrefs | androidTBLoader/src/main/java/org/literacybridge/androidtbloader/util/TbSrnHelper.java:121-135 | toPrefs keeps every preference it does not write |
| AndroidSrnHelper.FromPrefs | androidTBLoader/src/main/java/org/literacybridge/androidtbloader/util/TbSrnHelper.java:143-164 | fromPrefs gives an allocator only when the stored id is the one asked for and nextSrn lies in the primary block, with a non-null hex id; a wrongly typed value is a ClassCastException |
| AndroidSrnHelper.WrittenEntries | androidTBLoader/src/main/java/org/literacybridge/androidtbloader/util/TbSrnHelper.java:123-132 | toPrefs writes the id and the seven fields under "<id>." as ints (the hex id as a string; a null hex id removes the key) |
| AndroidSrnHelper.PrefsRoundTrip | androidTBLoader/src/main/java/org/literacybridge/androidtbloader/util/TbSrnHelper.java:121-164 | round trip: fromPrefs(toPrefs(s)) gives s back (a null hex id reading as "") exactly when nextSrn lies in the primary block, and null otherwise |
| AndroidSrnHelper.Load | androidTBLoader/src/main/java/org/literacybridge/androidtbloader/util/TbSrnHelper.java:41-49 | the corrected load can fail only with ClassCastException: an unusable stored allocator is replaced by a new one, and this is the only way it differs from the load as written, which throws NullPointerException there |
| AndroidSrnHelper.ExhaustedAllocatorFailsToLoadAsWritten | androidTBLoader/src/main/java/org/literacybridge/androidtbloader/util/TbSrnHelper.java:41-51 | as written, once the last SRN of a primary block with no backup is handed out, the stored allocator makes fromPrefs return null and the next prepareForAllocation throws NullPointerException |
| AndroidSrnHelper.LoadAsWritten | androidTBLoader/src/main/java/org/literacybridge/androidtbloader/util/TbSrnHelper.java:41-51 | as written, loading fails only with ClassCastException or NullPointerException, and a loaded allocator other than a new one has nextSrn inside its primary block |
| AndroidSrnHelper.ExhaustedAllocatorLoadsEmpty | androidTBLoader/src/main/java/org/literacybridge/androidtbloader/util/TbSrnHelper.java:41-51 | as intended, the same preferences load as a new, empty allocator |
| AndroidSrnHelper.SrnBlock | androidTBLoader/src/main/java/org/literacybridge/androidtbloader/util/TbSrnHelper.java:91-110 | getSrnBlock keeps the user and whether an allocator exists |
| AndroidSrnHelper.SrnBlockRequestSize | androidTBLoader/src/main/java/org/literacybridge/androidtbloader/util/TbSrnHelper.java:91-94 | getSrnBlock requests two blocks without a primary block and one otherwise, of blocksize() SRNs, and caches the block size |
| AndroidSrnHelper.SrnBlockOnServiceFailure | androidTBLoader/src/main/java/org/literacybridge/androidtbloader/util/TbSrnHelper.java:101-109 | when the service fails nothing is changed, and the listener gets success exactly when an SRN is left |
| AndroidSrnHelper.SrnBlockPersistsReply | androidTBLoader/src/main/java/org/literacybridge/androidtbloader/util/TbSrnHelper.java:96-100 | on a reply the updated allocator is written with toPrefs, reports success, and reads back whenever it has an SRN left |
| AndroidSrnHelper.Prepare | androidTBLoader/src/main/java/org/literacybridge/androidtbloader/util/TbSrnHelper.java:35-57 | prepareForAllocation: the helper takes the signed-in email; afterwards there is an allocator unless loading failed with nothing requested; failure is reported only when the allocator has no SRN left |
| AndroidSrnHelper.NextSrn | androidTBLoader/src/main/java/org/literacybridge/androidtbloader/util/TbSrnHelper.java:66-89 | allocateNextSrn: with an SRN left it hands out nextSrn without a request; no SRN is reported only when the allocator it is left with has none |
| AndroidSrnHelper.PrepareFetchesOnlyForEmptyBlock | androidTBLoader/src/main/java/org/literacybridge/androidtbloader/util/TbSrnHelper.java:35-57 | prepareForAllocation calls the service exactly when the loaded allocator has an empty block, and otherwise succeeds at once without changing anything |
| AndroidSrnHelper.NextSrnWithoutService | androidTBLoader/src/main/java/org/literacybridge/androidtbloader/util/TbSrnHelper.java:66-70 | with an SRN left, allocateNextSrn hands out nextSrn (a remaining SRN) without calling the service and stores the allocator |
| AndroidSrnHelper.NextSrnAfterRefill | androidTBLoader/src/main/java/org/literacybridge/androidtbloader/util/TbSrnHelper.java:71-88 | without an SRN left it reports failure exactly when getSrnBlock fails, and otherwise hands out the first SRN of the refilled allocator |
| AndroidSrnHelper.TbSrnHelper.constructor | androidTBLoader/src/main/java/org/literacybridge/androidtbloader/util/TbSrnHelper.java:26-28 | a new helper has no user, no allocator and no cached block size |
| AndroidSrnHelper.TbSrnHelper.Blocksize | androidTBLoader/src/main/java/org/literacybridge/androidtbloader/util/TbSrnHelper.java:113-119 | blocksize() is the cached value, computed once from the user's email (2 for the developer, 20 otherwise) |
| AndroidSrnHelper.TbSrnHelper.GetSrnBlock | androidTBLoader/src/main/java/org/literacybridge/androidtbloader/util/TbSrnHelper.java:91-110 | result, request size and new state (the allocator updated in place) are those of SrnBlock |
| AndroidSrnHelper.TbSrnHelper.PrepareForAllocation | androidTBLoader/src/main/java/org/literacybridge/androidtbloader/util/TbSrnHelper.java:35-57 | result, request size and new state are those of Prepare |
| AndroidSrnHelper.TbSrnHelper.AllocateNextSrn | androidTBLoader/src/main/java/org/literacybridge/androidtbloader/util/TbSrnHelper.java:66-89 | result, request size and new state are those of NextSrn |
| AccessControl.IsOpenStates | acm/src/main/java/org/literacybridge/acm/config/AccessControl.java:75-88 | isOpen (ordinal at least that of opened) holds exactly for opened, reopened, newDatabase and openedSandboxed |
| AccessControl.CurrentDbVersion | acm/src/main/java/org/literacybridge/acm/config/AccessControl.java:178-189 | getCurrentDbVersion is -1 unless there is a name whose text between "db" and the last '.' parses as a number, and for such a name it is exactly that number |
| AccessControl.ZipNameVersionText | acm/src/main/java/org/literacybridge/acm/config/AccessControl.java:154-176 | the text between the "db" prefix and the last '.' of dbNN.zip is NN |
| AccessControl.ZipNameIsNotNull | acm/src/main/java/org/literacybridge/acm/config/AccessControl.java:157 | no dbNN.zip name is taken for the "NULL" marker of a new database |
| AccessControl.ZipNameVersion | acm/src/main/java/org/literacybridge/acm/config/AccessControl.java:154-176 | for dbNN.zip, setZipFilenames keeps the name and sets the next name to db(NN+1).zip (int addition), and the version read back is NN |
| AccessControl.ZipNameCurrentVersion | acm/src/main/java/org/literacybridge/acm/config/AccessControl.java:178-189 | the version read back from dbNN.zip is NN |
| AccessControl.NextVersionIsOneMore | acm/src/main/java/org/literacybridge/acm/config/AccessControl.java:154-189 | the next name of dbNN.zip has version NN + 1, in Java int arithmetic |
| AccessControl.NewDatabaseStartsAtOne | acm/src/main/java/org/literacybridge/acm/config/AccessControl.java:157-160 | for the "NULL" marker (any case) the next name is db1.zip, version 1 |
| AccessControl.FindNewestModifiedZipFile | acm/src/main/java/org/literacybridge/acm/config/AccessControl.java:779-796 | findNewestModifiedZipFile is null exactly when no name ends in ".zip" (ignoring case), and otherwise the first of the most recently modified zip files; its loop finds NewestZip, the zip file a left-to-right scan keeps when only a strictly newer file replaces it |
| AccessControl.ZipFiles | acm/src/main/java/org/literacybridge/acm/config/AccessControl.java:758-762 | the listing keeps exactly the files whose lower-cased name ends in ".zip" |
| AccessControl.ByAgeIsTotalPreorder | acm/src/main/java/org/literacybridge/acm/config/AccessControl.java:765 | comparing lastModified is a total preorder, so the sort is well defined |
| AccessControl.DeleteOldZipFiles | acm/src/main/java/org/literacybridge/acm/config/AccessControl.java:757-771 | deleteOldZipFiles deletes the first size - keep zip files sorted from old to new, none when there are at most keep |
| AccessControl.DeleteFirst | acm/src/main/java/org/literacybridge/acm/config/AccessControl.java:767-770 | the deletion loop deletes exactly the first numToDelete files, none when that is not positive |
| AccessControl.OldestZipFilesDeleted | acm/src/main/java/org/literacybridge/acm/config/AccessControl.java:757-771 | the newest min(count, keep) zip files are kept, only zip files of the directory are deleted, and each deleted file is no newer than each kept one |
| AccessControl.HaveLatestDb | acm/src/main/java/org/literacybridge/acm/config/AccessControl.java:818-830 | haveLatestDB is false without a current name; it is true for the name "NULL" (in any case) and whenever the directory holds a file of that name, and true only in those cases |
| AccessControl.RWStatusLadder | acm/src/main/java/org/literacybridge/acm/config/AccessControl.java:403-444 | determineRWStatus returns each status exactly under its condition: offline without/with a zip file, status check unreachable or refused, new record, no zip file, outdated, read-only, available |
| AccessControl.RWStatusOpenable | acm/src/main/java/org/literacybridge/acm/config/AccessControl.java:403-444 | determineRWStatus only returns a hard error, a sandbox-only status, newDatabase or available, never a lock, process or checked-out status |
| AccessControl.RWStatusScenarios | acm/src/test/java/org/literacybridge/acm/config/AccessControlTest.java:66-222 | the statuses the access-control unit tests expect, for the offline, no-database, not-available, server-error, outdated, read-only and available scenarios |
| AccessControl.OpenPreconditions | acm/src/main/java/org/literacybridge/acm/config/AccessControl.java:311-353 | open() passes its checks exactly for checked-out states without sandbox, sandbox-only states with sandbox, newDatabase and available; IllegalStateException exactly for none, lockError, processError, noNetworkNoDbError and noDbError |
| AccessControl.OpenResultMapping | acm/src/main/java/org/literacybridge/acm/config/AccessControl.java:355-370 | reopened exactly when checked out, openedSandboxed exactly with sandbox, newDatabase for a new database, and the result is open unless the server check-out fails or refuses |
| AccessControl.CommitLadder | acm/src/main/java/org/literacybridge/acm/config/AccessControl.java:471-503 | commitOrDiscard: zipError exactly when saving fails to zip, then networkError, denied or ok as the check-in throws, refuses or accepts; it checks in the next name when saving, the current one for a new record on discard; old zips are deleted only after a successful save |
| AccessControl.InitDbOpensOnlyValid | acm/src/main/java/org/literacybridge/acm/config/AccessControl.java:248-258 | initDb calls open only after the lock was taken and for a status whose checks open() passes |
| AccessControl.OpenRecordCases | acm/src/main/java/org/literacybridge/acm/config/AccessControl.java:325-391 | the checkout record open leaves: for OPENED the record of the lock reply; for NOT_AVAILABLE the reply's record and no error; for SERVER_ERROR and REOPENED the names are unchanged; for OPENED_SANDBOXED and NEW_DATABASE with a zip file the names come from the newest zip file, and open throws exactly when that name is not a database name; a NEW_DATABASE open that does not throw marks the record new with the "force" key; a sandboxed open keeps the key |
| AccessControl.AccessControl.constructor | acm/src/main/java/org/literacybridge/acm/config/AccessControl.java:115-124 | a new object has no status, is not open, has no checkout record and is not sandboxed or locked |
| AccessControl.AccessControl.Init | acm/src/main/java/org/literacybridge/acm/config/AccessControl.java:269-303 | init: lockError or processError when the lock fails; a checked-out record gives checkedOut (previouslyCheckedOutError with forced sandbox); otherwise the local database is deleted and the status is determineRWStatus's |
| AccessControl.AccessControl.InitDb | acm/src/main/java/org/literacybridge/acm/config/AccessControl.java:248-258 | initDb: the status is init's and the lock is held after a successful lock; when the status is not one it opens, the checkout record is the one init left and the sandbox flag is unchanged; otherwise open is called with the forced sandbox setting, and the exception, the new checkout record and the open status are those OpenRecord and OpenResult give for the record init left |
| AccessControl.AccessControl.Open | acm/src/main/java/org/literacybridge/acm/config/AccessControl.java:311-395 | open: IllegalStateException before init and the check exceptions, both leaving the checkout record and the sandbox flag unchanged; otherwise the status of OpenResult with the sandbox flag set; the checkout record afterwards, and whether open throws, are those of OpenRecord for the newest zip file of the directory |
| AccessControl.AccessControl.CommitOrDiscard | acm/src/main/java/org/literacybridge/acm/config/AccessControl.java:471-503 | result and deleted files are those of CommitOutcome and DeleteOldZipFiles(4); on ok the checkout record is removed and the status reset to none, otherwise nothing changes |
| DbConfiguration.ClampThreshold | acm/src/main/java/org/literacybridge/acm/config/DBConfiguration.java:420-424 | the stored threshold is min/max-clamped into [60, 100] and is the input itself when already in range |
| DbConfiguration.TokensOfJoin | acm/src/main/java/org/literacybridge/acm/config/DBConfiguration.java:431-449 | words without separators, joined with ", ", split back into the same words |
| DbConfiguration.JoinShape | acm/src/main/java/org/literacybridge/acm/config/DBConfiguration.java:445-447 | the joined list starts with its first address followed by a comma |
| DbConfiguration.SplitRunsOfJoin | acm/src/main/java/org/literacybridge/acm/config/DBConfiguration.java:438-449 | splitting on runs of "[, ]+" the ", "-joined list gives back the list |
| DbConfiguration.NotifyListRoundTrip | acm/src/main/java/org/literacybridge/acm/config/DBConfiguration.java:431-449 | setNotifyList then getNotifyList gives back the set of trimmed addresses |
| DbConfiguration.EmptyNotifyList | acm/src/main/java/org/literacybridge/acm/config/DBConfiguration.java:431-449 | an empty list is stored as "" and read back as the set holding "" |
| DbConfiguration.FormatEntriesAsWritten | acm/src/main/java/org/literacybridge/acm/config/DBConfiguration.java:397-401 | as written, each piece that is not blank is kept trimmed and lower-cased, so every entry is trimmed, lower-case and free of separators, and there are no more entries than pieces |
| DbConfiguration.NativeAudioFormatsAsWritten | acm/src/main/java/org/literacybridge/acm/config/DBConfiguration.java:395-402 | getNativeAudioFormats as written: every format is trimmed, lower-case and free of separators, but may be empty |
| DbConfiguration.ControlCharacterYieldsEmptyFormat | acm/src/main/java/org/literacybridge/acm/config/DBConfiguration.java:395-402 | as written (isNotBlank before trim) the list "\u0001" yields the empty format "" |
| DbConfiguration.LowerTrimKeepsDelimitersOut | acm/src/main/java/org/literacybridge/acm/config/DBConfiguration.java:398-400 | trimming and lower-casing a piece introduce no separator |
| DbConfiguration.FormatEntries | acm/src/main/java/org/literacybridge/acm/config/DBConfiguration.java:397-401 | every format kept is non-empty, trimmed, lower-case and free of separators |
| DbConfiguration.NativeAudioFormatsOf | acm/src/main/java/org/literacybridge/acm/config/DBConfiguration.java:395-402 | the corrected reading of getNativeAudioFormats (blank pieces are dropped as in the code, and so is a format empty after trim) yields only non-empty, trimmed, lower-case words without separators |
| DbConfiguration.BlankIffTrimsToEmpty | acm/src/main/java/org/literacybridge/acm/config/DBConfiguration.java:398-399 | when whitespace and the characters trim removes coincide, isNotBlank and trimming to non-empty agree |
| DbConfiguration.FormatEntriesAgree | acm/src/main/java/org/literacybridge/acm/config/DBConfiguration.java:397-401 | when whitespace and the characters trim removes coincide, the corrected pipeline equals the one as written |
| DbConfiguration.NativeFormatsAgreeWithoutControlCharacters | acm/src/main/java/org/literacybridge/acm/config/DBConfiguration.java:395-402 | for a property in which whitespace and the characters trim removes coincide, the corrected formats are those as written |
| DbConfiguration.NativeFormatsOfWord | acm/src/main/java/org/literacybridge/acm/config/DBConfiguration.java:395-402 | a single lower-case word that is not blank reads back as the list of that word |
| DbConfiguration.DefaultNativeFormats | acm/src/main/java/org/literacybridge/acm/config/DBConfiguration.java:396 | the default "a18" gives the format list ["a18"] |
| DbConfiguration.DbConfiguration.Property | acm/src/main/java/org/literacybridge/acm/config/DBConfiguration.java:329 | getProperty is null exactly for a missing key, else the stored value |
| DbConfiguration.DbConfiguration.constructor | acm/src/main/java/org/literacybridge/acm/config/DBConfiguration.java:56-58 | a new configuration is not sandboxed and has no access control; its properties are the ones given, read from the ACM's properties file |
| DbConfiguration.DbConfiguration.CacheSizeInBytes | acm/src/main/java/org/literacybridge/acm/config/DBConfiguration.java:327-338 | getCacheSizeInBytes is the property parsed as a long when it parses, the 2 GiB default otherwise |
| DbConfiguration.DbConfiguration.IsStrictDeploymentNaming | acm/src/main/java/org/literacybridge/acm/config/DBConfiguration.java:358-361 | isStrictDeploymentNaming is false exactly when the property is "false" in any case |
| DbConfiguration.DbConfiguration.IsSet | acm/src/main/java/org/literacybridge/acm/config/DBConfiguration.java:363-380 | a switch is on exactly when its property is "true" in any case |
| DbConfiguration.DbConfiguration.IsUserFeedbackHidden | acm/src/main/java/org/literacybridge/acm/config/DBConfiguration.java:363-366 | isUserFeedbackHidden is on exactly when USER_FEEDBACK_HIDDEN is "true" in any case |
| DbConfiguration.DbConfiguration.IsDeDuplicateAudio | acm/src/main/java/org/literacybridge/acm/config/DBConfiguration.java:376-379 | isDeDuplicateAudio is on exactly when DE_DUPLICATE_AUDIO is "true" in any case |
| DbConfiguration.DbConfiguration.NativeAudioFormats | acm/src/main/java/org/literacybridge/acm/config/DBConfiguration.java:395-402 | ["a18"] without the property; otherwise the corrected reading, so only non-empty trimmed lower-case words (the code as written can also yield "", see NativeAudioFormatsAsWritten) |
| DbConfiguration.DbConfiguration.FuzzyThreshold | acm/src/main/java/org/literacybridge/acm/config/DBConfiguration.java:409-418 | getFuzzyThreshold is the property as an int when it parses, 80 otherwise |
| DbConfiguration.DbConfiguration.SetFuzzyThreshold | acm/src/main/java/org/literacybridge/acm/config/DBConfiguration.java:420-424 | setFuzzyThreshold stores the clamped value, and getFuzzyThreshold reads back exactly that |
| DbConfiguration.DbConfiguration.NotifyList | acm/src/main/java/org/literacybridge/acm/config/DBConfiguration.java:431-443 | getNotifyList is empty without the property, else the set of trimmed pieces |
| DbConfiguration.DbConfiguration.SetNotifyList | acm/src/main/java/org/literacybridge/acm/config/DBConfiguration.java:445-447 | setNotifyList stores the list joined by ", " and changes nothing else |
| DbConfiguration.DbConfiguration.IsWritable | acm/src/main/java/org/literacybridge/acm/config/DBConfiguration.java:234-236 | isWritable exactly when there is an access control whose open status is open and the database is not sandboxed |
| Matcher.MatchStats.Add | acm/src/main/java/org/literacybridge/acm/gui/assistants/Matcher/Matcher.java:263-268 | add sums the comparison and match counts of both passes |
| Matcher.RecordMatch | acm/src/main/java/org/literacybridge/acm/gui/assistants/Matcher/Matcher.java:126-130 | recordMatch: the left item takes the right's value, the kind and the score; the right item becomes NONE; every other item is untouched |
| Matcher.Squash | acm/src/main/java/org/literacybridge/acm/gui/assistants/Matcher/Matcher.java:223-228 | squash keeps exactly the items that are not NONE |
| Matcher.SquashAppend | acm/src/main/java/org/literacybridge/acm/gui/assistants/Matcher/Matcher.java:223-228 | squash keeps the order of the remaining items |
| Matcher.SquashIdempotent | acm/src/main/java/org/literacybridge/acm/gui/assistants/Matcher/Matcher.java:223-228 | squashing twice is squashing once |
| Matcher.FirstRepeat | acm/src/main/java/org/literacybridge/acm/gui/assistants/Matcher/Matcher.java:31-47 | the position of the first duplicate value: the values before it are distinct and the value at it repeats one of them |
| Matcher.Positions | acm/src/main/java/org/literacybridge/acm/gui/assistants/Matcher/Matcher.java:167-171 | the positions of the items of one kind, increasing, each of that kind and every such position listed |
| Matcher.Row | acm/src/main/java/org/literacybridge/acm/gui/assistants/Matcher/Matcher.java:177-181 | one left item is scored against every right item in order |
| Matcher.Pairs | acm/src/main/java/org/literacybridge/acm/gui/assistants/Matcher/Matcher.java:176-182 | every left against every right: \|lefts\| * \|rights\| comparisons, each scored as scoreMatch |
| Matcher.PairsComplete | acm/src/main/java/org/literacybridge/acm/gui/assistants/Matcher/Matcher.java:176-182 | every left/right pair appears among the comparisons |
| Matcher.ByScoreIsTotalPreorder | acm/src/main/java/org/literacybridge/acm/gui/assistants/Matcher/Matcher.java:184 | the comparator b.score - a.score orders comparisons as a total preorder |
| Matcher.ExactFromEffect | acm/src/main/java/org/literacybridge/acm/gui/assistants/Matcher/Matcher.java:53-88 | findExactMatches' loop: exactly the left items directly followed by a right item with the same text are matched EXACT, those right items become NONE, and the counts are of the compared and matched neighbours |
| Matcher.ExactMatchesEffect | acm/src/main/java/org/literacybridge/acm/gui/assistants/Matcher/Matcher.java:53-88 | the whole exact pass, position by position, with its counts |
| Matcher.MatchedAtMostCompared | acm/src/main/java/org/literacybridge/acm/gui/assistants/Matcher/Matcher.java:59-80 | the exact pass never counts more matches than comparisons |
| Matcher.MatrixPass | acm/src/main/java/org/literacybridge/acm/gui/assistants/Matcher/Matcher.java:164-197 | every comparison recorded pairs an unmatched left item with an unmatched right item under its score |
| Matcher.SortedPairsValid | acm/src/main/java/org/literacybridge/acm/gui/assistants/Matcher/Matcher.java:167-184 | every sorted comparison pairs a LEFT_ONLY item with a RIGHT_ONLY item |
| Matcher.MatrixMatchAsWritten | acm/src/main/java/org/literacybridge/acm/gui/assistants/Matcher/Matcher.java:164-197 | matrixMatch as written: recorded comparisons pair items that were LEFT_ONLY and RIGHT_ONLY at the start |
| Matcher.SameRightMatchedTwiceAsWritten | acm/src/main/java/org/literacybridge/acm/gui/assistants/Matcher/Matcher.java:186-194 | as written, lefts "a", "b" and right "a" with a constant score of 100 both take the right "a" |
| Matcher.MatrixMatchAsWrittenLeftsOnce | acm/src/main/java/org/literacybridge/acm/gui/assistants/Matcher/Matcher.java:186-194 | as written, no left item is matched twice and items outside the recorded matches are unchanged |
| Matcher.MatrixMatch | acm/src/main/java/org/literacybridge/acm/gui/assistants/Matcher/Matcher.java:164-197 | the corrected pass (the right item must still be RIGHT_ONLY): recorded comparisons pair LEFT_ONLY and RIGHT_ONLY items |
| Matcher.MatrixMatchOneToOne | acm/src/main/java/org/literacybridge/acm/gui/assistants/Matcher/Matcher.java:164-197 | the corrected pass matches each left and each right at most once, records each match as recordMatch does, and leaves the other items unchanged |
| Matcher.MatrixMatchIsMaximal | acm/src/main/java/org/literacybridge/acm/gui/assistants/Matcher/Matcher.java:184-195 | after the corrected pass no remaining left/right pair scores at or above the threshold |
| Matcher.MatrixPassBestFirst | acm/src/main/java/org/literacybridge/acm/gui/assistants/Matcher/Matcher.java:184-195 | matches are recorded best score first |
| Matcher.RecordSkip | acm/src/main/java/org/literacybridge/acm/gui/assistants/Matcher/Matcher.java:188-190 | a comparison whose left item is already matched is passed over |
| Matcher.RecordApplied | acm/src/main/java/org/literacybridge/acm/gui/assistants/Matcher/Matcher.java:186-194 | each recorded comparison is applied as recordMatch |
| Matcher.RecordUntouched | acm/src/main/java/org/literacybridge/acm/gui/assistants/Matcher/Matcher.java:186-194 | items in no recorded comparison are unchanged |
| Matcher.RecordLeftsDistinct | acm/src/main/java/org/literacybridge/acm/gui/assistants/Matcher/Matcher.java:190-193 | no left item is recorded twice |
| Matcher.RecordRightsDistinct | acm/src/main/java/org/literacybridge/acm/gui/assistants/Matcher/Matcher.java:190-193 | with the right item checked, no right item is recorded twice |
| Matcher.RecordKeepsTaken | acm/src/main/java/org/literacybridge/acm/gui/assistants/Matcher/Matcher.java:186-194 | recording never turns an item back into LEFT_ONLY or RIGHT_ONLY |
| Matcher.RecordMaximal | acm/src/main/java/org/literacybridge/acm/gui/assistants/Matcher/Matcher.java:184-195 | after recording sorted comparisons, every comparison at or above the threshold has its left or its right taken |
| Matcher.SortOrderByRank | acm/src/main/java/org/literacybridge/acm/gui/assistants/Matcher/Matcher.java:199-220 | sort's comparator orders unmatched items first, then matches by descending ordinal, then by the items' own order |
| Matcher.SortOrderIsTotalPreorder | acm/src/main/java/org/literacybridge/acm/gui/assistants/Matcher/Matcher.java:199-220 | the comparator of sort is a total preorder when the items' own order is |
| Matcher.SortPutsUnmatchedFirst | acm/src/main/java/org/literacybridge/acm/gui/assistants/Matcher/Matcher.java:199-220 | after sort() no unmatched item follows a matched one |
| Matcher.Matcher.constructor | acm/src/main/java/org/literacybridge/acm/gui/assistants/Matcher/Matcher.java:21-26 | a new matcher has no items |
| Matcher.Matcher.SetData | acm/src/main/java/org/literacybridge/acm/gui/assistants/Matcher/Matcher.java:28-51 | setData throws IllegalArgumentException exactly on a duplicate, keeping the items added before it; otherwise the items are the left then the right items, sorted |
| Matcher.Matcher.FindExactMatches | acm/src/main/java/org/literacybridge/acm/gui/assistants/Matcher/Matcher.java:53-88 | findExactMatches: the items are the squashed result of the exact pass and the counts are its counts |
| Matcher.Matcher.SplitSides | acm/src/main/java/org/literacybridge/acm/gui/assistants/Matcher/Matcher.java:167-171 | the LEFT_ONLY and RIGHT_ONLY positions in list order |
| Matcher.Matcher.CompareAll | acm/src/main/java/org/literacybridge/acm/gui/assistants/Matcher/Matcher.java:175-182 | the comparisons are all pairs, and the comparison count is \|lefts\| * \|rights\| |
| Matcher.Matcher.RecordBest | acm/src/main/java/org/literacybridge/acm/gui/assistants/Matcher/Matcher.java:185-195 | the recording loop leaves the items and the match count of the corrected pass |
| Matcher.Matcher.FuzzyMatchWorker | acm/src/main/java/org/literacybridge/acm/gui/assistants/Matcher/Matcher.java:90-104 | findTokenMatches / findFuzzyMatches: the items are the squashed corrected pass and the counts are its own |
| Matcher.Matcher.Sort | acm/src/main/java/org/literacybridge/acm/gui/assistants/Matcher/Matcher.java:199-221 | sort reorders the items (a permutation) into the comparator's order |
| Matcher.Matcher.UnMatch | acm/src/main/java/org/literacybridge/acm/gui/assistants/Matcher/Matcher.java:230-239 | unMatch(index) replaces a matched item at a valid index by its disassociated items in place, and otherwise changes nothing |
| Matcher.Matcher.SetMatch | acm/src/main/java/org/literacybridge/acm/gui/assistants/Matcher/Matcher.java:249-252 | setMatch records a MANUAL match with score 0 and squashes, so the list shrinks and holds the matched left item |
| GreetingMatchable.GreetingMatchable.constructor | acm/src/main/java/org/literacybridge/acm/gui/assistants/GreetingsImport/GreetingMatchable.java:14-17 | a new item has the given target, file and match kind, with score 0 |
| GreetingMatchable.GreetingMatchable.ContainsText | acm/src/main/java/org/literacybridge/acm/gui/assistants/GreetingsImport/GreetingMatchable.java:19-29 | containsText never holds for a row with neither a file nor a recipient |
| GreetingMatchable.GreetingMatchable.Disassociate | acm/src/main/java/org/literacybridge/acm/gui/assistants/GreetingsImport/GreetingMatchable.java:31-38 | disassociate returns a new RIGHT_ONLY item holding the file, and leaves this one LEFT_ONLY with no file and score 0 |
| GreetingMatchable.CapitalFilterNeverMatches | acm/src/main/java/org/literacybridge/acm/gui/assistants/GreetingsImport/GreetingMatchable.java:19-29 | a filter holding an upper-case letter matches no row, since only the fields are lower-cased |
| GreetingMatchable.EmptyFilterMatchesEveryRow | acm/src/main/java/org/literacybridge/acm/gui/assistants/GreetingsImport/GreetingMatchable.java:19-29 | the empty filter matches exactly the rows that have a file or a target |
| GreetingMatchable.FilterFoundInAFieldMatches | acm/src/main/java/org/literacybridge/acm/gui/assistants/GreetingsImport/GreetingMatchable.java:19-29 | a lower-case filter contained in the file name, community, group or agent as they are (not lower-cased) matches, since lower-casing the field keeps the filter inside it |
| DeploymentInfo.StripVowels | acm/src/main/java/org/literacybridge/acm/tbbuilder/DeploymentInfo.java:187 | removing [aeiouAEIOU] keeps exactly the other characters and never lengthens the id |
| DeploymentInfo.MakeNameAsWritten | acm/src/main/java/org/literacybridge/acm/tbbuilder/DeploymentInfo.java:173-205 | makeName as written fails only with IndexOutOfBoundsException |
| DeploymentInfo.TooLongNameThrowsAsWritten | acm/src/main/java/org/literacybridge/acm/tbbuilder/DeploymentInfo.java:191-194 | as written, a short name still too long after vowel stripping always throws, since keep exceeds the program id's length |
| DeploymentInfo.ConsonantProgramThrowsAsWritten | acm/src/main/java/org/literacybridge/acm/tbbuilder/DeploymentInfo.java:173-205 | as written, program "BCDFGHJKLMNPQRSTVW", deployment 1, language "eng" with a limit of 20 throws |
| DeploymentInfo.MakeName | acm/src/main/java/org/literacybridge/acm/tbbuilder/DeploymentInfo.java:173-205 | the full name is "programid-deployment-language[-variant]" with the variant lower-cased when not blank |
| DeploymentInfo.ShortNameWhenFullFits | acm/src/main/java/org/literacybridge/acm/tbbuilder/DeploymentInfo.java:178 | a full name within the limit is also the short name |
| DeploymentInfo.ShortNameDropsHyphens | acm/src/main/java/org/literacybridge/acm/tbbuilder/DeploymentInfo.java:178-183 | a name too long with hyphens but fitting without is the hyphen-free name, as written too |
| DeploymentInfo.ShortNameStripsVowels | acm/src/main/java/org/literacybridge/acm/tbbuilder/DeploymentInfo.java:185-189 | a name too long without hyphens but fitting once the program id's vowels are removed is that name, as written too |
| DeploymentInfo.ShortNameFits | acm/src/main/java/org/literacybridge/acm/tbbuilder/DeploymentInfo.java:173-205 | the corrected short name never exceeds the limit when the suffix leaves room for the program id |
| DeploymentInfo.FullNameExtendsDeploymentName | acm/src/main/java/org/literacybridge/acm/tbbuilder/DeploymentInfo.java:71-74 | a package name begins with the deployment's name and a hyphen |
| DeploymentInfo.DeploymentNameRoundTrip | acm/src/main/java/org/literacybridge/acm/tbbuilder/DeploymentInfo.java:71-74 | "programid-number" splits at its last hyphen back into the program id and the number |
| DeploymentInfo.PlaylistInfo.constructor | acm/src/main/java/org/literacybridge/acm/tbbuilder/DeploymentInfo.java:272-280 | build copies the builder's fields and starts with no content |
| DeploymentInfo.PlaylistInfo.AddContent | acm/src/main/java/org/literacybridge/acm/tbbuilder/DeploymentInfo.java:282-284 | addContent appends the audio item's id, so the playlist is not empty |
| DeploymentInfo.PlaylistInfo.IsNotEmpty | acm/src/main/java/org/literacybridge/acm/tbbuilder/DeploymentInfo.java:294-296 | a playlist with content is not empty; one that is not the user-feedback playlist is not empty exactly when it has content |
| DeploymentInfo.NonEmptyPlaylists | acm/src/main/java/org/literacybridge/acm/tbbuilder/DeploymentInfo.java:131-139 | the kept playlists are exactly those with content or marked user feedback |
| DeploymentInfo.NonEmptyPlaylistsAppend | acm/src/main/java/org/literacybridge/acm/tbbuilder/DeploymentInfo.java:131-139 | the playlist filter keeps the playlists' order |
| DeploymentInfo.NonEmptyPlaylistsIdempotent | acm/src/main/java/org/literacybridge/acm/tbbuilder/DeploymentInfo.java:131-139 | pruning playlists twice is pruning once |
| DeploymentInfo.PackageInfo.constructor | acm/src/main/java/org/literacybridge/acm/tbbuilder/DeploymentInfo.java:90-95 | a package's name is makeName(false) and its short name makeName(true); it starts empty |
| DeploymentInfo.PackageInfo.AddPlaylist | acm/src/main/java/org/literacybridge/acm/tbbuilder/DeploymentInfo.java:103-110 | addPlaylist appends a new playlist and marks the package as having user feedback when the builder says so; the size grows accordingly |
| DeploymentInfo.PackageInfo.Prune | acm/src/main/java/org/literacybridge/acm/tbbuilder/DeploymentInfo.java:131-139 | prune keeps exactly the non-empty playlists, in order |
| DeploymentInfo.PackageInfo.Size | acm/src/main/java/org/literacybridge/acm/tbbuilder/DeploymentInfo.java:127-129 | size() lies between the playlist count and two more, and is 0 exactly without playlists, tutorial and user-feedback playlist |
| DeploymentInfo.PackageInfo.IsNotEmpty | acm/src/main/java/org/literacybridge/acm/tbbuilder/DeploymentInfo.java:141-143 | a package is not empty exactly when size() is positive |
| DeploymentInfo.NonEmptyIffSized | acm/src/main/java/org/literacybridge/acm/tbbuilder/DeploymentInfo.java:127-143 | a package is not empty exactly when size() is positive |
| DeploymentInfo.NonEmptyPackages | acm/src/main/java/org/literacybridge/acm/tbbuilder/DeploymentInfo.java:60-68 | the kept packages are exactly those with a playlist, a tutorial or a user-feedback playlist |
| DeploymentInfo.NonEmptyPackagesAppend | acm/src/main/java/org/literacybridge/acm/tbbuilder/DeploymentInfo.java:60-68 | the package filter keeps the packages' order |
| DeploymentInfo.PruneEach | acm/src/main/java/org/literacybridge/acm/tbbuilder/DeploymentInfo.java:61-62 | every package prunes its own playlists |
| DeploymentInfo.DeploymentInfo.constructor | acm/src/main/java/org/literacybridge/acm/tbbuilder/DeploymentInfo.java:32-35 | a new deployment has its program id and number and no packages |
| DeploymentInfo.DeploymentInfo.ToString | acm/src/main/java/org/literacybridge/acm/tbbuilder/DeploymentInfo.java:71-74 | toString starts with the program id |
| DeploymentInfo.DeploymentInfo.AddPackage | acm/src/main/java/org/literacybridge/acm/tbbuilder/DeploymentInfo.java:50-54 | addPackage appends a new, empty package whose name extends the deployment's name |
| DeploymentInfo.DeploymentInfo.Prune | acm/src/main/java/org/literacybridge/acm/tbbuilder/DeploymentInfo.java:60-68 | prune prunes each package's playlists, then keeps exactly the non-empty packages in order |
| Playlist.IndexOf | acm/src/main/java/org/literacybridge/acm/store/Playlist.java:46-48 | List.indexOf: -1 exactly when the id is absent, else the first position holding it |
| Playlist.RemoveFirst | acm/src/main/java/org/literacybridge/acm/store/Playlist.java:42-44 | List.remove: one occurrence fewer of the id, nothing changes when it is absent |
| Playlist.RemoveFirstAtIndex | acm/src/main/java/org/literacybridge/acm/store/Playlist.java:42-48 | remove drops exactly the element at indexOf |
| Playlist.AddThenRemove | acm/src/main/java/org/literacybridge/acm/store/Playlist.java:38-44 | adding an absent id and removing it gives the list back |
| Playlist.Playlist.constructor | acm/src/main/java/org/literacybridge/acm/store/Playlist.java:16-19 | a new playlist has its uuid, no name and no audio items |
| Playlist.Playlist.SetUuid | acm/src/main/java/org/literacybridge/acm/store/Playlist.java:22-24 | setUuid replaces the uuid |
| Playlist.Playlist.SetName | acm/src/main/java/org/literacybridge/acm/store/Playlist.java:34-36 | setName replaces the name |
| Playlist.Playlist.AddAudioItem | acm/src/main/java/org/literacybridge/acm/store/Playlist.java:38-40 | addAudioItem appends the id, duplicates included; the count grows by one |
| Playlist.Playlist.RemoveAudioItem | acm/src/main/java/org/literacybridge/acm/store/Playlist.java:42-44 | removeAudioItem removes the first occurrence only |
| Playlist.Playlist.GetAudioItemPosition | acm/src/main/java/org/literacybridge/acm/store/Playlist.java:46-48 | the first position of the id, or -1 exactly when absent |
| Playlist.Playlist.GetNumAudioItems | acm/src/main/java/org/literacybridge/acm/store/Playlist.java:54-56 | the number of audio items |
| Playlist.Put | acm/src/main/java/org/literacybridge/acm/store/Playlist.java:95-98 | TreeMap.put keeps the positions sorted and maps the position to the id, replacing any earlier one |
| Playlist.ValuesInPositionOrder | acm/src/main/java/org/literacybridge/acm/store/Playlist.java:104-106 | values() lists one id per position, in ascending position order |
| Playlist.KeysCount | acm/src/main/java/org/literacybridge/acm/store/Playlist.java:73 | the sorted entries hold one entry per distinct position |
| Playlist.MapPutCommutes | acm/src/main/java/org/literacybridge/acm/store/Playlist.java:95-98 | ids added at different positions give the same map in either order |
| Playlist.Builder.constructor | acm/src/main/java/org/literacybridge/acm/store/Playlist.java:68-78 | builder() starts with no items, uuid, name or prototype |
| Playlist.Builder.WithUuid | acm/src/main/java/org/literacybridge/acm/store/Playlist.java:80-83 | withUuid sets the uuid |
| Playlist.Builder.WithName | acm/src/main/java/org/literacybridge/acm/store/Playlist.java:85-88 | withName sets the name |
| Playlist.Builder.WithPlaylistPrototype | acm/src/main/java/org/literacybridge/acm/store/Playlist.java:90-93 | withPlaylistPrototype sets the prototype |
| Playlist.Builder.AddAudioItem | acm/src/main/java/org/literacybridge/acm/store/Playlist.java:95-98 | addAudioItem(uuid, position): a later id at the same position replaces the earlier one |
| Playlist.Builder.Build | acm/src/main/java/org/literacybridge/acm/store/Playlist.java:100-108 | build reuses the prototype, keeping its uuid, or makes a new playlist with the builder's uuid; it sets the name and the items in position order |
| Category.Category.constructor | acm/src/main/java/org/literacybridge/acm/store/Category.java:23-28 | a new category has its id, no parent or children, and is visible and assignable |
| Category.Category.SetName | acm/src/main/java/org/literacybridge/acm/store/Category.java:30-32 | setName |
| Category.Category.SetOrder | acm/src/main/java/org/literacybridge/acm/store/Category.java:51-53 | setOrder |
| Category.Category.SetParent | acm/src/main/java/org/literacybridge/acm/store/Category.java:59-61 | setParent |
| Category.Category.SetVisible | acm/src/main/java/org/literacybridge/acm/store/Category.java:107-109 | setVisible |
| Category.Category.SetNonAssignable | acm/src/main/java/org/literacybridge/acm/store/Category.java:99-101 | setNonAssignable |
| Category.Category.AddChild | acm/src/main/java/org/literacybridge/acm/store/Category.java:63-65 | addChild appends the child, so the category has children |
| Category.Category.HasChildren | acm/src/main/java/org/literacybridge/acm/store/Category.java:78-80 | hasChildren holds exactly when the list of children is not empty |
| Category.Category.GetFullName | acm/src/main/java/org/literacybridge/acm/store/Category.java:37-45 | the root's full name is "" |
| Category.FullNameIsJoin | acm/src/main/java/org/literacybridge/acm/store/Category.java:37-45 | getFullName is the names from below the root down to this one, joined by ":" |
| Category.Category.Equals | acm/src/main/java/org/literacybridge/acm/store/Category.java:131-137 | equals is reflexive, and equal categories have the same id, name and (null or not) parent |
| Category.EqualsSymmetric | acm/src/main/java/org/literacybridge/acm/store/Category.java:131-137 | equals is symmetric |
| Category.Category.IsChildOf | acm/src/main/java/org/literacybridge/acm/store/Category.java:118-128 | isChildOf holds exactly when cat equals this category or one of its ancestors |
| Category.ChildOfSelf | acm/src/main/java/org/literacybridge/acm/store/Category.java:118-128 | isChildOf is reflexive |
| Category.ChildOfAncestor | acm/src/main/java/org/literacybridge/acm/store/Category.java:118-128 | isChildOf holds for every ancestor |
| Category.ExtendChain | acm/src/main/java/org/literacybridge/acm/store/Category.java:59-65 | a category whose parent is set is a child of that parent |
| Category.Category.HasVisibleChildren | acm/src/main/java/org/literacybridge/acm/store/Category.java:111-116 | hasVisibleChildren holds exactly when some child is visible or has visible children |
| Category.VisibleBelowHasPath | acm/src/main/java/org/literacybridge/acm/store/Category.java:111-116 | hasVisibleChildren gives a path down to a visible descendant |
| Category.PathMakesVisibleBelow | acm/src/main/java/org/literacybridge/acm/store/Category.java:111-116 | a path down to a visible descendant makes hasVisibleChildren hold |
| Category.Category.ToString | acm/src/main/java/org/literacybridge/acm/store/Category.java:90-93 | toString is the name |
| Category.ByOrderIsTotalPreorder | acm/src/main/java/org/literacybridge/acm/store/Category.java:73 | comparing getOrder is a total preorder |
| Category.SortedChildrenSpec | acm/src/main/java/org/literacybridge/acm/store/Category.java:71-76 | getSortedChildren is a permutation of the children in ascending order |
| Category.SortedChildrenStable | acm/src/main/java/org/literacybridge/acm/store/Category.java:71-76 | the sort is stable: each sorted child is the child at a distinct list position, and children of equal order keep their list order |
| Category.GetSortedChildren | acm/src/main/java/org/literacybridge/acm/store/Category.java:71-76 | getSortedChildren sorts a copy and leaves the children list as it was |
| Taxonomy.Taxonomy.constructor | acm/src/main/java/org/literacybridge/acm/store/Taxonomy.java:14-18 | a new taxonomy registers its root under the root's id |
| Taxonomy.Taxonomy.GetCategory | acm/src/main/java/org/literacybridge/acm/store/Taxonomy.java:41-43 | getCategory is null exactly for an id not registered, else the registered category |
| Taxonomy.Taxonomy.GetCategoryList | acm/src/main/java/org/literacybridge/acm/store/Taxonomy.java:45-47 | getCategoryList is the root's children |
| Taxonomy.Taxonomy.IsRoot | acm/src/main/java/org/literacybridge/acm/store/Taxonomy.java:49-51 | isRoot holds exactly for the root object itself (identity, not equality), whose id it then shares |
| Taxonomy.Taxonomy.AddChild | acm/src/main/java/org/literacybridge/acm/store/Taxonomy.java:53-57 | addChild appends the child to the parent, sets the child's parent and registers the child under its id |
| Taxonomy.CreateTaxonomy | acm/src/main/java/org/literacybridge/acm/store/Taxonomy.java:25-35 | createTaxonomy makes a root named "root" with order 0, no parent and no children, registered under its id |
| AssistantPage.LeadingDigits | acm/src/main/java/org/literacybridge/acm/gui/Assistant/AssistantPage.java:229 | the run of digits `\\d+` can take at the start of a name |
| AssistantPage.SplitDecorated | acm/src/main/java/org/literacybridge/acm/gui/Assistant/AssistantPage.java:229-243 | a match of "\\d+-(.*)-\\w+" splits the name into digits, a group without line terminators and a word, joined by hyphens |
| AssistantPage.SplitDecoratedComplete | acm/src/main/java/org/literacybridge/acm/gui/Assistant/AssistantPage.java:229-243 | every name of the form digits-group-word matches, with the group as captured |
| AssistantPage.NormalizePlaylistTitle | acm/src/main/java/org/literacybridge/acm/gui/Assistant/AssistantPage.java:251-254 | normalizePlaylistTitle is the trimmed title with every space turned into '_' |
| AssistantPage.DecoratedPlaylistName | acm/src/main/java/org/literacybridge/acm/gui/Assistant/AssistantPage.java:224-227 | decoratedPlaylistName starts with the deployment number and '-' and ends with '-' and the language |
| AssistantPage.UndecoratedPlaylistName | acm/src/main/java/org/literacybridge/acm/gui/Assistant/AssistantPage.java:237-243 | undecoratedPlaylistName is null exactly when the pattern does not match; otherwise the group with '_' turned into spaces |
| AssistantPage.UndecorateDecorated | acm/src/main/java/org/literacybridge/acm/gui/Assistant/AssistantPage.java:224-254 | undecorating a decorated title gives the title back, for a trimmed title without '_' or line terminators, a non-negative deployment and a word language code |
| AssistantPage.NegativeDeploymentNotUndecorated | acm/src/main/java/org/literacybridge/acm/gui/Assistant/AssistantPage.java:224-243 | a negative deployment number is rendered with '-', so the decorated name does not undecorate |
| AssistantPage.SizingParams.ForColumns | acm/src/main/java/org/literacybridge/acm/gui/Assistant/AssistantPage.java:99-104 | forColumns gives one SizingParams per column number, each with this one's paddings |
| AssistantPage.SizingParams.WithColumn | acm/src/main/java/org/literacybridge/acm/gui/Assistant/AssistantPage.java:82-91 | the four-argument constructor: the paddings given, for another column |
| AssistantPage.DefaultSizingParams | acm/src/main/java/org/literacybridge/acm/gui/Assistant/AssistantPage.java:73-81 | the default paddings: minimum IGNORE, preferred 2, maximum 42 |
| AudioItemTableModel.ShiftDown | acm/src/main/java/org/literacybridge/acm/gui/ResourceView/audioItems/AudioItemTableModel.java:207-211 | the ids of rows above the removed one move down by one; the others stay |
| AudioItemTableModel.RemoveAt | acm/src/main/java/org/literacybridge/acm/gui/ResourceView/audioItems/AudioItemTableModel.java:213 | List.remove(int) keeps the elements before and shifts those after |
| AudioItemTableModel.AddKeepsBijection | acm/src/main/java/org/literacybridge/acm/gui/ResourceView/audioItems/AudioItemTableModel.java:193-198 | adding a row for a new uuid at the end keeps the uuid map and the row list in agreement |
| AudioItemTableModel.RemoveKeepsBijection | acm/src/main/java/org/literacybridge/acm/gui/ResourceView/audioItems/AudioItemTableModel.java:204-214 | removing a row and shifting the later indices keeps the uuid map and the row list in agreement |
| AudioItemTableModel.FreshUuid | acm/src/main/java/org/literacybridge/acm/gui/ResourceView/audioItems/AudioItemTableModel.java:130-132 | while the store's items are added in order, the next item's uuid is not yet in the map |
| AudioItemTableModel.AudioItemTableModel.RowOf | acm/src/main/java/org/literacybridge/acm/gui/ResourceView/audioItems/AudioItemTableModel.java:178-191 | a row has a cell for every column, filled exactly for the cachable ones |
| AudioItemTableModel.AudioItemTableModel.ConvertToAudioItemNodeRow | acm/src/main/java/org/literacybridge/acm/gui/ResourceView/audioItems/AudioItemTableModel.java:178-191 | convertToAudioItemNodeRow's loop fills exactly the cachable cells with their values |
| AudioItemTableModel.AudioItemTableModel.constructor | acm/src/main/java/org/literacybridge/acm/gui/ResourceView/audioItems/AudioItemTableModel.java:120-135 | the constructor adds one row per item of the store, in order, with the maps in agreement |
| AudioItemTableModel.AudioItemTableModel.GetRowCount | acm/src/main/java/org/literacybridge/acm/gui/ResourceView/audioItems/AudioItemTableModel.java:163-165 | getRowCount is the number of rows |
| AudioItemTableModel.AudioItemTableModel.GetAudioItemUuid | acm/src/main/java/org/literacybridge/acm/gui/ResourceView/audioItems/AudioItemTableModel.java:144-146 | getAudioItemUuid throws exactly for an index out of range, and otherwise gives the uuid mapped to that row |
| AudioItemTableModel.AudioItemTableModel.AddNewAudioItem | acm/src/main/java/org/literacybridge/acm/gui/ResourceView/audioItems/AudioItemTableModel.java:193-198 | addNewAudioItem appends the row, maps the uuid to its index and returns that index |
| AudioItemTableModel.AudioItemTableModel.ShiftRowIndices | acm/src/main/java/org/literacybridge/acm/gui/ResourceView/audioItems/AudioItemTableModel.java:207-211 | the loop decrements exactly the indices above the removed row |
| AudioItemTableModel.AudioItemTableModel.RemoveAudioItem | acm/src/main/java/org/literacybridge/acm/gui/ResourceView/audioItems/AudioItemTableModel.java:204-214 | removeAudioItem throws NullPointerException for an unknown uuid (nothing changes); otherwise removes the row and shifts the later indices |
| AudioItemTableModel.AudioItemTableModel.DataChanged | acm/src/main/java/org/literacybridge/acm/gui/ResourceView/audioItems/AudioItemTableModel.java:231-249 | an added item gets a new last row and its uuid maps to that row; a modified item has its row rebuilt with the maps otherwise kept; a deleted item's row is removed, the indices above it shifted down and its uuid dropped; for modify and delete an unknown uuid throws NullPointerException and changes nothing |
| AudioItemTableModel.AudioItemTableModel.GetValueAt | acm/src/main/java/org/literacybridge/acm/gui/ResourceView/audioItems/AudioItemTableModel.java:168-176 | for a row built by convertToAudioItemNodeRow, every column gives the value provider's value for the row's item, cached or not |
| AudioItemTableModel.CachingIsInvisible | acm/src/main/java/org/literacybridge/acm/gui/ResourceView/audioItems/AudioItemTableModel.java:168-176 | getValueAt gives the value provider's value whether the column is cached or not |
| ContentInfo.NextStatus | androidTBLoader/src/main/java/org/literacybridge/androidtbloader/content/ContentInfo.java:202-224 | a terminal transfer state leads to DOWNLOADED, NEVER_DOWNLOADED or DOWNLOAD_FAILED; DOWNLOADED exactly on COMPLETED (or kept through a state that changes nothing); other states leave the status as it was |
| ContentInfo.ProgressOf | androidTBLoader/src/main/java/org/literacybridge/androidtbloader/content/ContentInfo.java:127-145 | getProgress is 100 exactly when downloaded, 0 for the statuses without progress, and a computed percentage only while processing or downloading |
| ContentInfo.TerminalProgress | androidTBLoader/src/main/java/org/literacybridge/androidtbloader/content/ContentInfo.java:127-145 | a download that ends reads 100% exactly when the transfer completed, and 0% otherwise |
| ContentInfo.ContentInfo.constructor | androidTBLoader/src/main/java/org/literacybridge/androidtbloader/content/ContentInfo.java:60-64 | a new entry has status NONE, version "", no download and size 0 |
| ContentInfo.ContentInfo.WithVersion | androidTBLoader/src/main/java/org/literacybridge/androidtbloader/content/ContentInfo.java:66-69 | withVersion sets the version |
| ContentInfo.ContentInfo.WithExpiration | androidTBLoader/src/main/java/org/literacybridge/androidtbloader/content/ContentInfo.java:71-74 | withExpiration sets the expiration date |
| ContentInfo.ContentInfo.WithSize | androidTBLoader/src/main/java/org/literacybridge/androidtbloader/content/ContentInfo.java:76-79 | withSize sets the size |
| ContentInfo.ContentInfo.WithStatus | androidTBLoader/src/main/java/org/literacybridge/androidtbloader/content/ContentInfo.java:81-84 | withStatus sets the download status |
| ContentInfo.ContentInfo.ToString | androidTBLoader/src/main/java/org/literacybridge/androidtbloader/content/ContentInfo.java:86-89 | toString is "<project>: <version> (<size>)" |
| ContentInfo.ContentInfo.HasExpiration | androidTBLoader/src/main/java/org/literacybridge/androidtbloader/content/ContentInfo.java:102-104 | hasExpiration holds exactly for a set expiration that is not the epoch, so a date is present whenever it holds |
| ContentInfo.ContentInfo.IsDownloading | androidTBLoader/src/main/java/org/literacybridge/androidtbloader/content/ContentInfo.java:151-153 | isDownloading holds exactly while a downloader is attached |
| ContentInfo.ContentInfo.AddToSize | androidTBLoader/src/main/java/org/literacybridge/androidtbloader/content/ContentInfo.java:110-113 | addToSize adds the amount and returns the new size |
| ContentInfo.ContentInfo.GetProgress | androidTBLoader/src/main/java/org/literacybridge/androidtbloader/content/ContentInfo.java:127-145 | getProgress is 100 when downloaded and 0 for every status other than processing and downloading |
| ContentInfo.ContentInfo.StartDownload | androidTBLoader/src/main/java/org/literacybridge/androidtbloader/content/ContentInfo.java:176-187 | startDownload refuses when a download is attached; otherwise it attaches one, sets WAITING and opens the log with project, version and size |
| ContentInfo.ContentInfo.OnUnzipProgress | androidTBLoader/src/main/java/org/literacybridge/androidtbloader/content/ContentInfo.java:195-200 | onUnzipProgress sets PROCESSING and records the progress and total |
| ContentInfo.ContentInfo.OnStateChanged | androidTBLoader/src/main/java/org/literacybridge/androidtbloader/content/ContentInfo.java:203-224 | a terminal state without an open log throws NullPointerException; otherwise the status is NextStatus's, and a terminal state detaches the download and closes the log |
| ContentInfo.ContentInfo.OnError | androidTBLoader/src/main/java/org/literacybridge/androidtbloader/content/ContentInfo.java:232-235 | onError records the message in the open log, if any |
| ContentManager.DropTrailingEmpty | androidTBLoader/src/main/java/org/literacybridge/androidtbloader/content/ContentManager.java:524 | String.split drops exactly the trailing empty strings |
| ContentManager.KeyPartsOf | androidTBLoader/src/main/java/org/literacybridge/androidtbloader/content/ContentManager.java:524-529 | a key "<prefix>/<program>/<file>" gives back its program and file name |
| ContentManager.SplitKey | androidTBLoader/src/main/java/org/literacybridge/androidtbloader/content/ContentManager.java:524 | splitting such a key at '/' gives its three parts |
| ContentManager.SplitDeployment | androidTBLoader/src/main/java/org/literacybridge/androidtbloader/content/ContentManager.java:495 | a split of "\\w+(?:-\\w+)*-\\w+" gives a dashed deployment and a word revision that join back to the input |
| ContentManager.SplitDeploymentComplete | androidTBLoader/src/main/java/org/literacybridge/androidtbloader/content/ContentManager.java:495 | every dashed deployment and word revision is split back apart |
| ContentManager.ParseMarker | androidTBLoader/src/main/java/org/literacybridge/androidtbloader/content/ContentManager.java:495 | a marker match's groups: versioned = deployment-revision, and the name starts with it and a '.' |
| ContentManager.ParseMarkerOf | androidTBLoader/src/main/java/org/literacybridge/androidtbloader/content/ContentManager.java:495 | a name with a single '.' is a marker exactly when its extension is current or rev (any case) and its stem splits |
| ContentManager.MarkerNameRoundTrip | androidTBLoader/src/main/java/org/literacybridge/androidtbloader/content/ContentManager.java:495 | the marker named after a deployment and revision parses back to them |
| ContentManager.ParseZipOf | androidTBLoader/src/main/java/org/literacybridge/androidtbloader/content/ContentManager.java:501 | a name with a single '.' is a zip name exactly when its extension is zip (any case), parsed from its stem |
| ContentManager.ZipNameRoundTrip | androidTBLoader/src/main/java/org/literacybridge/androidtbloader/content/ContentManager.java:497-501 | "content-<deployment>-<revision>.zip" parses back to the deployment and revision |
| ContentManager.ContentStem | androidTBLoader/src/main/java/org/literacybridge/androidtbloader/content/ContentManager.java:501 | the optional "content-" prefix is skipped |
| ContentManager.ProjectNamesDefault | androidTBLoader/src/main/java/org/literacybridge/androidtbloader/content/ContentManager.java:122-147 | with both or neither of Local and Cloud, getProjectNames is every project passing the user filter |
| ContentManager.ProjectNamesLocalOrCloud | androidTBLoader/src/main/java/org/literacybridge/androidtbloader/content/ContentManager.java:122-147 | with Local alone exactly the downloaded projects, with Cloud alone exactly the others |
| ContentManager.MarkersOfSpec | androidTBLoader/src/main/java/org/literacybridge/androidtbloader/content/ContentManager.java:523-547 | the first loop keeps one marker per user's program that has a marker, and every kept entry is a marker of the listing |
| ContentManager.MarkerStepKeys | androidTBLoader/src/main/java/org/literacybridge/androidtbloader/content/ContentManager.java:532-543 | one step adds the program of a user's marker |
| ContentManager.MarkerStepValues | androidTBLoader/src/main/java/org/literacybridge/androidtbloader/content/ContentManager.java:538-543 | one step keeps an entry or replaces it by the new marker |
| ContentManager.MarkersOfKeys | androidTBLoader/src/main/java/org/literacybridge/androidtbloader/content/ContentManager.java:523-547 | the programs kept are exactly the user's programs with a marker |
| ContentManager.MarkersOfValues | androidTBLoader/src/main/java/org/literacybridge/androidtbloader/content/ContentManager.java:523-547 | every kept entry comes from a marker of the listing |
| ContentManager.MarkersOfNewest | androidTBLoader/src/main/java/org/literacybridge/androidtbloader/content/ContentManager.java:538-543 | when isNewerRevisionThan is a strict order, no marker of a kept program is newer than the kept one |
| ContentManager.NewestStep | androidTBLoader/src/main/java/org/literacybridge/androidtbloader/content/ContentManager.java:538-543 | one step keeps the kept markers unbeaten |
| ContentManager.ZipStep | androidTBLoader/src/main/java/org/literacybridge/androidtbloader/content/ContentManager.java:550-572 | a zip step changes only the size and file name of entries |
| ContentManager.WithZipsSpec | androidTBLoader/src/main/java/org/literacybridge/androidtbloader/content/ContentManager.java:550-572 | the second loop keeps the programs, changes only size and file name, and only from a zip object whose deployment and revision match the marker ignoring case |
| ContentManager.Markers | androidTBLoader/src/main/java/org/literacybridge/androidtbloader/content/ContentManager.java:603-608 | the marker filter keeps exactly the files that match the marker pattern |
| ContentManager.Classify | androidTBLoader/src/main/java/org/literacybridge/androidtbloader/content/ContentManager.java:609-632 | one marker: DOWNLOADED with that file; none: NEVER_DOWNLOADED with version ""; several: DOWNLOAD_FAILED with version "--" |
| ContentManager.LocalVersionsOfSpec | androidTBLoader/src/main/java/org/literacybridge/androidtbloader/content/ContentManager.java:591-637 | findLocalContent has exactly one entry per project directory, classified by its marker files |
| ContentManager.ReconciledStatus | androidTBLoader/src/main/java/org/literacybridge/androidtbloader/content/ContentManager.java:363-388 | a cloud entry becomes DOWNLOADED exactly when a known local version equals it ignoring case, and is cleared exactly when a known local version differs |
| ContentManager.ByProgramSpec | androidTBLoader/src/main/java/org/literacybridge/androidtbloader/content/ContentManager.java:348-351 | the cloud entries are keyed by their own program id, each from the list |
| ContentManager.ReconciledMap | androidTBLoader/src/main/java/org/literacybridge/androidtbloader/content/ContentManager.java:363-388 | the reconciled map has exactly the cloud programs |
| ContentManager.LocalDownloaded | androidTBLoader/src/main/java/org/literacybridge/androidtbloader/content/ContentManager.java:330-335 | the local entries kept after a cloud failure are exactly the downloaded ones |
| ContentManager.ReconciledAt | androidTBLoader/src/main/java/org/literacybridge/androidtbloader/content/ContentManager.java:363-388 | each program's reconciled entry and clearing decision are those of the reconciling step |
| ContentManager.ReconciledAll | androidTBLoader/src/main/java/org/literacybridge/androidtbloader/content/ContentManager.java:345-392 | after the loop every reconciled entry is listed once and put in the project map, and the programs to clear are listed once each |
| ContentManager.ContentManager.constructor | androidTBLoader/src/main/java/org/literacybridge/androidtbloader/content/ContentManager.java:82-84 | a new manager has no projects and an empty content list |
| ContentManager.ContentManager.OnSignOut | androidTBLoader/src/main/java/org/literacybridge/androidtbloader/content/ContentManager.java:86-89 | onSignOut empties the content list, so haveContentInfo is false |
| ContentManager.ContentManager.HaveContentInfo | androidTBLoader/src/main/java/org/literacybridge/androidtbloader/content/ContentManager.java:153-155 | haveContentInfo holds exactly when some deployment is listed; after onSignOut it is false |
| ContentManager.ContentManager.InList | androidTBLoader/src/main/java/org/literacybridge/androidtbloader/content/ContentManager.java:57-62 | Flags.inList holds exactly when the flag is among the flags |
| ContentManager.ContentManager.GetProjectNames | androidTBLoader/src/main/java/org/literacybridge/androidtbloader/content/ContentManager.java:122-147 | getProjectNames' loop computes ProjectNames |
| ContentManager.ContentManager.GetContentInfo | androidTBLoader/src/main/java/org/literacybridge/androidtbloader/content/ContentManager.java:203-209 | getContentInfo is null exactly when no entry's program equals the project ignoring case, else the first such entry |
| ContentManager.ContentManager.FindLocalContent | androidTBLoader/src/main/java/org/literacybridge/androidtbloader/content/ContentManager.java:591-637 | findLocalContent returns the classified project directories and puts the downloaded ones in the project map |
| ContentManager.ContentManager.FindCloudContent | androidTBLoader/src/main/java/org/literacybridge/androidtbloader/content/ContentManager.java:507-583 | findCloudContent is the newest marker of each user's program, with the size and name of its matching zip |
| ContentManager.ContentManager.FindMarkers | androidTBLoader/src/main/java/org/literacybridge/androidtbloader/content/ContentManager.java:523-547 | the marker loop computes MarkersOf |
| ContentManager.ContentManager.AddZips | androidTBLoader/src/main/java/org/literacybridge/androidtbloader/content/ContentManager.java:550-572 | the zip loop computes WithZips |
| ContentManager.ContentManager.IndexByProgram | androidTBLoader/src/main/java/org/literacybridge/androidtbloader/content/ContentManager.java:348-351 | the indexing loop keys the cloud entries by program |
| ContentManager.ContentManager.ProjectsToRemove | androidTBLoader/src/main/java/org/literacybridge/androidtbloader/content/ContentManager.java:355-360 | projectsToRemove lists once each exactly the local projects no longer in the cloud |
| ContentManager.ContentManager.ReconcileCloudVersions | androidTBLoader/src/main/java/org/literacybridge/androidtbloader/content/ContentManager.java:345-392 | the content list holds each reconciled cloud entry once, the project map takes them all, projectsToRemove and projectsToClear are exactly the projects gone from the cloud and the stale local ones |
| ContentManager.ContentManager.FillFromCloud | androidTBLoader/src/main/java/org/literacybridge/androidtbloader/content/ContentManager.java:352-388 | the second loop fills the emptied list and the map with the reconciled entries and lists the programs to clear |
| ContentManager.ContentManager.ReconcileEach | androidTBLoader/src/main/java/org/literacybridge/androidtbloader/content/ContentManager.java:363-388 | the loop over the cloud programs keeps the reconciling invariant to the end |
| ContentManager.ContentManager.ReconcileOne | androidTBLoader/src/main/java/org/literacybridge/androidtbloader/content/ContentManager.java:364-387 | one cloud program's reconciled entry joins the list and the map, and the program is listed for clearing when stale |
| ContentManager.ContentManager.OnCloudFailure | androidTBLoader/src/main/java/org/literacybridge/androidtbloader/content/ContentManager.java:326-341 | on a cloud failure the list is emptied and then holds exactly the downloaded local entries, which also go into the project map |
| ContentManager.ContentManager.KeepDownloaded | androidTBLoader/src/main/java/org/literacybridge/androidtbloader/content/ContentManager.java:329-335 | the failure loop keeps exactly the downloaded local entries |
| DeviceContents.NewItem | acm/src/main/java/org/literacybridge/acm/device/DeviceContents.java:32-40 | new Item(name): an application exactly when the line starts with '^', which is then not part of the name |
| DeviceContents.ItemString | acm/src/main/java/org/literacybridge/acm/device/DeviceContents.java:50-53 | Item.toString puts '^' before the name exactly for an application |
| DeviceContents.ItemRoundTrip | acm/src/main/java/org/literacybridge/acm/device/DeviceContents.java:32-53 | the string of the item read from a line is that line |
| DeviceContents.ItemReadsBack | acm/src/main/java/org/literacybridge/acm/device/DeviceContents.java:32-53 | an item read back from its string is itself exactly unless it is a non-application whose name starts with '^' |
| DeviceContents.ItemStrings | acm/src/main/java/org/literacybridge/acm/device/DeviceContents.java:69-71 | one string per item, in order |
| DeviceContents.ItemLinesSnoc | acm/src/main/java/org/literacybridge/acm/device/DeviceContents.java:69-71 | each item adds its string and a newline at the end |
| DeviceContents.ItemLinesSplit | acm/src/main/java/org/literacybridge/acm/device/DeviceContents.java:69-71 | the lines of the items' text are the item strings, when none holds a newline |
| DeviceContents.CategoryListLines | acm/src/main/java/org/literacybridge/acm/device/DeviceContents.java:64-73 | the lines of a category list's text are "[name]" and then the item strings |
| DeviceContents.CategoryList.constructor | acm/src/main/java/org/literacybridge/acm/device/DeviceContents.java:59-62 | a new list has its name and no items |
| DeviceContents.CategoryList.ToString | acm/src/main/java/org/literacybridge/acm/device/DeviceContents.java:64-73 | toString's loop builds "[name]\n" and then one line per item |
| DeviceContents.CleanPath | acm/src/main/java/org/literacybridge/acm/device/DeviceContents.java:144-152 | cleanPath drops a leading "a:/" and turns every backslash into '/' |
| DeviceContents.CleanPathOfClean | acm/src/main/java/org/literacybridge/acm/device/DeviceContents.java:144-152 | a path without the prefix and without backslashes is unchanged |
| DeviceContents.BackslashDriveIsKept | acm/src/main/java/org/literacybridge/acm/device/DeviceContents.java:144-152 | the prefix is checked before the backslashes are replaced, so "a:\\x" keeps its drive |
| FileSystemExporter.BaseName | acm/src/main/java/org/literacybridge/acm/importexport/FileSystemExporter.java:30-37 | the file name is the title, "___" when both are asked for, and the identifier, each only when asked for |
| FileSystemExporter.Sanitize | acm/src/main/java/org/literacybridge/acm/importexport/FileSystemExporter.java:41 | the name is trimmed and each of \\ / : * ? " < > \| ' becomes '_', so none is left |
| FileSystemExporter.SanitizeIdempotent | acm/src/main/java/org/literacybridge/acm/importexport/FileSystemExporter.java:41 | sanitising twice is sanitising once |
| FileSystemExporter.CandidateDigits | acm/src/main/java/org/literacybridge/acm/importexport/FileSystemExporter.java:44-53 | the counter's digits follow "name-" in the candidate name |
| FileSystemExporter.CandidateInjective | acm/src/main/java/org/literacybridge/acm/importexport/FileSystemExporter.java:44-53 | different counters give different file names |
| FileSystemExporter.CandidatesCount | acm/src/main/java/org/literacybridge/acm/importexport/FileSystemExporter.java:44-53 | the first n counters give n different names |
| FileSystemExporter.TriedAreFewer | acm/src/main/java/org/literacybridge/acm/importexport/FileSystemExporter.java:44-53 | the loop tries no more names than the directory holds, so it ends |
| FileSystemExporter.ChooseTarget | acm/src/main/java/org/literacybridge/acm/importexport/FileSystemExporter.java:42-53 | the do-while loop picks the first candidate name not in the directory, every earlier one being taken |
| FileSystemExporter.Processed | acm/src/main/java/org/literacybridge/acm/importexport/FileSystemExporter.java:25-27 | the items handled are those before the first ConversionException |
| FileSystemExporter.WithFile | acm/src/main/java/org/literacybridge/acm/importexport/FileSystemExporter.java:27-29 | the files written are those of items whose conversion gives a file |
| FileSystemExporter.WithFileStep | acm/src/main/java/org/literacybridge/acm/importexport/FileSystemExporter.java:25-60 | one more item adds its file exactly when its conversion gives one |
| FileSystemExporter.Targets | acm/src/main/java/org/literacybridge/acm/importexport/FileSystemExporter.java:42-53 | the names written so far |
| FileSystemExporter.TargetsSnoc | acm/src/main/java/org/literacybridge/acm/importexport/FileSystemExporter.java:42-58 | each write adds its name to the directory |
| FileSystemExporter.Items | acm/src/main/java/org/literacybridge/acm/importexport/FileSystemExporter.java:25-60 | the items written, in order |
| FileSystemExporter.NamedInTurnDistinct | acm/src/main/java/org/literacybridge/acm/importexport/FileSystemExporter.java:42-58 | files are never overwritten: all names written are different and none existed before |
| FileSystemExporter.NamedInTurnStep | acm/src/main/java/org/literacybridge/acm/importexport/FileSystemExporter.java:42-58 | writing under the first free name keeps each name the first free one at its turn |
| FileSystemExporter.ExportOne | acm/src/main/java/org/literacybridge/acm/importexport/FileSystemExporter.java:29-59 | one converted item is written under the first free name after the files before it |
| FileSystemExporter.Export | acm/src/main/java/org/literacybridge/acm/importexport/FileSystemExporter.java:17-64 | export fails with IOException exactly when a conversion fails; the items before it with a file are written, in order, each under the first name free at its turn |
| StatisticsImporter.Position | acm/src/main/java/org/literacybridge/acm/importexport/StatisticsImporter.java:47-58 | each of the six statistics is read from its own token, 1 to 6 |
| StatisticsImporter.RunIsFirstToken | acm/src/main/java/org/literacybridge/acm/importexport/StatisticsImporter.java:65-72 | a run of non-delimiters ending at a delimiter or the end is the first token |
| StatisticsImporter.TokenizeCSV | acm/src/main/java/org/literacybridge/acm/importexport/StatisticsImporter.java:65-72 | tokenizeCSV's loop gives the StringTokenizer tokens of the line for " ," |
| StatisticsImporter.TokenEnd | acm/src/main/java/org/literacybridge/acm/importexport/StatisticsImporter.java:68-70 | nextToken ends at the next delimiter or the end of the line |
| StatisticsImporter.SkipDelimiter | acm/src/main/java/org/literacybridge/acm/importexport/StatisticsImporter.java:66-70 | delimiters between tokens produce no token |
| StatisticsImporter.TakeToken | acm/src/main/java/org/literacybridge/acm/importexport/StatisticsImporter.java:66-70 | a maximal run of non-delimiters is the next token |
| StatisticsImporter.TokensOfJoin | acm/src/main/java/org/literacybridge/acm/importexport/StatisticsImporter.java:65-72 | comma-joined words without delimiters tokenise back to the words |
| StatisticsImporter.Counters | acm/src/main/java/org/literacybridge/acm/importexport/StatisticsImporter.java:47-58 | the counters are recorded in turn; a missing token or a token that is not a number stops the line with an exception |
| StatisticsImporter.ImportLine | acm/src/main/java/org/literacybridge/acm/importexport/StatisticsImporter.java:41-61 | a data line changes only the items the store already has |
| StatisticsImporter.ImportData | acm/src/main/java/org/literacybridge/acm/importexport/StatisticsImporter.java:40-62 | the data lines in turn, until one throws, change only known items |
| StatisticsImporter.ImportFile | acm/src/main/java/org/literacybridge/acm/importexport/StatisticsImporter.java:34-63 | importStatsFile changes only known items; an empty file throws NullPointerException, a header of fewer than two tokens IndexOutOfBoundsException and a boot cycle that is not a number NumberFormatException, each leaving the store unchanged |
| StatisticsImporter.UnknownItemSkipped | acm/src/main/java/org/literacybridge/acm/importexport/StatisticsImporter.java:42-44 | a line whose item the store does not have changes nothing |
| StatisticsImporter.CountersRecorded | acm/src/main/java/org/literacybridge/acm/importexport/StatisticsImporter.java:47-58 | a line whose tokens 1 to 6 are numbers records all six counters for the device and boot cycle without error |
| StatisticsImporter.RecordedStep | acm/src/main/java/org/literacybridge/acm/importexport/StatisticsImporter.java:47-58 | each setStatistic step records its token's value |
| StatisticsImporter.KnownLineLayout | acm/src/main/java/org/literacybridge/acm/importexport/StatisticsImporter.java:41-61 | a well-formed line of a known item sets that item's six counters and leaves every other item as it was |
| StatisticsImporter.HeaderLayout | acm/src/main/java/org/literacybridge/acm/importexport/StatisticsImporter.java:36-38 | the header's first two tokens are the device id and the boot cycle every data line is recorded under |
| StatisticsImporter.StatsFileIgnoresCase | acm/src/main/java/org/literacybridge/acm/importexport/StatisticsImporter.java:19-27 | the ".csv" filter does not depend on the case of the name |
| StatisticsImporter.UpperCaseCsvAccepted | acm/src/main/java/org/literacybridge/acm/importexport/StatisticsImporter.java:19-27 | ".CSV" and ".csv" files are both imported |
| StatisticsImporter.StatsFiles | acm/src/main/java/org/literacybridge/acm/importexport/StatisticsImporter.java:19-27 | the files imported are exactly those passing the ".csv" filter |
| StatisticsImporter.ImportFiles | acm/src/main/java/org/literacybridge/acm/importexport/StatisticsImporter.java:29-31 | importing the files in turn changes only known items |
| StatisticsImporter.MetadataStore.constructor | acm/src/main/java/org/literacybridge/acm/importexport/StatisticsImporter.java:43 | the store holds the given items' statistics |
| StatisticsImporter.MetadataStore.ImportStatsFile | acm/src/main/java/org/literacybridge/acm/importexport/StatisticsImporter.java:34-63 | importStatsFile's loop leaves the store and the exception as ImportFile says |
| StatisticsImporter.MetadataStore.ImportStatsFolder | acm/src/main/java/org/literacybridge/acm/importexport/StatisticsImporter.java:18-32 | importStatsFolder imports the filtered files in turn, as ImportFiles says, stopping at the first exception |
| OperationLog.Overlay | core/src/main/java/org/literacybridge/core/fs/OperationLog.java:95-97 | putAll: the given info's values win, every earlier key is kept |
| OperationLog.Ended | core/src/main/java/org/literacybridge/core/fs/OperationLog.java:104-105 | end() records the elapsed time under "time" and keeps every other key |
| OperationLog.EndWithLayout | core/src/main/java/org/literacybridge/core/fs/OperationLog.java:89-107 | end(info): the elapsed time wins over the given info, which wins over values put earlier |
| OperationLog.OperationLog.constructor | core/src/main/java/org/literacybridge/core/fs/OperationLog.java:33 | no implementation is set and nothing has been forwarded |
| OperationLog.OperationLog.SetImplementation | core/src/main/java/org/literacybridge/core/fs/OperationLog.java:34-36 | the implementation is the one given |
| OperationLog.OperationLog.Close | core/src/main/java/org/literacybridge/core/fs/OperationLog.java:41-45 | closeLogFile is forwarded exactly when an implementation is set |
| OperationLog.OperationLog.LogEvent | core/src/main/java/org/literacybridge/core/fs/OperationLog.java:50-54 | the event is forwarded exactly when an implementation is set |
| OperationLog.OperationLog.StartOperation | core/src/main/java/org/literacybridge/core/fs/OperationLog.java:61-63 | a new operation with the name, started now, with no info |
| OperationLog.OperationEvent.constructor | core/src/main/java/org/literacybridge/core/fs/OperationLog.java:73-76 | the name and start time are recorded, the info is empty |
| OperationLog.OperationEvent.Put | core/src/main/java/org/literacybridge/core/fs/OperationLog.java:84-87 | a later put to the same key replaces the earlier value |
| OperationLog.OperationEvent.End | core/src/main/java/org/literacybridge/core/fs/OperationLog.java:103-107 | the elapsed time is added and the event is logged with the resulting info |
| OperationLog.OperationEvent.EndWith | core/src/main/java/org/literacybridge/core/fs/OperationLog.java:94-98 | the given info is put over the collected info, then the operation ends |
| OperationLogImpl.Enquote | androidTBLoader/src/main/java/org/literacybridge/androidtbloader/util/OperationLogImpl.java:128-132 | no newline or comma survives; every other character stays in place and the length is unchanged |
| OperationLogImpl.EnquoteOfPlain | androidTBLoader/src/main/java/org/literacybridge/androidtbloader/util/OperationLogImpl.java:128-132 | a value with neither character is written as it is |
| OperationLogImpl.EnquoteIdempotent | androidTBLoader/src/main/java/org/literacybridge/androidtbloader/util/OperationLogImpl.java:128-132 | enquoting an enquoted value changes nothing |
| OperationLogImpl.Fields | androidTBLoader/src/main/java/org/literacybridge/androidtbloader/util/OperationLogImpl.java:140-143 | one "key:value" field per info entry, in iteration order |
| OperationLogImpl.EntriesTextSnoc | androidTBLoader/src/main/java/org/literacybridge/androidtbloader/util/OperationLogImpl.java:140-143 | each entry appends a comma and its field |
| OperationLogImpl.FormatLine | androidTBLoader/src/main/java/org/literacybridge/androidtbloader/util/OperationLogImpl.java:135-144 | the builder loop produces the log line of the timestamp, name and entries |
| OperationLogImpl.FieldsSplit | androidTBLoader/src/main/java/org/literacybridge/androidtbloader/util/OperationLogImpl.java:140-143 | split at commas, the entries text gives back one field per entry |
| OperationLogImpl.LogLineFields | androidTBLoader/src/main/java/org/literacybridge/androidtbloader/util/OperationLogImpl.java:135-144 | a log line is one line ending in a newline; split at commas it is the timestamp, the name and the entry fields |
| OperationLogImpl.BodyHasNoNewline | androidTBLoader/src/main/java/org/literacybridge/androidtbloader/util/OperationLogImpl.java:135-143 | the line has no newline before its end |
| OperationLogImpl.BodyFields | androidTBLoader/src/main/java/org/literacybridge/androidtbloader/util/OperationLogImpl.java:135-143 | the comma-separated fields of a line are the timestamp, the name and the entries |
| OperationLogImpl.UploadName | androidTBLoader/src/main/java/org/literacybridge/androidtbloader/util/OperationLogImpl.java:192-197 | the upload name is "log/tbcd" and the id, a slash, then the file name |
| OperationLogImpl.UploadNameParts | androidTBLoader/src/main/java/org/literacybridge/androidtbloader/util/OperationLogImpl.java:194 | the upload name has exactly three path parts: "log", "tbcd" and the id, the file name |
| OperationLogImpl.UploadNames | androidTBLoader/src/main/java/org/literacybridge/androidtbloader/util/OperationLogImpl.java:179-190 | the pending files' upload names, in queue order |
| OperationLogImpl.UploadNamesSnoc | androidTBLoader/src/main/java/org/literacybridge/androidtbloader/util/OperationLogImpl.java:182-187 | each polled file adds its upload name |
| OperationLogImpl.NewestUnique | androidTBLoader/src/main/java/org/literacybridge/androidtbloader/util/OperationLogImpl.java:92-99 | only one file is the first of the newest |
| OperationLogImpl.NewestFile | androidTBLoader/src/main/java/org/literacybridge/androidtbloader/util/OperationLogImpl.java:92-99 | the scan picks the newest file, the first one when several tie |
| OperationLogImpl.Names | androidTBLoader/src/main/java/org/literacybridge/androidtbloader/util/OperationLogImpl.java:89 | the listed files' names, in order |
| OperationLogImpl.OtherNames | androidTBLoader/src/main/java/org/literacybridge/androidtbloader/util/OperationLogImpl.java:104-109 | every file but the newest, in listing order |
| OperationLogImpl.QueueOthers | androidTBLoader/src/main/java/org/literacybridge/androidtbloader/util/OperationLogImpl.java:104-109 | the queue is every file but the newest, in listing order |
| OperationLogImpl.OtherNamesSnoc | androidTBLoader/src/main/java/org/literacybridge/androidtbloader/util/OperationLogImpl.java:105-109 | each file other than the newest is appended to the queue |
| OperationLogImpl.OperationLogImpl.constructor | androidTBLoader/src/main/java/org/literacybridge/androidtbloader/util/OperationLogImpl.java:63-112 | at start-up the newest existing file becomes the log file, and when there are others they are queued for upload |
| OperationLogImpl.OperationLogImpl.LogEvent | androidTBLoader/src/main/java/org/literacybridge/androidtbloader/util/OperationLogImpl.java:115-156 | the line is appended to the log file, opened as "<timestamp>.log" when there is none; the upload is rescheduled unless the event has "notrigger" |
| OperationLogImpl.OperationLogImpl.CloseLogFile | androidTBLoader/src/main/java/org/literacybridge/androidtbloader/util/OperationLogImpl.java:158-177 | with no tbcd id the upload is rescheduled and nothing else changes; otherwise the log file and then the pending files are uploaded and the log is closed |
| OperationLogImpl.OperationLogImpl.UploadPendingLogs | androidTBLoader/src/main/java/org/literacybridge/androidtbloader/util/OperationLogImpl.java:179-190 | every pending file is uploaded in queue order and the queue is dropped |
| UIUtils.DropLeadingEmpty | acm/src/main/java/org/literacybridge/acm/gui/util/UIUtils.java:64-76 | the names from the first non-empty one on: a separator is added only once the text is non-empty |
| UIUtils.DropSnoc | acm/src/main/java/org/literacybridge/acm/gui/util/UIUtils.java:67-74 | one more name extends the names kept, or starts them when none were kept yet |
| UIUtils.LeavesAppend | acm/src/main/java/org/literacybridge/acm/gui/util/UIUtils.java:67-68 | a category with children adds no name; one without adds its name |
| UIUtils.NameStep | acm/src/main/java/org/literacybridge/acm/gui/util/UIUtils.java:69-72 | appending a name adds ", " first exactly when the text so far is non-empty |
| UIUtils.CategoryStep | acm/src/main/java/org/literacybridge/acm/gui/util/UIUtils.java:67-74 | one iteration of the category loop, from the text before it |
| UIUtils.CategoryListAsString | acm/src/main/java/org/literacybridge/acm/gui/util/UIUtils.java:64-76 | the childless categories' names, from the first non-empty one on, joined by ", " |
| UIUtils.NamedLeavesJoined | acm/src/main/java/org/literacybridge/acm/gui/util/UIUtils.java:64-76 | when the first leaf has a name, the text is exactly the leaves joined by ", " |
| UIUtils.LeavesMembers | acm/src/main/java/org/literacybridge/acm/gui/util/UIUtils.java:67-72 | a name is listed exactly when some childless category has it |
| UIUtils.PlaylistAsString | acm/src/main/java/org/literacybridge/acm/gui/util/UIUtils.java:78-91 | the playlist names joined by ", ", with a separator after every name but the last |
| UIUtils.PlaylistListEnds | acm/src/main/java/org/literacybridge/acm/gui/util/UIUtils.java:83-89 | the text starts with the first playlist name and ends with the last |
| FFMpegConverter.ExePath | acm/src/main/java/org/literacybridge/acm/audioconverter/converters/FFMpegConverter.java:108-110 | the converter path is under the software directory and ends in "/ffmpeg.exe" |
| FFMpegConverter.Command | acm/src/main/java/org/literacybridge/acm/audioconverter/converters/FFMpegConverter.java:27-31 | the command starts with the executable and ' -i "', holds the source verbatim right after it, and ends with the quoted target |
| FFMpegConverter.CommandParts | acm/src/main/java/org/literacybridge/acm/audioconverter/converters/FFMpegConverter.java:27-31 | the command's quoted parts are exactly the source path and the target path, the options between them |
| FFMpegConverter.RunOf | acm/src/main/java/org/literacybridge/acm/audioconverter/converters/FFMpegConverter.java:78 | the run of the given characters at the start of the text, and no longer |
| FFMpegConverter.GroupBounds | acm/src/main/java/org/literacybridge/acm/audioconverter/converters/FFMpegConverter.java:78 | group 4 lies after the three flag characters |
| FFMpegConverter.Matches | acm/src/main/java/org/literacybridge/acm/audioconverter/converters/FFMpegConverter.java:78-86 | every line of at least three characters without a line terminator matches ^(.)(.)(.)\s*(\S*).*$, and a matching line starts with three characters that are not line terminators |
| FFMpegConverter.Group4 | acm/src/main/java/org/literacybridge/acm/audioconverter/converters/FFMpegConverter.java:78 | group 4 holds no whitespace |
| FFMpegConverter.Contribution | acm/src/main/java/org/literacybridge/acm/audioconverter/converters/FFMpegConverter.java:87-93 | a line adds nothing unless its second character is 'D'; what it adds are non-empty lower-case names without commas |
| FFMpegConverter.TokenIsLower | acm/src/main/java/org/literacybridge/acm/audioconverter/converters/FFMpegConverter.java:88-91 | the tokens of a lower-cased extension list are lower-case |
| FFMpegConverter.ScanFormats | acm/src/main/java/org/literacybridge/acm/audioconverter/converters/FFMpegConverter.java:82-94 | every extension collected is non-empty, lower-case and holds no comma |
| FFMpegConverter.ScanStops | acm/src/main/java/org/literacybridge/acm/audioconverter/converters/FFMpegConverter.java:84-86 | the scan stops at the first line that does not match: nothing after it counts |
| FFMpegConverter.NonDecodableSkipped | acm/src/main/java/org/literacybridge/acm/audioconverter/converters/FFMpegConverter.java:87 | a matching line whose second character is not 'D' adds nothing and the scan goes on |
| FFMpegConverter.FFMpegConverter.constructor | acm/src/main/java/org/literacybridge/acm/audioconverter/converters/FFMpegConverter.java:117 | the set of extensions starts empty |
| FFMpegConverter.FFMpegConverter.ValidateConverter | acm/src/main/java/org/literacybridge/acm/audioconverter/converters/FFMpegConverter.java:47-106 | an empty list or a wrong header fails with AudioConverterInitializationException and adds nothing; otherwise the decodable extensions up to the first non-matching line are added |
| FFMpegConverter.FFMpegConverter.AddTokens | acm/src/main/java/org/literacybridge/acm/audioconverter/converters/FFMpegConverter.java:89-92 | every token is added to the set |
| Application.CategoryPieces | acm/src/main/java/org/literacybridge/acm/gui/Application.java:365-370 | one "FC:<uuid>" piece per category, in order |
| Application.LanguagePieces | acm/src/main/java/org/literacybridge/acm/gui/Application.java:371-376 | one "FL:<language>-<country>" piece per language, in order |
| Application.TerminatedAppend | acm/src/main/java/org/literacybridge/acm/gui/Application.java:359-382 | the comma-terminated text of two runs of pieces is the text of the first then of the second |
| Application.TerminatedSplit | acm/src/main/java/org/literacybridge/acm/gui/Application.java:359-382 | with no comma inside a piece, splitting the state text at commas gives the pieces back, then "" |
| Application.TextIsAmbiguous | acm/src/main/java/org/literacybridge/acm/gui/Application.java:361-370 | a search string holding ",FC:b" gives the same state text as a search string "a" with category "b" |
| Application.AfterUpdate | acm/src/main/java/org/literacybridge/acm/gui/Application.java:319-324 | an unforced update with the same state text as before changes nothing; otherwise the text is recorded and a search runs |
| Application.UpdateIsIdempotent | acm/src/main/java/org/literacybridge/acm/gui/Application.java:319-324 | a second unforced update right after any update runs no search |
| Application.FilterState.constructor | acm/src/main/java/org/literacybridge/acm/gui/Application.java:275-280 | no previous state, no filters, no playlist, no search run |
| Application.FilterState.CurrentQuery | acm/src/main/java/org/literacybridge/acm/gui/Application.java:328-336 | the playlist search runs exactly when a playlist is selected, with the current search string |
| Application.FilterState.ToString | acm/src/main/java/org/literacybridge/acm/gui/Application.java:359-382 | toString's builder gives the state text: search string, categories, languages, playlist, each piece comma-terminated |
| Application.FilterState.UpdateResult | acm/src/main/java/org/literacybridge/acm/gui/Application.java:315-357 | the previous state and the searches run follow AfterUpdate for the current text and query |
| Application.FilterState.SetFilterString | acm/src/main/java/org/literacybridge/acm/gui/Application.java:285-288 | the search string is set, then an unforced update runs |
| Application.FilterState.SetFilterCategories | acm/src/main/java/org/literacybridge/acm/gui/Application.java:292-296 | the categories are set, then an unforced update runs |
| Application.FilterState.SetFilterLanguages | acm/src/main/java/org/literacybridge/acm/gui/Application.java:301-304 | the languages are set, then an unforced update runs |
| Application.FilterState.SetSelectedTag | acm/src/main/java/org/literacybridge/acm/gui/Application.java:306-309 | the playlist is set, then an unforced update runs |
| Application.AppendCategories | acm/src/main/java/org/literacybridge/acm/gui/Application.java:366-369 | the category loop appends one comma-terminated piece per category |
| Application.AppendLanguages | acm/src/main/java/org/literacybridge/acm/gui/Application.java:372-375 | the language loop appends one comma-terminated piece per language |
| Application.PiecesStep | acm/src/main/java/org/literacybridge/acm/gui/Application.java:359-382 | each appended piece is followed by a comma |
| Application.CategoryStep | acm/src/main/java/org/literacybridge/acm/gui/Application.java:367-368 | one iteration of the category loop |
| Application.LanguageStep | acm/src/main/java/org/literacybridge/acm/gui/Application.java:373-374 | one iteration of the language loop |
| DataRequestResult.DataRequestResult.FacetCount | acm/src/main/java/org/literacybridge/acm/core/DataRequestResult.java:28-38 | no category counts 0, a category without a count counts 0, otherwise its stored count |
| DataRequestResult.DataRequestResult.LanguageFacetCount | acm/src/main/java/org/literacybridge/acm/core/DataRequestResult.java:48-58 | no language code counts 0, a code without a count counts 0, otherwise its stored count |
| DataRequestResult.NonZeroIsStored | acm/src/main/java/org/literacybridge/acm/core/DataRequestResult.java:28-38 | a non-zero facet count is the count stored for that category |
| TagsListModel.CompareIgnoreCase | acm/src/main/java/org/literacybridge/acm/gui/ResourceView/TagsListModel.java:30 | the comparison is 0 exactly when the names are equal ignoring case |
| TagsListModel.CompareIgnoreCaseAntisymmetric | acm/src/main/java/org/literacybridge/acm/gui/ResourceView/TagsListModel.java:30 | swapping the names negates the comparison |
| TagsListModel.TagLabel.CompareTo | acm/src/main/java/org/literacybridge/acm/gui/ResourceView/TagsListModel.java:28-31 | labels compare in the reverse of the case-insensitive order of their names, and equal exactly when the names are equal ignoring case |
| TagsListModel.TagLabel.ToString | acm/src/main/java/org/literacybridge/acm/gui/ResourceView/TagsListModel.java:24-26 | toString shows the playlist name, which determines the label |
| TagsListModel.CompareToAntisymmetric | acm/src/main/java/org/literacybridge/acm/gui/ResourceView/TagsListModel.java:28-31 | compareTo is antisymmetric, as Comparable requires |
| TagsListModel.Labels | acm/src/main/java/org/literacybridge/acm/gui/ResourceView/TagsListModel.java:7-11 | one label per playlist, each shown by its playlist's name |
| LogsScript.Digits | acmCheckOut/logs.py:78-79 | a fixed-width run of decimal digits |
| LogsScript.IsoDate | acmCheckOut/logs.py:78-79 | str(date) is ten characters with dashes at 4 and 7 |
| LogsScript.DigitsValue | acmCheckOut/logs.py:78-79 | the digits read back as the number |
| LogsScript.IsoDateRoundTrip | acmCheckOut/logs.py:78-79 | the date can be read back from its YYYY-MM-DD text |
| LogsScript.IsoDateInjective | acmCheckOut/logs.py:78-79 | different dates have different texts |
| LogsScript.ParseIsoDate | acmCheckOut/logs.py:78-79 | reading str(date) back: a string it accepts is exactly the rendering of the date it reads (with IsoDateRoundTrip, the rendering is a bijection onto what it accepts) |
| LogsScript.MonthDir | acmCheckOut/logs.py:78-79 | the month's prefix lies under "logs/" and ends with '/' |
| LogsScript.JanuaryPrefixCoversLaterMonths | acmCheckOut/logs.py:118-120 | as written, the month-mode prefix for January has no closing '/', so it is also a prefix of the October, November and December directories of that year, whose logs are listed too |
| LogsScript.GetDir | acmCheckOut/logs.py:77-80 | get_dir gives two prefixes, both inside the day's month directory |
| LogsScript.GetDirDisjoint | acmCheckOut/logs.py:77-80 | neither prefix of a day is a prefix of the other, and both end with the day's date |
| LogsScript.GetDirInjective | acmCheckOut/logs.py:77-80 | different days have different unconsolidated prefixes |
| LogsScript.FirstWithObjects | acmCheckOut/logs.py:64-73 | the first prefix with objects: every earlier one has none |
| LogsScript.GetLogs | acmCheckOut/logs.py:64-73 | the prefixes are listed in order up to the first with objects, whose listing is returned; None when none has any |
| LogsScript.DirPrinter | acmCheckOut/logs.py:47-60 | every object under the first prefix with any is fetched and printed, in listing order |
| LogsScript.NothingFetchedWhenEmpty | acmCheckOut/logs.py:50-52 | when no prefix has objects only the listings happen |
| LogsScript.ListingStopsAtFirstHit | acmCheckOut/logs.py:65-71 | once a prefix has objects the later prefixes are never listed |
| LogsScript.FetchTraceShape | acmCheckOut/logs.py:54-60 | each key is fetched and then its body printed, once, in listing order |
| LogsScript.PrinterDirsShape | acmCheckOut/logs.py:37-42 | today and yesterday probe the consolidated then the unconsolidated prefix; older days only the consolidated one |
| LogsScript.PrinterTraceStep | acmCheckOut/logs.py:37-43 | each day of the window adds the printing of its prefixes |
| LogsScript.PlanStep | acmCheckOut/logs.py:37-43 | each day's prefixes are planned in turn |
| LogsScript.Printer | acmCheckOut/logs.py:36-43 | the window's days are printed from today backwards, each with its own prefixes |
| LogsScript.RunScript | acmCheckOut/logs.py:83-127 | too many arguments exits 1; none prints the past week; a day count in 1..99 prints that many days, in -99..-1 that day, else exits 1; then date, month and year modes, a bad date string raising |

## Left out

- Java `int` and `long` overflow is not modelled in general: integers are unbounded. The exceptions are the places where the source converts explicitly (`Integer.parseInt`, and the `(int)` casts of the SRN fields), which are modelled with their 32-bit bounds.
- Strings are sequences of Unicode scalar values, while Java's `String.length()`, `charAt` and `substring` count UTF-16 code units. For text outside the Basic Multilingual Plane the lengths and positions differ: DeploymentInfo.MakeName's length limit, FFMpegConverter.Command's length and every substring position are stated in scalar values, not code units.
- Case mapping (`toLowerCase`, `equalsIgnoreCase`, `compareToIgnoreCase`) is modelled on the ASCII letters only; other Unicode case folding is not captured.
- File I/O, the network, the lock service, the clock, the fuzzy-match score and the object store are parameters or recorded effects. Their own behaviour is not part of this model.
- `synchronized`, Swing threads, Android handlers and the asynchronous service callbacks are not modelled; every operation runs to completion on its own.
- `HashMap` and `HashSet` iteration order is unspecified. Where the source iterates one, the model either takes any order or states its result without one.
- SrnAllocation: the ACM's `TbSrnInfo` and the core `TbSrnAllocationInfo` share one model; their `toString` and logging are left out.
- AccessControl.NextVersionIsOneMore: stated only for canonical `dbNN.zip` names, the form the code itself writes.
- AccessControl: the lock, the checkout record (`DBInfo`), the sandbox directory and the dialogs are given as values; the `main`-thread UI messages are left out.
- Matcher: the `MATCH` enum's ordinal order and `MatchableItem`'s natural order are not part of this model's sources. They are taken as the order the code relies on, and the similarity score is a parameter.
- Matcher: the `unMatch(MatchableImportableAudio)` overload, the `println` in `recordMatch`, and `MatchStats`' timing and `toString` are not modelled.
- DeploymentInfo: `withIntro`, the `setUfHidden` and `setTutorial` setters and the builder's `withPrompts` only copy flags and are left out. The hash fallback of `makeName` and `MAX_PACKAGE_NAME_LENGTH` are parameters.
- Category: a new category's name is null in Java and "" in the model.
- AudioItemTableModel.constructor: requires distinct uuids, because the store it reads from is keyed by uuid.
- ContentInfo: `cancel()`, `isUpdateAvailable()`, `getCommunities`, the listener objects and the floating-point percentages of `getProgress` are left out; only its integer cases are modelled.
- ContentManager: `haveContentInfoForUser`, the communities cache, the `startDownload` wrapper, `removeContent` and the background cleaner are not modelled. Neither are the freshness check against the clock, the sort in `onContentListChanged` (`getFriendlyName` is not part of this model), the `BuildConfig.DEBUG` assertion and the operation-log calls.
- ContentManager: the Deployment entries are values. In the source they are ContentInfo objects shared by the content list and the projects map, so a change made through one is seen through the other; that aliasing is not captured, and the model keeps the two in agreement only where an operation states it.
- ContentManager.MarkersOfNewest: requires the "newer revision" order to be irreflexive and transitive; `isNewerRevisionThan` is not part of this model.
- DeviceContents: `loadAudioFiles`, `loadDeviceInfos`, `getConfigProperty`, `loadListFromFile` and `main` read files and are left out.
- FileSystemExporter: the copied file contents, the A18 metadata export and null metadata are not modelled, and the collision counter is unbounded.
- StatisticsImporter: committing the metadata to the store is not modelled. StatisticsImporter.MetadataStore.ImportStatsFolder takes the folder's file list as given; for a path that is not a directory `listFiles` returns null and the source's loop throws NullPointerException, which is not modelled.
- OperationLogImpl: the swallowed `IOException` of the write is not modelled. Neither are the handler's delay values, the singleton, the date formats (timestamps are parameters), the effects of the upload service beyond the names it is given, and the `HashMap` order of the info entries.
- OperationLog: the clock is a parameter, and the installed implementation is a flag with its calls recorded.
- FFMpegConverter: running ffmpeg (`validateConverterExecutable`, `executeConversionCommand`) and reading the formats file are not modelled; the file's lines are a parameter.
- TagsListModel: the sorting done by `SortedListModel` is not part of this model; the labels are kept in the order the playlists come.
- Application: the search service, the Swing callback and `synchronized` are not modelled; the searches run are recorded as queries.
- DataRequestResult: the accessors are the datatype's fields.
- LogsScript: Python's `datetime` arithmetic and `strptime` are parameters, and so are the S3 client and `print`; a raised exception is the `Crash` exit.
- JavaStrings.ParseInteger: accepts ASCII digits only. `Integer.parseInt` and `Long.parseLong` also accept the other Unicode decimal digits (`Character.digit`), so a number written in, say, Arabic-Indic digits is a NumberFormatException here. The same holds for everything built on it: DbConfiguration.DbConfiguration.FuzzyThreshold, DbConfiguration.DbConfiguration.CacheSizeInBytes, AcmSrnHelper.TbLoaderId, AcmSrnHelper.LoadSrnInfo and AccessControl.CurrentDbVersion.
- SrnAllocation.ReservationFromMap: uses the corrected reading, in which a missing begin, end or id reads as -1. The code as written throws ClassCastException there; that behaviour is SrnAllocation.ReservationAsWritten (see Findings).
- SrnAllocation.ApplyMap: built on the corrected reading, so a reply without a number is refused and leaves the allocator unchanged. The source throws ClassCastException instead.
- SrnAllocation.TbSrnAllocationInfo.ApplyReservationMap: is proved against ApplyMap, the corrected reading; it does not throw ClassCastException for a missing key as the source does.
- AcmSrnHelper.Prepare: runs the corrected reading of the reservation map. For the empty reply that the ACM builds when the service fails, it returns the available count; the source throws ClassCastException.
- AcmSrnHelper.Refill: runs the corrected reading of the reservation map; for the empty reply the source throws ClassCastException.
- AcmSrnHelper.NextSrn: runs the corrected reading of the reservation map; for the empty reply the source throws ClassCastException.
- AcmSrnHelper.PrepareWithoutReply: is a fact about the corrected reading only. As written, the empty reply throws ClassCastException (SrnAllocation.EmptyReservationThrowsAsWritten).
- AcmSrnHelper.TbSrnHelper.PrepareForAllocation: is proved against Prepare, so it has the corrected behaviour on an empty reply rather than the source's ClassCastException.
- AcmSrnHelper.TbSrnHelper.RefillCopy: is proved against Refill, so it has the corrected behaviour on an empty reply rather than the source's ClassCastException.
- AcmSrnHelper.TbSrnHelper.AllocateNextSrn: is proved against NextSrn, so it has the corrected behaviour on an empty reply rather than the source's ClassCastException.
- AndroidSrnHelper.Prepare: loads with the corrected Load. An exhausted stored allocator becomes a new, empty one, where the source throws NullPointerException (AndroidSrnHelper.LoadAsWritten).
- AndroidSrnHelper.PrepareFetchesOnlyForEmptyBlock: is about the corrected load. As written, an exhausted stored allocator makes prepareForAllocation throw NullPointerException before any request.
- AndroidSrnHelper.TbSrnHelper.PrepareForAllocation: is proved against Prepare, so it loads with the corrected Load and does not throw NullPointerException for an exhausted stored allocator.
- DbConfiguration.DbConfiguration.NativeAudioFormats: is proved against the corrected NativeAudioFormatsOf. For a property such as "\u0001" the source returns [""] (DbConfiguration.NativeAudioFormatsAsWritten).
- Matcher.Matcher.RecordBest: records only pairs whose right item is still unmatched, which is the corrected threshold pass. The source can match one right item twice (Matcher.SameRightMatchedTwiceAsWritten).
- Matcher.Matcher.FuzzyMatchWorker: is proved against the corrected MatrixMatch, so findTokenMatches and findFuzzyMatches here never match a right item twice, which the source can do.
- DeploymentInfo.PackageInfo.constructor: names the package with the corrected MakeName. When the name must be shortened by trimming the program id, the source throws StringIndexOutOfBoundsException (DeploymentInfo.MakeNameAsWritten).
- DeploymentInfo.DeploymentInfo.AddPackage: builds its package with the corrected MakeName, so it does not throw where the source's makeName runs past the end of the program id.
- LogsScript.RunScript: takes the arguments after argparse has accepted them. Its usage error (exit status 2 for an unknown option, or an N that is not an integer) and `--help` are not modelled.

## Findings

| source | as written | input that shows it | evidently intended | confidence | as-written member | corrected member |
|---|---|---|---|---|---|---|
| core/src/main/java/org/literacybridge/core/tbloader/TbSrnAllocationInfo.java:72-80 | `(Long) getOrDefault(key, -1)` boxes the default as an `Integer`, so a missing key throws `ClassCastException` | the empty map that the ACM helper builds when the reservation service does not answer | a missing number reads as -1 and the reservation is refused, leaving the allocator unchanged | not executed | SrnAllocation.LongFieldAsWritten, SrnAllocation.EmptyReservationThrowsAsWritten | SrnAllocation.LongField, SrnAllocation.MissingBeginRejected |
| androidTBLoader/src/main/java/org/literacybridge/androidtbloader/util/TbSrnHelper.java:41-51 | `prepareForAllocation` dereferences the result of `fromPrefs`, which is null for an allocator stored with primaryBegin 0 | an allocator that has handed out the last SRN of its primary block with no backup, then is stored and loaded again | the unusable allocator is replaced by a new, empty one, for which two blocks are requested | not executed | AndroidSrnHelper.LoadAsWritten, AndroidSrnHelper.ExhaustedAllocatorFailsToLoadAsWritten | AndroidSrnHelper.Load, AndroidSrnHelper.ExhaustedAllocatorLoadsEmpty |
| acm/src/main/java/org/literacybridge/acm/config/DBConfiguration.java:395-402 | `isNotBlank` is checked before `trim`, and `trim` also removes control characters | the property value "\u0001" yields the format "" | only non-empty formats are kept | not executed | DbConfiguration.NativeAudioFormatsAsWritten, DbConfiguration.ControlCharacterYieldsEmptyFormat | DbConfiguration.NativeAudioFormatsOf, DbConfiguration.FormatEntries |
| acm/src/main/java/org/literacybridge/acm/gui/assistants/Matcher/Matcher.java:186-194 | the threshold pass never checks that the right item is still unmatched | left items "a" and "b", right item "a", a score of 100 for every pair | each right item is matched at most once | not executed | Matcher.MatrixMatchAsWritten, Matcher.SameRightMatchedTwiceAsWritten | Matcher.MatrixMatch, Matcher.MatrixMatchOneToOne |
| acm/src/main/java/org/literacybridge/acm/tbbuilder/DeploymentInfo.java:191-203 | `keep` adds the overflow to the id's length instead of subtracting it, so `substring(0, keep)` runs past the end of the id whenever the name is too long | program "BCDFGHJKLMNPQRSTVW", deployment 1, language "eng", limit 20: the name is 22 characters, `keep` is 20 and the id has 18, so `substring` throws | the program id is shortened just enough for the name to fit the limit | not executed | DeploymentInfo.MakeNameAsWritten, DeploymentInfo.ConsonantProgramThrowsAsWritten | DeploymentInfo.MakeName, DeploymentInfo.ShortNameFits |

=== FILE: access_control.dfy ===
/**
 * The ACM's check-out access control: the dbNN.zip file names, the ladder that
 * decides whether a database may be opened (and whether only in a sandbox),
 * opening, and committing or discarding the changes. The lock, the network
 * calls, the checkout record (DBInfo) and the file system are given as values.
 */
module AccessControl {
  import opened Wrappers
  import opened JavaStrings
  import Sorting

  /** What init() reports. */
  datatype AccessStatus =
    | NoStatus | LockError | ProcessError | PreviouslyCheckedOutError | NoNetworkNoDbError
    | NoDbError | CheckedOut | NewDatabase | NoServer | OutdatedDb | NotAvailable | UserReadOnly | Available
  {
    /** The database can be opened, but only in a sandbox. */
    predicate OkWithSandbox()
    {
      NoServer? || OutdatedDb? || NotAvailable? || UserReadOnly?
    }

    predicate MayBeOutdated()
    {
      NotAvailable? || UserReadOnly?
    }
  }

  /** What open() reports; the declaration order is the enum's. */
  datatype OpenStatus = NotOpened | ServerError | NotAvailableError | Opened | Reopened | NewDatabase | OpenedSandboxed
  {
    function Ordinal(): nat
    {
      match this
      case NotOpened => 0
      case ServerError => 1
      case NotAvailableError => 2
      case Opened => 3
      case Reopened => 4
      case NewDatabase => 5
      case OpenedSandboxed => 6
    }

    /** The states from Opened on are open. */
    predicate IsOpen() { Ordinal() >= Opened.Ordinal() }
  }

  /** The states isOpen accepts are exactly the four that give access to the database. */
  lemma IsOpenStates(s: OpenStatus)
    ensures s.IsOpen() <==> s in {OpenStatus.Opened, OpenStatus.Reopened, OpenStatus.NewDatabase, OpenStatus.OpenedSandboxed}
  {
  }

  datatype UpdateDbStatus = UpdateOk | Denied | NetworkError | ZipError

  datatype CloseDisposition = Save | Discard

  const NumZipFilesToKeep: nat := 4
  const DbZipPrefix: string := "db"
  const InitialZipName: string := "db1.zip"
  /** What the check-out service reports as the file name of a database that has none yet. */
  const DbDoesNotExist: string := "NULL"
  const KeyOverride: string := "force"

  /** String.format("db%d.zip", n). */
  function ZipName(n: int): string { DbZipPrefix + IntToString(n) + ".zip" }

  // ---------------------------------------------------------------------------
  // File names
  // ---------------------------------------------------------------------------

  /** The current and the next zip file name kept in the checkout record. */
  datatype ZipNames = ZipNames(current: Option<string>, next: Option<string>)

  /** The text between the "db" prefix and the last '.', or None when substring would throw. */
  function VersionText(name: string): Option<string>
  {
    var dot := LastIndexOf(name, '.');
    if dot < |DbZipPrefix| then None else Some(name[|DbZipPrefix|..dot])
  }

  /**
   * setZipFilenames: "NULL" (in any case) starts a new database at db1.zip; dbNN.zip
   * is followed by db(NN+1).zip, in int arithmetic; a number that does not parse
   * clears both names. A name without a '.' after the prefix makes substring throw.
   */
  function ZipFilenames(current: Option<string>): Result<ZipNames, Exception>
  {
    if current.None? then Ok(ZipNames(None, None))
    else if EqualsIgnoreCase(current.value, DbDoesNotExist) then Ok(ZipNames(current, Some(InitialZipName)))
    else match VersionText(current.value)
      case None => Err(IndexOutOfBoundsException)
      case Some(text) =>
        match ParseInt(text)
        case None => Ok(ZipNames(None, None))
        case Some(n) => Ok(ZipNames(current, Some(ZipName(ToInt32(n + 1)))))
  }

  /** getCurrentDbVersion: NN of dbNN.zip, or -1 when there is no name or any step fails. */
  function CurrentDbVersion(current: Option<string>): (v: int)
    ensures v != -1 ==> current.Some? && VersionText(current.value).Some? && ParseInt(VersionText(current.value).value) == Some(v)
    ensures current.Some? && VersionText(current.value).Some? && ParseInt(VersionText(current.value).value).Some? ==>
      v == ParseInt(VersionText(current.value).value).value
  {
    if current.None? then -1
    else match VersionText(current.value)
      case None => -1
      case Some(text) => match ParseInt(text) case None => -1 case Some(n) => n
  }

  lemma ZipNameVersionText(n: int)
    ensures VersionText(ZipName(n)) == Some(IntToString(n))
  {
    var name := ZipName(n);
    var dot := |DbZipPrefix + IntToString(n)|;
    IntToStringNoDelimiter(n, '.');
    assert name[dot] == '.';
    forall j | dot < j < |name| ensures name[j] != '.' {
      assert name[j] == ".zip"[j - dot];
    }
    assert name[|DbZipPrefix|..dot] == IntToString(n);
  }

  lemma ZipNameIsNotNull(n: int)
    ensures !EqualsIgnoreCase(ZipName(n), DbDoesNotExist)
  {
    assert Lower(ZipName(n))[0] == 'd';
    assert Lower(DbDoesNotExist)[0] == 'n';
  }

  /**
   * The version of dbNN.zip is NN, and the name that follows it is db(NN+1).zip,
   * wrapping around like a Java int at the top of the range.
   */
  lemma ZipNameVersion(n: int)
    requires IsInt32(n)
    ensures CurrentDbVersion(Some(ZipName(n))) == n
    ensures ZipFilenames(Some(ZipName(n))) == Ok(ZipNames(Some(ZipName(n)), Some(ZipName(ToInt32(n + 1)))))
  {
    ZipNameCurrentVersion(n);
    ZipNameVersionText(n);
    ZipNameIsNotNull(n);
    ParseIntRoundTrip(n);
  }

  /** The version read back from dbNN.zip is NN. */
  lemma ZipNameCurrentVersion(n: int)
    requires IsInt32(n)
    ensures CurrentDbVersion(Some(ZipName(n))) == n
  {
    ZipNameVersionText(n);
    ParseIntRoundTrip(n);
  }

  /** The name that follows dbNN.zip has version NN + 1, in int arithmetic. */
  lemma NextVersionIsOneMore(n: int)
    requires IsInt32(n)
    ensures ZipFilenames(Some(ZipName(n))).Ok?
    ensures CurrentDbVersion(ZipFilenames(Some(ZipName(n))).value.next) == ToInt32(CurrentDbVersion(Some(ZipName(n))) + 1)
  {
    ZipNameVersion(n);
    ZipNameCurrentVersion(ToInt32(n + 1));
  }

  /** The first name of a new database is version 1. */
  lemma NewDatabaseStartsAtOne(c: string)
    requires EqualsIgnoreCase(c, DbDoesNotExist)
    ensures ZipFilenames(Some(c)) == Ok(ZipNames(Some(c), Some(ZipName(1))))
    ensures CurrentDbVersion(ZipFilenames(Some(c)).value.next) == 1
  {
    assert ZipName(1) == InitialZipName;
    ZipNameVersion(1);
  }

  // ---------------------------------------------------------------------------
  // The program directory
  // ---------------------------------------------------------------------------

  /** A file of the program's directory with its modification time. */
  datatype ZipFile = ZipFile(name: string, lastModified: int)

  /** The listing filter: names ending in ".zip", ignoring case. */
  predicate IsZip(name: string) { EndsWith(Lower(name), ".zip") }

  predicate HasZip(dir: seq<ZipFile>) { exists i :: 0 <= i < |dir| && IsZip(dir[i].name) }

  /** dir[i] is a zip file, and no zip file before it is as new and none after it is newer. */
  predicate FirstNewest(dir: seq<ZipFile>, i: int)
  {
    0 <= i < |dir| && IsZip(dir[i].name) &&
    (forall j :: 0 <= j < i && IsZip(dir[j].name) ==> dir[j].lastModified < dir[i].lastModified) &&
    (forall j :: i < j < |dir| && IsZip(dir[j].name) ==> dir[j].lastModified <= dir[i].lastModified)
  }

  /** The scan of findNewestModifiedZipFile from position k on, with newest the file kept so far. */
  function ScanNewest(dir: seq<ZipFile>, k: nat, newest: Option<ZipFile>): Option<ZipFile>
    requires k <= |dir|
    decreases |dir| - k
  {
    if k == |dir| then newest
    else
      var f := dir[k];
      ScanNewest(dir, k + 1, if IsZip(f.name) && (newest.None? || f.lastModified > newest.value.lastModified) then Some(f) else newest)
  }

  /** The zip file findNewestModifiedZipFile returns. */
  function NewestZip(dir: seq<ZipFile>): Option<ZipFile>
  {
    ScanNewest(dir, 0, None)
  }

  /** findNewestModifiedZipFile: the first of the most recently modified zip files, or None without one. */
  method FindNewestModifiedZipFile(dir: seq<ZipFile>) returns (r: Option<ZipFile>)
    ensures r.None? <==> !HasZip(dir)
    ensures r.Some? ==> exists i :: FirstNewest(dir, i) && dir[i] == r.value
    ensures r == NewestZip(dir)
  {
    r := None;
    ghost var at := -1;
    var k := 0;
    while k < |dir|
      invariant 0 <= k <= |dir|
      invariant ScanNewest(dir, k, r) == NewestZip(dir)
      invariant r.None? <==> forall j :: 0 <= j < k ==> !IsZip(dir[j].name)
      invariant r.Some? ==> 0 <= at < k && dir[at] == r.value && IsZip(r.value.name)
      invariant r.Some? ==> forall j :: 0 <= j < at && IsZip(dir[j].name) ==> dir[j].lastModified < r.value.lastModified
      invariant r.Some? ==> forall j :: at < j < k && IsZip(dir[j].name) ==> dir[j].lastModified <= r.value.lastModified
    {
      var file := dir[k];
      if IsZip(file.name) && (r.None? || file.lastModified > r.value.lastModified) {
        r, at := Some(file), k;
      }
      k := k + 1;
    }
    if r.Some? {
      assert FirstNewest(dir, at);
    }
  }

  /** The zip files of the directory, in listing order. */
  function ZipFiles(dir: seq<ZipFile>): (r: seq<ZipFile>)
    ensures forall f :: f in r <==> f in dir && IsZip(f.name)
  {
    if dir == [] then []
    else (if IsZip(dir[0].name) then [dir[0]] else []) + ZipFiles(dir[1..])
  }

  /** Older first, by lastModified. */
  function ByAge(): (ZipFile, ZipFile) -> bool
  {
    (a: ZipFile, b: ZipFile) => a.lastModified <= b.lastModified
  }

  lemma ByAgeIsTotalPreorder()
    ensures Sorting.TotalPreorder(ByAge())
  {
  }

  /** deleteOldZipFiles: sort the zip files from old to new and delete all but the newest keep of them. */
  method DeleteOldZipFiles(dir: seq<ZipFile>, keep: nat) returns (deleted: seq<ZipFile>)
    ensures var files := Sorting.SortBy(ZipFiles(dir), ByAge());
      deleted == files[..if |files| > keep then |files| - keep else 0]
  {
    var files := Sorting.SortBy(ZipFiles(dir), ByAge());
    deleted := DeleteFirst(files, |files| - keep);
  }

  /** The deletion loop: the first numToDelete files, none when numToDelete is not positive. */
  method DeleteFirst(files: seq<ZipFile>, numToDelete: int) returns (deleted: seq<ZipFile>)
    requires numToDelete <= |files|
    ensures deleted == files[..if numToDelete > 0 then numToDelete else 0]
  {
    deleted := [];
    var i := 0;
    while i < numToDelete
      invariant 0 <= i <= |files| && (numToDelete > 0 ==> i <= numToDelete)
      invariant numToDelete <= 0 ==> i == 0
      invariant deleted == files[..i]
    {
      deleted := deleted + [files[i]];
      i := i + 1;
    }
  }

  /**
   * Only old zip files are deleted: all but the newest keep of them, each no
   * newer than every zip file that stays, and nothing that is not a zip file.
   */
  lemma OldestZipFilesDeleted(dir: seq<ZipFile>, keep: nat)
    ensures var files := Sorting.SortBy(ZipFiles(dir), ByAge());
      var n := if |files| > keep then |files| - keep else 0;
      |files[n..]| == (if |ZipFiles(dir)| < keep then |ZipFiles(dir)| else keep) &&
      (forall f :: f in files[..n] ==> f in dir && IsZip(f.name)) &&
      (forall i, j :: 0 <= i < n <= j < |files| ==> files[i].lastModified <= files[j].lastModified)
  {
    var files := Sorting.SortBy(ZipFiles(dir), ByAge());
    ByAgeIsTotalPreorder();
    Sorting.SortBySorted(ZipFiles(dir), ByAge());
    var n := if |files| > keep then |files| - keep else 0;
    forall f | f in files[..n] ensures f in dir && IsZip(f.name) {
      assert f in multiset(files);
    }
    forall i, j | 0 <= i < n <= j < |files| ensures files[i].lastModified <= files[j].lastModified {
      assert ByAge()(files[i], files[j]);
    }
  }

  /** A file of the directory has this name. */
  predicate HasFile(dir: seq<ZipFile>, name: string) { exists i :: 0 <= i < |dir| && dir[i].name == name }

  /** haveLatestDB: the current file is there; a new database ("NULL") always counts as latest. */
  function HaveLatestDb(current: Option<string>, dir: seq<ZipFile>): (r: bool)
    ensures r ==> current.Some?
    ensures current.Some? && HasFile(dir, current.value) ==> r
    ensures current.Some? && EqualsIgnoreCase(current.value, DbDoesNotExist) ==> r
    ensures r ==> EqualsIgnoreCase(current.value, DbDoesNotExist) || HasFile(dir, current.value)
  {
    if current.None? then false
    else if EqualsIgnoreCase(current.value, DbDoesNotExist) then true
    else HasFile(dir, current.value)
  }

  // ---------------------------------------------------------------------------
  // The status ladder
  // ---------------------------------------------------------------------------

  /** The checkout record's fields that the decisions read (DBInfo is not part of this model). */
  datatype DbInfo = DbInfo(names: ZipNames, checkedOut: bool, newRecord: bool, key: Option<string>)

  /** What checkOutDB did: the server could not be reached, or it answered and left the checkout record as given. */
  datatype CheckOutReply = Unreachable | Answered(available: bool, after: DbInfo)

  /** What determineRWStatus observes: connectivity, the program directory, the check-out call and the user's rights. */
  datatype Probe = Probe(online: bool, dir: seq<ZipFile>, statusCheck: CheckOutReply, readOnly: bool)

  /** determineRWStatus, with the checkout record it leaves behind. */
  function RWStatus(info: DbInfo, p: Probe): (AccessStatus, DbInfo)
  {
    if !p.online then (if HasZip(p.dir) then NoServer else NoNetworkNoDbError, info)
    else match p.statusCheck
      case Unreachable => (NoServer, info)
      case Answered(available, after) =>
        if !available then (NotAvailable, after)
        else if after.newRecord then (AccessStatus.NewDatabase, after)
        else if !HasZip(p.dir) then (NoDbError, after)
        else if !HaveLatestDb(after.names.current, p.dir) then (OutdatedDb, after)
        else if p.readOnly then (UserReadOnly, after)
        else (Available, after)
  }

  /**
   * The ladder's rungs in order: each outcome holds exactly when its condition
   * holds and no earlier rung applies.
   */
  lemma RWStatusLadder(info: DbInfo, p: Probe)
    ensures var s := RWStatus(info, p).0;
      (s == NoNetworkNoDbError <==> !p.online && !HasZip(p.dir)) &&
      (s == NoServer <==> (!p.online && HasZip(p.dir)) || (p.online && p.statusCheck.Unreachable?)) &&
      (s == NotAvailable <==> p.online && p.statusCheck.Answered? && !p.statusCheck.available) &&
      (s == AccessStatus.NewDatabase <==> p.online && p.statusCheck.Answered? && p.statusCheck.available && p.statusCheck.after.newRecord) &&
      (s == NoDbError <==> p.online && p.statusCheck.Answered? && p.statusCheck.available && !p.statusCheck.after.newRecord && !HasZip(p.dir)) &&
      (s == OutdatedDb <==> p.online && p.statusCheck.Answered? && p.statusCheck.available && !p.statusCheck.after.newRecord &&
                            HasZip(p.dir) && !HaveLatestDb(p.statusCheck.after.names.current, p.dir)) &&
      (s == UserReadOnly <==> p.online && p.statusCheck.Answered? && p.statusCheck.available && !p.statusCheck.after.newRecord &&
                              HasZip(p.dir) && HaveLatestDb(p.statusCheck.after.names.current, p.dir) && p.readOnly) &&
      (s == Available <==> p.online && p.statusCheck.Answered? && p.statusCheck.available && !p.statusCheck.after.newRecord &&
                           HasZip(p.dir) && HaveLatestDb(p.statusCheck.after.names.current, p.dir) && !p.readOnly)
  {
  }

  /**
   * Every status the ladder gives is either a hard failure, or can be opened (in
   * read-write mode or in a sandbox); it never reports a lock or check-out state.
   */
  lemma RWStatusOpenable(info: DbInfo, p: Probe)
    ensures var s := RWStatus(info, p).0;
      (s == NoNetworkNoDbError || s == NoDbError) || s.OkWithSandbox() || s == AccessStatus.NewDatabase || s == Available
    ensures var s := RWStatus(info, p).0;
      s != NoStatus && s != LockError && s != ProcessError && s != PreviouslyCheckedOutError && s != CheckedOut
  {
  }

  /** The scenarios of the access-control unit tests: one zip file "db1.zip", or none. */
  lemma RWStatusScenarios(info: DbInfo, after: DbInfo)
    requires !after.newRecord
    ensures RWStatus(info, Probe(false, [], Unreachable, false)).0 == NoNetworkNoDbError
    ensures RWStatus(info, Probe(false, [ZipFile("db1.zip", 0)], Unreachable, false)).0 == NoServer
    ensures RWStatus(info, Probe(true, [], Answered(true, after), false)).0 == NoDbError
    ensures RWStatus(info, Probe(true, [ZipFile("db1.zip", 0)], Answered(false, after), false)).0 == NotAvailable
    ensures RWStatus(info, Probe(true, [ZipFile("db1.zip", 0)], Unreachable, false)).0 == NoServer
    ensures after.names.current == Some("db2.zip") ==>
      RWStatus(info, Probe(true, [ZipFile("db1.zip", 0)], Answered(true, after), false)).0 == OutdatedDb
    ensures after.names.current == Some("db1.zip") ==>
      RWStatus(info, Probe(true, [ZipFile("db1.zip", 0)], Answered(true, after), true)).0 == UserReadOnly
    ensures after.names.current == Some("db1.zip") ==>
      RWStatus(info, Probe(true, [ZipFile("db1.zip", 0)], Answered(true, after), false)).0 == Available
  {
    var one := [ZipFile("db1.zip", 0)];
    assert IsZip(one[0].name) by {
      assert Lower("db1.zip") == "db1.zip";
    }
    assert !HasFile(one, "db2.zip") by {
      assert one[0].name != "db2.zip";
    }
    assert HasFile(one, "db1.zip");
    assert !EqualsIgnoreCase("db2.zip", DbDoesNotExist) by {
      assert Lower("db2.zip")[0] == 'd';
    }
  }

  // ---------------------------------------------------------------------------
  // open and commit
  // ---------------------------------------------------------------------------

  /** The exception open() throws before doing anything, for its access status and sandbox choice. */
  function OpenCheck(s: AccessStatus, useSandbox: bool): Option<Exception>
  {
    match s
    case NoStatus => Some(IllegalStateException)
    case LockError => Some(IllegalStateException)
    case ProcessError => Some(IllegalStateException)
    case NoNetworkNoDbError => Some(IllegalStateException)
    case NoDbError => Some(IllegalStateException)
    case PreviouslyCheckedOutError => if useSandbox then Some(IllegalArgumentException) else None
    case CheckedOut => if useSandbox then Some(IllegalArgumentException) else None
    case NoServer => if !useSandbox then Some(IllegalArgumentException) else None
    case OutdatedDb => if !useSandbox then Some(IllegalArgumentException) else None
    case NotAvailable => if !useSandbox then Some(IllegalArgumentException) else None
    case UserReadOnly => if !useSandbox then Some(IllegalArgumentException) else None
    case NewDatabase => None
    case Available => None
  }

  /**
   * open() accepts a database that is already checked out only without a sandbox,
   * one that init() found usable only in a sandbox only with one, a new or available
   * database either way, and nothing else.
   */
  lemma OpenPreconditions(s: AccessStatus, useSandbox: bool)
    ensures OpenCheck(s, useSandbox).None? <==>
      ((s == CheckedOut || s == PreviouslyCheckedOutError) && !useSandbox) ||
      (s.OkWithSandbox() && useSandbox) ||
      s == AccessStatus.NewDatabase || s == Available
    ensures OpenCheck(s, useSandbox) == Some(IllegalStateException) <==>
      s in {NoStatus, LockError, ProcessError, NoNetworkNoDbError, NoDbError}
  {
  }

  /** The status open() reports once its checks pass. */
  function OpenResult(s: AccessStatus, useSandbox: bool, checkedOut: bool, checkout: CheckOutReply): OpenStatus
  {
    if checkedOut then Reopened
    else if useSandbox then OpenedSandboxed
    else if s == AccessStatus.NewDatabase then OpenStatus.NewDatabase
    else match checkout
      case Unreachable => ServerError
      case Answered(available, _) => if available then Opened else NotAvailableError
  }

  /**
   * open() asks the server for a check-out only for an available database that is
   * neither checked out here nor sandboxed; a sandbox always opens.
   */
  lemma OpenResultMapping(s: AccessStatus, useSandbox: bool, checkedOut: bool, checkout: CheckOutReply)
    requires OpenCheck(s, useSandbox).None?
    ensures var r := OpenResult(s, useSandbox, checkedOut, checkout);
      (r == Reopened <==> checkedOut) &&
      (r == OpenedSandboxed <==> !checkedOut && useSandbox) &&
      (r == OpenStatus.NewDatabase <==> !checkedOut && !useSandbox && s == AccessStatus.NewDatabase) &&
      (r.IsOpen() <==> !(!checkedOut && !useSandbox && s != AccessStatus.NewDatabase && (checkout.Unreachable? || !checkout.available))) &&
      (!r.IsOpen() ==> s in {Available, CheckedOut, PreviouslyCheckedOutError})
  {
  }

  /** setCheckoutKey(DB_KEY_OVERRIDE) and setNewCheckoutRecord(): the server is to create the record. */
  function MarkNew(info: DbInfo): DbInfo
  {
    info.(key := Some(KeyOverride), newRecord := true)
  }

  /** Whether the server does not know the database yet: no current name, or the "NULL" marker. */
  predicate Unnamed(info: DbInfo)
  {
    info.names.current.None? || EqualsIgnoreCase(info.names.current.value, DbDoesNotExist)
  }

  /** What open() leaves behind once its checks pass: the exception it lets escape, if any, and the checkout record. */
  datatype Opening = Opening(thrown: Option<Exception>, record: DbInfo)

  /** The record after the checks and the check-out call: marked new for a new database, the server's record after a check-out. */
  function CheckedOutRecord(info: DbInfo, s: AccessStatus, useSandbox: bool, checkout: CheckOutReply): DbInfo
  {
    var marked := if s == AccessStatus.NewDatabase then MarkNew(info) else info;
    if !info.checkedOut && !useSandbox && s != AccessStatus.NewDatabase && checkout.Answered? then checkout.after
    else marked
  }

  /**
   * open() once its checks pass: a database opened other than by a check-out or a
   * reopen takes the newest zip file (newest) as its current one, which throws when
   * that name has no '.' after the prefix; then, outside a sandbox, a database the
   * server does not know yet is marked new.
   */
  function OpenRecord(info: DbInfo, s: AccessStatus, useSandbox: bool, checkout: CheckOutReply, newest: Option<ZipFile>): Opening
  {
    var status := OpenResult(s, useSandbox, info.checkedOut, checkout);
    var base := CheckedOutRecord(info, s, useSandbox, checkout);
    if !status.IsOpen() || status == Reopened then Opening(None, base)
    else
      var names := if status != Opened && newest.Some? then ZipFilenames(Some(newest.value.name)) else Ok(base.names);
      if names.Err? then Opening(Some(names.error), base)
      else
        var named := base.(names := names.value);
        Opening(None, if !useSandbox && Unnamed(named) then MarkNew(named) else named)
  }

  /**
   * The record open() leaves: after a check-out, the server's record (marked new when
   * it names no database); after any other opening but a reopen, the newest zip file's
   * names; after a reopen or a failed check-out, the record as it was.
   */
  lemma OpenRecordCases(info: DbInfo, s: AccessStatus, useSandbox: bool, checkout: CheckOutReply, newest: Option<ZipFile>)
    requires OpenCheck(s, useSandbox).None?
    ensures var status := OpenResult(s, useSandbox, info.checkedOut, checkout);
      var o := OpenRecord(info, s, useSandbox, checkout, newest);
      (status == Opened ==>
        o.thrown.None? && o.record == (if Unnamed(checkout.after) then MarkNew(checkout.after) else checkout.after)) &&
      (status == NotAvailableError ==> o == Opening(None, checkout.after)) &&
      (status == ServerError || status == Reopened ==> o.thrown.None? && o.record.names == info.names) &&
      (status in {OpenedSandboxed, OpenStatus.NewDatabase} && newest.Some? ==>
        (o.thrown.None? <==> ZipFilenames(Some(newest.value.name)).Ok?) &&
        (o.thrown.None? ==> o.record.names == ZipFilenames(Some(newest.value.name)).value)) &&
      (status == OpenStatus.NewDatabase && o.thrown.None? ==> o.record.newRecord && o.record.key == Some(KeyOverride)) &&
      (status == OpenedSandboxed ==> o.record.key == CheckedOutRecord(info, s, useSandbox, checkout).key)
  {
  }

  /** What commitOrDiscard returns (or throws), the file name it checks in, and whether it deletes old zip files. */
  datatype Commit = Commit(result: Result<UpdateDbStatus, Exception>, checkedIn: Option<string>, deletesOldZips: bool)

  /**
   * commitOrDiscard: saving zips the database under the next file name (zipOk is
   * whether that worked) and checks it in; discarding checks in the current name
   * for a new checkout record and nothing otherwise. checkIn stands for the server.
   */
  function CommitOutcome(d: CloseDisposition, info: Option<DbInfo>, zipOk: bool,
                         checkIn: Option<string> -> Result<bool, Exception>): Commit
  {
    if info.None? then Commit(Err(NullPointerException), None, false)
    else if d == Save && info.value.names.next.None? then Commit(Err(NullPointerException), None, false)
    else if d == Save && !zipOk then Commit(Ok(ZipError), None, false)
    else
      var filename := if d == Save then info.value.names.next else if info.value.newRecord then info.value.names.current else None;
      match checkIn(filename)
      case Err(_) => Commit(Ok(NetworkError), filename, false)
      case Ok(accepted) =>
        if !accepted then Commit(Ok(Denied), filename, false)
        else Commit(Ok(UpdateOk), filename, d == Save)
  }

  /**
   * The outcome ladder of commitOrDiscard: a failed zip is a zipError before the
   * server is asked; then an unreachable server is a networkError and a refusal is
   * denied; old zip files are deleted only after a successful save and check-in.
   */
  lemma CommitLadder(d: CloseDisposition, info: DbInfo, zipOk: bool, checkIn: Option<string> -> Result<bool, Exception>)
    requires d == Save ==> info.names.next.Some?
    ensures var c := CommitOutcome(d, Some(info), zipOk, checkIn);
      var sent := if d == Save then info.names.next else if info.newRecord then info.names.current else None;
      (c.result == Ok(ZipError) <==> d == Save && !zipOk) &&
      (c.result == Ok(NetworkError) <==> !(d == Save && !zipOk) && checkIn(sent).Err?) &&
      (c.result == Ok(Denied) <==> !(d == Save && !zipOk) && checkIn(sent) == Ok(false)) &&
      (c.result == Ok(UpdateOk) <==> !(d == Save && !zipOk) && checkIn(sent) == Ok(true)) &&
      (c.result != Ok(ZipError) ==> c.checkedIn == sent) &&
      (c.deletesOldZips <==> d == Save && c.result == Ok(UpdateOk))
  {
  }

  /** How init() gets the lock. */
  datatype LockOutcome = Locked | MultipleInstance | LockFailed

  /** The status init() returns, given the lock, the sandbox setting, the checkout record and the probe. */
  function InitStatus(lock: LockOutcome, forceSandbox: bool, info: DbInfo, p: Probe): AccessStatus
  {
    match lock
    case MultipleInstance => LockError
    case LockFailed => ProcessError
    case Locked =>
      if info.checkedOut then (if forceSandbox then PreviouslyCheckedOutError else CheckedOut)
      else RWStatus(info, p).0
  }

  /** The checkout record init() leaves behind once it holds the lock. */
  function InitRecord(info: DbInfo, p: Probe): DbInfo
  {
    if info.checkedOut then info else RWStatus(info, p).1
  }

  /** The statuses for which initDb goes on to open the database. */
  predicate ShouldOpen(s: AccessStatus, useSandbox: bool)
  {
    s == Available || s == CheckedOut || s == AccessStatus.NewDatabase || (s.OkWithSandbox() && useSandbox)
  }

  /**
   * initDb opens only what open() accepts: whatever init() reports, the statuses
   * it goes on to open pass every precondition of open() with the same sandbox setting.
   */
  lemma InitDbOpensOnlyValid(lock: LockOutcome, forceSandbox: bool, info: DbInfo, p: Probe)
    ensures var s := InitStatus(lock, forceSandbox, info, p);
      ShouldOpen(s, forceSandbox) ==> lock == Locked && OpenCheck(s, forceSandbox).None?
  {
  }

  class AccessControl {
    var accessStatus: AccessStatus
    var openStatus: OpenStatus
    var dbInfo: Option<DbInfo>
    var sandboxed: bool
    var locked: bool

    constructor ()
      ensures accessStatus == NoStatus && openStatus == NotOpened && dbInfo == None && !sandboxed && !locked
    {
      accessStatus, openStatus, dbInfo, sandboxed, locked := NoStatus, NotOpened, None, false, false;
    }

    /**
     * init: the lock failures are reported without being remembered; a database
     * checked out here is reported as such (or refused when a sandbox is forced);
     * otherwise the local copy is deleted and the ladder decides. stored is the
     * checkout record read when there is none yet.
     */
    method Init(lock: LockOutcome, forceSandbox: bool, stored: DbInfo, p: Probe)
      returns (status: AccessStatus, deletesLocalDb: bool)
      modifies this
      ensures lock == MultipleInstance ==> status == LockError && accessStatus == old(accessStatus) && dbInfo == old(dbInfo)
      ensures lock == LockFailed ==> status == ProcessError && accessStatus == old(accessStatus) && dbInfo == old(dbInfo)
      ensures lock == Locked ==> locked && dbInfo.Some?
      ensures lock == Locked ==> var info := old(dbInfo).GetOr(stored);
        if info.checkedOut then
          !deletesLocalDb && dbInfo == Some(info) &&
          (if forceSandbox then status == PreviouslyCheckedOutError && accessStatus == old(accessStatus)
           else status == CheckedOut && accessStatus == CheckedOut)
        else
          deletesLocalDb && status == accessStatus && (status, dbInfo.value) == RWStatus(info, p)
      ensures lock != Locked ==> !deletesLocalDb && locked == old(locked)
      ensures status == InitStatus(lock, forceSandbox, old(dbInfo).GetOr(stored), p)
      ensures openStatus == old(openStatus) && sandboxed == old(sandboxed)
    {
      deletesLocalDb := false;
      if lock == MultipleInstance {
        return LockError, false;
      }
      if lock == LockFailed {
        return ProcessError, false;
      }
      locked := true;
      if dbInfo.None? {
        dbInfo := Some(stored);
      }
      if dbInfo.value.checkedOut {
        if forceSandbox {
          return PreviouslyCheckedOutError, false;
        }
        accessStatus := CheckedOut;
      } else {
        deletesLocalDb := true;
        var (s, info) := RWStatus(dbInfo.value, p);
        dbInfo := Some(info);
        accessStatus := s;
      }
      status := accessStatus;
    }

    /**
     * initDb: remembers what init() reports, then opens the database when it is
     * available, checked out here, new, or usable in the sandbox that is forced.
     * Returns the exception open() lets escape, if any.
     */
    method InitDb(forceSandbox: bool, lock: LockOutcome, stored: DbInfo, p: Probe, checkout: CheckOutReply, dir: seq<ZipFile>)
      returns (thrown: Option<Exception>)
      modifies this
      ensures accessStatus == InitStatus(lock, forceSandbox, old(dbInfo).GetOr(stored), p)
      ensures locked == (lock == Locked || old(locked))
      ensures !ShouldOpen(accessStatus, forceSandbox) ==> thrown.None? && openStatus == old(openStatus)
      ensures !ShouldOpen(accessStatus, forceSandbox) ==>
        sandboxed == old(sandboxed) &&
        dbInfo == (if lock == Locked then Some(InitRecord(old(dbInfo).GetOr(stored), p)) else old(dbInfo))
      ensures thrown.Some? ==> thrown.value == IndexOutOfBoundsException
      ensures ShouldOpen(accessStatus, forceSandbox) && thrown.None? ==>
        sandboxed == forceSandbox && (openStatus.IsOpen() || accessStatus == Available)
      ensures ShouldOpen(accessStatus, forceSandbox) ==>
        var info := InitRecord(old(dbInfo).GetOr(stored), p);
        var o := OpenRecord(info, accessStatus, forceSandbox, checkout, NewestZip(dir));
        thrown == o.thrown && dbInfo == Some(o.record) &&
        (thrown.None? ==> openStatus == OpenResult(accessStatus, forceSandbox, info.checkedOut, checkout))
    {
      var status, _ := Init(lock, forceSandbox, stored, p);
      accessStatus := status;
      thrown := None;
      if ShouldOpen(status, forceSandbox) {
        InitDbOpensOnlyValid(lock, forceSandbox, old(dbInfo).GetOr(stored), p);
        var r := Open(forceSandbox, checkout, dir);
        if r.Err? {
          thrown := Some(r.error);
        } else {
          openStatus := r.value;
        }
      }
    }

    /**
     * open: the checks of OpenCheck, then the status of OpenResult; a database that
     * is open but was not opened by a check-out takes the newest zip file as its
     * current one, and one that the server does not know yet is marked as new.
     */
    method Open(useSandbox: bool, checkout: CheckOutReply, dir: seq<ZipFile>) returns (r: Result<OpenStatus, Exception>)
      modifies this
      ensures !old(locked) || old(dbInfo).None? ==> r == Err(IllegalStateException)
      ensures old(locked) && old(dbInfo).Some? && OpenCheck(old(accessStatus), useSandbox).Some? ==>
        r == Err(OpenCheck(old(accessStatus), useSandbox).value)
      ensures r.Ok? ==> r.value == OpenResult(old(accessStatus), useSandbox, old(dbInfo).value.checkedOut, checkout) && sandboxed == useSandbox
      ensures old(locked) && old(dbInfo).Some? && OpenCheck(old(accessStatus), useSandbox).None? ==>
        r.Ok? || r == Err(IndexOutOfBoundsException)
      ensures r.Ok? && r.value == OpenStatus.NewDatabase ==> dbInfo.Some? && dbInfo.value.newRecord && dbInfo.value.key == Some(KeyOverride)
      ensures old(locked) && old(dbInfo).Some? && OpenCheck(old(accessStatus), useSandbox).None? ==>
        var o := OpenRecord(old(dbInfo).value, old(accessStatus), useSandbox, checkout, NewestZip(dir));
        dbInfo == Some(o.record) && (r.Ok? <==> o.thrown.None?) && (r.Err? ==> r.error == o.thrown.value)
      ensures !old(locked) || old(dbInfo).None? || OpenCheck(old(accessStatus), useSandbox).Some? ==>
        dbInfo == old(dbInfo) && sandboxed == old(sandboxed)
      ensures accessStatus == old(accessStatus) && openStatus == old(openStatus) && locked == old(locked)
    {
      if !locked || dbInfo.None? {
        return Err(IllegalStateException);
      }
      var check := OpenCheck(accessStatus, useSandbox);
      if check.Some? {
        return Err(check.value);
      }
      var info := dbInfo.value;
      if accessStatus == AccessStatus.NewDatabase {
        info := info.(key := Some(KeyOverride), newRecord := true);
      }
      var status: OpenStatus;
      if info.checkedOut {
        status := Reopened;
      } else if useSandbox {
        status := OpenedSandboxed;
      } else if accessStatus == AccessStatus.NewDatabase {
        status := OpenStatus.NewDatabase;
      } else if checkout.Unreachable? {
        status := ServerError;
      } else {
        info := checkout.after;
        status := if checkout.available then Opened else NotAvailableError;
      }
      sandboxed := useSandbox;
      if status.IsOpen() && status != Reopened {
        if status != Opened {
          var newest := FindNewestModifiedZipFile(dir);
          if newest.Some? {
            var names := ZipFilenames(Some(newest.value.name));
            if names.Err? {
              dbInfo := Some(info);
              return Err(names.error);
            }
            info := info.(names := names.value);
          }
        }
        var current := info.names.current;
        if !useSandbox && (current.None? || EqualsIgnoreCase(current.value, DbDoesNotExist)) {
          info := info.(key := Some(KeyOverride), newRecord := true);
        }
      }
      dbInfo := Some(info);
      r := Ok(status);
    }

    /**
     * commitOrDiscard: the outcome of CommitOutcome; after a successful check-in the
     * checkout is over and the access status is reset, and after a successful save
     * the old zip files are deleted.
     */
    method CommitOrDiscard(d: CloseDisposition, zipOk: bool, checkIn: Option<string> -> Result<bool, Exception>, dir: seq<ZipFile>)
      returns (r: Result<UpdateDbStatus, Exception>, deleted: seq<ZipFile>)
      modifies this
      ensures var c := CommitOutcome(d, old(dbInfo), zipOk, checkIn);
        r == c.result &&
        deleted == (if c.deletesOldZips then Sorting.SortBy(ZipFiles(dir), ByAge())[..if |ZipFiles(dir)| > NumZipFilesToKeep then |ZipFiles(dir)| - NumZipFilesToKeep else 0] else [])
      ensures r == Ok(UpdateOk) ==> accessStatus == NoStatus && dbInfo == Some(old(dbInfo).value.(checkedOut := false))
      ensures r != Ok(UpdateOk) ==> accessStatus == old(accessStatus) && dbInfo == old(dbInfo)
      ensures openStatus == old(openStatus) && sandboxed == old(sandboxed) && locked == old(locked)
    {
      deleted := [];
      var c := CommitOutcome(d, dbInfo, zipOk, checkIn);
      r := c.result;
      if c.deletesOldZips {
        deleted := DeleteOldZipFiles(dir, NumZipFilesToKeep);
      }
      if r == Ok(UpdateOk) {
        dbInfo := Some(dbInfo.value.(checkedOut := false));
        accessStatus := NoStatus;
      }
    }
  }
}

=== FILE: acm_srn_helper.dfy ===
/**
 * The ACM's SRN helper: it keeps the allocator in a properties store (one entry
 * mapping the user's email to a TB-Loader id, and seven entries under the prefix
 * "<id>."), refills blocks from the reservation service, and publishes a new
 * allocator only once the store holding it has been written.
 */
module AcmSrnHelper {
  import opened Wrappers
  import opened JavaStrings
  import opened SrnAllocation

  /** SRNs per requested block. */
  const BlockSize: int := 4

  type Properties = map<string, string>

  /**
   * saveSrnInfo: a copy of the store (or of an empty one) with the email mapped to
   * the id and the seven fields written under the id's prefix. A null hex id makes
   * setProperty throw.
   */
  function SaveSrnInfo(store: Option<Properties>, email: string, s: SrnState): (r: Result<Properties, Exception>)
    ensures r.Err? <==> s.hex.None?
  {
    if s.hex.None? then Err(NullPointerException)
    else
      var p := Prefix(s.id);
      var base := store.GetOr(map[]);
      Ok(base[email := IntToString(s.id)]
             [p + IdName := IntToString(s.id)]
             [p + HexIdName := s.hex.value]
             [p + NextSrnName := IntToString(s.next)]
             [p + PrimaryBeginName := IntToString(s.primaryBegin)]
             [p + PrimaryEndName := IntToString(s.primaryEnd)]
             [p + BackupBeginName := IntToString(s.backupBegin)]
             [p + BackupEndName := IntToString(s.backupEnd)])
  }

  /** getTbLoaderId: the number stored under the email, or -1 when there is none or it does not parse. */
  function TbLoaderId(store: Option<Properties>, email: string): (id: int)
    ensures id != -1 ==> store.Some? && email in store.value && ParseInt(store.value[email]) == Some(id)
    ensures store.Some? && email in store.value && ParseInt(store.value[email]).Some? ==>
      id == ParseInt(store.value[email]).value
  {
    if store.None? || email !in store.value then -1
    else
      match ParseInt(store.value[email])
      case Some(v) => v
      case None => -1
  }

  /** Integer.parseInt(getProperty(key)): a missing key is parseInt(null). */
  function IntProperty(m: Properties, key: string): Result<int, Exception>
  {
    if key in m then
      match ParseInt(m[key])
      case Some(v) => Ok(v)
      case None => Err(NumberFormatException)
    else Err(NumberFormatException)
  }

  /**
   * loadSrnInfo: nothing without a store or without a positive id for the email;
   * otherwise the seven fields under the id's prefix, where any missing or
   * malformed number is a NumberFormatException. (The Java asserts are not run.)
   */
  function LoadSrnInfo(store: Option<Properties>, email: string): (r: Result<Option<SrnState>, Exception>)
    ensures r == Ok(None) <== store.None? || TbLoaderId(store, email) <= 0
    ensures r.Ok? && r.value.Some? ==> r.value.value.IsInt32()
  {
    if store.None? then Ok(None)
    else
      var id := TbLoaderId(store, email);
      if id <= 0 then Ok(None)
      else
        var p := Prefix(id);
        var m := store.value;
        var hex := if p + HexIdName in m then Some(m[p + HexIdName]) else None;
        var tbloaderid := IntProperty(m, p + IdName);
        var next := IntProperty(m, p + NextSrnName);
        var primaryBegin := IntProperty(m, p + PrimaryBeginName);
        var primaryEnd := IntProperty(m, p + PrimaryEndName);
        var backupBegin := IntProperty(m, p + BackupBeginName);
        var backupEnd := IntProperty(m, p + BackupEndName);
        if tbloaderid.Err? || next.Err? || primaryBegin.Err? || primaryEnd.Err? || backupBegin.Err? || backupEnd.Err? then
          Err(NumberFormatException)
        else
          Ok(Some(SrnState(tbloaderid.value, hex, next.value, primaryBegin.value, primaryEnd.value, backupBegin.value, backupEnd.value)))
  }

  /** saveSrnInfo keeps every other entry of the store it copies. */
  lemma SaveKeepsOtherEntries(store: Option<Properties>, email: string, s: SrnState)
    requires s.hex.Some?
    ensures var m := SaveSrnInfo(store, email, s).value;
      (forall k :: k in store.GetOr(map[]) ==> k in m) &&
      (forall k :: k in store.GetOr(map[]) && k != email && k !in Keys(Prefix(s.id)) ==> m[k] == store.value[k])
  {
  }

  /** The entries saveSrnInfo writes, read back one by one. */
  lemma SavedEntries(store: Option<Properties>, email: string, s: SrnState)
    requires s.hex.Some? && email !in Keys(Prefix(s.id))
    ensures var m := SaveSrnInfo(store, email, s).value; var p := Prefix(s.id);
      m[email] == IntToString(s.id) &&
      m[p + IdName] == IntToString(s.id) && m[p + HexIdName] == s.hex.value &&
      m[p + NextSrnName] == IntToString(s.next) &&
      m[p + PrimaryBeginName] == IntToString(s.primaryBegin) && m[p + PrimaryEndName] == IntToString(s.primaryEnd) &&
      m[p + BackupBeginName] == IntToString(s.backupBegin) && m[p + BackupEndName] == IntToString(s.backupEnd)
  {
    var p := Prefix(s.id);
    KeysDistinct(p);
    var k := Keys(p);
    assert k[0] == p + IdName && k[1] == p + HexIdName && k[2] == p + NextSrnName;
    assert k[3] == p + PrimaryBeginName && k[4] == p + PrimaryEndName;
    assert k[5] == p + BackupBeginName && k[6] == p + BackupEndName;
    assert k[0] != k[1] && k[0] != k[2] && k[0] != k[3] && k[0] != k[4] && k[0] != k[5] && k[0] != k[6];
    assert k[1] != k[2] && k[1] != k[3] && k[1] != k[4] && k[1] != k[5] && k[1] != k[6];
    assert k[2] != k[3] && k[2] != k[4] && k[2] != k[5] && k[2] != k[6];
    assert k[3] != k[4] && k[3] != k[5] && k[3] != k[6];
    assert k[4] != k[5] && k[4] != k[6] && k[5] != k[6];
  }

  /**
   * Storing an allocator and loading it again gives it back, whenever its id is
   * positive, its hex id is not null, and the email is not one of its keys.
   */
  lemma SaveLoadRoundTrip(store: Option<Properties>, email: string, s: SrnState)
    requires s.id > 0 && s.hex.Some? && s.IsInt32()
    requires email !in Keys(Prefix(s.id))
    ensures SaveSrnInfo(store, email, s).Ok?
    ensures LoadSrnInfo(Some(SaveSrnInfo(store, email, s).value), email) == Ok(Some(s))
  {
    var m := SaveSrnInfo(store, email, s).value;
    var p := Prefix(s.id);
    SavedEntries(store, email, s);
    ParseIntRoundTrip(s.id);
    assert TbLoaderId(Some(m), email) == s.id;
    IntPropertyOf(m, p + IdName, s.id);
    IntPropertyOf(m, p + NextSrnName, s.next);
    IntPropertyOf(m, p + PrimaryBeginName, s.primaryBegin);
    IntPropertyOf(m, p + PrimaryEndName, s.primaryEnd);
    IntPropertyOf(m, p + BackupBeginName, s.backupBegin);
    IntPropertyOf(m, p + BackupEndName, s.backupEnd);
  }

  lemma IntPropertyOf(m: Properties, key: string, v: int)
    requires IsInt32(v) && key in m && m[key] == IntToString(v)
    ensures IntProperty(m, key) == Ok(v)
  {
    ParseIntRoundTrip(v);
  }

  // ---------------------------------------------------------------------------
  // The helper's two operations, on values
  // ---------------------------------------------------------------------------

  /** The helper's state: the user, the published store and the published allocator. */
  datatype Helper = Helper(email: string, store: Option<Properties>, info: Option<SrnState>)

  /** A returned number (or exception), the state afterwards and the size of the block requested (0 for none). */
  datatype Outcome = Outcome(after: Helper, result: Result<int, Exception>, requested: int)

  /** available() of the published allocator, 0 without one. */
  function AvailableOf(info: Option<SrnState>): int
  {
    if info.Some? then info.value.Available() else 0
  }

  /** No allocator, or an empty block. */
  predicate NeedsBlock(info: Option<SrnState>)
  {
    info.None? || info.value.primaryBegin == 0 || info.value.backupBegin == 0
  }

  /**
   * prepareForAllocation; online stands for "authenticated and online", server for
   * the reservation call, storeOk for whether writing the store succeeded.
   */
  function Prepare(h: Helper, online: bool, server: int -> map<string, JsonValue>, storeOk: bool): (r: Outcome)
    ensures r.requested != 0 ==> online && NeedsBlock(h.info)
    ensures r.requested == 0 ==> r == Outcome(h, Ok(AvailableOf(h.info)), 0)
  {
    if !(NeedsBlock(h.info) && online) then Outcome(h, Ok(AvailableOf(h.info)), 0)
    else
      var nBlocks := if h.info.None? || (h.info.value.primaryBegin == 0 && h.info.value.backupBegin == 0) then 2 else 1;
      Refill(h, BlockSize * nBlocks, server, storeOk)
  }

  /**
   * Request n SRNs for a copy of the allocator and publish the copy once it is
   * stored: the helper changes only when the store was written, and then the
   * published store is the one saveSrnInfo made for the published allocator.
   */
  function Refill(h: Helper, n: int, server: int -> map<string, JsonValue>, storeOk: bool): (r: Outcome)
    ensures r.requested == n && r.after.email == h.email
    ensures r.after != h ==>
      storeOk && r.after.info.Some? && r.after.store.Some? &&
      SaveSrnInfo(h.store, h.email, r.after.info.value) == Ok(r.after.store.value)
    ensures r.result.Err? ==> r.after == h
  {
    var a := ApplyMap(h.info.GetOr(Empty), server(n));
    match a.outcome
    case Err(e) => Outcome(h, Err(e), n)
    case Ok(accepted) =>
      if !accepted then Outcome(h, Ok(AvailableOf(h.info)), n)
      else match SaveSrnInfo(h.store, h.email, a.state)
        case Err(e) => Outcome(h, Err(e), n)
        case Ok(st) =>
          var after := if storeOk then h.(store := Some(st), info := Some(a.state)) else h;
          Outcome(after, Ok(AvailableOf(after.info)), n)
  }

  /**
   * allocateNextSrn on values, with the same stand-ins as Prepare: a non-zero SRN
   * is the old nextSrn and is returned only once the store was written; one block
   * is requested, and only when online.
   */
  function NextSrn(h: Helper, online: bool, server: int -> map<string, JsonValue>, storeOk: bool): (r: Outcome)
    ensures r.result.Ok? && r.result.value != 0 ==>
      storeOk && h.info.Some? && h.info.value.HasNext() && r.result.value == h.info.value.next
    ensures r.requested != 0 ==> online && r.requested == BlockSize
    ensures r.after != h ==> storeOk
  {
    if !(h.info.Some? && h.info.value.HasNext()) then Outcome(h, Ok(0), 0)
    else
      var (s1, next) := Allocate(h.info.value);
      var refill := !s1.HasBackup() && online;
      var n := if refill then BlockSize else 0;
      var a := if refill then ApplyMap(s1, server(BlockSize)) else Applied(Ok(false), s1);
      if a.outcome.Err? then Outcome(h, Err(a.outcome.error), n)
      else match SaveSrnInfo(h.store, h.email, a.state)
        case Err(e) => Outcome(h, Err(e), n)
        case Ok(st) =>
          if storeOk then Outcome(h.(store := Some(st), info := Some(a.state)), Ok(next), n)
          else Outcome(h, Ok(0), n)
  }

  /**
   * prepareForAllocation asks for two blocks when there is no allocator or both
   * blocks are empty, for one when exactly one is empty, and for none when both
   * are present or the user is not online.
   */
  lemma PrepareRequestSize(h: Helper, online: bool, server: int -> map<string, JsonValue>, storeOk: bool)
    ensures var o := Prepare(h, online, server, storeOk);
      (o.requested == 2 * BlockSize <==> online && (h.info.None? || (h.info.value.primaryBegin == 0 && h.info.value.backupBegin == 0))) &&
      (o.requested == BlockSize <==> online && h.info.Some? && ((h.info.value.primaryBegin == 0) != (h.info.value.backupBegin == 0))) &&
      (o.requested == 0 <==> !online || (h.info.Some? && h.info.value.primaryBegin != 0 && h.info.value.backupBegin != 0))
  {
  }

  /**
   * prepareForAllocation publishes a new allocator only together with the store it
   * was written to, and only when that store was written; it returns the available
   * count of whatever allocator is published afterwards.
   */
  lemma PreparePublishesOnlyPersisted(h: Helper, online: bool, server: int -> map<string, JsonValue>, storeOk: bool)
    ensures var o := Prepare(h, online, server, storeOk);
      o.after.email == h.email &&
      (o.after != h ==> storeOk && o.after.info.Some? && o.after.store.Some? &&
                        SaveSrnInfo(h.store, h.email, o.after.info.value) == Ok(o.after.store.value)) &&
      (o.result.Ok? ==> o.result.value == AvailableOf(o.after.info)) &&
      (o.result.Err? ==> o.after == h)
  {
  }

  /**
   * Under the corrected reading of the reservation map (a missing number reads as
   * -1), an empty reply (a failed call to the service) leaves the helper as it was
   * and is not an error. As written the source throws ClassCastException here
   * instead (see SrnAllocation.EmptyReservationThrowsAsWritten).
   */
  lemma PrepareWithoutReply(h: Helper, online: bool, storeOk: bool)
    ensures Prepare(h, online, n => map[], storeOk) == Outcome(h, Ok(AvailableOf(h.info)), Prepare(h, online, n => map[], storeOk).requested)
  {
  }

  /**
   * What prepareForAllocation publishes is what the next helper loads back from
   * the store, given a positive id and an email that is not one of its keys.
   */
  lemma PrepareThenLoad(h: Helper, online: bool, server: int -> map<string, JsonValue>, storeOk: bool)
    requires h.info.Some? ==> h.info.value.IsInt32()
    requires var o := Prepare(h, online, server, storeOk);
      o.after != h && o.after.info.value.id > 0 && h.email !in Keys(Prefix(o.after.info.value.id))
    ensures var o := Prepare(h, online, server, storeOk);
      LoadSrnInfo(o.after.store, h.email) == Ok(o.after.info)
  {
    var o := Prepare(h, online, server, storeOk);
    PreparePublishesOnlyPersisted(h, online, server, storeOk);
    var nBlocks := if h.info.None? || (h.info.value.primaryBegin == 0 && h.info.value.backupBegin == 0) then 2 else 1;
    var v := ReservationFromMap(server(BlockSize * nBlocks)).value;
    OperationsStayInt32(h.info.GetOr(Empty), v.id, v.hexid, v.begin, v.end);
    SaveLoadRoundTrip(h.store, h.email, o.after.info.value);
  }

  /**
   * allocateNextSrn hands out a non-zero SRN only when the allocator had one: the
   * old nextSrn, a number it still held, published together with the store that
   * records its use. Otherwise the helper is unchanged.
   */
  lemma AllocateNextSrnHandsOutNext(h: Helper, online: bool, server: int -> map<string, JsonValue>, storeOk: bool)
    ensures var o := NextSrn(h, online, server, storeOk);
      (o.result.Ok? && o.result.value != 0 ==>
         h.info.Some? && h.info.value.HasNext() && o.result.value == h.info.value.next &&
         h.info.value.Remains(o.result.value) && storeOk &&
         o.after.info.Some? && o.after.store.Some? &&
         SaveSrnInfo(h.store, h.email, o.after.info.value) == Ok(o.after.store.value)) &&
      (o.result.Err? || o.result.value == 0 ==> o.after == h)
  {
  }

  /** Without an SRN to hand out, or when the store cannot be written, nothing changes and 0 is returned or an exception raised. */
  lemma AllocateNextSrnFailsSafe(h: Helper, online: bool, server: int -> map<string, JsonValue>, storeOk: bool)
    requires !(h.info.Some? && h.info.value.HasNext()) || !storeOk
    ensures var o := NextSrn(h, online, server, storeOk);
      o.after == h && (o.result.Ok? ==> o.result.value == 0)
  {
  }

  /** A refill is requested, one block, only when the allocation left no backup and the user is online. */
  lemma AllocateNextSrnRefill(h: Helper, online: bool, server: int -> map<string, JsonValue>, storeOk: bool)
    requires h.info.Some? && h.info.value.HasNext()
    ensures var o := NextSrn(h, online, server, storeOk);
      o.requested == (if online && !Allocate(h.info.value).0.HasBackup() then BlockSize else 0)
  {
  }

  // ---------------------------------------------------------------------------
  // The helper object
  // ---------------------------------------------------------------------------

  class TbSrnHelper {
    const email: string
    var store: Option<Properties>
    var info: TbSrnAllocationInfo?

    function Snapshot(): Helper
      reads this, info
    {
      Helper(email, store, if info == null then None else Some(info.State()))
    }

    constructor Of(email: string, store: Option<Properties>, info: Option<SrnState>)
      ensures Snapshot() == Helper(email, store, info)
    {
      this.email := email;
      this.store := store;
      if info.Some? {
        this.info := new TbSrnAllocationInfo.Of(info.value);
      } else {
        this.info := null;
      }
    }

    /** hasAvailableSrn. */
    predicate HasAvailableSrn()
      reads this, info
      ensures HasAvailableSrn() <==> info != null && Allocate(info.State()).1 != 0
    {
      info != null && info.HasNext()
    }

    /** getTbSrnInfo: a copy, so the caller cannot change the published allocator. */
    method GetTbSrnInfo() returns (c: TbSrnAllocationInfo)
      ensures fresh(c)
      ensures c.State() == if info == null then Empty else info.State()
    {
      c := new TbSrnAllocationInfo.Copy(info);
    }

    method PrepareForAllocation(online: bool, server: int -> map<string, JsonValue>, storeOk: bool)
      returns (r: Result<int, Exception>, requested: int)
      modifies this
      ensures var o := Prepare(old(Snapshot()), online, server, storeOk);
        Snapshot() == o.after && r == o.result && requested == o.requested
    {
      if (info == null || info.primaryBegin == 0 || info.backupBegin == 0) && online {
        var nBlocks := if info == null || (info.primaryBegin == 0 && info.backupBegin == 0) then 2 else 1;
        requested := BlockSize * nBlocks;
        r := RefillCopy(requested, server, storeOk);
      } else {
        requested := 0;
        r := Ok(if info != null then info.Available() else 0);
      }
    }

    /** The part of prepareForAllocation that requests SRNs for a copy and publishes it. */
    method RefillCopy(n: int, server: int -> map<string, JsonValue>, storeOk: bool) returns (r: Result<int, Exception>)
      modifies this
      ensures var o := Refill(old(Snapshot()), n, server, storeOk);
        Snapshot() == o.after && r == o.result
    {
      ghost var h := Snapshot();
      var copy := new TbSrnAllocationInfo.Copy(info);
      assert copy.State() == h.info.GetOr(Empty);
      var applied := copy.ApplyReservationMap(server(n));
      ghost var a := ApplyMap(h.info.GetOr(Empty), server(n));
      assert applied == a.outcome && copy.State() == a.state;
      if applied.Err? {
        return Err(applied.error);
      }
      if applied.value {
        var saved := SaveSrnInfo(store, email, copy.State());
        if saved.Err? {
          return Err(saved.error);
        }
        if storeOk {
          info := copy;
          store := Some(saved.value);
        }
      }
      r := Ok(if info != null then info.Available() else 0);
    }

    method AllocateNextSrn(online: bool, server: int -> map<string, JsonValue>, storeOk: bool)
      returns (r: Result<int, Exception>, requested: int)
      modifies this
      ensures var o := NextSrn(old(Snapshot()), online, server, storeOk);
        Snapshot() == o.after && r == o.result && requested == o.requested
    {
      var handedOut := 0;
      requested := 0;
      if info != null && info.HasNext() {
        var copy := new TbSrnAllocationInfo.Copy(info);
        var next := copy.AllocateNext();
        if !copy.HasBackup() && online {
          requested := BlockSize;
          var applied := copy.ApplyReservationMap(server(BlockSize));
          if applied.Err? {
            r := Err(applied.error);
            return;
          }
        }
        var saved := SaveSrnInfo(store, email, copy.State());
        if saved.Err? {
          r := Err(saved.error);
          return;
        }
        if storeOk {
          info := copy;
          store := Some(saved.value);
          handedOut := next;
        }
      }
      r := Ok(handedOut);
    }
  }

  /**
   * The TbSrnHelper(email) constructor, given what loadPropertiesFile read (None
   * when there is no readable file); loadSrnInfo's exceptions propagate.
   */
  method Open(email: string, store: Option<Properties>) returns (r: Result<TbSrnHelper, Exception>)
    ensures LoadSrnInfo(store, email).Err? ==> r == Err(LoadSrnInfo(store, email).error)
    ensures LoadSrnInfo(store, email).Ok? ==>
      r.Ok? && fresh(r.value) && r.value.Snapshot() == Helper(email, store, LoadSrnInfo(store, email).value)
  {
    var loaded := LoadSrnInfo(store, email);
    if loaded.Err? {
      return Err(loaded.error);
    }
    var h := new TbSrnHelper.Of(email, store, loaded.value);
    return Ok(h);
  }
}

=== FILE: android_srn_helper.dfy ===
/**
 * The Android TB-Loader's SRN helper: it keeps the allocator in shared
 * preferences (the user's email mapped to the TB-Loader id, seven entries under
 * "<id>."), updates the allocator in place, and asks the reservation service for
 * more SRNs when a block is empty. The service's asynchronous callbacks are
 * modelled as a reply that is already known: Some(reservation) or None for failure.
 */
module AndroidSrnHelper {
  import opened Wrappers
  import opened SrnAllocation

  /** A stored preference value. */
  datatype PrefValue = IntPref(i: int) | StringPref(s: string)

  type Prefs = map<string, PrefValue>

  /** getInt(key, default); a string stored under the key cannot be cast. */
  function GetInt(p: Prefs, key: string, default: int): Result<int, Exception>
  {
    if key !in p then Ok(default)
    else match p[key]
      case IntPref(i) => Ok(i)
      case StringPref(_) => Err(ClassCastException)
  }

  /** getString(key, default). */
  function GetString(p: Prefs, key: string, default: string): Result<string, Exception>
  {
    if key !in p then Ok(default)
    else match p[key]
      case StringPref(s) => Ok(s)
      case IntPref(_) => Err(ClassCastException)
  }

  /**
   * toPrefs: the email mapped to the id and the seven fields under the id's
   * prefix; a null hex id (putString of null) removes its entry.
   */
  function ToPrefs(p: Prefs, email: string, s: SrnState): (r: Prefs)
    ensures forall k :: k in p && k != email && k !in Keys(Prefix(s.id)) ==> k in r && r[k] == p[k]
  {
    var pre := Prefix(s.id);
    var withId := p[email := IntPref(s.id)][pre + IdName := IntPref(s.id)];
    var withHex := if s.hex.Some? then withId[pre + HexIdName := StringPref(s.hex.value)] else withId - {pre + HexIdName};
    withHex[pre + NextSrnName := IntPref(s.next)]
           [pre + PrimaryBeginName := IntPref(s.primaryBegin)]
           [pre + PrimaryEndName := IntPref(s.primaryEnd)]
           [pre + BackupBeginName := IntPref(s.backupBegin)]
           [pre + BackupEndName := IntPref(s.backupEnd)]
  }

  /**
   * fromPrefs: the allocator stored under the id's prefix, with defaults for
   * missing entries, or None unless the stored id is the one asked for and nextSrn
   * lies in the primary block.
   */
  function FromPrefs(p: Prefs, id: int): (r: Result<Option<SrnState>, Exception>)
    ensures r.Ok? && r.value.Some? ==>
      r.value.value.id == id && r.value.value.hex.Some? &&
      r.value.value.primaryBegin <= r.value.value.next < r.value.value.primaryEnd
    ensures r.Err? ==> r.error == ClassCastException
  {
    var pre := Prefix(id);
    var tbloaderid := GetInt(p, pre + IdName, -1);
    var hex := GetString(p, pre + HexIdName, "");
    var next := GetInt(p, pre + NextSrnName, -1);
    var primaryBegin := GetInt(p, pre + PrimaryBeginName, 0);
    var primaryEnd := GetInt(p, pre + PrimaryEndName, 0);
    var backupBegin := GetInt(p, pre + BackupBeginName, 0);
    var backupEnd := GetInt(p, pre + BackupEndName, 0);
    if tbloaderid.Err? || hex.Err? || next.Err? || primaryBegin.Err? || primaryEnd.Err? || backupBegin.Err? || backupEnd.Err? then
      Err(ClassCastException)
    else if tbloaderid.value == id && primaryBegin.value <= next.value < primaryEnd.value then
      Ok(Some(SrnState(id, Some(hex.value), next.value, primaryBegin.value, primaryEnd.value, backupBegin.value, backupEnd.value)))
    else Ok(None)
  }

  /** The entries toPrefs writes, read back one by one. */
  lemma WrittenEntries(p: Prefs, email: string, s: SrnState)
    ensures var r := ToPrefs(p, email, s); var pre := Prefix(s.id);
      pre + IdName in r && r[pre + IdName] == IntPref(s.id) &&
      (s.hex.Some? ==> pre + HexIdName in r && r[pre + HexIdName] == StringPref(s.hex.value)) &&
      (s.hex.None? ==> pre + HexIdName !in r) &&
      pre + NextSrnName in r && r[pre + NextSrnName] == IntPref(s.next) &&
      pre + PrimaryBeginName in r && r[pre + PrimaryBeginName] == IntPref(s.primaryBegin) &&
      pre + PrimaryEndName in r && r[pre + PrimaryEndName] == IntPref(s.primaryEnd) &&
      pre + BackupBeginName in r && r[pre + BackupBeginName] == IntPref(s.backupBegin) &&
      pre + BackupEndName in r && r[pre + BackupEndName] == IntPref(s.backupEnd)
  {
    var pre := Prefix(s.id);
    KeysDistinct(pre);
    var k := Keys(pre);
    assert k[0] == pre + IdName && k[1] == pre + HexIdName && k[2] == pre + NextSrnName;
    assert k[3] == pre + PrimaryBeginName && k[4] == pre + PrimaryEndName;
    assert k[5] == pre + BackupBeginName && k[6] == pre + BackupEndName;
    assert k[0] != k[1] && k[0] != k[2] && k[0] != k[3] && k[0] != k[4] && k[0] != k[5] && k[0] != k[6];
    assert k[1] != k[2] && k[1] != k[3] && k[1] != k[4] && k[1] != k[5] && k[1] != k[6];
    assert k[2] != k[3] && k[2] != k[4] && k[2] != k[5] && k[2] != k[6];
    assert k[3] != k[4] && k[3] != k[5] && k[3] != k[6];
    assert k[4] != k[5] && k[4] != k[6] && k[5] != k[6];
  }

  /**
   * fromPrefs over what toPrefs wrote gives the allocator back, with a null hex id
   * read as "", exactly when its nextSrn lies in its primary block.
   */
  lemma PrefsRoundTrip(p: Prefs, email: string, s: SrnState)
    ensures FromPrefs(ToPrefs(p, email, s), s.id) ==
      Ok(if s.primaryBegin <= s.next < s.primaryEnd then Some(s.(hex := Some(s.hex.GetOr("")))) else None)
  {
    WrittenEntries(p, email, s);
  }

  /** getInt(email, -1): the TB-Loader id recorded for the user. */
  function StoredId(p: Prefs, email: string): Result<int, Exception>
  {
    GetInt(p, email, -1)
  }

  /**
   * How prepareForAllocation obtains its allocator AS WRITTEN: a non-negative
   * stored id is loaded with fromPrefs, and a null result is dereferenced at once.
   */
  function LoadAsWritten(p: Prefs, email: string): (r: Result<SrnState, Exception>)
    ensures r.Err? ==> r.error == ClassCastException || r.error == NullPointerException
    ensures r.Ok? && r.value != Empty ==> r.value.primaryBegin <= r.value.next < r.value.primaryEnd
  {
    match StoredId(p, email)
    case Err(e) => Err(e)
    case Ok(id) =>
      if id >= 0 then
        match FromPrefs(p, id)
        case Err(e) => Err(e)
        case Ok(None) => Err(NullPointerException)
        case Ok(Some(s)) => Ok(s)
      else Ok(Empty)
  }

  /** The allocator obtained as intended: a stored allocator that cannot be used is replaced by a new one. */
  function Load(p: Prefs, email: string): (r: Result<SrnState, Exception>)
    ensures r.Err? ==> r.error == ClassCastException
    ensures r != LoadAsWritten(p, email) ==> LoadAsWritten(p, email) == Err(NullPointerException) && r == Ok(Empty)
  {
    match StoredId(p, email)
    case Err(e) => Err(e)
    case Ok(id) =>
      if id >= 0 then
        match FromPrefs(p, id)
        case Err(e) => Err(e)
        case Ok(None) => Ok(Empty)
        case Ok(Some(s)) => Ok(s)
      else Ok(Empty)
  }

  /**
   * The allocator that hands out the last SRN of its primary block with no backup
   * is stored with nextSrn, primaryBegin and primaryEnd all 0; as written, the next
   * prepareForAllocation that has to load it fails with a NullPointerException.
   */
  lemma ExhaustedAllocatorFailsToLoadAsWritten(p: Prefs, email: string, s: SrnState)
    requires s.HasNext() && s.next + 1 == s.primaryEnd && s.backupBegin == 0 && s.backupEnd == 0
    requires s.id >= 0 && email !in Keys(Prefix(s.id))
    ensures var t := Allocate(s).0;
      t.primaryBegin == 0 && t.primaryEnd == 0 && t.next == 0 &&
      LoadAsWritten(ToPrefs(p, email, t), email) == Err(NullPointerException)
  {
    var t := Allocate(s).0;
    assert t.id == s.id;
    PrefsRoundTrip(p, email, t);
    WrittenEntries(p, email, t);
    KeysDistinct(Prefix(t.id));
    var q := ToPrefs(p, email, t);
    assert email in q && q[email] == IntPref(s.id);
  }

  /** As intended, the same preferences give a new, empty allocator, for which two blocks will be requested. */
  lemma ExhaustedAllocatorLoadsEmpty(p: Prefs, email: string, s: SrnState)
    requires s.HasNext() && s.next + 1 == s.primaryEnd && s.backupBegin == 0 && s.backupEnd == 0
    requires s.id >= 0 && email !in Keys(Prefix(s.id))
    ensures Load(ToPrefs(p, email, Allocate(s).0), email) == Ok(Empty)
  {
    var t := Allocate(s).0;
    PrefsRoundTrip(p, email, t);
    WrittenEntries(p, email, t);
    var q := ToPrefs(p, email, t);
    assert email in q && q[email] == IntPref(s.id);
  }

  // ---------------------------------------------------------------------------
  // The helper's operations, on values
  // ---------------------------------------------------------------------------

  /** The helper's state: user, preferences, allocator (None for null) and cached block size (-1 before the first use). */
  datatype Droid = Droid(email: string, prefs: Prefs, info: Option<SrnState>, blockSize: int)

  /** Config.Listener's two callbacks. */
  datatype Signal = Success | Failure

  /** allocateNextSrn's two callbacks. */
  datatype Allocation = Allocated(srn: int) | NoSrn

  /** What an operation reports (or throws), the state afterwards and the number of SRNs requested (0 for none). */
  datatype Step<T> = Step(after: Droid, result: Result<T, Exception>, requested: int)

  /** The developer gets very small blocks. */
  function BlockSizeFor(email: string): int
  {
    if email == "bill@amplio.org" then 2 else 20
  }

  /** blocksize(): computed once, from the signed-in user's email, then cached. */
  function CachedBlockSize(d: Droid): int
  {
    if d.blockSize < 0 then BlockSizeFor(d.email) else d.blockSize
  }

  /** getSrnBlock, with server standing for the reservation call and its callbacks. */
  function SrnBlock(d: Droid, server: int -> Option<Reservation>): (r: Step<Signal>)
    ensures r.after.email == d.email && r.after.info.Some? == d.info.Some?
  {
    var nBlocks := if d.info.None? || d.info.value.primaryBegin == 0 then 2 else 1;
    var size := CachedBlockSize(d);
    var n := nBlocks * size;
    var d1 := d.(blockSize := size);
    if d.info.None? then Step(d1, Err(NullPointerException), n)
    else match server(n)
      case Some(v) =>
        var a := Apply(d.info.value, v.id, v.hexid, v.begin, v.end);
        if a.outcome.Err? then Step(d1.(info := Some(a.state)), Err(a.outcome.error), n)
        else Step(d1.(info := Some(a.state), prefs := ToPrefs(d.prefs, d.email, a.state)), Ok(Success), n)
      case None =>
        Step(d1, Ok(if d.info.value.HasNext() then Success else Failure), n)
  }

  /**
   * prepareForAllocation, for the signed-in user authEmail: afterwards there is an
   * allocator unless loading it failed, and failure is reported only when that
   * allocator has no SRN left.
   */
  function Prepare(d: Droid, authEmail: string, server: int -> Option<Reservation>): (r: Step<Signal>)
    ensures r.after.email == authEmail
    ensures r.after.info.None? ==> r.result.Err? && r.requested == 0
    ensures r.result == Ok(Failure) ==> r.after.info.Some? && !r.after.info.value.HasNext()
  {
    var d0 := d.(email := authEmail);
    if d0.info.None? then
      match Load(d0.prefs, authEmail)
      case Err(e) => Step(d0, Err(e), 0)
      case Ok(s) => PrepareLoaded(d0.(info := Some(s)), server)
    else PrepareLoaded(d0, server)
  }

  /** The part of prepareForAllocation after the allocator is loaded. */
  function PrepareLoaded(d: Droid, server: int -> Option<Reservation>): Step<Signal>
    requires d.info.Some?
  {
    if d.info.value.primaryBegin == 0 || d.info.value.backupBegin == 0 then SrnBlock(d, server)
    else Step(d, Ok(Success), 0)
  }

  /** Allocate one SRN in place and persist the allocator. */
  function AllocateAndStore(d: Droid): Step<Allocation>
    requires d.info.Some?
  {
    var (s, n) := Allocate(d.info.value);
    Step(d.(info := Some(s), prefs := ToPrefs(d.prefs, d.email, s)), Ok(Allocated(n)), 0)
  }

  /**
   * allocateNextSrn: with an SRN left it hands out nextSrn; it reports that no SRN
   * is available only when the allocator it is left with has none.
   */
  function NextSrn(d: Droid, server: int -> Option<Reservation>): (r: Step<Allocation>)
    ensures r.after.email == d.email
    ensures d.info.Some? && d.info.value.HasNext() ==> r.result == Ok(Allocated(d.info.value.next)) && r.requested == 0
    ensures r.result == Ok(NoSrn) ==> r.after.info.Some? && !r.after.info.value.HasNext()
  {
    if d.info.None? then Step(d, Err(NullPointerException), 0)
    else if d.info.value.HasNext() then AllocateAndStore(d)
    else
      var b := SrnBlock(d, server);
      match b.result
      case Err(e) => Step(b.after, Err(e), b.requested)
      case Ok(Failure) => Step(b.after, Ok(NoSrn), b.requested)
      case Ok(Success) => AllocateAndStore(b.after).(requested := b.requested)
  }

  /**
   * getSrnBlock asks for two blocks when there is no allocator or no primary
   * block, and for one otherwise, of 2 SRNs for the developer and 20 for everyone else.
   */
  lemma SrnBlockRequestSize(d: Droid, server: int -> Option<Reservation>)
    requires d.blockSize < 0 || d.blockSize == BlockSizeFor(d.email)
    ensures var r := SrnBlock(d, server);
      r.requested == (if d.info.None? || d.info.value.primaryBegin == 0 then 2 else 1) * BlockSizeFor(d.email) &&
      r.after.blockSize == BlockSizeFor(d.email)
  {
  }

  /** When the service fails, getSrnBlock changes no allocator or preference and reports success iff an SRN is left. */
  lemma SrnBlockOnServiceFailure(d: Droid, server: int -> Option<Reservation>)
    requires d.info.Some?
    requires server(SrnBlock(d, server).requested) == None
    ensures var r := SrnBlock(d, server);
      r.after.info == d.info && r.after.prefs == d.prefs &&
      (r.result == Ok(Success) <==> d.info.value.HasNext()) && (r.result == Ok(Failure) <==> !d.info.value.HasNext())
  {
  }

  /** On a reply, getSrnBlock stores the updated allocator so that it loads back whenever it has an SRN left. */
  lemma SrnBlockPersistsReply(d: Droid, server: int -> Option<Reservation>)
    requires d.info.Some?
    requires server(SrnBlock(d, server).requested).Some?
    requires SrnBlock(d, server).result.Ok?
    ensures var r := SrnBlock(d, server); var s := r.after.info.value;
      r.result == Ok(Success) && r.after.prefs == ToPrefs(d.prefs, d.email, s) &&
      (s.HasNext() ==> FromPrefs(r.after.prefs, s.id) == Ok(Some(s.(hex := Some(s.hex.GetOr(""))))))
  {
    var r := SrnBlock(d, server);
    PrefsRoundTrip(d.prefs, d.email, r.after.info.value);
  }

  /** prepareForAllocation calls the service exactly when the loaded allocator has an empty block; otherwise it succeeds at once. */
  lemma PrepareFetchesOnlyForEmptyBlock(d: Droid, authEmail: string, server: int -> Option<Reservation>)
    requires d.blockSize < 0 || d.blockSize == BlockSizeFor(authEmail)
    requires d.info.Some? || Load(d.prefs, authEmail).Ok?
    ensures var s := if d.info.Some? then d.info.value else Load(d.prefs, authEmail).value;
      var r := Prepare(d, authEmail, server);
      (r.requested > 0 <==> s.primaryBegin == 0 || s.backupBegin == 0) &&
      (r.requested == 0 ==> r.result == Ok(Success) && r.after.info == Some(s) && r.after.prefs == d.prefs)
  {
  }

  /** With an SRN left, allocateNextSrn hands out nextSrn without calling the service and stores the allocator. */
  lemma NextSrnWithoutService(d: Droid, server: int -> Option<Reservation>)
    requires d.info.Some? && d.info.value.HasNext()
    ensures var r := NextSrn(d, server); var s := Allocate(d.info.value).0;
      r.requested == 0 && r.result == Ok(Allocated(d.info.value.next)) &&
      d.info.value.Remains(d.info.value.next) &&
      r.after.info == Some(s) && r.after.prefs == ToPrefs(d.prefs, d.email, s)
  {
  }

  /** Without an SRN left, allocateNextSrn reports failure only when the service fails, and otherwise allocates from the refilled allocator. */
  lemma NextSrnAfterRefill(d: Droid, server: int -> Option<Reservation>)
    requires d.info.Some? && !d.info.value.HasNext()
    ensures var b := SrnBlock(d, server); var r := NextSrn(d, server);
      r.requested == b.requested &&
      (r.result == Ok(NoSrn) <==> b.result == Ok(Failure)) &&
      (b.result == Ok(Success) ==> r.result == Ok(Allocated(Allocate(b.after.info.value).1)))
  {
  }

  // ---------------------------------------------------------------------------
  // The helper object
  // ---------------------------------------------------------------------------

  class TbSrnHelper {
    var email: string
    var prefs: Prefs
    var info: TbSrnAllocationInfo?
    var blockSize: int

    function Snapshot(): Droid
      reads this, info
    {
      Droid(email, prefs, if info == null then None else Some(info.State()), blockSize)
    }

    /** A helper over the app's preferences, before any user has signed in. */
    constructor (prefs: Prefs)
      ensures Snapshot() == Droid("", prefs, None, -1)
    {
      this.email := "";
      this.prefs := prefs;
      this.info := null;
      this.blockSize := -1;
    }

    method Blocksize() returns (size: int)
      modifies this
      ensures size == CachedBlockSize(old(Snapshot()))
      ensures Snapshot() == old(Snapshot()).(blockSize := size)
      ensures info == old(info)
    {
      if blockSize < 0 {
        blockSize := BlockSizeFor(email);
      }
      size := blockSize;
    }

    method GetSrnBlock(server: int -> Option<Reservation>) returns (r: Result<Signal, Exception>, requested: int)
      modifies this, info
      ensures var o := SrnBlock(old(Snapshot()), server);
        Snapshot() == o.after && r == o.result && requested == o.requested
      ensures info == old(info)
    {
      var nBlocks := if info == null || info.primaryBegin == 0 then 2 else 1;
      var size := Blocksize();
      requested := nBlocks * size;
      if info == null {
        r := Err(NullPointerException);
        return;
      }
      var reply := server(requested);
      if reply.Some? {
        var v := reply.value;
        var applied := info.ApplyReservation(v.id, v.hexid, v.begin, v.end);
        if applied.Err? {
          r := Err(applied.error);
          return;
        }
        prefs := ToPrefs(prefs, email, info.State());
        r := Ok(Success);
      } else {
        r := Ok(if info.HasNext() then Success else Failure);
      }
    }

    method PrepareForAllocation(authEmail: string, server: int -> Option<Reservation>)
      returns (r: Result<Signal, Exception>, requested: int)
      modifies this, info
      ensures var o := Prepare(old(Snapshot()), authEmail, server);
        Snapshot() == o.after && r == o.result && requested == o.requested
    {
      email := authEmail;
      if info == null {
        var loaded := Load(prefs, email);
        if loaded.Err? {
          r, requested := Err(loaded.error), 0;
          return;
        }
        info := new TbSrnAllocationInfo.Of(loaded.value);
      }
      if info.primaryBegin == 0 || info.backupBegin == 0 {
        r, requested := GetSrnBlock(server);
      } else {
        r, requested := Ok(Success), 0;
      }
    }

    method AllocateNextSrn(server: int -> Option<Reservation>) returns (r: Result<Allocation, Exception>, requested: int)
      modifies this, info
      ensures var o := NextSrn(old(Snapshot()), server);
        Snapshot() == o.after && r == o.result && requested == o.requested
    {
      requested := 0;
      if info == null {
        r := Err(NullPointerException);
        return;
      }
      if !info.HasNext() {
        var signal;
        signal, requested := GetSrnBlock(server);
        if signal.Err? {
          r := Err(signal.error);
          return;
        }
        if signal.value == Failure {
          r := Ok(NoSrn);
          return;
        }
      }
      var next := info.AllocateNext();
      prefs := ToPrefs(prefs, email, info.State());
      r := Ok(Allocated(next));
    }
  }
}

=== FILE: application_filter_state.dfy ===
/**
 * The ACM main window's search filter: a search string, categories, languages and a
 * selected playlist. Every change re-runs the search unless the filter's text form shows
 * that nothing changed since the last search.
 */
module Application {
  import opened Wrappers
  import opened JavaStrings

  /** A language filter: a locale's language and country. */
  datatype Locale = Locale(language: string, country: string)

  /** The searches the filter runs, with the arguments the search service gets. */
  datatype Query =
    | FilterQuery(filterString: Option<string>, categories: Option<seq<string>>, languages: Option<seq<Locale>>)
    | PlaylistQuery(filterString: Option<string>, playlist: string)

  /** The pieces of toString, each of which is followed by a comma. */
  function Pieces(filterString: Option<string>, categories: Option<seq<string>>, languages: Option<seq<Locale>>, playlist: Option<string>): seq<string>
  {
    (if filterString.Some? then ["FS:" + filterString.value] else []) +
    CategoryPieces(categories.GetOr([])) +
    LanguagePieces(languages.GetOr([])) +
    (if playlist.Some? then ["ST:" + playlist.value] else [])
  }

  /** "FC:<uuid>" per category, in order. */
  function CategoryPieces(uuids: seq<string>): (r: seq<string>)
    ensures |r| == |uuids| && forall i :: 0 <= i < |uuids| ==> r[i] == "FC:" + uuids[i]
  {
    if uuids == [] then [] else ["FC:" + uuids[0]] + CategoryPieces(uuids[1..])
  }

  /** "FL:<language>-<country>" per language, in order. */
  function LanguagePieces(langs: seq<Locale>): (r: seq<string>)
    ensures |r| == |langs| && forall i :: 0 <= i < |langs| ==> r[i] == LanguagePiece(langs[i])
  {
    if langs == [] then [] else [LanguagePiece(langs[0])] + LanguagePieces(langs[1..])
  }

  function LanguagePiece(l: Locale): string
  {
    "FL:" + l.language + "-" + l.country
  }

  /** Each piece followed by a comma. */
  function Terminated(pieces: seq<string>): string
  {
    if pieces == [] then "" else pieces[0] + "," + Terminated(pieces[1..])
  }

  lemma {:induction false} TerminatedAppend(a: seq<string>, b: seq<string>)
    ensures Terminated(a + b) == Terminated(a) + Terminated(b)
  {
    if a == [] {
      assert a + b == b;
    } else {
      assert (a + b)[1..] == a[1..] + b;
      TerminatedAppend(a[1..], b);
    }
  }

  /** With no comma inside any piece, splitting the text on commas gives the pieces back, then "". */
  lemma {:induction false} TerminatedSplit(pieces: seq<string>)
    requires forall i :: 0 <= i < |pieces| ==> ',' !in pieces[i]
    ensures SplitOn(Terminated(pieces), ',') == pieces + [""]
  {
    if pieces == [] {
      SplitOnWord("", ',');
    } else {
      TerminatedSplit(pieces[1..]);
      assert Terminated(pieces) == pieces[0] + [','] + Terminated(pieces[1..]);
      SplitOnCons(pieces[0], Terminated(pieces[1..]), ',');
      assert [pieces[0]] + (pieces[1..] + [""]) == pieces + [""];
    }
  }

  /** The same text stands for different filters once a search string holds a comma. */
  lemma TextIsAmbiguous()
    ensures Terminated(Pieces(Some("a,FC:b"), Option.None, Option.None, Option.None)) ==
            Terminated(Pieces(Some("a"), Some(["b"]), Option.None, Option.None))
  {
    var none: seq<string> := [];
    assert CategoryPieces(none) == [] && LanguagePieces([]) == [];
    var b := ["b"];
    assert b[1..] == none;
    assert "FC:" + "b" == "FC:b";
    assert CategoryPieces(b) == ["FC:b"] + CategoryPieces(none);
    assert "FS:" + "a,FC:b" == "FS:a,FC:b" && "FS:" + "a" == "FS:a";
    assert Pieces(Some("a,FC:b"), Option.None, Option.None, Option.None) == ["FS:a,FC:b"];
    assert Pieces(Some("a"), Some(["b"]), Option.None, Option.None) == ["FS:a", "FC:b"];
    assert Terminated(["FS:a,FC:b"]) == "FS:a,FC:b" + "," + Terminated([]);
    assert Terminated(["FS:a", "FC:b"]) == "FS:a" + "," + ("FC:b" + "," + Terminated([]));
  }

  /**
   * What updateResult does to the remembered text and the searches run: unless forced, an
   * unchanged text runs nothing; otherwise the text is remembered and the query runs.
   */
  function AfterUpdate(previous: Option<string>, queries: seq<Query>, text: string, query: Query, force: bool): (r: (Option<string>, seq<Query>))
    ensures !force && previous == Some(text) ==> r == (previous, queries)
    ensures force || previous != Some(text) ==> r == (Some(text), queries + [query])
  {
    if !force && previous.Some? && previous.value == text then (previous, queries)
    else (Some(text), queries + [query])
  }

  /** A second update with nothing changed runs no second search. */
  lemma UpdateIsIdempotent(previous: Option<string>, queries: seq<Query>, text: string, query: Query, force: bool)
    ensures var (p, q) := AfterUpdate(previous, queries, text, query, force);
      AfterUpdate(p, q, text, query, false) == (p, q)
  {
  }

  class FilterState {
    var previousFilterState: Option<string>
    var filterString: Option<string>
    var filterCategories: Option<seq<string>>
    var filterLanguages: Option<seq<Locale>>
    var selectedPlaylist: Option<string>
    /** The searches run, in order. */
    var queries: seq<Query>

    constructor ()
      ensures previousFilterState.None? && filterString.None? && filterCategories.None?
      ensures filterLanguages.None? && selectedPlaylist.None? && queries == []
    {
      previousFilterState := Option.None;
      filterString := Option.None;
      filterCategories := Option.None;
      filterLanguages := Option.None;
      selectedPlaylist := Option.None;
      queries := [];
    }

    /** The text form of the filter. */
    function Text(): string
      reads this
    {
      Terminated(Pieces(filterString, filterCategories, filterLanguages, selectedPlaylist))
    }

    /** The search for the current filter: by playlist when one is selected. */
    function CurrentQuery(): (q: Query)
      reads this
      ensures q.PlaylistQuery? <==> selectedPlaylist.Some?
      ensures q.filterString == filterString
    {
      if selectedPlaylist.None? then FilterQuery(filterString, filterCategories, filterLanguages)
      else PlaylistQuery(filterString, selectedPlaylist.value)
    }

    /** toString, built piece by piece. */
    method ToString() returns (s: string)
      ensures s == Text()
    {
      s := "";
      ghost var head: seq<string> := [];
      if filterString.Some? {
        s := s + "FS:" + filterString.value + ",";
        head := ["FS:" + filterString.value];
        assert Terminated(head) == "FS:" + filterString.value + "," + Terminated([]);
      }
      s := AppendCategories(s, head, filterCategories.GetOr([]));
      head := head + CategoryPieces(filterCategories.GetOr([]));
      s := AppendLanguages(s, head, filterLanguages.GetOr([]));
      head := head + LanguagePieces(filterLanguages.GetOr([]));
      if selectedPlaylist.Some? {
        assert head + [] == head;
        PiecesStep(head, [], "ST:" + selectedPlaylist.value);
        assert head + ([] + ["ST:" + selectedPlaylist.value]) == head + ["ST:" + selectedPlaylist.value];
        s := s + "ST:" + selectedPlaylist.value + ",";
      } else {
        assert head + [] == head;
      }
      assert Pieces(filterString, filterCategories, filterLanguages, selectedPlaylist) ==
        head + (if selectedPlaylist.Some? then ["ST:" + selectedPlaylist.value] else []);
    }

    /** updateResult(force). */
    method UpdateResult(force: bool)
      modifies this`previousFilterState, this`queries
      ensures (previousFilterState, queries) == AfterUpdate(old(previousFilterState), old(queries), Text(), CurrentQuery(), force)
    {
      var text := ToString();
      if !force && previousFilterState.Some? && previousFilterState.value == text {
        return;
      }
      previousFilterState := Some(text);
      queries := queries + [CurrentQuery()];
    }

    method SetFilterString(value: Option<string>)
      modifies this`filterString, this`previousFilterState, this`queries
      ensures filterString == value
      ensures (previousFilterState, queries) == AfterUpdate(old(previousFilterState), old(queries), Text(), CurrentQuery(), false)
    {
      filterString := value;
      UpdateResult(false);
    }

    method SetFilterCategories(value: Option<seq<string>>)
      modifies this`filterCategories, this`previousFilterState, this`queries
      ensures filterCategories == value
      ensures (previousFilterState, queries) == AfterUpdate(old(previousFilterState), old(queries), Text(), CurrentQuery(), false)
    {
      filterCategories := value;
      UpdateResult(false);
    }

    method SetFilterLanguages(value: Option<seq<Locale>>)
      modifies this`filterLanguages, this`previousFilterState, this`queries
      ensures filterLanguages == value
      ensures (previousFilterState, queries) == AfterUpdate(old(previousFilterState), old(queries), Text(), CurrentQuery(), false)
    {
      filterLanguages := value;
      UpdateResult(false);
    }

    method SetSelectedTag(value: Option<string>)
      modifies this`selectedPlaylist, this`previousFilterState, this`queries
      ensures selectedPlaylist == value
      ensures (previousFilterState, queries) == AfterUpdate(old(previousFilterState), old(queries), Text(), CurrentQuery(), false)
    {
      selectedPlaylist := value;
      UpdateResult(false);
    }
  }

  /** The category loop of toString. */
  method AppendCategories(s0: string, ghost head: seq<string>, cats: seq<string>) returns (s: string)
    requires s0 == Terminated(head)
    ensures s == Terminated(head + CategoryPieces(cats))
  {
    s := s0;
    assert head + [] == head;
    for i := 0 to |cats|
      invariant s == Terminated(head + CategoryPieces(cats[..i]))
    {
      CategoryStep(head, cats, i, s);
      s := s + ("FC:" + cats[i] + ",");
    }
    assert cats[..|cats|] == cats;
  }

  /** The language loop of toString. */
  method AppendLanguages(s0: string, ghost head: seq<string>, langs: seq<Locale>) returns (s: string)
    requires s0 == Terminated(head)
    ensures s == Terminated(head + LanguagePieces(langs))
  {
    s := s0;
    assert head + [] == head;
    for i := 0 to |langs|
      invariant s == Terminated(head + LanguagePieces(langs[..i]))
    {
      LanguageStep(head, langs, i, s);
      s := s + (LanguagePiece(langs[i]) + ",");
    }
    assert langs[..|langs|] == langs;
  }

  /** One more piece of toString. */
  lemma PiecesStep(head: seq<string>, done: seq<string>, piece: string)
    ensures Terminated(head + (done + [piece])) == Terminated(head + done) + piece + ","
  {
    assert head + (done + [piece]) == (head + done) + [piece];
    TerminatedAppend(head + done, [piece]);
    assert Terminated([piece]) == piece + ",";
  }

  lemma CategoryStep(head: seq<string>, cats: seq<string>, i: nat, s: string)
    requires i < |cats| && s == Terminated(head + CategoryPieces(cats[..i]))
    ensures s + ("FC:" + cats[i] + ",") == Terminated(head + CategoryPieces(cats[..i + 1]))
  {
    PiecesStep(head, CategoryPieces(cats[..i]), "FC:" + cats[i]);
    CategoryPiecesSnoc(cats, i);
  }

  lemma LanguageStep(head: seq<string>, langs: seq<Locale>, i: nat, s: string)
    requires i < |langs| && s == Terminated(head + LanguagePieces(langs[..i]))
    ensures s + (LanguagePiece(langs[i]) + ",") == Terminated(head + LanguagePieces(langs[..i + 1]))
  {
    PiecesStep(head, LanguagePieces(langs[..i]), LanguagePiece(langs[i]));
    LanguagePiecesSnoc(langs, i);
  }

  lemma CategoryPiecesSnoc(uuids: seq<string>, i: nat)
    requires i < |uuids|
    ensures CategoryPieces(uuids[..i + 1]) == CategoryPieces(uuids[..i]) + ["FC:" + uuids[i]]
  {
  }

  lemma LanguagePiecesSnoc(langs: seq<Locale>, i: nat)
    requires i < |langs|
    ensures LanguagePieces(langs[..i + 1]) == LanguagePieces(langs[..i]) + [LanguagePiece(langs[i])]
  {
  }
}

=== FILE: assistant_page.dfy ===
/**
 * The playlist-name helpers of the assistant pages: a playlist title is stored in the
 * content database "decorated" with its deployment number and language
 * (`1-Health_Tips-swh`), and the assistants recover the title from such a name with the
 * regular expression `\d+-(.*)-\w+`. Also the SizingParams column helper.
 */
module AssistantPage {
  import opened Wrappers
  import opened JavaStrings

  // ---------------------------------------------------------------------------
  // java.util.regex character classes
  // ---------------------------------------------------------------------------

  /** What `.` does not match by default: the Java line terminators. */
  predicate IsLineTerminator(c: char)
  {
    c == '\n' || c == '\r' || c == '\U{85}' || c == '\U{2028}' || c == '\U{2029}'
  }

  predicate NoLineTerminator(s: string) { forall i :: 0 <= i < |s| ==> !IsLineTerminator(s[i]) }

  /** The length of the run of digits that starts s. */
  function LeadingDigits(s: string): (k: nat)
    ensures k <= |s| && AllDigits(s[..k])
    ensures k < |s| ==> !IsDigit(s[k])
  {
    if |s| == 0 || !IsDigit(s[0]) then 0 else 1 + LeadingDigits(s[1..])
  }

  /**
   * A full match of `\d+-(.*)-\w+`, split into the digits, group 1 and the word.
   * `\d+` can only end where the digits end, and `\w` holds no '-', so the
   * greedy group ends at the last '-'.
   */
  function SplitDecorated(s: string): (r: Option<(string, string, string)>)
    ensures r.Some? ==> s == r.value.0 + "-" + r.value.1 + "-" + r.value.2
    ensures r.Some? ==> |r.value.0| > 0 && AllDigits(r.value.0)
    ensures r.Some? ==> NoLineTerminator(r.value.1)
    ensures r.Some? ==> |r.value.2| > 0 && AllWord(r.value.2)
  {
    var k := LeadingDigits(s);
    if k == 0 || k == |s| || s[k] != '-' then None
    else
      var rest := s[k + 1..];
      var j := LastIndexOf(rest, '-');
      if j < 0 || j + 1 == |rest| || !AllWord(rest[j + 1..]) || !NoLineTerminator(rest[..j]) then None
      else
        assert s == s[..k] + "-" + rest[..j] + "-" + rest[j + 1..];
        Some((s[..k], rest[..j], rest[j + 1..]))
  }

  /** The digits of a decorated name end at its first '-'. */
  lemma LeadingDigitsOf(d: string, tail: string)
    requires |d| > 0 && AllDigits(d)
    ensures LeadingDigits(d + "-" + tail) == |d|
  {
    var s := d + "-" + tail;
    var k := LeadingDigits(s);
    assert s[|d|] == '-';
  }

  /**
   * The regular expression matches d-g-w for every digit string d, word w and group g
   * without line terminators, and group 1 is g: with SplitDecorated's ensures, the
   * split is exactly the match relation of the pattern.
   */
  lemma SplitDecoratedComplete(d: string, g: string, w: string)
    requires |d| > 0 && AllDigits(d)
    requires NoLineTerminator(g)
    requires |w| > 0 && AllWord(w)
    ensures SplitDecorated(d + "-" + g + "-" + w) == Some((d, g, w))
  {
    var s := d + "-" + g + "-" + w;
    assert s == d + "-" + (g + "-" + w);
    LeadingDigitsOf(d, g + "-" + w);
    var rest := s[|d| + 1..];
    assert rest == g + "-" + w;
    var j := LastIndexOf(rest, '-');
    assert rest[|g|] == '-';
    assert j == |g|;
    assert rest[..j] == g && rest[j + 1..] == w;
    assert s[..|d|] == d;
  }

  // ---------------------------------------------------------------------------
  // Decorating and undecorating playlist names
  // ---------------------------------------------------------------------------

  /** normalizePlaylistTitle: trimmed, with every remaining space turned into '_'. */
  function NormalizePlaylistTitle(title: string): (r: string)
    ensures forall i :: 0 <= i < |r| ==> r[i] != ' '
    ensures |r| == |Trim(title)|
    ensures forall i :: 0 <= i < |r| ==> Trim(title)[i] == ' ' || r[i] == Trim(title)[i]
  {
    ReplaceChars(Trim(title), {' '}, '_')
  }

  /** decoratedPlaylistName: "%d-%s-%s" of the deployment, the normalised title and the language. */
  function DecoratedPlaylistName(title: string, deploymentNo: int, languagecode: string): (r: string)
    ensures StartsWith(r, IntToString(deploymentNo) + "-")
    ensures EndsWith(r, "-" + languagecode)
  {
    var r := IntToString(deploymentNo) + "-" + NormalizePlaylistTitle(title) + "-" + languagecode;
    assert r[..|IntToString(deploymentNo) + "-"|] == IntToString(deploymentNo) + "-";
    assert r[|r| - |"-" + languagecode|..] == "-" + languagecode;
    r
  }

  /**
   * undecoratedPlaylistName: group 1 of a full match of `\d+-(.*)-\w+`, with every
   * '_' turned back into a space; None (null) when the name does not match.
   */
  function UndecoratedPlaylistName(decoratedName: string): (r: Option<string>)
    ensures r.None? <==> SplitDecorated(decoratedName).None?
    ensures r.Some? ==> |r.value| == |SplitDecorated(decoratedName).value.1|
    ensures r.Some? ==> forall i :: 0 <= i < |r.value| ==> r.value[i] != '_'
  {
    match SplitDecorated(decoratedName)
    case None => None
    case Some(parts) => Some(ReplaceChars(parts.1, {'_'}, ' '))
  }

  /**
   * Round trip: a title that is already trimmed and has no underscore and no line
   * terminator comes back from its decorated name, for every non-negative deployment
   * number and every language code made of word characters.
   */
  lemma UndecorateDecorated(title: string, deploymentNo: int, languagecode: string)
    requires IsTrimmed(title)
    requires forall i :: 0 <= i < |title| ==> title[i] != '_' && !IsLineTerminator(title[i])
    requires deploymentNo >= 0
    requires |languagecode| > 0 && AllWord(languagecode)
    ensures UndecoratedPlaylistName(DecoratedPlaylistName(title, deploymentNo, languagecode)) == Some(title)
  {
    var g := NormalizePlaylistTitle(title);
    assert Trim(title) == title;
    assert NoLineTerminator(g) by {
      forall i | 0 <= i < |g| ensures !IsLineTerminator(g[i]) {
        assert g[i] == '_' || g[i] == title[i];
      }
    }
    SplitDecoratedComplete(IntToString(deploymentNo), g, languagecode);
    var back := ReplaceChars(g, {'_'}, ' ');
    assert back == title by {
      forall i | 0 <= i < |title| ensures back[i] == title[i] {
        if title[i] == ' ' {
          assert g[i] == '_';
        } else {
          assert g[i] == title[i];
        }
      }
    }
  }

  /** A negative deployment number renders with a leading '-', which `\d+` rejects. */
  lemma NegativeDeploymentNotUndecorated(title: string, deploymentNo: int, languagecode: string)
    requires deploymentNo < 0
    ensures UndecoratedPlaylistName(DecoratedPlaylistName(title, deploymentNo, languagecode)).None?
  {
    var s := DecoratedPlaylistName(title, deploymentNo, languagecode);
    assert s[0] == IntToString(deploymentNo)[0] == '-';
  }

  // ---------------------------------------------------------------------------
  // SizingParams
  // ---------------------------------------------------------------------------

  /** SizingParams.IGNORE: Integer.MIN_VALUE. */
  const Ignore: int := MinInt32

  datatype SizingParams = SizingParams(modelColumn: int, minPadding: int, preferredPadding: int, maxPadding: int)
  {
    /** forColumns: one SizingParams per column number, each with this one's paddings. */
    function ForColumns(columnNos: seq<int>): (r: seq<SizingParams>)
      ensures |r| == |columnNos|
      ensures forall i :: 0 <= i < |r| ==> r[i].modelColumn == columnNos[i]
      ensures forall i :: 0 <= i < |r| ==> r[i].WithColumn(modelColumn) == this
    {
      seq(|columnNos|, i requires 0 <= i < |columnNos| =>
        SizingParams(columnNos[i], minPadding, preferredPadding, maxPadding))
    }

    /** The same paddings for another column. */
    function WithColumn(column: int): (r: SizingParams)
      ensures r.modelColumn == column
    {
      this.(modelColumn := column)
    }
  }

  /** The no-argument and one-argument constructors: padding IGNORE, 2 and 42. */
  function DefaultSizingParams(modelColumn: int): (r: SizingParams)
    ensures r.modelColumn == modelColumn && r.minPadding == Ignore
    ensures r.preferredPadding == 2 && r.maxPadding == 42
  {
    SizingParams(modelColumn, Ignore, 2, 42)
  }
}

=== FILE: audio_item_table_model.dfy ===
/**
 * The table model behind the audio-item list: one materialised row per audio item,
 * kept in a list, and a map from each item's uuid to its row index. Rows cache the
 * values of the columns whose value provider allows it; the other columns are
 * computed when they are read.
 */
module AudioItemTableModel {
  import opened Wrappers

  /** The part of an audio item the table uses: its uuid and its metadata, abstracted. */
  datatype AudioItem = AudioItem(uuid: string, metadata: seq<string>)

  /** A materialised row: the item and one slot per column, None where nothing is cached. */
  datatype Row = Row(item: AudioItem, cells: seq<Option<string>>)

  /** The store's change events (MetadataStore.DataChangeEventType). */
  datatype DataChangeEventType = ItemAdded | ItemModified | ItemDeleted

  /** The uuid-to-row map after the row at `row` is taken out: every later index moves down one. */
  function ShiftDown(m: map<string, int>, row: int): (r: map<string, int>)
    ensures r.Keys == m.Keys
    ensures forall u :: u in m && m[u] <= row ==> r[u] == m[u]
    ensures forall u :: u in m && m[u] > row ==> r[u] == m[u] - 1
  {
    map u | u in m :: if m[u] > row then m[u] - 1 else m[u]
  }

  /** A list with the element at i taken out (List.remove(int)). */
  function RemoveAt<T>(s: seq<T>, i: nat): (r: seq<T>)
    requires i < |s|
    ensures |r| == |s| - 1
    ensures forall j :: 0 <= j < i ==> r[j] == s[j]
    ensures forall j :: i <= j < |r| ==> r[j] == s[j + 1]
  {
    s[..i] + s[i + 1..]
  }

  /** uuid u is at row i exactly when the map says so: the map and the row list agree. */
  predicate Bijection(m: map<string, int>, rows: seq<Row>)
  {
    |m| == |rows| &&
    (forall u :: u in m ==> 0 <= m[u] < |rows| && rows[m[u]].item.uuid == u) &&
    (forall i :: 0 <= i < |rows| ==> rows[i].item.uuid in m && m[rows[i].item.uuid] == i)
  }

  /** Adding a row for a new uuid at the end, mapped to its index, keeps the agreement. */
  lemma AddKeepsBijection(m: map<string, int>, rows: seq<Row>, row: Row)
    requires Bijection(m, rows) && row.item.uuid !in m
    ensures Bijection(m[row.item.uuid := |rows|], rows + [row])
  {
    var m' := m[row.item.uuid := |rows|];
    var rows' := rows + [row];
    forall i | 0 <= i < |rows'| ensures rows'[i].item.uuid in m' && m'[rows'[i].item.uuid] == i {
      if i < |rows| {
        assert rows'[i] == rows[i];
      }
    }
  }

  /**
   * Taking out the row of u, shifting the later indices down and dropping u keeps the
   * agreement.
   */
  lemma RemoveKeepsBijection(m: map<string, int>, rows: seq<Row>, u: string)
    requires Bijection(m, rows) && u in m
    ensures Bijection(ShiftDown(m, m[u]) - {u}, RemoveAt(rows, m[u]))
  {
    var row := m[u];
    var m' := ShiftDown(m, row) - {u};
    var rows' := RemoveAt(rows, row);
    assert |m'| == |rows'| by {
      assert m'.Keys == m.Keys - {u};
    }
    forall v | v in m' ensures 0 <= m'[v] < |rows'| && rows'[m'[v]].item.uuid == v {
      assert m[v] != row;
    }
    forall i | 0 <= i < |rows'| ensures rows'[i].item.uuid in m' && m'[rows'[i].item.uuid] == i {
      if i < row {
        assert rows'[i] == rows[i];
      } else {
        assert rows'[i] == rows[i + 1];
      }
    }
  }

  /** The rows built from the first i of distinct items do not hold the uuid of item i. */
  lemma FreshUuid(m: map<string, int>, rows: seq<Row>, items: seq<AudioItem>, i: nat)
    requires Bijection(m, rows) && |rows| == i < |items|
    requires forall k :: 0 <= k < i ==> rows[k].item == items[k]
    requires forall k, j :: 0 <= k < j < |items| ==> items[k].uuid != items[j].uuid
    ensures items[i].uuid !in m
  {
    forall u | u in m ensures u != items[i].uuid {
      var k := m[u];
      assert rows[k].item == items[k] && items[k].uuid == u;
    }
  }

  class AudioItemTableModel {
    /** Per column: may its value be cached in the row (ValueProvider.isValueCachable). */
    const cachable: seq<bool>
    /** The value providers: the value of column c for an item. */
    const provide: (AudioItem, nat) -> string
    var uuidToRowIndexMap: map<string, int>
    var rowIndexToUuidMap: seq<Row>

    predicate Valid()
      reads this
    {
      Bijection(uuidToRowIndexMap, rowIndexToUuidMap)
    }

    /** convertToAudioItemNodeRow, as a value: the cachable columns filled, the others empty. */
    function RowOf(item: AudioItem): (r: Row)
      ensures r.item == item && |r.cells| == |cachable|
      ensures forall c :: 0 <= c < |cachable| ==> (r.cells[c].Some? <==> cachable[c])
    {
      Row(item, seq(|cachable|, c requires 0 <= c < |cachable| => if cachable[c] then Some(provide(item, c)) else None))
    }

    /** convertToAudioItemNodeRow: a loop over the columns filling the row's slots. */
    method ConvertToAudioItemNodeRow(item: AudioItem) returns (row: Row)
      ensures row == RowOf(item)
    {
      var cells := new Option<string>[|cachable|](_ => None);
      for c := 0 to |cachable|
        invariant forall k :: 0 <= k < c ==> cells[k] == RowOf(item).cells[k]
        invariant forall k :: c <= k < |cachable| ==> cells[k].None?
      {
        if cachable[c] {
          cells[c] := Some(provide(item, c));
        }
      }
      row := Row(item, cells[..]);
    }

    /** The constructor: one row per item of the store, in the store's order. */
    constructor (items: seq<AudioItem>, cachable: seq<bool>, provide: (AudioItem, nat) -> string)
      requires forall i, j :: 0 <= i < j < |items| ==> items[i].uuid != items[j].uuid
      ensures this.cachable == cachable && this.provide == provide
      ensures Valid() && |rowIndexToUuidMap| == |items|
      ensures forall i :: 0 <= i < |items| ==> rowIndexToUuidMap[i] == RowOf(items[i])
    {
      this.cachable := cachable;
      this.provide := provide;
      uuidToRowIndexMap := map[];
      rowIndexToUuidMap := [];
      new;
      for i := 0 to |items|
        invariant Valid() && |rowIndexToUuidMap| == i
        invariant forall k :: 0 <= k < i ==> rowIndexToUuidMap[k] == RowOf(items[k])
      {
        FreshUuid(uuidToRowIndexMap, rowIndexToUuidMap, items, i);
        var _ := AddNewAudioItem(items[i]);
      }
    }

    /** getRowCount: the size of the uuid map, which is the number of rows. */
    function GetRowCount(): (n: nat)
      reads this
      ensures Valid() ==> n == |rowIndexToUuidMap|
    {
      |uuidToRowIndexMap|
    }

    /** getAudioItemUuid: the uuid of the item in a row; an index out of range throws. */
    function GetAudioItemUuid(rowIndex: int): (r: Result<string, Exception>)
      reads this
      ensures r.Err? <==> !(0 <= rowIndex < |rowIndexToUuidMap|)
      ensures r.Ok? && Valid() ==> r.value in uuidToRowIndexMap && uuidToRowIndexMap[r.value] == rowIndex
    {
      if 0 <= rowIndex < |rowIndexToUuidMap| then Ok(rowIndexToUuidMap[rowIndex].item.uuid)
      else Err(IndexOutOfBoundsException)
    }

    /**
     * getValueAt: a cachable column is read from the row, any other column is computed
     * from the row's item.
     */
    function GetValueAt(rowIndex: nat, columnIndex: nat): (r: Option<string>)
      requires rowIndex < |rowIndexToUuidMap| && columnIndex < |cachable|
      requires |rowIndexToUuidMap[rowIndex].cells| == |cachable|
      reads this
      ensures rowIndexToUuidMap[rowIndex] == RowOf(rowIndexToUuidMap[rowIndex].item) ==>
        r == Some(provide(rowIndexToUuidMap[rowIndex].item, columnIndex))
    {
      if cachable[columnIndex] then rowIndexToUuidMap[rowIndex].cells[columnIndex]
      else Some(provide(rowIndexToUuidMap[rowIndex].item, columnIndex))
    }

    /**
     * addNewAudioItem: the row goes at the end, the uuid maps to its index, and the
     * index is returned. For a uuid not yet in the table the agreement is kept.
     */
    method AddNewAudioItem(item: AudioItem) returns (row: int)
      modifies this`uuidToRowIndexMap, this`rowIndexToUuidMap
      ensures row == |old(rowIndexToUuidMap)|
      ensures uuidToRowIndexMap == old(uuidToRowIndexMap)[item.uuid := row]
      ensures rowIndexToUuidMap == old(rowIndexToUuidMap) + [RowOf(item)]
      ensures old(Valid()) && item.uuid !in old(uuidToRowIndexMap) ==> Valid()
    {
      row := |rowIndexToUuidMap|;
      uuidToRowIndexMap := uuidToRowIndexMap[item.uuid := row];
      var converted := ConvertToAudioItemNodeRow(item);
      if old(Valid()) && item.uuid !in old(uuidToRowIndexMap) {
        AddKeepsBijection(old(uuidToRowIndexMap), rowIndexToUuidMap, converted);
      }
      rowIndexToUuidMap := rowIndexToUuidMap + [converted];
    }

    /** The loop of removeAudioItem: every entry above the removed row is decremented. */
    method ShiftRowIndices(row: int)
      modifies this`uuidToRowIndexMap
      ensures uuidToRowIndexMap == ShiftDown(old(uuidToRowIndexMap), row)
    {
      ghost var before := uuidToRowIndexMap;
      var pending := uuidToRowIndexMap.Keys;
      while pending != {}
        invariant pending <= before.Keys && uuidToRowIndexMap.Keys == before.Keys
        invariant forall u :: u in pending ==> uuidToRowIndexMap[u] == before[u]
        invariant forall u :: u in before && u !in pending ==> uuidToRowIndexMap[u] == ShiftDown(before, row)[u]
        decreases pending
      {
        var u :| u in pending;
        if uuidToRowIndexMap[u] > row {
          uuidToRowIndexMap := uuidToRowIndexMap[u := uuidToRowIndexMap[u] - 1];
        }
        pending := pending - {u};
      }
    }

    /**
     * removeAudioItem: every index above the removed row moves down one, the uuid and
     * the row go. An item that is not in the table makes the map lookup throw.
     */
    method RemoveAudioItem(item: AudioItem) returns (r: Result<(), Exception>)
      requires Valid()
      modifies this`uuidToRowIndexMap, this`rowIndexToUuidMap
      ensures Valid()
      ensures r.Err? <==> item.uuid !in old(uuidToRowIndexMap)
      ensures r.Err? ==> r.error == NullPointerException && unchanged(this)
      ensures r.Ok? ==>
        var row := old(uuidToRowIndexMap)[item.uuid];
        uuidToRowIndexMap == ShiftDown(old(uuidToRowIndexMap), row) - {item.uuid} &&
        rowIndexToUuidMap == RemoveAt(old(rowIndexToUuidMap), row)
    {
      if item.uuid !in uuidToRowIndexMap {
        return Err(NullPointerException);
      }
      var row := uuidToRowIndexMap[item.uuid];
      ghost var before := uuidToRowIndexMap;
      ShiftRowIndices(row);
      RemoveKeepsBijection(before, rowIndexToUuidMap, item.uuid);
      uuidToRowIndexMap := uuidToRowIndexMap - {item.uuid};
      rowIndexToUuidMap := RemoveAt(rowIndexToUuidMap, row);
      r := Ok(());
    }

    /**
     * dataChanged: ITEM_ADDED adds a row; otherwise the item's row is looked up (an
     * unknown item throws), ITEM_MODIFIED replaces that row only and ITEM_DELETED
     * removes it.
     */
    method DataChanged(item: AudioItem, eventType: DataChangeEventType) returns (r: Result<int, Exception>)
      requires Valid()
      modifies this`uuidToRowIndexMap, this`rowIndexToUuidMap
      ensures eventType != ItemAdded || item.uuid !in old(uuidToRowIndexMap) ==> Valid()
      ensures eventType == ItemAdded ==>
        r == Ok(|old(rowIndexToUuidMap)|) && rowIndexToUuidMap == old(rowIndexToUuidMap) + [RowOf(item)]
      ensures eventType == ItemAdded ==>
        uuidToRowIndexMap == old(uuidToRowIndexMap)[item.uuid := |old(rowIndexToUuidMap)|]
      ensures eventType != ItemAdded ==> (r.Err? <==> item.uuid !in old(uuidToRowIndexMap))
      ensures r.Err? ==> r.error == NullPointerException && unchanged(this)
      ensures eventType == ItemModified && r.Ok? ==>
        r.value == old(uuidToRowIndexMap)[item.uuid] &&
        uuidToRowIndexMap == old(uuidToRowIndexMap) &&
        rowIndexToUuidMap == old(rowIndexToUuidMap)[r.value := RowOf(item)]
      ensures eventType == ItemDeleted && r.Ok? ==>
        r.value == old(uuidToRowIndexMap)[item.uuid] &&
        uuidToRowIndexMap == ShiftDown(old(uuidToRowIndexMap), r.value) - {item.uuid} &&
        rowIndexToUuidMap == RemoveAt(old(rowIndexToUuidMap), r.value)
    {
      if eventType == ItemAdded {
        var row := AddNewAudioItem(item);
        return Ok(row);
      }
      if item.uuid !in uuidToRowIndexMap {
        return Err(NullPointerException);
      }
      var row := uuidToRowIndexMap[item.uuid];
      if eventType == ItemModified {
        var converted := ConvertToAudioItemNodeRow(item);
        rowIndexToUuidMap := rowIndexToUuidMap[row := converted];
        assert rowIndexToUuidMap[row].item.uuid == item.uuid;
      } else {
        var _ := RemoveAudioItem(item);
      }
      r := Ok(row);
    }
  }

  /** Every column reads the same whether it was cached or is computed: the caching is invisible. */
  lemma CachingIsInvisible(t: AudioItemTableModel, rowIndex: nat, item: AudioItem, columnIndex: nat)
    requires rowIndex < |t.rowIndexToUuidMap| && t.rowIndexToUuidMap[rowIndex] == t.RowOf(item)
    requires columnIndex < |t.cachable|
    ensures t.GetValueAt(rowIndex, columnIndex) == Some(t.provide(item, columnIndex))
  {
  }
}

=== FILE: category.dfy ===
/**
 * A node of the content taxonomy: a category with a name, a display order, a parent
 * link and a list of children. The parent links are walked upwards (full names,
 * `isChildOf`, `equals`) and the child lists downwards (`hasVisibleChildren`).
 *
 * The Java code walks these links without a bound. The model makes the shape that
 * such a walk needs explicit, as a ghost argument: a chain of parents that ends at
 * a root, or a rank that decreases from a category to each of its children.
 */
module Category {
  import opened Wrappers
  import opened JavaStrings
  import Sorting

  class Category {
    const id: string
    var name: string
    var order: int
    var parent: Option<Category>
    var children: seq<Category>
    var nonAssignable: bool
    var visible: bool

    /** A new category has no parent and no children, and is visible and assignable. */
    constructor (id: string)
      ensures this.id == id && name == "" && order == 0
      ensures parent.None? && children == [] && !nonAssignable && visible
    {
      this.id := id;
      name := "";
      order := 0;
      parent := None;
      children := [];
      nonAssignable := false;
      visible := true;
    }

    method SetName(name: string)
      modifies this`name
      ensures this.name == name
    {
      this.name := name;
    }

    method SetOrder(order: int)
      modifies this`order
      ensures this.order == order
    {
      this.order := order;
    }

    method SetParent(parent: Option<Category>)
      modifies this`parent
      ensures this.parent == parent
    {
      this.parent := parent;
    }

    method SetVisible(visible: bool)
      modifies this`visible
      ensures this.visible == visible
    {
      this.visible := visible;
    }

    method SetNonAssignable(nonAssignable: bool)
      modifies this`nonAssignable
      ensures this.nonAssignable == nonAssignable
    {
      this.nonAssignable := nonAssignable;
    }

    /** addChild: the child goes at the end of the list. */
    method AddChild(child: Category)
      modifies this`children
      ensures children == old(children) + [child]
      ensures HasChildren()
    {
      children := children + [child];
    }

    /** hasChildren: the list of children is not empty. */
    predicate HasChildren()
      reads this
      ensures HasChildren() <==> |children| > 0
    {
      children != []
    }

    /**
     * getFullName: "" for the root, the name for a child of the root, and otherwise
     * the parent's full name, ':' and the name.
     */
    function GetFullName(ghost chain: seq<Category>): (r: string)
      requires ChainFrom(this, chain)
      reads chain
      ensures parent.None? ==> r == ""
      decreases |chain|
    {
      match parent
      case None => ""
      case Some(p) =>
        assert ChainFrom(p, chain[1..]);
        var parentName := p.GetFullName(chain[1..]);
        if |parentName| == 0 then name else parentName + ":" + name
    }

    /**
     * equals: the same object, or the same id, the same name and equal parents
     * (Objects.equals, so two missing parents are equal and the parents are
     * compared with equals in turn).
     */
    function Equals(o: Category, ghost chain: seq<Category>, ghost oChain: seq<Category>): (r: bool)
      requires ChainFrom(this, chain) && ChainFrom(o, oChain)
      reads chain, oChain
      ensures this == o ==> r
      ensures r && this != o ==> id == o.id && name == o.name && (parent.None? <==> o.parent.None?)
      decreases |chain|
    {
      if this == o then true
      else
        id == o.id && name == o.name &&
        match (parent, o.parent)
        case (None, None) => true
        case (Some(p), Some(q)) =>
          assert ChainFrom(p, chain[1..]) && ChainFrom(q, oChain[1..]);
          p.Equals(q, chain[1..], oChain[1..])
        case _ => false
    }

    /**
     * isChildOf: walk from this category up the parent links and report whether
     * `cat` equals one of the categories met, this one included.
     */
    method IsChildOf(cat: Category, ghost chain: seq<Category>, ghost catChain: seq<Category>) returns (r: bool)
      requires ChainFrom(this, chain) && ChainFrom(cat, catChain)
      ensures r == ChildOf(chain, catChain)
    {
      var test := Some(this);
      ghost var k := 0;
      while test.Some?
        invariant 0 <= k <= |chain|
        invariant test.Some? <==> k < |chain|
        invariant k < |chain| ==> test == Some(chain[k]) && ChainFrom(chain[k], chain[k..])
        invariant forall j :: 0 <= j < k ==> !cat.Equals(chain[j], catChain, chain[j..])
        decreases |chain| - k
      {
        if cat.Equals(test.value, catChain, chain[k..]) {
          return true;
        }
        assert test.value.parent == if k + 1 < |chain| then Some(chain[k + 1]) else None;
        test := test.value.parent;
        k := k + 1;
        if k < |chain| {
          assert chain[k..] == chain[k - 1..][1..];
        }
      }
      return false;
    }

    /**
     * hasVisibleChildren: some child is visible or has visible children; a loop over
     * the children that stops at the first hit.
     */
    method HasVisibleChildren(ghost rank: map<Category, nat>) returns (r: bool)
      requires Ranked(rank) && this in rank
      ensures r == VisibleBelow(this, rank)
      decreases rank[this]
    {
      var i := 0;
      while i < |children|
        invariant 0 <= i <= |children|
        invariant forall j :: 0 <= j < i ==> !VisibleVia(this, j, rank)
      {
        var child := children[i];
        if child.visible {
          assert VisibleVia(this, i, rank);
          return true;
        }
        var below := child.HasVisibleChildren(rank);
        if below {
          assert VisibleVia(this, i, rank);
          return true;
        }
        i := i + 1;
      }
      return false;
    }

    /** toString: the name. */
    function ToString(): (r: string)
      reads this
      ensures r == name
    {
      name
    }
  }

  // ---------------------------------------------------------------------------
  // Walking up: chains of parents
  // ---------------------------------------------------------------------------

  /** chain is c, its parent, its grandparent, ..., ending at a category with no parent. */
  predicate IsChain(chain: seq<Category>)
    reads chain
  {
    |chain| > 0 &&
    (forall i :: 0 <= i < |chain| - 1 ==> chain[i].parent == Some(chain[i + 1])) &&
    chain[|chain| - 1].parent.None?
  }

  /** The chain of parents of c. */
  predicate ChainFrom(c: Category, chain: seq<Category>)
    reads chain
  {
    IsChain(chain) && chain[0] == c
  }

  /** The part of a chain that starts at one of its categories is that category's chain. */
  lemma ChainSuffix(chain: seq<Category>, k: nat)
    requires IsChain(chain) && k < |chain|
    ensures ChainFrom(chain[k], chain[k..])
  {
  }

  /** What isChildOf reports: cat equals a category on the way up, this one included. */
  predicate ChildOf(chain: seq<Category>, catChain: seq<Category>)
    requires IsChain(chain) && IsChain(catChain)
    reads chain, catChain
  {
    exists k :: 0 <= k < |chain| && (ChainSuffix(chain, k); catChain[0].Equals(chain[k], catChain, chain[k..]))
  }

  /** isChildOf is reflexive. */
  lemma ChildOfSelf(chain: seq<Category>)
    requires IsChain(chain)
    ensures ChildOf(chain, chain)
  {
    assert chain[0..] == chain;
  }

  /** Every ancestor counts: isChildOf holds for each category on the way up. */
  lemma ChildOfAncestor(chain: seq<Category>, k: nat)
    requires IsChain(chain) && k < |chain|
    ensures ChainFrom(chain[k], chain[k..])
    ensures ChildOf(chain, chain[k..])
  {
    assert chain[k..][0] == chain[k];
  }

  /**
   * Hanging c under the first category of a chain that c is not on gives c a chain:
   * c followed by that chain. c is then a child (isChildOf) of its new parent.
   */
  lemma ExtendChain(c: Category, chain: seq<Category>)
    requires IsChain(chain) && c.parent == Some(chain[0]) && c !in chain
    ensures ChainFrom(c, [c] + chain)
    ensures ChildOf([c] + chain, chain)
  {
    var longer := [c] + chain;
    assert longer[1..] == chain;
    assert chain[0].Equals(longer[1], chain, longer[1..]);
  }

  /** equals is symmetric. */
  lemma {:induction false} EqualsSymmetric(a: seq<Category>, b: seq<Category>)
    requires IsChain(a) && IsChain(b)
    ensures a[0].Equals(b[0], a, b) == b[0].Equals(a[0], b, a)
    decreases |a|
  {
    if a[0] != b[0] && a[0].parent.Some? && b[0].parent.Some? {
      ChainSuffix(a, 1);
      ChainSuffix(b, 1);
      EqualsSymmetric(a[1..], b[1..]);
    }
  }

  /** The names on the way up, root excluded, from the top down. */
  function NamesDown(chain: seq<Category>): (r: seq<string>)
    requires |chain| > 0
    reads chain
    ensures |r| == |chain| - 1
  {
    if |chain| == 1 then [] else NamesDown(chain[1..]) + [chain[0].name]
  }

  /** Joining with one more part at the end. */
  lemma {:induction false} JoinSnoc(parts: seq<string>, x: string, sep: string)
    ensures Join(parts + [x], sep) == if parts == [] then x else Join(parts, sep) + sep + x
  {
    if |parts| == 1 {
      assert parts + [x] == [parts[0], x];
      assert [parts[0], x][1..] == [x];
    } else if |parts| > 1 {
      JoinSnoc(parts[1..], x, sep);
      assert (parts + [x])[1..] == parts[1..] + [x];
    }
  }

  /** A join of parts whose first part is not empty is not empty. */
  lemma JoinNonEmpty(parts: seq<string>, sep: string)
    requires |parts| > 0 && |parts[0]| > 0
    ensures |Join(parts, sep)| > 0
  {
  }

  /**
   * When every category below the root has a non-empty name, the full name is the
   * names from the top down, joined with ':'.
   */
  lemma {:induction false} FullNameIsJoin(chain: seq<Category>)
    requires IsChain(chain)
    requires forall i :: 0 <= i < |chain| - 1 ==> |chain[i].name| > 0
    ensures chain[0].GetFullName(chain) == Join(NamesDown(chain), ":")
    decreases |chain|
  {
    if |chain| > 1 {
      ChainSuffix(chain, 1);
      FullNameIsJoin(chain[1..]);
      var up := NamesDown(chain[1..]);
      JoinSnoc(up, chain[0].name, ":");
      if up != [] {
        assert up == NamesDown(chain[2..]) + [chain[1].name];
        NamesDownHead(chain[1..]);
        JoinNonEmpty(up, ":");
      }
    }
  }

  /** The first name from the top is the name of the category just below the root. */
  lemma {:induction false} NamesDownHead(chain: seq<Category>)
    requires |chain| > 1
    ensures NamesDown(chain)[0] == chain[|chain| - 2].name
    decreases |chain|
  {
    if |chain| > 2 {
      NamesDownHead(chain[1..]);
    }
  }

  // ---------------------------------------------------------------------------
  // Walking down: children ranked below their parents
  // ---------------------------------------------------------------------------

  /** Every ranked category's children are ranked lower: the child links have no cycle. */
  predicate Ranked(rank: map<Category, nat>)
    reads rank.Keys
  {
    forall c :: c in rank ==>
      forall i :: 0 <= i < |c.children| ==> c.children[i] in rank && rank[c.children[i]] < rank[c]
  }

  /** The child at i is visible or has a visible descendant. */
  predicate VisibleVia(c: Category, i: int, rank: map<Category, nat>)
    requires Ranked(rank) && c in rank && 0 <= i < |c.children|
    reads rank.Keys
    decreases rank[c], 0
  {
    c.children[i].visible || VisibleBelow(c.children[i], rank)
  }

  /** Some child of c is visible or has visible children. */
  predicate VisibleBelow(c: Category, rank: map<Category, nat>)
    requires Ranked(rank) && c in rank
    reads rank.Keys
    decreases rank[c], 1
  {
    exists i :: 0 <= i < |c.children| && VisibleVia(c, i, rank)
  }

  /** A path down the child links. */
  predicate IsPathDown(p: seq<Category>)
    reads p
  {
    forall i :: 0 <= i < |p| - 1 ==> p[i + 1] in p[i].children
  }

  /** hasVisibleChildren finds a visible category strictly below c. */
  lemma {:induction false} VisibleBelowHasPath(c: Category, rank: map<Category, nat>) returns (p: seq<Category>)
    requires Ranked(rank) && c in rank && VisibleBelow(c, rank)
    ensures |p| >= 2 && p[0] == c && IsPathDown(p) && p[|p| - 1].visible
    decreases rank[c]
  {
    var i :| 0 <= i < |c.children| && VisibleVia(c, i, rank);
    var child := c.children[i];
    if child.visible {
      p := [c, child];
    } else {
      var q := VisibleBelowHasPath(child, rank);
      p := [c] + q;
      assert p[1..] == q;
    }
  }

  /** ... and a visible category strictly below c makes hasVisibleChildren hold. */
  lemma {:induction false} PathMakesVisibleBelow(p: seq<Category>, rank: map<Category, nat>)
    requires Ranked(rank) && |p| >= 2 && p[0] in rank && IsPathDown(p) && p[|p| - 1].visible
    ensures VisibleBelow(p[0], rank)
    decreases |p|
  {
    var c := p[0];
    var i :| 0 <= i < |c.children| && c.children[i] == p[1];
    if |p| > 2 && !p[1].visible {
      PathMakesVisibleBelow(p[1..], rank);
    }
    assert VisibleVia(c, i, rank);
  }

  // ---------------------------------------------------------------------------
  // getSortedChildren
  // ---------------------------------------------------------------------------

  /** Each child's order with its position in the list: what the sort compares. */
  function Keyed(cs: seq<Category>): (r: seq<(int, int)>)
    reads cs
    ensures |r| == |cs|
    ensures forall i :: 0 <= i < |cs| ==> r[i] == (cs[i].order, i)
  {
    seq(|cs|, i requires 0 <= i < |cs| reads cs => (cs[i].order, i))
  }

  predicate Positions(ks: seq<(int, int)>, n: nat)
  {
    forall i :: 0 <= i < |ks| ==> 0 <= ks[i].1 < n
  }

  /** The categories at the given positions. */
  function Pick(cs: seq<Category>, ks: seq<(int, int)>): (r: seq<Category>)
    requires Positions(ks, |cs|)
    ensures |r| == |ks|
    ensures forall i :: 0 <= i < |ks| ==> r[i] == cs[ks[i].1]
  {
    seq(|ks|, i requires 0 <= i < |ks| && Positions(ks, |cs|) => cs[ks[i].1])
  }

  lemma PickAppend(cs: seq<Category>, u: seq<(int, int)>, v: seq<(int, int)>)
    requires Positions(u, |cs|) && Positions(v, |cs|)
    ensures Positions(u + v, |cs|)
    ensures Pick(cs, u + v) == Pick(cs, u) + Pick(cs, v)
  {
  }

  /** Positions stay in range when they are rearranged. */
  lemma PositionsPermutation(a: seq<(int, int)>, b: seq<(int, int)>, n: nat)
    requires Positions(a, n) && multiset(a) == multiset(b)
    ensures Positions(b, n)
  {
    forall i | 0 <= i < |b| ensures 0 <= b[i].1 < n {
      assert b[i] in multiset(a);
    }
  }

  /** Picking by a rearrangement of the positions rearranges the picked categories. */
  lemma {:induction false} PickPermutation(cs: seq<Category>, a: seq<(int, int)>, b: seq<(int, int)>)
    requires Positions(a, |cs|) && multiset(a) == multiset(b)
    ensures Positions(b, |cs|)
    ensures multiset(Pick(cs, a)) == multiset(Pick(cs, b))
    decreases |a|
  {
    PositionsPermutation(a, b, |cs|);
    if a != [] {
      var j := MatchFirst(a, b);
      var rest := b[..j] + b[j + 1..];
      PositionsPermutation(a[1..], rest, |cs|);
      PickPermutation(cs, a[1..], rest);
      PickStep(cs, a, b, j);
    }
  }

  /** Where the first of a sits in its rearrangement b; the rest of a rearranges the rest of b. */
  lemma MatchFirst(a: seq<(int, int)>, b: seq<(int, int)>) returns (j: nat)
    requires a != [] && multiset(a) == multiset(b)
    ensures j < |b| && b[j] == a[0]
    ensures multiset(a[1..]) == multiset(b[..j] + b[j + 1..])
  {
    assert a[0] in multiset(a);
    assert a[0] in b;
    j :| 0 <= j < |b| && b[j] == a[0];
    RemoveAt(b, j);
    assert a == [a[0]] + a[1..];
  }

  /** The induction step of PickPermutation: the first position of a is the j-th of b. */
  lemma PickStep(cs: seq<Category>, a: seq<(int, int)>, b: seq<(int, int)>, j: nat)
    requires Positions(a, |cs|) && Positions(b, |cs|) && a != [] && j < |b| && b[j] == a[0]
    requires Positions(b[..j] + b[j + 1..], |cs|)
    requires multiset(Pick(cs, a[1..])) == multiset(Pick(cs, b[..j] + b[j + 1..]))
    ensures multiset(Pick(cs, a)) == multiset(Pick(cs, b))
  {
    var x := a[0];
    PickFirst(cs, a);
    PickSplit(cs, b, j);
    assert multiset(Pick(cs, a)) == multiset{cs[x.1]} + multiset(Pick(cs, a[1..]));
  }

  lemma PickFirst(cs: seq<Category>, a: seq<(int, int)>)
    requires Positions(a, |cs|) && a != []
    ensures Positions(a[1..], |cs|)
    ensures Pick(cs, a) == [cs[a[0].1]] + Pick(cs, a[1..])
  {
    assert a == [a[0]] + a[1..];
    PickAppend(cs, [a[0]], a[1..]);
    assert Pick(cs, [a[0]]) == [cs[a[0].1]];
  }

  /** Picking by b is picking by b without its j-th position, plus that one category. */
  lemma PickSplit(cs: seq<Category>, b: seq<(int, int)>, j: nat)
    requires Positions(b, |cs|) && j < |b|
    ensures Positions(b[..j] + b[j + 1..], |cs|)
    ensures multiset(Pick(cs, b)) == multiset(Pick(cs, b[..j] + b[j + 1..])) + multiset{cs[b[j].1]}
  {
    assert b == b[..j] + [b[j]] + b[j + 1..];
    PickAppend(cs, b[..j], [b[j]]);
    PickAppend(cs, b[..j] + [b[j]], b[j + 1..]);
    PickAppend(cs, b[..j], b[j + 1..]);
  }

  lemma RemoveAt(b: seq<(int, int)>, j: nat)
    requires j < |b|
    ensures multiset(b[..j] + b[j + 1..]) == multiset(b) - multiset{b[j]}
  {
    assert b == b[..j] + [b[j]] + b[j + 1..];
  }

  /** The comparator c1.getOrder() - c2.getOrder(), read as "not after". */
  function ByOrder(): ((int, int), (int, int)) -> bool
  {
    (a: (int, int), b: (int, int)) => a.0 <= b.0
  }

  lemma ByOrderIsTotalPreorder()
    ensures Sorting.TotalPreorder(ByOrder())
  {
  }

  /** getSortedChildren: the children in ascending order, as a new list. */
  function SortedChildren(c: Category): (r: seq<Category>)
    reads c, c.children
  {
    var ks := Keyed(c.children);
    var sorted := Sorting.SortBy(ks, ByOrder());
    PickPermutation(c.children, ks, sorted);
    Pick(c.children, sorted)
  }

  /** The sorted children are the children, each as often as in the list, in ascending order. */
  lemma SortedChildrenSpec(c: Category)
    ensures multiset(SortedChildren(c)) == multiset(c.children)
    ensures forall i, j :: 0 <= i < j < |SortedChildren(c)| ==> SortedChildren(c)[i].order <= SortedChildren(c)[j].order
  {
    var ks := Keyed(c.children);
    var sorted := Sorting.SortBy(ks, ByOrder());
    PickPermutation(c.children, ks, sorted);
    assert Pick(c.children, ks) == c.children;
    ByOrderIsTotalPreorder();
    Sorting.SortBySorted(ks, ByOrder());
    forall i | 0 <= i < |sorted| ensures sorted[i].0 == c.children[sorted[i].1].order {
      assert sorted[i] in multiset(ks);
    }
  }

  /** a comes before b by order, and by position among equal orders. */
  predicate Before(a: (int, int), b: (int, int))
  {
    a.0 < b.0 || (a.0 == b.0 && a.1 < b.1)
  }

  predicate StrictlyBefore(ks: seq<(int, int)>)
  {
    forall i, j :: 0 <= i < j < |ks| ==> Before(ks[i], ks[j])
  }

  /** Inserting a key whose position precedes all the others keeps equal orders in position order. */
  lemma {:induction false} InsertStable(x: (int, int), s: seq<(int, int)>)
    requires StrictlyBefore(s)
    requires forall k :: k in s ==> x.1 < k.1
    ensures StrictlyBefore(Sorting.Insert(x, s, ByOrder()))
  {
    if s != [] && !ByOrder()(x, s[0]) {
      InsertStable(x, s[1..]);
      var r := Sorting.Insert(x, s[1..], ByOrder());
      forall j | 0 <= j < |r|
        ensures Before(s[0], r[j])
      {
        assert r[j] in multiset(r);
        assert r[j] in multiset(s[1..]) + multiset{x};
        if r[j] != x {
          assert r[j] in s[1..];
        }
      }
    }
  }

  /** Sorting keys listed in position order is stable: equal orders stay in position order. */
  lemma {:induction false} SortStable(ks: seq<(int, int)>)
    requires forall i, j :: 0 <= i < j < |ks| ==> ks[i].1 < ks[j].1
    ensures StrictlyBefore(Sorting.SortBy(ks, ByOrder()))
  {
    if ks != [] {
      SortStable(ks[1..]);
      var rest := Sorting.SortBy(ks[1..], ByOrder());
      forall k | k in rest ensures ks[0].1 < k.1 {
        assert k in multiset(rest);
        assert k in ks[1..];
      }
      InsertStable(ks[0], rest);
    }
  }

  /** The position in the children list of each sorted child. */
  function SortedPositions(c: Category): seq<int>
    reads c, c.children
  {
    var ks := Sorting.SortBy(Keyed(c.children), ByOrder());
    seq(|ks|, i requires 0 <= i < |ks| => ks[i].1)
  }

  /**
   * The sort is stable, as List.sort is: every sorted child is the child at its
   * position, no position is taken twice, and children of equal order keep their
   * relative order in the list.
   */
  lemma SortedChildrenStable(c: Category)
    ensures |SortedPositions(c)| == |SortedChildren(c)| == |c.children|
    ensures forall i :: 0 <= i < |SortedPositions(c)| ==>
      0 <= SortedPositions(c)[i] < |c.children| && SortedChildren(c)[i] == c.children[SortedPositions(c)[i]]
    ensures forall i, j :: 0 <= i < j < |SortedPositions(c)| ==> SortedPositions(c)[i] != SortedPositions(c)[j]
    ensures forall i, j :: 0 <= i < j < |SortedPositions(c)| && SortedChildren(c)[i].order == SortedChildren(c)[j].order ==>
      SortedPositions(c)[i] < SortedPositions(c)[j]
  {
    var ks := Keyed(c.children);
    var sorted := Sorting.SortBy(ks, ByOrder());
    PickPermutation(c.children, ks, sorted);
    SortStable(ks);
    forall i | 0 <= i < |sorted| ensures sorted[i] == (c.children[sorted[i].1].order, sorted[i].1) {
      assert sorted[i] in multiset(ks);
    }
  }

  /** getSortedChildren leaves the children list itself as it was: it sorts a copy. */
  method GetSortedChildren(c: Category) returns (sorted: seq<Category>)
    ensures sorted == SortedChildren(c)
    ensures c.children == old(c.children)
  {
    sorted := SortedChildren(c);
  }
}

=== FILE: content_info.dfy ===
/**
 * A Deployment the Android TB-Loader knows about, and the state machine its download
 * goes through: the transfer callbacks move the download status, and the
 * unzip callback records the unzipping progress.
 */
module ContentInfo {
  import opened Wrappers
  import opened JavaStrings

  datatype DownloadStatus =
    | NeverDownloaded
    | Waiting
    | Downloading
    | Processing
    | Downloaded
    | DownloadFailed
    | None

  /** The states an S3 transfer reports (TransferState). */
  datatype TransferState =
    | TransferWaiting
    | InProgress
    | Paused
    | ResumedWaiting
    | Completed
    | Canceled
    | Failed
    | WaitingForNetwork
    | PartCompleted
    | PendingCancel
    | PendingPause
    | PendingNetworkDisconnect
    | Unknown

  /** The transfer states that end a download. */
  predicate IsTerminal(state: TransferState)
  {
    state == Completed || state == Canceled || state == Failed
  }

  /** The download status a transfer-state change leads to. */
  function NextStatus(status: DownloadStatus, state: TransferState): (r: DownloadStatus)
    ensures IsTerminal(state) ==> r in {Downloaded, NeverDownloaded, DownloadFailed}
    ensures r == Downloaded <==> state == Completed || (status == Downloaded && !IsTerminal(state) && state != InProgress && state != WaitingForNetwork)
    ensures !IsTerminal(state) && state != InProgress && state != WaitingForNetwork ==> r == status
  {
    match state
    case Completed => Downloaded
    case Canceled => NeverDownloaded
    case Failed => DownloadFailed
    case InProgress => Downloading
    case WaitingForNetwork => Waiting
    case _ => status
  }

  /**
   * getProgress outside the two states whose percentage is a floating-point quotient
   * (None there): 100 when downloaded, 0 otherwise.
   */
  function ProgressOf(status: DownloadStatus): (r: Option<int>)
    ensures r.None? <==> status == Processing || status == Downloading
    ensures r == Some(100) <==> status == Downloaded
    ensures r.Some? && r != Some(100) ==> r == Some(0)
  {
    match status
    case Processing => Option.None
    case Downloading => Option.None
    case Downloaded => Some(100)
    case _ => Some(0)
  }

  /** A download that ends reads 100% exactly when the transfer completed, and 0% otherwise. */
  lemma TerminalProgress(status: DownloadStatus, state: TransferState)
    requires IsTerminal(state)
    ensures ProgressOf(NextStatus(status, state)) == Some(if state == Completed then 100 else 0)
  {
  }

  class ContentInfo {
    const projectName: string
    var version: string
    /** The expiration date, as milliseconds; None when there is none. */
    var expiration: Option<int>
    var size: int
    var unzipTotal: int
    var unzipProgress: int
    var downloadStatus: DownloadStatus
    /** Whether a ContentDownloader is attached; the downloader itself is not modelled. */
    var hasDownloader: bool
    /** The values put into the download's operation log, when one is open. */
    var opLog: Option<map<string, string>>

    /** A new Deployment: status NONE, version "", no download. */
    constructor (projectName: string)
      ensures this.projectName == projectName
      ensures downloadStatus == DownloadStatus.None && version == "" && !hasDownloader && opLog.None?
      ensures size == 0 && unzipTotal == 0 && unzipProgress == 0 && expiration.None?
    {
      this.projectName := projectName;
      version := "";
      expiration := Option.None;
      size := 0;
      unzipTotal := 0;
      unzipProgress := 0;
      downloadStatus := DownloadStatus.None;
      hasDownloader := false;
      opLog := Option.None;
    }

    method WithVersion(version: string)
      modifies this`version
      ensures this.version == version
    {
      this.version := version;
    }

    method WithExpiration(expiration: Option<int>)
      modifies this`expiration
      ensures this.expiration == expiration
    {
      this.expiration := expiration;
    }

    method WithSize(size: int)
      modifies this`size
      ensures this.size == size
    {
      this.size := size;
    }

    method WithStatus(status: DownloadStatus)
      modifies this`downloadStatus
      ensures downloadStatus == status
    {
      downloadStatus := status;
    }

    /** hasExpiration: a date is set and it is not the epoch. */
    predicate HasExpiration()
      reads this
      ensures HasExpiration() ==> expiration.Some?
      ensures HasExpiration() <==> expiration.Some? && expiration.value != 0
    {
      expiration.Some? && expiration.value != 0
    }

    /** toString: "<project>: <version> (<size>)". */
    function ToString(): (r: string)
      reads this
      ensures StartsWith(r, projectName + ": " + version + " (")
      ensures EndsWith(r, IntToString(size) + ")")
    {
      var p := projectName + ": " + version + " (";
      var r := p + IntToString(size) + ")";
      assert r[..|p|] == p;
      assert r[|r| - |IntToString(size) + ")"|..] == IntToString(size) + ")";
      r
    }

    /** addToSize: the size grows by the amount, and the new size is returned. */
    method AddToSize(amount: int) returns (r: int)
      modifies this`size
      ensures size == old(size) + amount && r == size
    {
      size := size + amount;
      r := size;
    }

    /** isDownloading: a downloader is attached. */
    predicate IsDownloading()
      reads this
      ensures IsDownloading() <==> hasDownloader
    {
      hasDownloader
    }

    /** getProgress, as ProgressOf the current status. */
    function GetProgress(): (r: Option<int>)
      reads this
      ensures downloadStatus == Downloaded ==> r == Some(100)
      ensures downloadStatus !in {Downloaded, Processing, Downloading} ==> r == Some(0)
    {
      ProgressOf(downloadStatus)
    }

    /**
     * startDownload: refused (false, nothing changes) while a download is attached;
     * otherwise an operation log is opened with the project, version and size, a
     * downloader is attached and the status becomes WAITING.
     */
    method StartDownload() returns (started: bool)
      modifies this`hasDownloader, this`downloadStatus, this`opLog
      ensures started <==> !old(hasDownloader)
      ensures !started ==> unchanged(this)
      ensures started ==> hasDownloader && downloadStatus == Waiting
      ensures started ==> opLog == Some(map["projectname" := projectName, "version" := version, "bytesToDownload" := IntToString(size)])
    {
      if hasDownloader {
        return false;
      }
      opLog := Some(map["projectname" := projectName, "version" := version, "bytesToDownload" := IntToString(size)]);
      hasDownloader := true;
      downloadStatus := Waiting;
      started := true;
    }

    /** onUnzipProgress: the status becomes PROCESSING and the progress is recorded. */
    method OnUnzipProgress(current: int, total: int)
      modifies this`downloadStatus, this`unzipTotal, this`unzipProgress
      ensures downloadStatus == Processing && unzipTotal == total && unzipProgress == current
    {
      downloadStatus := Processing;
      unzipTotal := total;
      unzipProgress := current;
    }

    /**
     * onStateChanged: a terminal state closes the operation log and detaches the
     * downloader (with no log open, the close throws); every state moves the status
     * as NextStatus says.
     */
    method OnStateChanged(state: TransferState) returns (r: Result<(), Exception>)
      modifies this`downloadStatus, this`hasDownloader, this`opLog
      ensures r.Err? <==> IsTerminal(state) && old(opLog).None?
      ensures r.Err? ==> r.error == NullPointerException && unchanged(this)
      ensures r.Ok? ==> downloadStatus == NextStatus(old(downloadStatus), state)
      ensures r.Ok? && IsTerminal(state) ==> !hasDownloader && opLog.None?
      ensures !IsTerminal(state) ==> hasDownloader == old(hasDownloader) && opLog == old(opLog)
    {
      if IsTerminal(state) {
        if opLog.None? {
          return Err(NullPointerException);
        }
        opLog := Option.None;
        hasDownloader := false;
      }
      downloadStatus := NextStatus(downloadStatus, state);
      r := Ok(());
    }

    /** onError: the exception's message goes into the open operation log, if any. */
    method OnError(message: string)
      modifies this`opLog
      ensures old(opLog).None? ==> opLog.None?
      ensures old(opLog).Some? ==> opLog == Some(old(opLog).value["exception" := message])
    {
      if opLog.Some? {
        opLog := Some(opLog.value["exception" := message]);
      }
    }
  }
}

=== FILE: content_manager.dfy ===
/**
 * The Android TB-Loader's list of Deployments: what is on the device (one directory per
 * program, holding a `<deployment>-<revision>.current` or `.rev` marker), what is in the
 * cloud (marker files and content zips under `projects/<program>/`), and how the two are
 * reconciled into the content list and the project map.
 *
 * The Deployment entries are values here; in the program they are ContentInfo objects
 * shared between the list and the map.
 */
module ContentManager {
  import opened Wrappers
  import opened JavaStrings
  import CI = ContentInfo

  // ---------------------------------------------------------------------------
  // Names: S3 keys, marker files and zip files
  // ---------------------------------------------------------------------------

  /** String.split drops the empty strings at the end of the result. */
  function DropTrailingEmpty(parts: seq<string>): (r: seq<string>)
    ensures |r| <= |parts| && r == parts[..|r|]
    ensures |r| > 0 ==> r[|r| - 1] != ""
    ensures forall i :: |r| <= i < |parts| ==> parts[i] == ""
  {
    if |parts| > 0 && parts[|parts| - 1] == "" then DropTrailingEmpty(parts[..|parts| - 1]) else parts
  }

  /** The program and file name of a key `<prefix>/<program>/<file>`: split("/") gives three parts. */
  function KeyParts(key: string): Option<(string, string)>
  {
    var parts := DropTrailingEmpty(SplitOn(key, '/'));
    if |parts| == 3 then Some((parts[1], parts[2])) else None
  }

  /** A key made of three '/'-free parts, the last non-empty, gives back its program and file name. */
  lemma KeyPartsOf(prefix: string, program: string, file: string)
    requires '/' !in prefix && '/' !in program && '/' !in file && file != ""
    ensures KeyParts(prefix + "/" + program + "/" + file) == Some((program, file))
  {
    SplitKey(prefix, program, file);
    var parts := [prefix, program, file];
    assert DropTrailingEmpty(parts) == parts;
  }

  /** Splitting such a key at '/' gives its three parts. */
  lemma SplitKey(prefix: string, program: string, file: string)
    requires '/' !in prefix && '/' !in program && '/' !in file
    ensures SplitOn(prefix + "/" + program + "/" + file, '/') == [prefix, program, file]
  {
    var tail := program + ['/'] + file;
    assert SplitOn(tail, '/') == [program, file] by {
      SplitOnCons(program, file, '/');
      SplitOnWord(file, '/');
    }
    assert prefix + "/" + program + "/" + file == prefix + ['/'] + tail;
    SplitOnCons(prefix, tail, '/');
  }

  /** `\w+(?:-\w+)*`: one or more words joined by single hyphens. */
  predicate IsDashedWords(x: string)
  {
    |x| > 0 && x[0] != '-' && x[|x| - 1] != '-' &&
    (forall i :: 0 <= i < |x| ==> IsWordChar(x[i]) || x[i] == '-') &&
    (forall i :: 0 <= i < |x| - 1 ==> !(x[i] == '-' && x[i + 1] == '-'))
  }

  /**
   * A full match of `(\w+(?:-\w+)*)-(\w+)`, as (group 2, group 3): the last word is the
   * revision, because a word holds no hyphen.
   */
  function SplitDeployment(x: string): (r: Option<(string, string)>)
    ensures r.Some? ==> x == r.value.0 + "-" + r.value.1
    ensures r.Some? ==> IsDashedWords(r.value.0) && |r.value.1| > 0 && AllWord(r.value.1)
  {
    var j := LastIndexOf(x, '-');
    if j < 0 || !IsDashedWords(x) then None
    else
      assert x == x[..j] + "-" + x[j + 1..];
      assert j + 1 < |x|;
      assert x[j - 1] != '-';
      Some((x[..j], x[j + 1..]))
  }

  /** Every deployment and revision the pattern accepts is split back apart. */
  lemma SplitDeploymentComplete(d: string, w: string)
    requires IsDashedWords(d) && |w| > 0 && AllWord(w)
    ensures SplitDeployment(d + "-" + w) == Some((d, w))
  {
    var x := d + "-" + w;
    assert x[|d|] == '-';
    assert forall i :: |d| < i < |x| ==> x[i] == w[i - |d| - 1];
    assert LastIndexOf(x, '-') == |d|;
    assert x[..|d|] == d && x[|d| + 1..] == w;
  }

  /** The groups of a marker file name: deployment + revision, deployment, revision. */
  datatype Marker = Marker(versioned: string, deployment: string, revision: string)

  /** A full, case-insensitive match of `((\w+(?:-\w+)*)-(\w+))\.(current|rev)`. */
  function ParseMarker(name: string): (r: Option<Marker>)
    ensures r.Some? ==> r.value.versioned == r.value.deployment + "-" + r.value.revision
    ensures r.Some? ==> StartsWith(name, r.value.versioned + ".")
  {
    var dot := IndexOfChar(name, '.');
    if dot < 0 then None
    else
      var ext := Lower(name[dot + 1..]);
      if ext != "current" && ext != "rev" then None
      else
        match SplitDeployment(name[..dot])
        case None => None
        case Some(parts) =>
          assert name[..dot + 1] == name[..dot] + ".";
          Some(Marker(name[..dot], parts.0, parts.1))
  }

  /** A word, a hyphen and a word hold no '.'. */
  lemma NoDotInDeployment(d: string, w: string)
    requires IsDashedWords(d) && AllWord(w)
    ensures '.' !in d + "-" + w
  {
    var x := d + "-" + w;
    forall j | 0 <= j < |x| ensures x[j] != '.' {
      if j < |d| {
        assert x[j] == d[j];
      } else if j > |d| {
        assert x[j] == w[j - |d| - 1];
      }
    }
  }

  /** A name with a single '.', before an extension, is parsed from the part before the dot. */
  lemma ParseMarkerOf(x: string, ext: string)
    requires '.' !in x && '.' !in ext
    ensures ParseMarker(x + "." + ext) ==
      if Lower(ext) != "current" && Lower(ext) != "rev" then None
      else match SplitDeployment(x)
        case None => None
        case Some(parts) => Some(Marker(x, parts.0, parts.1))
  {
    var name := x + "." + ext;
    assert name == x + ("." + ext);
    IndexOfCharSkip(x, "." + ext, '.');
    assert name[|x| + 1..] == ext && name[..|x|] == x;
  }

  /** Round trip: the marker named after a deployment and revision parses back to them. */
  lemma MarkerNameRoundTrip(d: string, w: string, ext: string)
    requires IsDashedWords(d) && |w| > 0 && AllWord(w)
    requires ext == "current" || ext == "rev"
    ensures ParseMarker(d + "-" + w + "." + ext) == Some(Marker(d + "-" + w, d, w))
  {
    NoDotInDeployment(d, w);
    assert Lower(ext) == ext;
    ParseMarkerOf(d + "-" + w, ext);
    SplitDeploymentComplete(d, w);
  }

  /**
   * A full, case-insensitive match of `((?:content-)?(\w+(?:-\w+)*)-(\w+))\.zip`, as
   * (deployment, revision). The optional prefix is tried first; only when the rest does not
   * match does "content" count as the first word of the deployment.
   */
  function ParseZip(name: string): (r: Option<(string, string)>)
  {
    var dot := IndexOfChar(name, '.');
    if dot < 0 || Lower(name[dot + 1..]) != "zip" then None
    else ParseZipStem(name[..dot])
  }

  /** The part of a zip name before the dot: an optional "content-", then deployment and revision. */
  function ParseZipStem(y: string): Option<(string, string)>
  {
    if |y| >= 8 && Lower(y[..8]) == "content-" && SplitDeployment(y[8..]).Some? then SplitDeployment(y[8..])
    else SplitDeployment(y)
  }

  /** A name with a single '.', before "zip", is parsed from the part before the dot. */
  lemma ParseZipOf(y: string)
    requires '.' !in y
    ensures ParseZip(y + ".zip") == ParseZipStem(y)
  {
    var name := y + ".zip";
    assert IndexOfChar(name, '.') == |y| by {
      IndexOfCharSkip(y, ".zip", '.');
    }
    assert Lower(name[|y| + 1..]) == "zip" by {
      assert name[|y| + 1..] == "zip";
      assert Lower("zip") == "zip";
    }
    assert name[..|y|] == y;
  }

  /** Round trip: `content-<deployment>-<revision>.zip` parses back to the deployment and revision. */
  lemma ZipNameRoundTrip(d: string, w: string)
    requires IsDashedWords(d) && |w| > 0 && AllWord(w)
    ensures ParseZip("content-" + d + "-" + w + ".zip") == Some((d, w))
  {
    var x := d + "-" + w;
    var y := "content-" + x;
    assert "content-" + d + "-" + w + ".zip" == y + ".zip";
    NoDotInDeployment(d, w);
    ContentStem(x);
    ParseZipOf(y);
    SplitDeploymentComplete(d, w);
  }

  /** A stem "content-" + x, x free of dots and a deployment-revision, parses as x. */
  lemma ContentStem(x: string)
    requires '.' !in x
    ensures '.' !in "content-" + x
    ensures SplitDeployment(x).Some? ==> ParseZipStem("content-" + x) == SplitDeployment(x)
  {
    var y := "content-" + x;
    assert forall j :: 8 <= j < |y| ==> y[j] == x[j - 8];
    assert y[..8] == "content-" && y[8..] == x;
    assert Lower("content-") == "content-";
  }

  // ---------------------------------------------------------------------------
  // Deployments and the flags of getProjectNames
  // ---------------------------------------------------------------------------

  /** A Deployment as the content list holds it. */
  datatype Deployment = Deployment(
    programId: string,
    /** deployment-revision, "" when no local version is known, "--" when it is ambiguous. */
    versioned: string,
    deployment: string,
    revision: string,
    status: CI.DownloadStatus,
    size: int,
    filename: Option<string>)

  datatype Flag = ForUser | ForAll | Local | Cloud | All

  /** An object of the S3 listing: its key and size. */
  datatype S3Object = S3Object(key: string, size: int)

  /** A directory entry under the local projects directory, with the names of its files. */
  datatype LocalDir = LocalDir(name: string, isDirectory: bool, files: seq<string>)

  /** getProjectNames, as a set: the user filter, then local or cloud by download status. */
  function ProjectNames(projects: map<string, Deployment>, flags: seq<Flag>, isForUser: string -> bool): set<string>
  {
    var includeLocal := Local in flags || Cloud !in flags;
    var includeCloud := Cloud in flags || Local !in flags;
    set p | p in projects && (ForAll in flags || isForUser(p)) &&
      (if projects[p].status == CI.Downloaded then includeLocal else includeCloud)
  }

  /** With both of Local and Cloud, or neither, every project passing the user filter is named. */
  lemma ProjectNamesDefault(projects: map<string, Deployment>, flags: seq<Flag>, isForUser: string -> bool)
    requires (Local in flags) == (Cloud in flags)
    ensures ProjectNames(projects, flags, isForUser) == set p | p in projects && (ForAll in flags || isForUser(p))
  {
  }

  /** Local alone names exactly the downloaded projects; Cloud alone exactly the others. */
  lemma ProjectNamesLocalOrCloud(projects: map<string, Deployment>, flags: seq<Flag>, isForUser: string -> bool, p: string)
    requires (Local in flags) != (Cloud in flags)
    ensures p in ProjectNames(projects, flags, isForUser) <==>
      p in projects && (ForAll in flags || isForUser(p)) &&
      (projects[p].status == CI.Downloaded <==> Local in flags)
  {
  }

  // ---------------------------------------------------------------------------
  // The cloud listing: marker files first, then the sizes of the matching zips
  // ---------------------------------------------------------------------------

  /** The entry a marker key `<prefix>/<program>/<marker>` stands for. */
  function MarkerInfo(o: S3Object): Option<Deployment>
  {
    match KeyParts(o.key)
    case None => None
    case Some(parts) =>
      match ParseMarker(parts.1)
      case None => None
      case Some(mk) => Some(Deployment(parts.0, mk.versioned, mk.deployment, mk.revision, CI.NeverDownloaded, 0, None))
  }

  /** The first loop of findCloudContent, one object at a time: a newer marker of a user's program replaces the one found before. */
  function MarkerStep(m: map<string, Deployment>, o: S3Object, isForUser: string -> bool, newer: (Deployment, Deployment) -> bool): map<string, Deployment>
  {
    match MarkerInfo(o)
    case None => m
    case Some(info) =>
      if !isForUser(info.programId) then m
      else if info.programId !in m || newer(info, m[info.programId]) then m[info.programId := info]
      else m
  }

  function MarkersOf(objs: seq<S3Object>, isForUser: string -> bool, newer: (Deployment, Deployment) -> bool): map<string, Deployment>
  {
    if objs == [] then map[]
    else MarkerStep(MarkersOf(objs[..|objs| - 1], isForUser, newer), objs[|objs| - 1], isForUser, newer)
  }

  /**
   * The programs found are exactly the user's programs with a marker in the listing, and
   * each is given the entry of one of its markers.
   */
  lemma {:induction false} MarkersOfSpec(objs: seq<S3Object>, isForUser: string -> bool, newer: (Deployment, Deployment) -> bool)
    ensures forall p :: p in MarkersOf(objs, isForUser, newer) <==>
      isForUser(p) && exists i :: 0 <= i < |objs| && MarkerInfo(objs[i]).Some? && MarkerInfo(objs[i]).value.programId == p
    ensures forall p :: p in MarkersOf(objs, isForUser, newer) ==>
      exists i :: 0 <= i < |objs| && MarkerInfo(objs[i]) == Some(MarkersOf(objs, isForUser, newer)[p])
  {
    MarkersOfKeys(objs, isForUser, newer);
    MarkersOfValues(objs, isForUser, newer);
  }

  /** The keys MarkerStep adds: the program of o's marker, when it is the user's. */
  lemma MarkerStepKeys(m: map<string, Deployment>, o: S3Object, isForUser: string -> bool, newer: (Deployment, Deployment) -> bool)
    ensures forall p :: p in MarkerStep(m, o, isForUser, newer) <==>
      p in m || (MarkerInfo(o).Some? && isForUser(p) && MarkerInfo(o).value.programId == p)
  {
  }

  /** MarkerStep keeps an entry or puts o's marker in its place. */
  lemma MarkerStepValues(m: map<string, Deployment>, o: S3Object, isForUser: string -> bool, newer: (Deployment, Deployment) -> bool)
    ensures forall p :: p in MarkerStep(m, o, isForUser, newer) ==>
      (p in m && MarkerStep(m, o, isForUser, newer)[p] == m[p]) || MarkerInfo(o) == Some(MarkerStep(m, o, isForUser, newer)[p])
  {
  }

  /** The keys half of MarkersOfSpec. */
  lemma {:induction false} MarkersOfKeys(objs: seq<S3Object>, isForUser: string -> bool, newer: (Deployment, Deployment) -> bool)
    ensures forall p :: p in MarkersOf(objs, isForUser, newer) <==>
      isForUser(p) && exists i :: 0 <= i < |objs| && MarkerInfo(objs[i]).Some? && MarkerInfo(objs[i]).value.programId == p
  {
    if objs != [] {
      var init := objs[..|objs| - 1];
      var o := objs[|objs| - 1];
      var m := MarkersOf(init, isForUser, newer);
      var m' := MarkersOf(objs, isForUser, newer);
      assert m' == MarkerStep(m, o, isForUser, newer);
      MarkersOfKeys(init, isForUser, newer);
      MarkerStepKeys(m, o, isForUser, newer);
      forall p | p in m'
        ensures isForUser(p) && exists i :: 0 <= i < |objs| && MarkerInfo(objs[i]).Some? && MarkerInfo(objs[i]).value.programId == p
      {
        if p in m {
          var i :| 0 <= i < |init| && MarkerInfo(init[i]).Some? && MarkerInfo(init[i]).value.programId == p;
          assert objs[i] == init[i];
        } else {
          assert objs[|objs| - 1] == o;
        }
      }
      forall p, i | isForUser(p) && 0 <= i < |objs| && MarkerInfo(objs[i]).Some? && MarkerInfo(objs[i]).value.programId == p
        ensures p in m'
      {
        if i < |init| {
          assert objs[i] == init[i];
          assert p in m;
        }
      }
    }
  }

  /** The values half of MarkersOfSpec. */
  lemma {:induction false} MarkersOfValues(objs: seq<S3Object>, isForUser: string -> bool, newer: (Deployment, Deployment) -> bool)
    ensures forall p :: p in MarkersOf(objs, isForUser, newer) ==>
      exists i :: 0 <= i < |objs| && MarkerInfo(objs[i]) == Some(MarkersOf(objs, isForUser, newer)[p])
  {
    if objs != [] {
      var init := objs[..|objs| - 1];
      var o := objs[|objs| - 1];
      var m := MarkersOf(init, isForUser, newer);
      var m' := MarkersOf(objs, isForUser, newer);
      MarkersOfValues(init, isForUser, newer);
      MarkerStepValues(m, o, isForUser, newer);
      forall p | p in m' ensures exists i :: 0 <= i < |objs| && MarkerInfo(objs[i]) == Some(m'[p]) {
        if p in m && m'[p] == m[p] {
          var i :| 0 <= i < |init| && MarkerInfo(init[i]) == Some(m[p]);
          assert objs[i] == init[i];
        } else {
          assert MarkerInfo(objs[|objs| - 1]) == Some(m'[p]);
        }
      }
    }
  }

  /**
   * When "newer" is a strict order (irreflexive and transitive), the marker kept for a
   * program is one that no marker of that program in the listing is newer than.
   */
  lemma {:induction false} MarkersOfNewest(objs: seq<S3Object>, isForUser: string -> bool, newer: (Deployment, Deployment) -> bool)
    requires forall a :: !newer(a, a)
    requires forall a, b, c :: newer(a, b) && newer(b, c) ==> newer(a, c)
    ensures Unbeaten(MarkersOf(objs, isForUser, newer), objs, newer)
  {
    if objs != [] {
      var init := objs[..|objs| - 1];
      MarkersOfNewest(init, isForUser, newer);
      MarkersOfSpec(init, isForUser, newer);
      NewestStep(MarkersOf(init, isForUser, newer), init, objs[|objs| - 1], isForUser, newer);
      assert init + [objs[|objs| - 1]] == objs;
    }
  }

  /** No marker of the listing that belongs to a program of m is newer than m's entry for it. */
  predicate Unbeaten(m: map<string, Deployment>, objs: seq<S3Object>, newer: (Deployment, Deployment) -> bool)
  {
    forall p, i :: p in m && 0 <= i < |objs| && MarkerInfo(objs[i]).Some? && MarkerInfo(objs[i]).value.programId == p ==>
      !newer(MarkerInfo(objs[i]).value, m[p])
  }

  /** One step of the marker loop keeps the kept markers unbeaten. */
  lemma NewestStep(m: map<string, Deployment>, earlier: seq<S3Object>, o: S3Object, isForUser: string -> bool, newer: (Deployment, Deployment) -> bool)
    requires forall a :: !newer(a, a)
    requires forall a, b, c :: newer(a, b) && newer(b, c) ==> newer(a, c)
    requires Unbeaten(m, earlier, newer)
    requires forall p :: p in m ==> isForUser(p)
    requires forall i :: 0 <= i < |earlier| && MarkerInfo(earlier[i]).Some? && isForUser(MarkerInfo(earlier[i]).value.programId) ==>
      MarkerInfo(earlier[i]).value.programId in m
    ensures Unbeaten(MarkerStep(m, o, isForUser, newer), earlier + [o], newer)
  {
    var m' := MarkerStep(m, o, isForUser, newer);
    var objs := earlier + [o];
    forall p, i | p in m' && 0 <= i < |objs| && MarkerInfo(objs[i]).Some? && MarkerInfo(objs[i]).value.programId == p
      ensures !newer(MarkerInfo(objs[i]).value, m'[p])
    {
      var info := MarkerInfo(objs[i]).value;
      if i < |earlier| {
        assert objs[i] == earlier[i];
      }
      if i < |earlier| && p in m {
        assert !newer(info, m[p]);
      }
      if p !in m || m'[p] != m[p] {
        // o's marker replaced the entry of p: it is newer than the old one, if any
        var oi := MarkerInfo(o).value;
        assert oi.programId == p && m'[p] == oi && isForUser(p);
        if i < |earlier| {
          assert p in m && newer(oi, m[p]);
        }
      }
    }
  }

  /** The zip of a program's current marker: same deployment and revision, ignoring case. */
  predicate ZipMatches(info: Deployment, zip: (string, string))
  {
    EqualsIgnoreCase(info.deployment, zip.0) && EqualsIgnoreCase(info.revision, zip.1)
  }

  /** The second loop of findCloudContent, one object at a time: a matching zip sets the size and file name. */
  function ZipStep(m: map<string, Deployment>, o: S3Object): (r: map<string, Deployment>)
    ensures r.Keys == m.Keys
    ensures forall p :: p in m ==> r[p] == m[p].(size := r[p].size, filename := r[p].filename)
  {
    match KeyParts(o.key)
    case None => m
    case Some(parts) =>
      match ParseZip(parts.1)
      case None => m
      case Some(zip) =>
        if parts.0 in m && ZipMatches(m[parts.0], zip) then
          m[parts.0 := m[parts.0].(size := o.size, filename := Some(parts.1))]
        else m
  }

  function WithZips(m: map<string, Deployment>, objs: seq<S3Object>): map<string, Deployment>
  {
    if objs == [] then m else ZipStep(WithZips(m, objs[..|objs| - 1]), objs[|objs| - 1])
  }

  /** A zip object of program p whose name matches the marker entry `info`. */
  predicate ZipFor(o: S3Object, p: string, info: Deployment)
  {
    KeyParts(o.key).Some? && KeyParts(o.key).value.0 == p &&
    ParseZip(KeyParts(o.key).value.1).Some? && ZipMatches(info, ParseZip(KeyParts(o.key).value.1).value)
  }

  /**
   * The zips change only the size and file name; a program without a matching zip keeps
   * its entry, and one with a matching zip takes the size and name of such a zip.
   */
  lemma {:induction false} WithZipsSpec(m: map<string, Deployment>, objs: seq<S3Object>)
    ensures WithZips(m, objs).Keys == m.Keys
    ensures forall p :: p in m ==> WithZips(m, objs)[p] == m[p].(size := WithZips(m, objs)[p].size, filename := WithZips(m, objs)[p].filename)
    ensures forall p :: p in m && WithZips(m, objs)[p] != m[p] ==>
      exists i :: 0 <= i < |objs| && ZipFor(objs[i], p, m[p]) &&
        WithZips(m, objs)[p] == m[p].(size := objs[i].size, filename := Some(KeyParts(objs[i].key).value.1))
  {
    if objs != [] {
      var init := objs[..|objs| - 1];
      WithZipsSpec(m, init);
      forall i | 0 <= i < |init| ensures init[i] == objs[i] { }
    }
  }

  // ---------------------------------------------------------------------------
  // Local content and reconciling
  // ---------------------------------------------------------------------------

  /** The marker files of a project directory (listFiles with the marker filter). */
  function Markers(files: seq<string>): (r: seq<string>)
    ensures forall f :: f in r <==> f in files && ParseMarker(f).Some?
  {
    if files == [] then []
    else (if ParseMarker(files[0]).Some? then [files[0]] else []) + Markers(files[1..])
  }

  /**
   * findLocalContent's verdict on one project directory: one marker is the downloaded
   * version, none is no local version (""), several are an unknown version ("--") whose
   * download failed.
   */
  function Classify(programId: string, files: seq<string>): (d: Deployment)
    ensures d.programId == programId
    ensures d.status == CI.Downloaded <==> |Markers(files)| == 1
    ensures d.status == CI.NeverDownloaded <==> |Markers(files)| == 0
    ensures d.status == CI.DownloadFailed <==> |Markers(files)| > 1
    ensures |Markers(files)| == 0 ==> d.versioned == ""
    ensures |Markers(files)| > 1 ==> d.versioned == "--"
    ensures |Markers(files)| == 1 ==>
      d.filename == Some(Markers(files)[0]) && d.versioned + "." <= Markers(files)[0]
  {
    var markers := Markers(files);
    if |markers| == 1 then
      var mk := ParseMarker(markers[0]).value;
      Deployment(programId, mk.versioned, mk.deployment, mk.revision, CI.Downloaded, 0, Some(markers[0]))
    else if |markers| == 0 then
      Deployment(programId, "", "", "", CI.NeverDownloaded, 0, None)
    else
      Deployment(programId, "--", "--", "", CI.DownloadFailed, 0, None)
  }

  /** The local versions found in a listing: one entry per project directory. */
  function LocalVersionsOf(listing: seq<LocalDir>): map<string, Deployment>
  {
    if listing == [] then map[]
    else
      var m := LocalVersionsOf(listing[..|listing| - 1]);
      var dir := listing[|listing| - 1];
      if dir.isDirectory then m[dir.name := Classify(dir.name, dir.files)] else m
  }

  /** The project map after findLocalContent: the downloaded local versions are put in it. */
  function ProjectsAfterLocal(projects: map<string, Deployment>, listing: seq<LocalDir>): map<string, Deployment>
  {
    if listing == [] then projects
    else
      var m := ProjectsAfterLocal(projects, listing[..|listing| - 1]);
      var dir := listing[|listing| - 1];
      var info := Classify(dir.name, dir.files);
      if dir.isDirectory && info.status == CI.Downloaded then m[dir.name := info] else m
  }

  /**
   * The local versions are keyed by directory name, hold exactly the directories of the
   * listing, and each is the classification of a directory of that name.
   */
  lemma {:induction false} LocalVersionsOfSpec(listing: seq<LocalDir>)
    ensures forall p :: p in LocalVersionsOf(listing) <==>
      exists i :: 0 <= i < |listing| && listing[i].isDirectory && listing[i].name == p
    ensures forall p :: p in LocalVersionsOf(listing) ==>
      LocalVersionsOf(listing)[p].programId == p &&
      exists i :: 0 <= i < |listing| && listing[i].isDirectory && listing[i].name == p &&
        LocalVersionsOf(listing)[p] == Classify(p, listing[i].files)
  {
    if listing != [] {
      var init := listing[..|listing| - 1];
      LocalVersionsOfSpec(init);
      forall i | 0 <= i < |init| ensures init[i] == listing[i] { }
    }
  }

  /** A cloud entry after reconciling with the local version, and whether the local content must be cleared. */
  function Reconciled(cloud: Deployment, local: Option<Deployment>): (Deployment, bool)
  {
    if local.None? || local.value.versioned == "" then (cloud, false)
    else if !EqualsIgnoreCase(cloud.versioned, local.value.versioned) then (cloud.(status := CI.NeverDownloaded), true)
    else (cloud.(status := CI.Downloaded), false)
  }

  /**
   * A cloud entry as findCloudContent makes it (NEVER_DOWNLOADED) ends DOWNLOADED exactly when
   * the device holds the same version ignoring case, and its local content is cleared exactly
   * when the device holds a known, different version. Nothing but the status changes.
   */
  lemma ReconciledStatus(cloud: Deployment, local: Option<Deployment>)
    requires cloud.status == CI.NeverDownloaded
    ensures Reconciled(cloud, local).0 == cloud.(status := Reconciled(cloud, local).0.status)
    ensures Reconciled(cloud, local).0.status == CI.Downloaded <==>
      local.Some? && local.value.versioned != "" && EqualsIgnoreCase(cloud.versioned, local.value.versioned)
    ensures Reconciled(cloud, local).1 <==>
      local.Some? && local.value.versioned != "" && !EqualsIgnoreCase(cloud.versioned, local.value.versioned)
  {
  }

  /** The cloud entries keyed by program; a later entry of the same program replaces an earlier one. */
  function ByProgram(infos: seq<Deployment>): map<string, Deployment>
  {
    if infos == [] then map[] else ByProgram(infos[..|infos| - 1])[infos[|infos| - 1].programId := infos[|infos| - 1]]
  }

  /** Every entry of ByProgram is filed under its own program id and comes from the list. */
  lemma {:induction false} ByProgramSpec(infos: seq<Deployment>)
    ensures forall p :: p in ByProgram(infos) <==> exists i :: 0 <= i < |infos| && infos[i].programId == p
    ensures forall p :: p in ByProgram(infos) ==> ByProgram(infos)[p].programId == p && ByProgram(infos)[p] in infos
  {
    if infos != [] {
      var init := infos[..|infos| - 1];
      ByProgramSpec(init);
      forall i | 0 <= i < |init| ensures init[i] == infos[i] { }
    }
  }

  /** The reconciled cloud entries, by program. */
  function ReconciledMap(localVersions: map<string, Deployment>, cloudVersions: map<string, Deployment>): (r: map<string, Deployment>)
    ensures r.Keys == cloudVersions.Keys
  {
    map p | p in cloudVersions :: Reconciled(cloudVersions[p], if p in localVersions then Some(localVersions[p]) else None).0
  }

  /** The local entries that survive a failed cloud listing: the downloaded ones. */
  function LocalDownloaded(localVersions: map<string, Deployment>): (r: map<string, Deployment>)
    ensures forall k :: k in r <==> k in localVersions && localVersions[k].status == CI.Downloaded
  {
    map k | k in localVersions && localVersions[k].status == CI.Downloaded :: localVersions[k]
  }

  /** No two entries of a list belong to the same program. */
  predicate DistinctPrograms(list: seq<Deployment>)
  {
    forall i, j :: 0 <= i < j < |list| ==> list[i].programId != list[j].programId
  }

  predicate Distinct(names: seq<string>)
  {
    forall i, j :: 0 <= i < j < |names| ==> names[i] != names[j]
  }

  /** The programs whose local content is cleared: a known local version that differs. */
  function Clears(localVersions: map<string, Deployment>, cloudVersions: map<string, Deployment>): set<string>
  {
    set p | p in cloudVersions && Reconciled(cloudVersions[p], if p in localVersions then Some(localVersions[p]) else None).1
  }

  /** `list` holds the entries r has for the programs in `done`, each once. */
  predicate HoldsEach(list: seq<Deployment>, r: map<string, Deployment>, done: set<string>)
  {
    done <= r.Keys && |list| == |done| && DistinctPrograms(list) &&
    (forall i :: 0 <= i < |list| ==> list[i].programId in done && list[i] == r[list[i].programId]) &&
    (forall p :: p in done ==> r[p] in list)
  }

  /** The entries of r restricted to some keys. */
  function Restrict<K, V>(r: map<K, V>, keys: set<K>): (m: map<K, V>)
    ensures m.Keys == r.Keys * keys
  {
    map k | k in r && k in keys :: r[k]
  }

  /** Restricting to one more key is putting that key's entry. */
  lemma MergePut<K, V>(base: map<K, V>, r: map<K, V>, keys: set<K>, k: K)
    requires k in r
    ensures base + Restrict(r, keys + {k}) == (base + Restrict(r, keys))[k := r[k]]
  {
  }

  /** Taking one more key out of the pending set adds it to the done set. */
  lemma PendingStep<K>(all: set<K>, pending: set<K>, k: K)
    requires k in pending && pending <= all
    ensures (all - pending) + {k} == all - (pending - {k})
  {
  }

  /** Before the loop nothing is done; after it everything is. */
  lemma PendingEnds<K>(all: set<K>)
    ensures all - all == {} && all - {} == all
  {
  }

  /** One step of the reconciling loop keeps HoldsEach. */
  lemma HoldsEachStep(list: seq<Deployment>, r: map<string, Deployment>, done: set<string>, p: string)
    requires HoldsEach(list, r, done) && p in r && p !in done && r[p].programId == p
    ensures HoldsEach(list + [r[p]], r, done + {p})
  {
    var list' := list + [r[p]];
    forall i, j | 0 <= i < j < |list'| ensures list'[i].programId != list'[j].programId {
      if j == |list| {
        assert list[i].programId in done;
      }
    }
    forall i | 0 <= i < |list'| ensures list'[i].programId in done + {p} && list'[i] == r[list'[i].programId] {
      if i < |list| {
        assert list'[i] == list[i];
      }
    }
  }

  /** One step of the failure loop: an entry of d under key k joins the list. */
  predicate HoldsValues(list: seq<Deployment>, d: map<string, Deployment>, done: set<string>)
  {
    |list| == |done * d.Keys| &&
    (forall i :: 0 <= i < |list| ==> exists k :: k in done && k in d && d[k] == list[i]) &&
    (forall k :: k in done && k in d ==> d[k] in list)
  }

  lemma HoldsValuesStep(list: seq<Deployment>, d: map<string, Deployment>, done: set<string>, k: string)
    requires HoldsValues(list, d, done) && k !in done
    ensures k in d ==> HoldsValues(list + [d[k]], d, done + {k})
    ensures k !in d ==> HoldsValues(list, d, done + {k})
  {
    if k in d {
      assert (done + {k}) * d.Keys == (done * d.Keys) + {k};
      var list' := list + [d[k]];
      forall i | 0 <= i < |list'| ensures exists k' :: k' in done + {k} && k' in d && d[k'] == list'[i] {
        if i < |list| {
          assert list'[i] == list[i];
        }
      }
    } else {
      assert (done + {k}) * d.Keys == done * d.Keys;
    }
  }

  /** The program ids of the entries of d under the keys in `done`. */
  function Promoted(d: map<string, Deployment>, done: set<string>): set<string>
  {
    set k | k in done && k in d :: d[k].programId
  }

  /** `projects` is `base` with the entries of d under `done` put under their program ids. */
  predicate PromotedInto(projects: map<string, Deployment>, base: map<string, Deployment>, d: map<string, Deployment>, done: set<string>)
  {
    projects.Keys == base.Keys + Promoted(d, done) &&
    (forall p :: p in projects && p !in Promoted(d, done) ==> projects[p] == base[p]) &&
    (forall p :: p in Promoted(d, done) ==> projects[p].programId == p && exists k :: k in done && k in d && d[k] == projects[p])
  }

  lemma PromotedStep(projects: map<string, Deployment>, base: map<string, Deployment>, d: map<string, Deployment>, done: set<string>, k: string)
    requires PromotedInto(projects, base, d, done)
    ensures k in d ==> PromotedInto(projects[d[k].programId := d[k]], base, d, done + {k})
    ensures k !in d ==> PromotedInto(projects, base, d, done + {k})
  {
    if k in d {
      assert Promoted(d, done + {k}) == Promoted(d, done) + {d[k].programId};
    } else {
      assert Promoted(d, done + {k}) == Promoted(d, done);
    }
  }

  /**
   * After the keys in `done` of a failed listing: the list holds the downloaded local
   * entries among them, and they are put into `base` under their program ids.
   */
  predicate KeptDownloaded(list: seq<Deployment>, updated: map<string, Deployment>, base: map<string, Deployment>,
    localVersions: map<string, Deployment>, done: set<string>)
  {
    HoldsValues(list, LocalDownloaded(localVersions), done) && PromotedInto(updated, base, LocalDownloaded(localVersions), done)
  }

  lemma KeepStep(list: seq<Deployment>, updated: map<string, Deployment>, base: map<string, Deployment>,
    localVersions: map<string, Deployment>, done: set<string>, k: string)
    requires KeptDownloaded(list, updated, base, localVersions, done) && k in localVersions && k !in done
    ensures var info := localVersions[k];
      if info.status == CI.Downloaded then KeptDownloaded(list + [info], updated[info.programId := info], base, localVersions, done + {k})
      else KeptDownloaded(list, updated, base, localVersions, done + {k})
  {
    var d := LocalDownloaded(localVersions);
    HoldsValuesStep(list, d, done, k);
    PromotedStep(updated, base, d, done, k);
  }

  /** The reconciled entry of one program is what ReconciledMap and Clears hold for it. */
  lemma ReconciledAt(localVersions: map<string, Deployment>, cloudVersions: map<string, Deployment>, p: string)
    requires p in cloudVersions
    ensures var step := Reconciled(cloudVersions[p], if p in localVersions then Some(localVersions[p]) else None);
      p in ReconciledMap(localVersions, cloudVersions) && ReconciledMap(localVersions, cloudVersions)[p] == step.0 &&
      step.0.programId == cloudVersions[p].programId &&
      (p in Clears(localVersions, cloudVersions) <==> step.1)
  {
  }

  /** `toClear` names, once each, the programs of `done` that are in `clears`. */
  ghost predicate ClearsSoFar(toClear: seq<string>, clears: set<string>, done: set<string>)
  {
    Distinct(toClear) && forall p :: p in toClear <==> p in done && p in clears
  }

  lemma ClearsStep(toClear: seq<string>, clears: set<string>, done: set<string>, p: string)
    requires ClearsSoFar(toClear, clears, done) && p !in done
    ensures ClearsSoFar(if p in clears then toClear + [p] else toClear, clears, done + {p})
  {
  }

  /**
   * After the programs in `done` of the cloud listing: the list holds their reconciled
   * entries r, `updated` is `base` with those entries put in, and toClear names those of
   * them whose local content is cleared.
   */
  ghost predicate ReconciledSoFar(list: seq<Deployment>, updated: map<string, Deployment>, base: map<string, Deployment>,
    toClear: seq<string>, r: map<string, Deployment>, clears: set<string>, done: set<string>)
  {
    HoldsEach(list, r, done) && updated == base + Restrict(r, done) && ClearsSoFar(toClear, clears, done)
  }

  lemma ReconcileStart(base: map<string, Deployment>, r: map<string, Deployment>, clears: set<string>)
    ensures ReconciledSoFar([], base, base, [], r, clears, {})
  {
    assert base + Restrict(r, {}) == base;
  }

  lemma ReconcileStep(list: seq<Deployment>, updated: map<string, Deployment>, base: map<string, Deployment>,
    toClear: seq<string>, r: map<string, Deployment>, clears: set<string>, done: set<string>, p: string)
    requires ReconciledSoFar(list, updated, base, toClear, r, clears, done)
    requires p in r && p !in done && r[p].programId == p
    ensures ReconciledSoFar(list + [r[p]], updated[p := r[p]], base,
      if p in clears then toClear + [p] else toClear, r, clears, done + {p})
  {
    HoldsEachStep(list, r, done, p);
    MergePut(base, r, done, p);
    ClearsStep(toClear, clears, done, p);
  }

  /** Once every program is done, the invariant is the contract of reconcileCloudVersions. */
  lemma ReconciledAll(list: seq<Deployment>, updated: map<string, Deployment>, base: map<string, Deployment>,
    toClear: seq<string>, r: map<string, Deployment>, clears: set<string>)
    requires ReconciledSoFar(list, updated, base, toClear, r, clears, r.Keys)
    ensures HoldsEach(list, r, r.Keys) && updated == base + r
    ensures Distinct(toClear) && forall p :: p in toClear <==> p in r && p in clears
  {
    assert Restrict(r, r.Keys) == r;
  }

  // ---------------------------------------------------------------------------
  // The manager
  // ---------------------------------------------------------------------------

  class ContentManager {
    /** Config.isProgramIdForUser. */
    const isForUser: string -> bool
    /** ContentInfo.isNewerRevisionThan. */
    const newer: (Deployment, Deployment) -> bool
    var projects: map<string, Deployment>
    var contentList: seq<Deployment>

    constructor (isForUser: string -> bool, newer: (Deployment, Deployment) -> bool)
      ensures this.isForUser == isForUser && this.newer == newer
      ensures projects == map[] && contentList == []
    {
      this.isForUser := isForUser;
      this.newer := newer;
      projects := map[];
      contentList := [];
    }

    /** onSignOut: the content list is emptied. */
    method OnSignOut()
      modifies this`contentList
      ensures contentList == []
      ensures !HaveContentInfo()
    {
      contentList := [];
    }

    /** haveContentInfo: some deployment is listed. */
    predicate HaveContentInfo()
      reads this
      ensures HaveContentInfo() <==> exists d :: d in contentList
    {
      assert |contentList| > 0 ==> contentList[0] in contentList;
      |contentList| > 0
    }

    /** Flags.inList: a scan of the flags for this one. */
    static method InList(flag: Flag, flags: seq<Flag>) returns (r: bool)
      ensures r <==> flag in flags
    {
      for i := 0 to |flags|
        invariant flag !in flags[..i]
      {
        if flags[i] == flag {
          return true;
        }
      }
      assert flags[..|flags|] == flags;
      return false;
    }

    /** getProjectNames: one pass over the project map. */
    method GetProjectNames(flags: seq<Flag>) returns (result: set<string>)
      ensures result == ProjectNames(projects, flags, isForUser)
    {
      var local := InList(Local, flags);
      var cloud := InList(Cloud, flags);
      var includeLocal := local || !cloud;
      var includeCloud := cloud || !local;
      var includeForAllUsers := InList(ForAll, flags);
      result := {};
      var pending := projects.Keys;
      while pending != {}
        invariant pending <= projects.Keys
        invariant result == ProjectNames(projects, flags, isForUser) - pending
        decreases pending
      {
        var p :| p in pending;
        if includeForAllUsers || isForUser(p) {
          if projects[p].status == CI.Downloaded {
            if includeLocal {
              result := result + {p};
            }
          } else if includeCloud {
            result := result + {p};
          }
        }
        pending := pending - {p};
      }
    }

    /** getContentInfo: the first entry whose program matches ignoring case, or null. */
    method GetContentInfo(project: string) returns (r: Option<Deployment>)
      ensures r.None? <==> forall i :: 0 <= i < |contentList| ==> !EqualsIgnoreCase(contentList[i].programId, project)
      ensures r.Some? ==> exists i :: (0 <= i < |contentList| && contentList[i] == r.value &&
        EqualsIgnoreCase(r.value.programId, project) &&
        forall j :: 0 <= j < i ==> !EqualsIgnoreCase(contentList[j].programId, project))
    {
      for i := 0 to |contentList|
        invariant forall j :: 0 <= j < i ==> !EqualsIgnoreCase(contentList[j].programId, project)
      {
        if EqualsIgnoreCase(contentList[i].programId, project) {
          return Some(contentList[i]);
        }
      }
      return None;
    }

    /**
     * findLocalContent: every project directory of the listing is classified by its
     * marker files; the downloaded ones also go into the project map.
     */
    method FindLocalContent(listing: seq<LocalDir>) returns (localVersions: map<string, Deployment>)
      modifies this`projects
      ensures localVersions == LocalVersionsOf(listing)
      ensures projects == ProjectsAfterLocal(old(projects), listing)
    {
      localVersions := map[];
      for i := 0 to |listing|
        invariant localVersions == LocalVersionsOf(listing[..i])
        invariant projects == ProjectsAfterLocal(old(projects), listing[..i])
      {
        assert listing[..i + 1][..i] == listing[..i];
        var dir := listing[i];
        if dir.isDirectory {
          var info := Classify(dir.name, dir.files);
          localVersions := localVersions[dir.name := info];
          if info.status == CI.Downloaded {
            projects := projects[dir.name := info];
          }
        }
      }
      assert listing[..|listing|] == listing;
    }

    /**
     * findCloudContent on a successful listing: the newest marker of each of the user's
     * programs, then the size and name of the zip that matches it.
     */
    method FindCloudContent(objs: seq<S3Object>) returns (cloud: map<string, Deployment>)
      ensures cloud == WithZips(MarkersOf(objs, isForUser, newer), objs)
    {
      var found := FindMarkers(objs, isForUser, newer);
      cloud := AddZips(found, objs);
    }

    /** The first loop of findCloudContent: the newest marker of each of the user's programs. */
    static method FindMarkers(objs: seq<S3Object>, isForUser: string -> bool, newer: (Deployment, Deployment) -> bool)
      returns (found: map<string, Deployment>)
      ensures found == MarkersOf(objs, isForUser, newer)
    {
      found := map[];
      for i := 0 to |objs|
        invariant found == MarkersOf(objs[..i], isForUser, newer)
      {
        assert objs[..i + 1][..i] == objs[..i];
        found := MarkerStep(found, objs[i], isForUser, newer);
      }
      assert objs[..|objs|] == objs;
    }

    /** The second loop of findCloudContent: each entry takes the size and name of its zip. */
    static method AddZips(found: map<string, Deployment>, objs: seq<S3Object>) returns (cloud: map<string, Deployment>)
      ensures cloud == WithZips(found, objs)
    {
      cloud := found;
      for i := 0 to |objs|
        invariant cloud == WithZips(found, objs[..i])
      {
        assert objs[..i + 1][..i] == objs[..i];
        cloud := ZipStep(cloud, objs[i]);
      }
      assert objs[..|objs|] == objs;
    }

    /** The first loop of reconcileCloudVersions: the cloud entries keyed by program. */
    static method IndexByProgram(cloudInfo: seq<Deployment>) returns (cloudVersions: map<string, Deployment>)
      ensures cloudVersions == ByProgram(cloudInfo)
    {
      cloudVersions := map[];
      for i := 0 to |cloudInfo|
        invariant cloudVersions == ByProgram(cloudInfo[..i])
      {
        assert cloudInfo[..i + 1][..i] == cloudInfo[..i];
        cloudVersions := cloudVersions[cloudInfo[i].programId := cloudInfo[i]];
      }
      assert cloudInfo[..|cloudInfo|] == cloudInfo;
    }

    /** The local projects that are no longer in the cloud. */
    static method ProjectsToRemove(localVersions: map<string, Deployment>, cloudVersions: map<string, Deployment>)
      returns (toRemove: seq<string>)
      ensures Distinct(toRemove)
      ensures forall p :: p in toRemove <==> p in localVersions && p !in cloudVersions
    {
      toRemove := [];
      var pending := localVersions.Keys;
      while pending != {}
        invariant pending <= localVersions.Keys && Distinct(toRemove)
        invariant forall p :: p in toRemove ==> p !in pending
        invariant forall p :: p in toRemove <==> p in localVersions && p !in pending && p !in cloudVersions
        decreases pending
      {
        var p :| p in pending;
        if p !in cloudVersions {
          toRemove := toRemove + [p];
        }
        pending := pending - {p};
      }
    }

    /**
     * reconcileCloudVersions: the content list is refilled with the reconciled cloud
     * entries, one per program, which are also put into the project map; the returned
     * lists name the projects whose content is cleared and the projects removed.
     */
    method ReconcileCloudVersions(localVersions: map<string, Deployment>, cloudInfo: seq<Deployment>)
      returns (toClear: seq<string>, toRemove: seq<string>)
      modifies this`contentList, this`projects
      ensures var r := ReconciledMap(localVersions, ByProgram(cloudInfo));
        HoldsEach(contentList, r, r.Keys) && projects == old(projects) + r
      ensures Distinct(toRemove) && forall p :: p in toRemove <==> p in localVersions && p !in ByProgram(cloudInfo)
      ensures Distinct(toClear) && forall p :: p in toClear <==> p in Clears(localVersions, ByProgram(cloudInfo))
    {
      var cloudVersions := IndexByProgram(cloudInfo);
      ByProgramSpec(cloudInfo);
      contentList := [];
      toRemove := ProjectsToRemove(localVersions, cloudVersions);
      toClear := FillFromCloud(localVersions, cloudVersions);
    }

    /** The second loop of reconcileCloudVersions, on the list (emptied before) and the project map. */
    method FillFromCloud(localVersions: map<string, Deployment>, cloudVersions: map<string, Deployment>)
      returns (toClear: seq<string>)
      requires contentList == []
      requires forall p :: p in cloudVersions ==> cloudVersions[p].programId == p
      modifies this`contentList, this`projects
      ensures var r := ReconciledMap(localVersions, cloudVersions);
        HoldsEach(contentList, r, r.Keys) && projects == old(projects) + r
      ensures Distinct(toClear) && forall p :: p in toClear <==> p in Clears(localVersions, cloudVersions)
    {
      var list, updated;
      list, updated, toClear := ReconcileEach(localVersions, cloudVersions, projects);
      ReconciledAll(list, updated, projects, toClear, ReconciledMap(localVersions, cloudVersions), Clears(localVersions, cloudVersions));
      contentList, projects := list, updated;
    }

    static method ReconcileEach(localVersions: map<string, Deployment>, cloudVersions: map<string, Deployment>, projects: map<string, Deployment>)
      returns (list: seq<Deployment>, updated: map<string, Deployment>, toClear: seq<string>)
      requires forall p :: p in cloudVersions ==> cloudVersions[p].programId == p
      ensures ReconciledSoFar(list, updated, projects, toClear, ReconciledMap(localVersions, cloudVersions),
        Clears(localVersions, cloudVersions), cloudVersions.Keys)
    {
      ghost var r := ReconciledMap(localVersions, cloudVersions);
      ghost var clears := Clears(localVersions, cloudVersions);
      list, updated, toClear := [], projects, [];
      var pending := cloudVersions.Keys;
      PendingEnds(cloudVersions.Keys);
      ReconcileStart(projects, r, clears);
      ghost var done: set<string> := {};
      while pending != {}
        invariant pending <= cloudVersions.Keys && done == cloudVersions.Keys - pending
        invariant ReconciledSoFar(list, updated, projects, toClear, r, clears, done)
        decreases pending
      {
        var p :| p in pending;
        list, updated, toClear := ReconcileOne(localVersions, cloudVersions, list, updated, projects, toClear, r, clears, done, p);
        PendingStep(cloudVersions.Keys, pending, p);
        done := done + {p};
        pending := pending - {p};
      }
    }

    /** One program of the cloud listing: its reconciled entry joins the list and the map. */
    static method ReconcileOne(localVersions: map<string, Deployment>, cloudVersions: map<string, Deployment>,
      list: seq<Deployment>, updated: map<string, Deployment>, base: map<string, Deployment>, toClear: seq<string>,
      ghost r: map<string, Deployment>, ghost clears: set<string>, ghost done: set<string>, p: string)
      returns (list': seq<Deployment>, updated': map<string, Deployment>, toClear': seq<string>)
      requires r == ReconciledMap(localVersions, cloudVersions) && clears == Clears(localVersions, cloudVersions)
      requires p in cloudVersions && p !in done && cloudVersions[p].programId == p
      requires ReconciledSoFar(list, updated, base, toClear, r, clears, done)
      ensures ReconciledSoFar(list', updated', base, toClear', r, clears, done + {p})
    {
      var local := if p in localVersions then Some(localVersions[p]) else None;
      var step := Reconciled(cloudVersions[p], local);
      ReconciledAt(localVersions, cloudVersions, p);
      ReconcileStep(list, updated, base, toClear, r, clears, done, p);
      toClear' := if step.1 then toClear + [p] else toClear;
      list', updated' := list + [step.0], updated[p := step.0];
    }

    /**
     * The cloud listing failed: the content list becomes the downloaded local entries, and
     * those are put into the project map under their program ids.
     */
    method OnCloudFailure(localVersions: map<string, Deployment>)
      modifies this`contentList, this`projects
      ensures KeptDownloaded(contentList, projects, old(projects), localVersions, localVersions.Keys)
    {
      var list, updated := KeepDownloaded(localVersions, projects);
      contentList, projects := list, updated;
    }

    static method KeepDownloaded(localVersions: map<string, Deployment>, projects: map<string, Deployment>)
      returns (list: seq<Deployment>, updated: map<string, Deployment>)
      ensures KeptDownloaded(list, updated, projects, localVersions, localVersions.Keys)
    {
      list, updated := [], projects;
      var pending := localVersions.Keys;
      PendingEnds(localVersions.Keys);
      ghost var done: set<string> := {};
      while pending != {}
        invariant pending <= localVersions.Keys && done == localVersions.Keys - pending
        invariant KeptDownloaded(list, updated, projects, localVersions, done)
        decreases pending
      {
        var k :| k in pending;
        var info := localVersions[k];
        KeepStep(list, updated, projects, localVersions, done, k);
        if info.status == CI.Downloaded {
          updated := updated[info.programId := info];
          list := list + [info];
        }
        PendingStep(localVersions.Keys, pending, k);
        done := done + {k};
        pending := pending - {k};
      }
    }
  }
}

=== FILE: data_request_result.dfy ===
/**
 * The result of a search in the ACM's audio item store: facet counts per category and per
 * language, the matching audio items and the playlists.
 */
module DataRequestResult {
  import opened Wrappers

  datatype DataRequestResult = DataRequestResult(
    facetCounts: map<string, int>,
    languageFacetCounts: map<string, int>,
    audioItems: seq<string>,
    tags: seq<string>)
  {
    /** getFacetCount: no category, or one the result has no count for, counts 0. */
    function FacetCount(categoryId: Option<string>): (r: int)
      ensures categoryId.None? ==> r == 0
      ensures categoryId.Some? && categoryId.value !in facetCounts ==> r == 0
      ensures categoryId.Some? && categoryId.value in facetCounts ==> r == facetCounts[categoryId.value]
    {
      Count(facetCounts, categoryId)
    }

    /** getLanguageFacetCount: the same rules for language codes. */
    function LanguageFacetCount(languageCode: Option<string>): (r: int)
      ensures languageCode.None? ==> r == 0
      ensures languageCode.Some? && languageCode.value !in languageFacetCounts ==> r == 0
      ensures languageCode.Some? && languageCode.value in languageFacetCounts ==> r == languageFacetCounts[languageCode.value]
    {
      Count(languageFacetCounts, languageCode)
    }
  }

  /** A count looked up with 0 as the default, for a null key as for a missing one. */
  function Count(counts: map<string, int>, key: Option<string>): int
  {
    if key.Some? && key.value in counts then counts[key.value] else 0
  }

  /** A non-zero count is one the result holds. */
  lemma NonZeroIsStored(result: DataRequestResult, categoryId: Option<string>)
    requires result.FacetCount(categoryId) != 0
    ensures categoryId.Some? && categoryId.value in result.facetCounts
    ensures result.facetCounts[categoryId.value] == result.FacetCount(categoryId)
  {
  }
}

=== FILE: db_configuration.dfy ===
/**
 * The typed settings an ACM database derives from its config.properties map,
 * the two setters that write back into it, and whether the database is writable.
 */
module DbConfiguration {
  import opened Wrappers
  import opened JavaStrings
  import AC = AccessControl

  type Properties = map<string, string>

  const CacheSizeProp: string := "CACHE_SIZE_IN_BYTES"
  const StrictDeploymentNamingProp: string := "STRICT_DEPLOYMENT_NAMING"
  const UserFeedbackHiddenProp: string := "USER_FEEDBACK_HIDDEN"
  const DeDuplicateAudioProp: string := "DE_DUPLICATE_AUDIO"
  const NativeAudioFormatsProp: string := "NATIVE_AUDIO_FORMATS"
  const FuzzyThresholdProp: string := "FUZZY_THRESHOLD"
  const NotifyListProp: string := "NOTIFY_LIST"

  /** 2 GiB. */
  const DefaultCacheSizeInBytes: int := 2 * 1024 * 1024 * 1024
  const FuzzyThresholdMaximum: int := 100
  const FuzzyThresholdDefault: int := 80
  const FuzzyThresholdMinimum: int := 60
  /** The file extension of the A18 audio format. */
  const A18Extension: string := "a18"

  /** The separators of the native-formats list ("[;, ]") and of the notify list ("[, ]+"). */
  const FormatDelimiters: set<char> := {';', ',', ' '}
  const NotifyDelimiters: set<char> := {',', ' '}

  /** Math.max(Math.min(x, maximum), minimum). */
  function ClampThreshold(x: int): (r: int)
    ensures FuzzyThresholdMinimum <= r <= FuzzyThresholdMaximum
    ensures FuzzyThresholdMinimum <= x <= FuzzyThresholdMaximum ==> r == x
    ensures x > FuzzyThresholdMaximum ==> r == FuzzyThresholdMaximum
    ensures x < FuzzyThresholdMinimum ==> r == FuzzyThresholdMinimum
  {
    var m := if x < FuzzyThresholdMaximum then x else FuzzyThresholdMaximum;
    if m > FuzzyThresholdMinimum then m else FuzzyThresholdMinimum
  }

  /**
   * String.split with a pattern that matches runs of delimiters: a string with no
   * delimiter is its own single piece; otherwise the pieces between runs, with an
   * empty first piece when the string starts with a delimiter and no trailing empty
   * pieces (so nothing at all when there are only delimiters).
   */
  function SplitRuns(s: string, delims: set<char>): (r: seq<string>)
  {
    if NoneIn(s, delims) then [s]
    else if Tokens(s, delims) == [] then []
    else (if s[0] in delims then [""] else []) + Tokens(s, delims)
  }

  /** getNotifyList: the trimmed pieces of the property, as a set; none without the property. */
  function NotifyListOf(value: Option<string>): set<string>
  {
    if value.None? then {} else set t | t in SplitRuns(value.value, NotifyDelimiters) :: Trim(t)
  }

  /** Joining addresses with ", " and splitting them again gives back the words. */
  lemma {:induction false} TokensOfJoin(list: seq<string>)
    requires forall e :: e in list ==> |e| > 0 && NoneIn(e, NotifyDelimiters)
    ensures Tokens(Join(list, ", "), NotifyDelimiters) == list
    decreases |list|
  {
    if |list| == 1 {
      TokensOfWord(list[0], NotifyDelimiters);
    } else if |list| > 1 {
      var rest := Join(list[1..], ", ");
      assert Join(list, ", ") == list[0] + [','] + ([' '] + rest);
      TokensCons(list[0], ',', [' '] + rest, NotifyDelimiters);
      assert ([' '] + rest)[1..] == rest;
      TokensOfJoin(list[1..]);
      assert [list[0]] + list[1..] == list;
    }
  }

  /** The joined list starts with the first address and has a comma right after it. */
  lemma JoinShape(list: seq<string>)
    requires |list| > 1 && |list[0]| > 0
    ensures var s := Join(list, ", "); |s| > |list[0]| && s[|list[0]|] == ',' && s[0] == list[0][0]
  {
    assert Join(list, ", ") == list[0] + ", " + Join(list[1..], ", ");
  }

  lemma SplitRunsOfJoin(list: seq<string>)
    requires |list| > 0
    requires forall e :: e in list ==> |e| > 0 && NoneIn(e, NotifyDelimiters)
    ensures SplitRuns(Join(list, ", "), NotifyDelimiters) == list
  {
    var s := Join(list, ", ");
    TokensOfJoin(list);
    if |list| > 1 {
      JoinShape(list);
      assert !NoneIn(s, NotifyDelimiters);
      assert s[0] !in NotifyDelimiters;
    } else {
      assert s == list[0];
    }
  }

  /**
   * setNotifyList followed by getNotifyList gives back the addresses, for a
   * non-empty list of trimmed addresses without commas or spaces.
   */
  lemma NotifyListRoundTrip(list: seq<string>)
    requires |list| > 0
    requires forall e :: e in list ==> |e| > 0 && NoneIn(e, NotifyDelimiters) && IsTrimmed(e)
    ensures NotifyListOf(Some(Join(list, ", "))) == set e | e in list
  {
    SplitRunsOfJoin(list);
    assert forall e :: e in list ==> Trim(e) == e;
  }

  /** An empty list is written as "", which reads back as the set holding the empty string. */
  lemma EmptyNotifyList()
    ensures NotifyListOf(Some(Join([], ", "))) == {""}
  {
    assert SplitRuns("", NotifyDelimiters) == [""];
    assert Trim("") == "";
  }

  /**
   * getNativeAudioFormats as written: of the pieces, the blank ones are dropped, and the
   * rest are trimmed and lower-cased. A piece made of control characters that are
   * not whitespace is not blank but trims to "".
   */
  function FormatEntriesAsWritten(pieces: seq<string>): (r: seq<string>)
    requires forall t :: t in pieces ==> NoneIn(t, FormatDelimiters)
    ensures forall f :: f in r ==> IsTrimmed(f) && IsLower(f) && NoneIn(f, FormatDelimiters)
    ensures |r| <= |pieces|
  {
    if pieces == [] then []
    else
      LowerIsLower(Trim(pieces[0]));
      LowerTrimKeepsDelimitersOut(pieces[0]);
      (if IsBlank(pieces[0]) then [] else [Lower(Trim(pieces[0]))]) + FormatEntriesAsWritten(pieces[1..])
  }

  /**
   * getNativeAudioFormats as written, over the property (or its "a18" default):
   * every format is trimmed, lower-case and free of separators, but may be empty.
   */
  function NativeAudioFormatsAsWritten(value: string): (r: seq<string>)
    ensures forall f :: f in r ==> IsTrimmed(f) && IsLower(f) && NoneIn(f, FormatDelimiters)
  {
    FormatEntriesAsWritten(Tokens(value, FormatDelimiters))
  }

  /** A format list holding the single character U+0001 yields an empty format. */
  lemma ControlCharacterYieldsEmptyFormat()
    ensures NativeAudioFormatsAsWritten("\U{1}") == [""]
  {
    TokensOfWord("\U{1}", FormatDelimiters);
    assert !IsBlank("\U{1}") by {
      assert !IsWhitespace("\U{1}"[0]);
    }
    assert LeadingTrimmable("\U{1}") == 1;
    assert Trim("\U{1}") == "";
    assert Lower("") == "";
    assert FormatEntriesAsWritten(["\U{1}"]) == [""] + FormatEntriesAsWritten([]);
  }

  lemma LowerTrimKeepsDelimitersOut(t: string)
    requires NoneIn(t, FormatDelimiters)
    ensures NoneIn(Lower(Trim(t)), FormatDelimiters)
  {
    var u := Trim(t);
    forall i | 0 <= i < |u| ensures Lower(u)[i] !in FormatDelimiters {
      assert u[i] in u;
    }
  }

  /**
   * The pieces, trimmed and lower-cased, keeping those that are not blank, as the
   * code does, and also not empty after trimming.
   */
  function FormatEntries(pieces: seq<string>): (r: seq<string>)
    ensures forall f :: f in r ==> |f| > 0 && IsTrimmed(f) && IsLower(f) && NoneIn(f, FormatDelimiters)
    requires forall t :: t in pieces ==> NoneIn(t, FormatDelimiters)
  {
    if pieces == [] then []
    else
      var f := Lower(Trim(pieces[0]));
      LowerIsLower(Trim(pieces[0]));
      LowerTrimKeepsDelimitersOut(pieces[0]);
      (if IsBlank(pieces[0]) || f == "" then [] else [f]) + FormatEntries(pieces[1..])
  }

  /** getNativeAudioFormats: every entry is a non-empty, trimmed, lower-case word. */
  function NativeAudioFormatsOf(value: string): (r: seq<string>)
    ensures forall f :: f in r ==> |f| > 0 && IsTrimmed(f) && IsLower(f) && NoneIn(f, FormatDelimiters)
  {
    FormatEntries(Tokens(value, FormatDelimiters))
  }

  /**
   * Every character is whitespace exactly when trim removes it: no control
   * character other than whitespace, and no whitespace above U+0020.
   */
  predicate NoControlCharacters(s: string)
  {
    forall i :: 0 <= i < |s| ==> (IsWhitespace(s[i]) <==> IsTrimmable(s[i]))
  }

  /** A piece without control characters is blank exactly when it trims to nothing. */
  lemma BlankIffTrimsToEmpty(t: string)
    requires NoControlCharacters(t)
    ensures IsBlank(t) <==> Trim(t) == ""
  {
    if !IsBlank(t) {
      var i :| 0 <= i < |t| && !IsWhitespace(t[i]);
      assert !IsTrimmable(t[i]);
    }
  }

  lemma {:induction false} FormatEntriesAgree(pieces: seq<string>)
    requires forall t :: t in pieces ==> NoneIn(t, FormatDelimiters) && NoControlCharacters(t)
    ensures FormatEntries(pieces) == FormatEntriesAsWritten(pieces)
    decreases |pieces|
  {
    if pieces != [] {
      BlankIffTrimsToEmpty(pieces[0]);
      FormatEntriesAgree(pieces[1..]);
    }
  }

  lemma {:induction false} TokensKeepCharacters(s: string, delims: set<char>)
    ensures forall t, c :: t in Tokens(s, delims) && c in t ==> c in s
    decreases |s|
  {
    if |s| > 0 {
      TokensKeepCharacters(s[1..], delims);
      if s[0] !in delims {
        var k := RunLength(s, delims);
        TokensKeepCharacters(s[k..], delims);
        forall t, c | t in Tokens(s, delims) && c in t ensures c in s {
          if t == s[..k] {
            assert c in s[..k];
          } else {
            assert t in Tokens(s[k..], delims);
            assert c in s[k..];
          }
        }
      } else {
        forall t, c | t in Tokens(s, delims) && c in t ensures c in s {
          assert c in s[1..];
        }
      }
    }
  }

  /**
   * The corrected reading differs from the one as written only on lists that hold
   * control characters other than whitespace, or whitespace that trim keeps.
   */
  lemma NativeFormatsAgreeWithoutControlCharacters(value: string)
    requires NoControlCharacters(value)
    ensures NativeAudioFormatsOf(value) == NativeAudioFormatsAsWritten(value)
  {
    TokensKeepCharacters(value, FormatDelimiters);
    forall t | t in Tokens(value, FormatDelimiters) ensures NoControlCharacters(t) {
      forall i | 0 <= i < |t| ensures IsWhitespace(t[i]) <==> IsTrimmable(t[i]) {
        assert t[i] in t;
        var j :| 0 <= j < |value| && value[j] == t[i];
      }
    }
    FormatEntriesAgree(Tokens(value, FormatDelimiters));
  }

  /** A single lower-case word that is not blank reads back as the list of that word. */
  lemma NativeFormatsOfWord(w: string)
    requires |w| > 0 && IsTrimmed(w) && IsLower(w) && NoneIn(w, FormatDelimiters) && !IsBlank(w)
    ensures NativeAudioFormatsOf(w) == [w]
  {
    TokensOfWord(w, FormatDelimiters);
    assert Lower(w) == w by {
      forall i | 0 <= i < |w| ensures Lower(w)[i] == w[i] {
      }
    }
    assert FormatEntries([w]) == [w] + FormatEntries([]);
  }

  /** The default format list is A18 alone. */
  lemma DefaultNativeFormats()
    ensures NativeAudioFormatsOf(A18Extension) == [A18Extension]
  {
    assert !IsWhitespace(A18Extension[0]);
    NativeFormatsOfWord(A18Extension);
  }

  class DbConfiguration {
    var props: Properties
    var sandboxed: bool
    var accessControl: AC.AccessControl?

    constructor (props: Properties)
      ensures this.props == props && !sandboxed && accessControl == null
    {
      this.props, sandboxed, accessControl := props, false, null;
    }

    /** getProperty: the value, or None for a missing key. */
    function Property(key: string): (r: Option<string>)
      reads this
      ensures r.Some? <==> key in props
      ensures r.Some? ==> r.value == props[key]
    {
      if key in props then Some(props[key]) else None
    }

    /** getCacheSizeInBytes: the property as a long, or 2 GiB when it is missing or not a long. */
    function CacheSizeInBytes(): (r: int)
      reads this
      ensures MinInt64 <= r <= MaxInt64
      ensures r != DefaultCacheSizeInBytes ==> CacheSizeProp in props && ParseLong(props[CacheSizeProp]) == Some(r)
      ensures CacheSizeProp in props && ParseLong(props[CacheSizeProp]).Some? ==> r == ParseLong(props[CacheSizeProp]).value
    {
      match Property(CacheSizeProp)
      case None => DefaultCacheSizeInBytes
      case Some(v) => ParseLong(v).GetOr(DefaultCacheSizeInBytes)
    }

    /** isStrictDeploymentNaming: on unless the property says "false", in any case. */
    function IsStrictDeploymentNaming(): (r: bool)
      reads this
      ensures !r <==> StrictDeploymentNamingProp in props && EqualsIgnoreCase(props[StrictDeploymentNamingProp], "false")
    {
      Property(StrictDeploymentNamingProp).None? || !EqualsIgnoreCase(Property(StrictDeploymentNamingProp).value, "false")
    }

    /** A switch that is off unless the property says "true", in any case. */
    function IsSet(key: string): (r: bool)
      reads this
      ensures r <==> key in props && EqualsIgnoreCase(props[key], "true")
    {
      Property(key).Some? && EqualsIgnoreCase(Property(key).value, "true")
    }

    /** isUserFeedbackHidden. */
    function IsUserFeedbackHidden(): (r: bool)
      reads this
      ensures r ==> UserFeedbackHiddenProp in props
      ensures r <==> IsSet(UserFeedbackHiddenProp)
    {
      IsSet(UserFeedbackHiddenProp)
    }

    /** isDeDuplicateAudio. */
    function IsDeDuplicateAudio(): (r: bool)
      reads this
      ensures r ==> DeDuplicateAudioProp in props
      ensures r <==> IsSet(DeDuplicateAudioProp)
    {
      IsSet(DeDuplicateAudioProp)
    }

    /** getNativeAudioFormats, over the property or "a18" when there is none. */
    function NativeAudioFormats(): (r: seq<string>)
      reads this
      ensures NativeAudioFormatsProp !in props ==> r == [A18Extension]
      ensures forall f :: f in r ==> |f| > 0 && IsTrimmed(f) && IsLower(f) && NoneIn(f, FormatDelimiters)
    {
      DefaultNativeFormats();
      NativeAudioFormatsOf(Property(NativeAudioFormatsProp).GetOr(A18Extension))
    }

    /** getFuzzyThreshold: the property as an int, or 80 when it is missing or not an int. */
    function FuzzyThreshold(): (r: int)
      reads this
      ensures IsInt32(r)
      ensures FuzzyThresholdProp !in props ==> r == FuzzyThresholdDefault
      ensures FuzzyThresholdProp in props ==> r == ParseInt(props[FuzzyThresholdProp]).GetOr(FuzzyThresholdDefault)
    {
      match Property(FuzzyThresholdProp)
      case None => FuzzyThresholdDefault
      case Some(v) => ParseInt(v).GetOr(FuzzyThresholdDefault)
    }

    /** setFuzzyThreshold: stores the threshold clamped to [60, 100], which is what is read back. */
    method SetFuzzyThreshold(threshold: int)
      modifies this
      ensures props == old(props)[FuzzyThresholdProp := IntToString(ClampThreshold(threshold))]
      ensures FuzzyThreshold() == ClampThreshold(threshold)
      ensures sandboxed == old(sandboxed) && accessControl == old(accessControl)
    {
      var t := ClampThreshold(threshold);
      ParseIntRoundTrip(t);
      props := props[FuzzyThresholdProp := IntToString(t)];
    }

    /** getNotifyList. */
    function NotifyList(): (r: set<string>)
      reads this
      ensures NotifyListProp !in props ==> r == {}
      ensures NotifyListProp in props ==> r == NotifyListOf(Some(props[NotifyListProp]))
    {
      NotifyListOf(Property(NotifyListProp))
    }

    /** setNotifyList: stores the addresses joined by ", ". */
    method SetNotifyList(list: seq<string>)
      modifies this
      ensures props == old(props)[NotifyListProp := Join(list, ", ")]
      ensures sandboxed == old(sandboxed) && accessControl == old(accessControl)
    {
      props := props[NotifyListProp := Join(list, ", ")];
    }

    /** isWritable: there is an access control whose database is open, and not in a sandbox. */
    function IsWritable(): (r: bool)
      reads this, accessControl
      ensures r ==> !sandboxed && accessControl != null
      ensures r <==> (accessControl != null && !sandboxed &&
        accessControl.openStatus in {AC.Opened, AC.Reopened, AC.OpenStatus.NewDatabase, AC.OpenedSandboxed})
    {
      accessControl != null && accessControl.openStatus.IsOpen() && !sandboxed
    }
  }
}

=== FILE: deployment_info.dfy ===
/**
 * What a deployment is made of before it is built: packages (one per language and
 * variant) holding playlists holding audio item ids, the package names that go on
 * the device, and the pruning of empty packages and playlists.
 */
module DeploymentInfo {
  import opened Wrappers
  import opened JavaStrings

  // ---------------------------------------------------------------------------
  // Package names
  // ---------------------------------------------------------------------------

  const Vowels: set<char> := {'a', 'e', 'i', 'o', 'u', 'A', 'E', 'I', 'O', 'U'}

  /** programid.replaceAll("[aeiouAEIOU]", ""). */
  function StripVowels(s: string): (r: string)
    ensures |r| <= |s|
    ensures forall c :: c in r <==> c in s && c !in Vowels
  {
    if s == [] then []
    else (if s[0] in Vowels then [] else [s[0]]) + StripVowels(s[1..])
  }

  /** StringUtils.isNotBlank on a variant that may be null. */
  predicate IsNotBlank(variant: Option<string>) { variant.Some? && !IsBlank(variant.value) }

  /** The full name: programid-deploymentNumber-languageCode, then "-" and the lower-cased variant if any. */
  function FullName(programid: string, deploymentNumber: int, languageCode: string, variant: Option<string>): string
  {
    programid + "-" + IntToString(deploymentNumber) + "-" + languageCode +
    (if IsNotBlank(variant) then "-" + Lower(variant.value) else "")
  }

  /** What follows the program id once the hyphens are gone. */
  function Suffix(deploymentNumber: int, languageCode: string, variant: Option<string>): string
  {
    IntToString(deploymentNumber) + languageCode + (if IsNotBlank(variant) then Lower(variant.value) else "")
  }

  /**
   * makeName as written. A short name that is too long loses its hyphens, then the
   * vowels of the program id. If it is still too long, the truncation step computes
   * keep = |programid| - (maxLen - |name|), which exceeds |programid| because the
   * name is longer than maxLen, so programid.substring(0, keep) always throws
   * StringIndexOutOfBoundsException (and the hash fallback for keep <= 0 is never
   * reached).
   */
  function MakeNameAsWritten(programid: string, deploymentNumber: int, languageCode: string, variant: Option<string>,
                             shortName: bool, maxLen: int): (r: Result<string, Exception>)
    ensures r.Err? ==> r.error == IndexOutOfBoundsException
  {
    var full := FullName(programid, deploymentNumber, languageCode, variant);
    if !shortName || |full| <= maxLen then Ok(full)
    else
      var suffix := Suffix(deploymentNumber, languageCode, variant);
      var name := if |programid + suffix| > maxLen then StripVowels(programid) + suffix else programid + suffix;
      if |name| > maxLen then Err(IndexOutOfBoundsException)
      else Ok(name)
  }

  /**
   * makeName with the truncation step cutting the vowel-free program id by exactly
   * the excess; when even that leaves nothing of the id, the name is the hex hash
   * the source falls back to, given here as `fallback`.
   */
  function MakeName(programid: string, deploymentNumber: int, languageCode: string, variant: Option<string>,
                    shortName: bool, maxLen: int, fallback: string): (r: string)
    ensures !shortName ==> r == FullName(programid, deploymentNumber, languageCode, variant)
  {
    var full := FullName(programid, deploymentNumber, languageCode, variant);
    if !shortName || |full| <= maxLen then full
    else
      var suffix := Suffix(deploymentNumber, languageCode, variant);
      if |programid + suffix| <= maxLen then programid + suffix
      else
        var shortid := StripVowels(programid);
        if |shortid + suffix| <= maxLen then shortid + suffix
        else
          var keep := |shortid| - (|shortid + suffix| - maxLen);
          if keep > 0 then shortid[..keep] + suffix else fallback
  }

  /** A full name that fits is the short name too. */
  lemma ShortNameWhenFullFits(programid: string, deploymentNumber: int, languageCode: string, variant: Option<string>, maxLen: int, fallback: string)
    requires |FullName(programid, deploymentNumber, languageCode, variant)| <= maxLen
    ensures MakeName(programid, deploymentNumber, languageCode, variant, true, maxLen, fallback)
         == FullName(programid, deploymentNumber, languageCode, variant)
  {
  }

  /** Too long with hyphens but fitting without: the short name is the hyphen-free form. */
  lemma ShortNameDropsHyphens(programid: string, deploymentNumber: int, languageCode: string, variant: Option<string>, maxLen: int, fallback: string)
    requires |FullName(programid, deploymentNumber, languageCode, variant)| > maxLen
    requires |programid + Suffix(deploymentNumber, languageCode, variant)| <= maxLen
    ensures MakeName(programid, deploymentNumber, languageCode, variant, true, maxLen, fallback)
         == programid + Suffix(deploymentNumber, languageCode, variant)
    ensures MakeNameAsWritten(programid, deploymentNumber, languageCode, variant, true, maxLen)
         == Ok(programid + Suffix(deploymentNumber, languageCode, variant))
  {
  }

  /** Too long even without hyphens: the vowels of the program id go next. */
  lemma ShortNameStripsVowels(programid: string, deploymentNumber: int, languageCode: string, variant: Option<string>, maxLen: int, fallback: string)
    requires |programid + Suffix(deploymentNumber, languageCode, variant)| > maxLen
    requires |StripVowels(programid) + Suffix(deploymentNumber, languageCode, variant)| <= maxLen
    ensures MakeName(programid, deploymentNumber, languageCode, variant, true, maxLen, fallback)
         == StripVowels(programid) + Suffix(deploymentNumber, languageCode, variant)
    ensures MakeNameAsWritten(programid, deploymentNumber, languageCode, variant, true, maxLen)
         == Ok(StripVowels(programid) + Suffix(deploymentNumber, languageCode, variant))
  {
    var full := FullName(programid, deploymentNumber, languageCode, variant);
    var suffix := Suffix(deploymentNumber, languageCode, variant);
    assert |full| >= |programid + suffix|;
  }

  /** As written, every short name that is still too long without vowels throws. */
  lemma TooLongNameThrowsAsWritten(programid: string, deploymentNumber: int, languageCode: string, variant: Option<string>, maxLen: int)
    requires |StripVowels(programid) + Suffix(deploymentNumber, languageCode, variant)| > maxLen
    ensures MakeNameAsWritten(programid, deploymentNumber, languageCode, variant, true, maxLen) == Err(IndexOutOfBoundsException)
  {
    var full := FullName(programid, deploymentNumber, languageCode, variant);
    var suffix := Suffix(deploymentNumber, languageCode, variant);
    assert |full| >= |programid + suffix| >= |StripVowels(programid) + suffix|;
  }

  /** The program id "BCDFGHJKLMNPQRSTVW" (no vowels) with deployment 1 and language "eng" throws as written. */
  lemma ConsonantProgramThrowsAsWritten()
    ensures MakeNameAsWritten("BCDFGHJKLMNPQRSTVW", 1, "eng", None, true, 20) == Err(IndexOutOfBoundsException)
  {
    var id := "BCDFGHJKLMNPQRSTVW";
    assert |StripVowels(id)| == |id| by {
      StripVowelsOfConsonants(id);
    }
    assert IntToString(1) == "1";
    TooLongNameThrowsAsWritten(id, 1, "eng", None, 20);
  }

  /** Without vowels, stripping them changes nothing. */
  lemma {:induction false} StripVowelsOfConsonants(s: string)
    requires forall i :: 0 <= i < |s| ==> s[i] !in Vowels
    ensures StripVowels(s) == s
  {
    if s != [] {
      StripVowelsOfConsonants(s[1..]);
    }
  }

  /**
   * The corrected short name fits whenever the suffix alone leaves room for at
   * least one character of the id; it then keeps a prefix of the vowel-free id.
   */
  lemma ShortNameFits(programid: string, deploymentNumber: int, languageCode: string, variant: Option<string>, maxLen: int, fallback: string)
    requires |Suffix(deploymentNumber, languageCode, variant)| < maxLen
    ensures |MakeName(programid, deploymentNumber, languageCode, variant, true, maxLen, fallback)| <= maxLen
  {
    var suffix := Suffix(deploymentNumber, languageCode, variant);
    var shortid := StripVowels(programid);
    if |FullName(programid, deploymentNumber, languageCode, variant)| > maxLen && |programid + suffix| > maxLen && |shortid + suffix| > maxLen {
      var keep := |shortid| - (|shortid + suffix| - maxLen);
      assert keep == maxLen - |suffix| > 0;
      assert |shortid[..keep] + suffix| == maxLen;
    }
  }

  /** The package name begins with the deployment's own name and a hyphen. */
  lemma FullNameExtendsDeploymentName(programid: string, deploymentNumber: int, languageCode: string, variant: Option<string>)
    ensures StartsWith(FullName(programid, deploymentNumber, languageCode, variant), DeploymentName(programid, deploymentNumber) + "-")
  {
    var full := FullName(programid, deploymentNumber, languageCode, variant);
    var d := DeploymentName(programid, deploymentNumber) + "-";
    assert full == d + languageCode + (if IsNotBlank(variant) then "-" + Lower(variant.value) else "");
  }

  /** toString of a deployment: "programid-deploymentNumber". */
  function DeploymentName(programid: string, deploymentNumber: int): string
  {
    programid + "-" + IntToString(deploymentNumber)
  }

  /** A deployment name splits at its last hyphen into the program id and the number. */
  lemma DeploymentNameRoundTrip(programid: string, deploymentNumber: int)
    requires 0 <= deploymentNumber <= MaxInt32
    ensures var s := DeploymentName(programid, deploymentNumber);
      LastIndexOf(s, '-') == |programid| &&
      s[..|programid|] == programid &&
      ParseInt(s[|programid| + 1..]) == Some(deploymentNumber)
  {
    var s := DeploymentName(programid, deploymentNumber);
    var n := IntToString(deploymentNumber);
    assert s[|programid| + 1..] == n;
    assert s[..|programid|] == programid;
    ParseIntRoundTrip(deploymentNumber);
    assert s[|programid|] == '-';
    forall j | |programid| < j < |s| ensures s[j] != '-' {
      assert s[j] == n[j - |programid| - 1];
    }
    LastIndexOfIs(s, '-', |programid|);
  }

  /** The last occurrence is the one with no occurrence after it. */
  lemma LastIndexOfIs(s: string, c: char, i: nat)
    requires i < |s| && s[i] == c
    requires forall j :: i < j < |s| ==> s[j] != c
    ensures LastIndexOf(s, c) == i
  {
    var k := LastIndexOf(s, c);
    if k > i {
      assert s[k] == c;
    }
  }

  // ---------------------------------------------------------------------------
  // Playlists, packages, the deployment
  // ---------------------------------------------------------------------------

  /** An announcement or invitation: an audio item or a file. */
  datatype PromptInfo = FromAudioItem(audioItemId: string) | FromFile(path: string)

  /** PlaylistInfo.Builder, whose fluent setters are updates of this value. */
  datatype PlaylistBuilder = PlaylistBuilder(
    title: Option<string>,
    announcement: Option<PromptInfo>,
    invitation: Option<PromptInfo>,
    categoryId: Option<string>,
    isUserFeedback: bool,
    isLocked: bool)

  class PlaylistInfo {
    const title: Option<string>
    const categoryId: Option<string>
    const announcement: Option<PromptInfo>
    const invitation: Option<PromptInfo>
    const isUserFeedback: bool
    const isLocked: bool
    var content: seq<string>

    /** Builder.build: the builder's fields and no content. */
    constructor (b: PlaylistBuilder)
      ensures title == b.title && categoryId == b.categoryId && announcement == b.announcement
      ensures invitation == b.invitation && isUserFeedback == b.isUserFeedback && isLocked == b.isLocked
      ensures content == []
    {
      title := b.title;
      categoryId := b.categoryId;
      announcement := b.announcement;
      invitation := b.invitation;
      isUserFeedback := b.isUserFeedback;
      isLocked := b.isLocked;
      content := [];
    }

    /** addContent: the audio item's id goes at the end. */
    method AddContent(audioItemId: string)
      modifies this`content
      ensures content == old(content) + [audioItemId]
      ensures IsNotEmpty()
    {
      content := content + [audioItemId];
    }

    /** A playlist is kept when it has content or is the user-feedback playlist. */
    predicate IsNotEmpty()
      reads this
      ensures |content| > 0 ==> IsNotEmpty()
      ensures !isUserFeedback ==> (IsNotEmpty() <==> |content| > 0)
    {
      |content| > 0 || isUserFeedback
    }
  }

  /** The playlists that are not empty, in order (the filter of PackageInfo.prune). */
  function NonEmptyPlaylists(ps: seq<PlaylistInfo>): (r: seq<PlaylistInfo>)
    reads ps
    ensures |r| <= |ps|
    ensures forall i :: 0 <= i < |r| ==> r[i] in ps && r[i].IsNotEmpty()
    ensures forall i :: 0 <= i < |ps| && ps[i].IsNotEmpty() ==> ps[i] in r
  {
    if ps == [] then []
    else (if ps[0].IsNotEmpty() then [ps[0]] else []) + NonEmptyPlaylists(ps[1..])
  }

  /** The playlist filter works piecewise, so the kept playlists stay in order. */
  lemma {:induction false} NonEmptyPlaylistsAppend(a: seq<PlaylistInfo>, b: seq<PlaylistInfo>)
    ensures NonEmptyPlaylists(a + b) == NonEmptyPlaylists(a) + NonEmptyPlaylists(b)
  {
    if a != [] {
      assert (a + b)[0] == a[0] && (a + b)[1..] == a[1..] + b;
      NonEmptyPlaylistsAppend(a[1..], b);
    } else {
      assert a + b == b;
    }
  }

  /** Filtering twice is filtering once. */
  lemma {:induction false} NonEmptyPlaylistsIdempotent(ps: seq<PlaylistInfo>)
    ensures NonEmptyPlaylists(NonEmptyPlaylists(ps)) == NonEmptyPlaylists(ps)
  {
    if ps != [] {
      NonEmptyPlaylistsIdempotent(ps[1..]);
      var rest := NonEmptyPlaylists(ps[1..]);
      if ps[0].IsNotEmpty() {
        var r := [ps[0]] + rest;
        assert r[0] == ps[0] && r[1..] == rest;
        assert NonEmptyPlaylists(r) == [ps[0]] + NonEmptyPlaylists(rest);
      } else {
        assert NonEmptyPlaylists(ps) == [] + rest == rest;
      }
    }
  }

  class PackageInfo {
    const languageCode: string
    const variant: Option<string>
    const name: string
    const shortName: string
    var introMessage: Option<string>
    var hasUserFeedbackPlaylist: bool
    var hasTutorial: bool
    var playlists: seq<PlaylistInfo>

    /** The constructor behind addPackage: both names come from makeName. */
    constructor (programid: string, deploymentNumber: int, languageCode: string, variant: Option<string>, maxLen: int, fallback: string)
      ensures this.languageCode == languageCode && this.variant == variant
      ensures name == FullName(programid, deploymentNumber, languageCode, variant)
      ensures shortName == MakeName(programid, deploymentNumber, languageCode, variant, true, maxLen, fallback)
      ensures introMessage.None? && !hasUserFeedbackPlaylist && !hasTutorial && playlists == []
    {
      this.languageCode := languageCode;
      this.variant := variant;
      name := MakeName(programid, deploymentNumber, languageCode, variant, false, maxLen, fallback);
      shortName := MakeName(programid, deploymentNumber, languageCode, variant, true, maxLen, fallback);
      introMessage := None;
      hasUserFeedbackPlaylist := false;
      hasTutorial := false;
      playlists := [];
    }

    /** size(): the playlists, plus one for a tutorial and one for user feedback. */
    function Size(): (r: nat)
      reads this
      ensures |playlists| <= r <= |playlists| + 2
      ensures r == 0 <==> playlists == [] && !hasTutorial && !hasUserFeedbackPlaylist
    {
      |playlists| + (if hasTutorial then 1 else 0) + (if hasUserFeedbackPlaylist then 1 else 0)
    }

    /** A package is kept when it has a playlist, a tutorial or a user-feedback playlist. */
    predicate IsNotEmpty()
      reads this
      ensures IsNotEmpty() <==> Size() > 0
    {
      |playlists| > 0 || hasTutorial || hasUserFeedbackPlaylist
    }

    /**
     * addPlaylist: the built playlist goes at the end, and a user-feedback builder
     * marks the package as having the user-feedback playlist.
     */
    method AddPlaylist(b: PlaylistBuilder) returns (p: PlaylistInfo)
      modifies this`playlists, this`hasUserFeedbackPlaylist
      ensures fresh(p) && p.content == [] && p.isUserFeedback == b.isUserFeedback && p.title == b.title
      ensures playlists == old(playlists) + [p]
      ensures hasUserFeedbackPlaylist == (old(hasUserFeedbackPlaylist) || b.isUserFeedback)
      ensures Size() == old(Size()) + 1 + (if b.isUserFeedback && !old(hasUserFeedbackPlaylist) then 1 else 0)
      ensures IsNotEmpty()
    {
      p := new PlaylistInfo(b);
      playlists := playlists + [p];
      if b.isUserFeedback {
        hasUserFeedbackPlaylist := true;
      }
    }

    /** prune(): keep exactly the non-empty playlists, in order. */
    method Prune()
      modifies this`playlists
      ensures playlists == NonEmptyPlaylists(old(playlists))
    {
      playlists := NonEmptyPlaylists(playlists);
    }
  }

  /** A package is non-empty exactly when its size is positive. */
  lemma NonEmptyIffSized(p: PackageInfo)
    ensures p.IsNotEmpty() <==> p.Size() > 0
  {
  }

  /** The packages that are not empty, in order (the filter of DeploymentInfo.prune). */
  function NonEmptyPackages(ps: seq<PackageInfo>): (r: seq<PackageInfo>)
    reads ps
    ensures |r| <= |ps|
    ensures forall i :: 0 <= i < |r| ==> r[i] in ps && r[i].IsNotEmpty()
    ensures forall i :: 0 <= i < |ps| && ps[i].IsNotEmpty() ==> ps[i] in r
  {
    if ps == [] then []
    else (if ps[0].IsNotEmpty() then [ps[0]] else []) + NonEmptyPackages(ps[1..])
  }

  /** The package filter works piecewise, so the kept packages stay in order. */
  lemma {:induction false} NonEmptyPackagesAppend(a: seq<PackageInfo>, b: seq<PackageInfo>)
    ensures NonEmptyPackages(a + b) == NonEmptyPackages(a) + NonEmptyPackages(b)
  {
    if a != [] {
      assert (a + b)[0] == a[0] && (a + b)[1..] == a[1..] + b;
      NonEmptyPackagesAppend(a[1..], b);
    } else {
      assert a + b == b;
    }
  }

  /**
   * PackageInfo.prune() on a package that may already have been pruned once:
   * either way its playlists end up as the non-empty ones of `orig`.
   */
  method PruneAgain(p: PackageInfo, ghost orig: seq<PlaylistInfo>)
    requires p.playlists == orig || p.playlists == NonEmptyPlaylists(orig)
    modifies p`playlists
    ensures p.playlists == NonEmptyPlaylists(orig)
  {
    NonEmptyPlaylistsIdempotent(orig);
    p.Prune();
  }

  /** One package of PruneEach: pruned once or twice, it ends with the non-empty playlists it started with. */
  method PruneStep(p: PackageInfo, ghost orig: seq<PlaylistInfo>, ghost target: seq<PlaylistInfo>)
    requires target == NonEmptyPlaylists(orig)
    requires p.playlists == orig || p.playlists == target
    modifies p`playlists
    ensures p.playlists == target
  {
    PruneAgain(p, orig);
  }

  /** The playlist filter only depends on the playlists themselves. */
  twostate lemma PlaylistsUnchanged(ps: seq<PlaylistInfo>)
    requires unchanged(set p | p in ps)
    ensures NonEmptyPlaylists(ps) == old(NonEmptyPlaylists(ps))
  {
  }

  /** The `map(PackageInfo::prune)` step: every listed package prunes its playlists. */
  method PruneEach(ps: seq<PackageInfo>)
    modifies (set p | p in ps)`playlists
    ensures forall p :: p in ps ==> p.playlists == old(NonEmptyPlaylists(p.playlists))
  {
    ghost var orig := map q | q in ps :: q.playlists;
    ghost var target := map q | q in ps :: NonEmptyPlaylists(q.playlists);
    var i := 0;
    while i < |ps|
      invariant 0 <= i <= |ps|
      invariant forall j :: 0 <= j < i ==> ps[j].playlists == target[ps[j]]
      invariant forall q :: q in target ==> q.playlists == orig[q] || q.playlists == target[q]
    {
      var p := ps[i];
      PlaylistsUnchanged(orig[p]);
      PruneStep(p, orig[p], target[p]);
      i := i + 1;
    }
  }

  class DeploymentInfo {
    const programid: string
    const deploymentNumber: int
    var ufHidden: bool
    var hasTutorial: bool
    var packages: seq<PackageInfo>

    constructor (programid: string, deploymentNumber: int)
      ensures this.programid == programid && this.deploymentNumber == deploymentNumber
      ensures !ufHidden && !hasTutorial && packages == []
    {
      this.programid := programid;
      this.deploymentNumber := deploymentNumber;
      ufHidden := false;
      hasTutorial := false;
      packages := [];
    }

    /** toString(). */
    function ToString(): (r: string)
      reads this
      ensures StartsWith(r, programid)
    {
      DeploymentName(programid, deploymentNumber)
    }

    /** addPackage: a new, empty package at the end, named after this deployment. */
    method AddPackage(languageCode: string, variant: Option<string>, maxLen: int, fallback: string) returns (p: PackageInfo)
      modifies this`packages
      ensures fresh(p) && packages == old(packages) + [p]
      ensures p.name == FullName(programid, deploymentNumber, languageCode, variant)
      ensures StartsWith(p.name, ToString() + "-")
      ensures p.playlists == [] && !p.IsNotEmpty()
    {
      p := new PackageInfo(programid, deploymentNumber, languageCode, variant, maxLen, fallback);
      packages := packages + [p];
      FullNameExtendsDeploymentName(programid, deploymentNumber, languageCode, variant);
    }

    /**
     * prune(): every package prunes its playlists, then exactly the non-empty
     * packages are kept, in order.
     */
    method Prune()
      modifies this`packages, (set p | p in packages)`playlists
      ensures forall p :: p in old(packages) ==> p.playlists == old(NonEmptyPlaylists(p.playlists))
      ensures packages == NonEmptyPackages(old(packages))
    {
      PruneEach(packages);
      packages := NonEmptyPackages(packages);
    }
  }
}

=== FILE: device_contents.dfy ===
/**
 * The text formats of a Talking Book's contents: the entries of a category list (an audio
 * item name, or an application name marked by a leading '^'), the list file written from a
 * category list, and the clean-up of the paths in the device's config.txt.
 */
module DeviceContents {
  import opened JavaStrings

  // ---------------------------------------------------------------------------
  // CategoryList.Item
  // ---------------------------------------------------------------------------

  datatype Item = Item(audioItemName: string, isApplication: bool)

  /** new Item(name): a leading '^' marks an application and is not part of the name. */
  function NewItem(name: string): (it: Item)
    ensures it.isApplication <==> |name| > 0 && name[0] == '^'
    ensures it.isApplication ==> [name[0]] + it.audioItemName == name
    ensures !it.isApplication ==> it.audioItemName == name
  {
    if StartsWith(name, "^") then
      assert name == [name[0]] + name[1..];
      Item(name[1..], true)
    else Item(name, false)
  }

  /** Item.toString: "^" before the name exactly for an application. */
  function ItemString(it: Item): (r: string)
    ensures it.isApplication ==> |r| == |it.audioItemName| + 1 && r[0] == '^'
    ensures !it.isApplication ==> r == it.audioItemName
    ensures EndsWith(r, it.audioItemName)
  {
    var r := (if it.isApplication then "^" else "") + it.audioItemName;
    assert r[|r| - |it.audioItemName|..] == it.audioItemName;
    r
  }

  /** Round trip: the string of the item read from a line is the line. */
  lemma ItemRoundTrip(s: string)
    ensures ItemString(NewItem(s)) == s
  {
  }

  /**
   * The other direction: an item reads back from its string, except a non-application
   * whose name itself starts with '^', which reads back as an application.
   */
  lemma ItemReadsBack(it: Item)
    ensures NewItem(ItemString(it)) == it <==> it.isApplication || !StartsWith(it.audioItemName, "^")
  {
    var r := ItemString(it);
    if it.isApplication {
      assert r[1..] == it.audioItemName;
    }
  }

  // ---------------------------------------------------------------------------
  // CategoryList.toString
  // ---------------------------------------------------------------------------

  /** Each item's string followed by a newline, in list order. */
  function ItemLines(items: seq<Item>): (r: string)
  {
    if items == [] then "" else ItemString(items[0]) + "\n" + ItemLines(items[1..])
  }

  /** The text of a category list: "[name]", then one line per item. */
  function CategoryListText(name: string, items: seq<Item>): string
  {
    "[" + name + "]\n" + ItemLines(items)
  }

  /** The item strings, in order. */
  function ItemStrings(items: seq<Item>): (r: seq<string>)
    ensures |r| == |items| && forall i :: 0 <= i < |items| ==> r[i] == ItemString(items[i])
  {
    if items == [] then [] else [ItemString(items[0])] + ItemStrings(items[1..])
  }

  /** Appending one more item appends its line. */
  lemma {:induction false} ItemLinesSnoc(items: seq<Item>, it: Item)
    ensures ItemLines(items + [it]) == ItemLines(items) + (ItemString(it) + "\n")
  {
    if items == [] {
      assert [it][1..] == [];
      assert ItemLines([it]) == ItemString(it) + "\n" + ItemLines([]);
    } else {
      var head, line := ItemString(items[0]) + "\n", ItemString(it) + "\n";
      assert (items + [it])[1..] == items[1..] + [it];
      assert ItemLines(items + [it]) == head + ItemLines(items[1..] + [it]);
      ItemLinesSnoc(items[1..], it);
      assert ItemLines(items[1..] + [it]) == ItemLines(items[1..]) + line;
      assert ItemLines(items) == head + ItemLines(items[1..]);
      assert head + (ItemLines(items[1..]) + line) == (head + ItemLines(items[1..])) + line;
    }
  }

  /** With no newline inside the item strings, the lines of ItemLines are the item strings. */
  lemma {:induction false} ItemLinesSplit(items: seq<Item>)
    requires forall i :: 0 <= i < |items| ==> '\n' !in ItemString(items[i])
    ensures SplitOn(ItemLines(items), '\n') == ItemStrings(items) + [""]
  {
    if items == [] {
      SplitOnWord("", '\n');
    } else {
      var a, rest := ItemString(items[0]), ItemLines(items[1..]);
      assert ItemLines(items) == a + ['\n'] + rest;
      ItemLinesSplit(items[1..]);
      SplitOnCons(a, rest, '\n');
    }
  }

  /**
   * The list file reads back line by line: the header "[name]", each item's string in list
   * order, and the empty rest after the final newline.
   */
  lemma {:induction false} CategoryListLines(name: string, items: seq<Item>)
    requires '\n' !in name
    requires forall i :: 0 <= i < |items| ==> '\n' !in ItemString(items[i])
    ensures SplitOn(CategoryListText(name, items), '\n') == ["[" + name + "]"] + (ItemStrings(items) + [""])
  {
    ItemLinesSplit(items);
    HeadLine(name, ItemLines(items));
    SplitAfterHead("[" + name + "]", ItemLines(items), ItemStrings(items) + [""]);
  }

  lemma SplitAfterHead(head: string, lines: string, rest: seq<string>)
    requires '\n' !in head && SplitOn(lines, '\n') == rest
    ensures SplitOn(head + ['\n'] + lines, '\n') == [head] + rest
  {
    SplitOnCons(head, lines, '\n');
  }

  lemma HeadLine(name: string, lines: string)
    ensures "[" + name + "]\n" + lines == "[" + name + "]" + ['\n'] + lines
  {
  }

  class CategoryList {
    var name: string
    var audioItems: seq<Item>

    constructor (name: string)
      ensures this.name == name && audioItems == []
    {
      this.name := name;
      audioItems := [];
    }

    /** toString, built line by line. */
    method ToString() returns (r: string)
      ensures r == CategoryListText(name, audioItems)
    {
      r := "[" + name + "]" + "\n";
      for i := 0 to |audioItems|
        invariant r == "[" + name + "]\n" + ItemLines(audioItems[..i])
      {
        LinesStep("[" + name + "]\n", audioItems, i);
        r := r + (ItemString(audioItems[i]) + "\n");
      }
      assert audioItems[..|audioItems|] == audioItems;
    }
  }

  /** One more line of the list file. */
  lemma LinesStep(head: string, items: seq<Item>, i: nat)
    requires i < |items|
    ensures head + ItemLines(items[..i]) + (ItemString(items[i]) + "\n") == head + ItemLines(items[..i + 1])
  {
    assert items[..i + 1] == items[..i] + [items[i]];
    ItemLinesSnoc(items[..i], items[i]);
  }

  // ---------------------------------------------------------------------------
  // cleanPath
  // ---------------------------------------------------------------------------

  /**
   * cleanPath: one leading "a:/" is dropped, then every backslash becomes '/'. The prefix
   * is looked for before the rewrite.
   */
  function CleanPath(path: string): (r: string)
    ensures '\\' !in r
    ensures var k := if StartsWith(path, "a:/") then 3 else 0;
      |r| == |path| - k &&
      forall i :: 0 <= i < |r| ==> r[i] == (if path[k + i] == '\\' then '/' else path[k + i])
  {
    var p := if StartsWith(path, "a:/") then path[3..] else path;
    ReplaceChars(p, {'\\'}, '/')
  }

  /** A path with neither the drive prefix nor a backslash is already clean. */
  lemma CleanPathOfClean(path: string)
    requires !StartsWith(path, "a:/") && '\\' !in path
    ensures CleanPath(path) == path
  {
  }

  /** Because the prefix is looked for first, a drive written with a backslash keeps its drive. */
  lemma BackslashDriveIsKept()
    ensures CleanPath("a:\\x") == "a:/x"
  {
    assert !StartsWith("a:\\x", "a:/") by {
      assert "a:\\x"[2] != "a:/"[2];
    }
  }
}

=== FILE: ffmpeg_converter.dfy ===
/**
 * The ffmpeg audio converter: the command line it runs to convert a file to mono 16 kHz
 * WAV, and the validation step that reads the list of ffmpeg's file formats and collects
 * the extensions ffmpeg can decode. Running ffmpeg and reading the formats file are left
 * to the caller; the file's lines are a parameter.
 */
module FFMpegConverter {
  import opened Wrappers
  import opened JavaStrings

  const TargetExtension := ".wav"

  /** getConverterEXEPath, from the software directory. */
  function ExePath(softwareDir: string): (r: string)
    ensures StartsWith(r, softwareDir) && EndsWith(r, "/ffmpeg.exe")
  {
    var r := softwareDir + "/converters/ffmpeg/ffmpeg.exe";
    assert r[..|softwareDir|] == softwareDir;
    assert r[|r| - 11..] == "/ffmpeg.exe";
    r
  }

  /** The options between the quoted source and the quoted target. */
  const Options := " -ab 16k -ar 16000 -ac 1 -y "

  /**
   * doConvertFile's command: the source in quotes, 16k bit rate, 16000 Hz, one
   * channel, overwrite, the target in quotes. The executable starts it, the source
   * follows " -i \"" verbatim, and the quoted target ends it.
   */
  function Command(exe: string, source: string, target: string): (r: string)
    ensures |r| == |exe| + |source| + |Options| + |target| + 8
    ensures r[..|exe| + 5] == exe + " -i \""
    ensures r[|exe| + 5..|exe| + 5 + |source|] == source
    ensures r[|r| - |target| - 2..] == "\"" + target + "\""
  {
    exe + " -i " + "\"" + source + "\"" + Options + "\"" + target + "\""
  }

  /** The command's quoted parts are exactly the source and the target, when no path holds a quote. */
  lemma CommandParts(exe: string, source: string, target: string)
    requires '"' !in exe && '"' !in source && '"' !in target
    ensures var parts := SplitOn(Command(exe, source, target), '"');
      |parts| == 5 && parts[0] == exe + " -i " && parts[1] == source && parts[2] == Options && parts[3] == target && parts[4] == ""
  {
    var e := exe + " -i ";
    Reassociate(e, source, Options, target, "\"");
    QuotedParts(e, source, Options, target);
  }

  lemma Reassociate(a: string, b: string, c: string, d: string, q: string)
    ensures a + q + b + q + c + q + d + q == a + q + (b + q + (c + q + (d + q + "")))
  {
    assert d + q + "" == d + q;
  }

  lemma QuotedParts(a: string, b: string, c: string, d: string)
    requires '"' !in a && '"' !in b && '"' !in c && '"' !in d
    ensures var parts := SplitOn(a + ['"'] + (b + ['"'] + (c + ['"'] + (d + ['"'] + ""))), '"');
      |parts| == 5 && parts[0] == a && parts[1] == b && parts[2] == c && parts[3] == d && parts[4] == ""
  {
    var q := '"';
    var empty: string := [];
    SplitOnWord(empty, q);
    SplitTwo(c, d, empty, q);
    SplitTwo(a, b, c + [q] + (d + [q] + empty), q);
    FiveParts(SplitOn(a + [q] + (b + [q] + (c + [q] + (d + [q] + empty))), q), a, b, c, d, empty);
  }

  lemma FiveParts<T>(parts: seq<T>, a: T, b: T, c: T, d: T, e: T)
    requires parts == [a, b] + ([c, d] + [e])
    ensures |parts| == 5 && parts[0] == a && parts[1] == b && parts[2] == c && parts[3] == d && parts[4] == e
  {
  }

  lemma SplitTwo(a: string, b: string, rest: string, q: char)
    requires q !in a && q !in b
    ensures SplitOn(a + [q] + (b + [q] + rest), q) == [a, b] + SplitOn(rest, q)
  {
    SplitOnCons(b, rest, q);
    SplitOnCons(a, b + [q] + rest, q);
    var t := SplitOn(rest, q);
    assert [a] + ([b] + t) == [a, b] + t;
  }

  // ---------------------------------------------------------------------------
  // The formats list
  // ---------------------------------------------------------------------------

  /** The characters '.' does not match: the line terminators of java.util.regex. */
  const LineTerminators: set<char> := {'\n', '\r', '\U{0085}', '\U{2028}', '\U{2029}'}

  /** The characters of \s in java.util.regex. */
  const RegexSpaces: set<char> := {' ', '\t', '\n', '\U{000B}', '\U{000C}', '\r'}

  /** The length of the run of characters from `chars` at the start of s. */
  function RunOf(s: string, chars: set<char>): (k: nat)
    ensures k <= |s| && (forall i :: 0 <= i < k ==> s[i] in chars) && (k < |s| ==> s[k] !in chars)
  {
    if |s| == 0 || s[0] !in chars then 0 else 1 + RunOf(s[1..], chars)
  }

  /** Where group 4 of ^(.)(.)(.)\s*(\S*).*$ starts and ends: after the spaces at 3, the run of non-spaces. */
  function GroupBounds(line: string): (b: (nat, nat))
    requires |line| >= 3
    ensures 3 <= b.0 <= b.1 <= |line|
  {
    var start := 3 + RunOf(line[3..], RegexSpaces);
    (start, start + RunLength(line[start..], RegexSpaces))
  }

  /**
   * Whether a line matches ^(.)(.)(.)\s*(\S*).*$: three characters that are not line
   * terminators, and no line terminator after group 4 (the greedy groups leave nothing else).
   * Every line of three or more characters without a line terminator matches.
   */
  predicate Matches(line: string)
    ensures |line| >= 3 && NoneIn(line, LineTerminators) ==> Matches(line)
    ensures Matches(line) ==> |line| >= 3 && line[0] !in LineTerminators && line[1] !in LineTerminators && line[2] !in LineTerminators
  {
    |line| >= 3 && NoneIn(line[..3], LineTerminators) && NoneIn(line[GroupBounds(line).1..], LineTerminators)
  }

  /** Group 4 of a matching line: the first word after the three flag characters. */
  function Group4(line: string): (r: string)
    requires |line| >= 3
    ensures NoneIn(r, RegexSpaces)
  {
    var (start, end) := GroupBounds(line);
    assert line[start..end] == line[start..][..end - start];
    line[start..end]
  }

  /** What a matching line adds: for a decodable format ('D' second), its lower-cased names split on commas. */
  function Contribution(line: string): (r: set<string>)
    requires |line| >= 3
    ensures line[1] != 'D' ==> r == {}
    ensures forall e :: e in r ==> |e| > 0 && NoneIn(e, {','}) && IsLower(e)
  {
    if line[1] == 'D' then
      var tokens := Tokens(Lower(Group4(line)), {','});
      forall e | e in tokens ensures IsLower(e) {
        TokenIsLower(Lower(Group4(line)), e);
      }
      set e | e in tokens
    else {}
  }

  lemma {:induction false} TokenIsLower(s: string, e: string)
    requires IsLower(s) && e in Tokens(s, {','})
    ensures IsLower(e)
    decreases |s|
  {
    if |s| > 0 {
      if s[0] in {','} {
        TokenIsLower(s[1..], e);
      } else {
        var k := RunLength(s, {','});
        if e != s[..k] {
          TokenIsLower(s[k..], e);
        }
      }
    }
  }

  /** The extensions read from the lines after the header, up to the first line that does not match. */
  function ScanFormats(lines: seq<string>): (r: set<string>)
    ensures forall e :: e in r ==> |e| > 0 && NoneIn(e, {','}) && IsLower(e)
  {
    if lines == [] || !Matches(lines[0]) then {} else Contribution(lines[0]) + ScanFormats(lines[1..])
  }

  /** Scanning stops at the first line that does not match: nothing after it counts. */
  lemma {:induction false} ScanStops(lines: seq<string>, k: nat)
    requires k < |lines| && !Matches(lines[k])
    ensures ScanFormats(lines) == ScanFormats(lines[..k])
  {
    if k > 0 {
      assert lines[1..][..k - 1] == lines[..k][1..];
      ScanStops(lines[1..], k - 1);
    } else {
      assert lines[..k] == [];
    }
  }

  /** A matching line whose second character is not 'D' adds nothing, and scanning goes on past it. */
  lemma NonDecodableSkipped(line: string, rest: seq<string>)
    requires Matches(line) && line[1] != 'D'
    ensures ScanFormats([line] + rest) == ScanFormats(rest)
  {
    assert ([line] + rest)[1..] == rest;
  }

  /** The header the formats list must start with, after trimming. */
  const Header := "File formats:"

  class FFMpegConverter {
    /** The source file extensions collected so far (a static set in the source). */
    var extensions: set<string>

    constructor ()
      ensures extensions == {}
    {
      extensions := {};
    }

    /**
     * validateConverter's parse of the formats list: a missing or wrong header fails
     * with nothing added; otherwise the extensions of the decodable formats are added,
     * up to the first line that does not match.
     */
    method ValidateConverter(lines: seq<string>) returns (r: Result<(), Exception>)
      modifies this`extensions
      ensures r.Err? <==> |lines| == 0 || Trim(lines[0]) != Header
      ensures r.Err? ==> r.error == AudioConverterInitializationException && extensions == old(extensions)
      ensures r.Ok? ==> extensions == old(extensions) + ScanFormats(lines[1..])
    {
      if |lines| == 0 || Trim(lines[0]) != Header {
        return Err(AudioConverterInitializationException);
      }
      var i := 1;
      while i < |lines|
        invariant 1 <= i <= |lines|
        invariant old(extensions) + ScanFormats(lines[1..]) == extensions + ScanFormats(lines[i..])
      {
        var line := lines[i];
        if !Matches(line) {
          break;
        }
        assert lines[i..][1..] == lines[i + 1..];
        if line[1] == 'D' {
          var tokens := Tokens(Lower(Group4(line)), {','});
          AddTokens(tokens);
        }
        i := i + 1;
      }
      r := Ok(());
    }

    /** The tokenizer loop: each token is added to the set. */
    method AddTokens(tokens: seq<string>)
      modifies this`extensions
      ensures extensions == old(extensions) + set e | e in tokens
    {
      for j := 0 to |tokens|
        invariant extensions == old(extensions) + set e | e in tokens[..j]
      {
        assert tokens[..j + 1] == tokens[..j] + [tokens[j]];
        extensions := extensions + {tokens[j]};
      }
      assert tokens[..|tokens|] == tokens;
    }
  }
}

=== FILE: file_system_exporter.dfy ===
/**
 * Exporting audio items to a directory: each item's file is named after its title and/or
 * identifier, with the characters Windows forbids in file names replaced by '_', and a
 * "-1", "-2", ... suffix when a file of that name already exists.
 *
 * The repository's conversion of an item is a parameter; the directory is the set of the
 * names it holds, and writing a file adds its name.
 */
module FileSystemExporter {
  import opened Wrappers
  import opened JavaStrings

  const FilenameSeparator := "___"

  /** The title and identifier of an audio item's metadata. */
  datatype AudioItem = AudioItem(title: string, id: string)

  /** What the repository's conversion gives: a file, no file, or a ConversionException. */
  datatype Conversion = Converted(source: string) | NoFile | ConversionFailed

  /** An exported item, the name of its file, and the counter that named it. */
  datatype Exported = Exported(item: AudioItem, target: string, counter: nat)

  // ---------------------------------------------------------------------------
  // The file name
  // ---------------------------------------------------------------------------

  /** The title (if asked for), "___" when both are asked for, then the identifier (if asked for). */
  function BaseName(item: AudioItem, titleInFilename: bool, idInFilename: bool): (r: string)
    ensures titleInFilename && idInFilename ==> r == item.title + FilenameSeparator + item.id
    ensures titleInFilename && !idInFilename ==> r == item.title
    ensures !titleInFilename && idInFilename ==> r == item.id
    ensures !titleInFilename && !idInFilename ==> r == ""
  {
    (if titleInFilename then item.title else "") +
    (if idInFilename && titleInFilename then FilenameSeparator else "") +
    (if idInFilename then item.id else "")
  }

  /** The characters replaced: `\ / : * ? " < > | '`. */
  const Forbidden: set<char> := {'\\', '/', ':', '*', '?', '"', '<', '>', '|', '\''}

  /** Trim, then replace each forbidden character by '_'. */
  function Sanitize(name: string): (r: string)
    ensures forall c :: c in r ==> c !in Forbidden
    ensures |r| == |Trim(name)|
    ensures forall i :: 0 <= i < |r| ==> r[i] == (if Trim(name)[i] in Forbidden then '_' else Trim(name)[i])
  {
    ReplaceChars(Trim(name), Forbidden, '_')
  }

  /** A sanitised name is trimmed, so sanitising it again changes nothing. */
  lemma SanitizeIdempotent(name: string)
    ensures Sanitize(Sanitize(name)) == Sanitize(name)
  {
    var t := Trim(name);
    var r := Sanitize(name);
    assert IsTrimmed(r) by {
      if |r| > 0 {
        assert !IsTrimmable(t[0]) && !IsTrimmable(t[|t| - 1]);
      }
    }
    assert Trim(r) == r;
  }

  /** The counter-th name tried: `name.ext`, then `name-1.ext`, `name-2.ext`, ... */
  function Candidate(name: string, counter: nat, ext: string): string
  {
    if counter == 0 then name + "." + ext else name + "-" + IntToString(counter) + "." + ext
  }

  /** A name with a counter carries the counter's digits right after `name-`. */
  lemma CandidateDigits(name: string, k: nat, ext: string)
    requires k > 0
    ensures var c, x := Candidate(name, k, ext), IntToString(k);
      |c| == |name| + |x| + |ext| + 2 && c[|name| + 1..|name| + 1 + |x|] == x
  {
    var x := IntToString(k);
    var c := name + "-" + x + "." + ext;
    assert c == (name + "-") + x + ("." + ext);
  }

  /** Different counters give different names. */
  lemma CandidateInjective(name: string, ext: string, i: nat, j: nat)
    requires Candidate(name, i, ext) == Candidate(name, j, ext)
    ensures i == j
  {
    if i > 0 {
      CandidateDigits(name, i, ext);
    }
    if j > 0 {
      CandidateDigits(name, j, ext);
    }
    if i > 0 && j > 0 {
      IntToStringInjective(i, j);
    }
  }

  /** The names tried before counter n. */
  function Candidates(name: string, ext: string, n: nat): set<string>
  {
    set j | 0 <= j < n :: Candidate(name, j, ext)
  }

  lemma {:induction false} CandidatesCount(name: string, ext: string, n: nat)
    ensures |Candidates(name, ext, n)| == n
  {
    if n > 0 {
      CandidatesCount(name, ext, n - 1);
      assert Candidates(name, ext, n) == Candidates(name, ext, n - 1) + {Candidate(name, n - 1, ext)};
      if Candidate(name, n - 1, ext) in Candidates(name, ext, n - 1) {
        var j :| 0 <= j < n - 1 && Candidate(name, j, ext) == Candidate(name, n - 1, ext);
        CandidateInjective(name, ext, j, n - 1);
      }
    }
  }

  /** All names before counter n exist, so there are at least n names in the directory. */
  lemma TriedAreFewer(name: string, ext: string, n: nat, existing: set<string>)
    requires forall j :: 0 <= j < n ==> Candidate(name, j, ext) in existing
    ensures n <= |existing|
  {
    var tried := Candidates(name, ext, n);
    CandidatesCount(name, ext, n);
    assert existing == (existing - tried) + tried;
  }

  /**
   * The do/while loop: the names are tried in counter order and the first that does not
   * exist is chosen.
   */
  method ChooseTarget(name: string, ext: string, existing: set<string>) returns (target: string, counter: nat)
    ensures target == Candidate(name, counter, ext) && target !in existing
    ensures forall j :: 0 <= j < counter ==> Candidate(name, j, ext) in existing
  {
    counter := 0;
    target := Candidate(name, 0, ext);
    while target in existing
      invariant target == Candidate(name, counter, ext)
      invariant forall j :: 0 <= j < counter ==> Candidate(name, j, ext) in existing
      decreases |existing| - counter
    {
      TriedAreFewer(name, ext, counter + 1, existing);
      counter := counter + 1;
      target := Candidate(name, counter, ext);
    }
  }

  // ---------------------------------------------------------------------------
  // export
  // ---------------------------------------------------------------------------

  /** The items before the first failed conversion (all of them when none fails). */
  function Processed(items: seq<AudioItem>, convert: AudioItem -> Conversion): (n: nat)
    ensures n <= |items|
    ensures forall i :: 0 <= i < n ==> !convert(items[i]).ConversionFailed?
    ensures n < |items| ==> convert(items[n]).ConversionFailed?
  {
    if |items| == 0 || convert(items[0]).ConversionFailed? then 0 else 1 + Processed(items[1..], convert)
  }

  /** The items whose conversion yields a file, in order. */
  function WithFile(items: seq<AudioItem>, convert: AudioItem -> Conversion): (r: seq<AudioItem>)
    ensures forall x :: x in r ==> x in items && convert(x).Converted?
  {
    if |items| == 0 then []
    else (if convert(items[0]).Converted? then [items[0]] else []) + WithFile(items[1..], convert)
  }

  /** One more item of the export loop. */
  lemma WithFileStep(items: seq<AudioItem>, i: nat, convert: AudioItem -> Conversion)
    requires i < |items|
    ensures WithFile(items[..i + 1], convert) == WithFile(items[..i], convert) + (if convert(items[i]).Converted? then [items[i]] else [])
  {
    assert items[..i + 1] == items[..i] + [items[i]];
    WithFileSnoc(items[..i], items[i], convert);
  }

  lemma {:induction false} WithFileSnoc(items: seq<AudioItem>, x: AudioItem, convert: AudioItem -> Conversion)
    ensures WithFile(items + [x], convert) == WithFile(items, convert) + (if convert(x).Converted? then [x] else [])
  {
    if items != [] {
      assert (items + [x])[1..] == items[1..] + [x];
      WithFileSnoc(items[1..], x, convert);
    } else {
      assert [x][1..] == [];
    }
  }

  function Targets(written: seq<Exported>): (r: set<string>)
    ensures forall i :: 0 <= i < |written| ==> written[i].target in r
    ensures forall t :: t in r ==> exists i :: 0 <= i < |written| && written[i].target == t
  {
    set i | 0 <= i < |written| :: written[i].target
  }

  lemma {:induction false} TargetsSnoc(written: seq<Exported>, e: Exported)
    ensures Targets(written + [e]) == Targets(written) + {e.target}
  {
    var w := written + [e];
    forall t | t in Targets(w) ensures t in Targets(written) + {e.target} {
      var i :| 0 <= i < |w| && w[i].target == t;
      if i < |written| {
        assert w[i] == written[i];
      }
    }
    forall t | t in Targets(written) ensures t in Targets(w) {
      var i :| 0 <= i < |written| && written[i].target == t;
      assert w[i] == written[i];
    }
    assert w[|written|] == e;
  }

  function Items(written: seq<Exported>): (r: seq<AudioItem>)
    ensures |r| == |written| && forall i :: 0 <= i < |written| ==> r[i] == written[i].item
  {
    seq(|written|, i requires 0 <= i < |written| => written[i].item)
  }

  /**
   * The name of e is the first free one when the names in `taken` exist: its base name,
   * sanitised, with the first counter whose name is not taken.
   */
  predicate FirstFree(e: Exported, taken: set<string>, ext: string, titleInFilename: bool, idInFilename: bool)
  {
    var name := Sanitize(BaseName(e.item, titleInFilename, idInFilename));
    e.target == Candidate(name, e.counter, ext) && e.target !in taken &&
    forall j :: 0 <= j < e.counter ==> Candidate(name, j, ext) in taken
  }

  /** Each written file's name is the first free one at its turn, after the files written before it. */
  predicate NamedInTurn(written: seq<Exported>, existing: set<string>, ext: string, titleInFilename: bool, idInFilename: bool)
  {
    forall i :: 0 <= i < |written| ==> FirstFree(written[i], existing + Targets(written[..i]), ext, titleInFilename, idInFilename)
  }

  /** Names chosen in turn are all different, and none was in the directory before. */
  lemma NamedInTurnDistinct(written: seq<Exported>, existing: set<string>, ext: string, titleInFilename: bool, idInFilename: bool)
    requires NamedInTurn(written, existing, ext, titleInFilename, idInFilename)
    ensures forall i, j :: 0 <= i < j < |written| ==> written[i].target != written[j].target
    ensures forall i :: 0 <= i < |written| ==> written[i].target !in existing
  {
    forall i, j | 0 <= i < j < |written| ensures written[i].target != written[j].target {
      assert written[..j][i] == written[i];
      assert FirstFree(written[j], existing + Targets(written[..j]), ext, titleInFilename, idInFilename);
    }
    forall i | 0 <= i < |written| ensures written[i].target !in existing {
      assert FirstFree(written[i], existing + Targets(written[..i]), ext, titleInFilename, idInFilename);
    }
  }

  lemma NamedInTurnStep(written: seq<Exported>, existing: set<string>, ext: string, titleInFilename: bool, idInFilename: bool, e: Exported)
    requires NamedInTurn(written, existing, ext, titleInFilename, idInFilename)
    requires FirstFree(e, existing + Targets(written), ext, titleInFilename, idInFilename)
    ensures NamedInTurn(written + [e], existing, ext, titleInFilename, idInFilename)
  {
    var w := written + [e];
    assert w[..|written|] == written;
    forall i | 0 <= i < |written| ensures w[..i] == written[..i] && w[i] == written[i] { }
  }

  /** One converted item is written under the first free name. */
  method ExportOne(item: AudioItem, written: seq<Exported>, dir: set<string>, existing: set<string>, ext: string,
    titleInFilename: bool, idInFilename: bool)
    returns (written': seq<Exported>, dir': set<string>)
    requires dir == existing + Targets(written)
    requires NamedInTurn(written, existing, ext, titleInFilename, idInFilename)
    ensures Items(written') == Items(written) + [item]
    ensures dir' == existing + Targets(written')
    ensures NamedInTurn(written', existing, ext, titleInFilename, idInFilename)
  {
    var name := Sanitize(BaseName(item, titleInFilename, idInFilename));
    var target, counter := ChooseTarget(name, ext, dir);
    var e := Exported(item, target, counter);
    assert FirstFree(e, dir, ext, titleInFilename, idInFilename);
    NamedInTurnStep(written, existing, ext, titleInFilename, idInFilename, e);
    TargetsSnoc(written, e);
    assert Items(written + [e]) == Items(written) + [item];
    written', dir' := written + [e], dir + {target};
  }

  /**
   * export: each item is converted in turn; an item without a file is skipped, a failed
   * conversion ends the export with an IOException (the files already written stay), and
   * every other item is written under the first free name.
   */
  method Export(items: seq<AudioItem>, existing: set<string>, ext: string, titleInFilename: bool, idInFilename: bool,
    convert: AudioItem -> Conversion)
    returns (written: seq<Exported>, dir: set<string>, r: Result<(), Exception>)
    ensures r.Err? <==> Processed(items, convert) < |items|
    ensures r.Err? ==> r.error == IOException
    ensures Items(written) == WithFile(items[..Processed(items, convert)], convert)
    ensures dir == existing + Targets(written)
    ensures NamedInTurn(written, existing, ext, titleInFilename, idInFilename)
  {
    written, dir := [], existing;
    for i := 0 to |items|
      invariant i <= Processed(items, convert)
      invariant Items(written) == WithFile(items[..i], convert)
      invariant dir == existing + Targets(written)
      invariant NamedInTurn(written, existing, ext, titleInFilename, idInFilename)
    {
      var item := items[i];
      WithFileStep(items, i, convert);
      if convert(item).ConversionFailed? {
        return written, dir, Err(IOException);
      }
      if convert(item).Converted? {
        written, dir := ExportOne(item, written, dir, existing, ext, titleInFilename, idInFilename);
      }
    }
    assert items[..|items|] == items;
    r := Ok(());
  }
}

=== FILE: greeting_matchable.dfy ===
/**
 * One row of the greetings import: a greeting target (a recipient) on the left,
 * an importable audio file on the right, and how the two were matched. The
 * target is reduced to the recipient fields the filter reads and the file to
 * its name.
 */
module GreetingMatchable {
  import opened Wrappers
  import opened JavaStrings
  import M = Matcher

  /** The recipient fields the filter looks at. */
  datatype Recipient = Recipient(communityname: string, groupname: string, agent: string)

  class GreetingMatchable {
    var left: Option<Recipient>
    var right: Option<string>
    var kind: M.Match
    var score: int

    /** The constructor with an explicit match kind; the score starts at 0. */
    constructor (left: Option<Recipient>, right: Option<string>, kind: M.Match)
      ensures this.left == left && this.right == right && this.kind == kind && score == 0
    {
      this.left := left;
      this.right := right;
      this.kind := kind;
      score := 0;
    }

    /**
     * containsText: the lower-cased file name contains filterText, or else the
     * lower-cased community, group or agent name of the recipient does. The
     * filter itself is not lower-cased.
     */
    predicate ContainsText(filterText: string)
      reads this
      ensures ContainsText(filterText) ==> left.Some? || right.Some?
    {
      if right.Some? && Contains(Lower(right.value), filterText) then true
      else if left.Some? then
        Contains(Lower(left.value.communityname), filterText) ||
        Contains(Lower(left.value.groupname), filterText) ||
        Contains(Lower(left.value.agent), filterText)
      else false
    }

    /**
     * disassociate: a new right-only item takes this item's file; this item keeps
     * its target and becomes left-only with no file and a score of 0.
     */
    method Disassociate() returns (detached: GreetingMatchable)
      modifies this
      ensures fresh(detached)
      ensures detached.left.None? && detached.right == old(right) && detached.kind == M.RightOnly && detached.score == 0
      ensures left == old(left) && right.None? && kind == M.LeftOnly && score == 0
    {
      detached := new GreetingMatchable(None, right, M.RightOnly);
      right := None;
      kind := M.LeftOnly;
      score := 0;
    }
  }

  /** A filter holding a capital letter matches no row, since only the fields are lower-cased. */
  lemma CapitalFilterNeverMatches(g: GreetingMatchable, filterText: string)
    requires exists i :: 0 <= i < |filterText| && 'A' <= filterText[i] <= 'Z'
    ensures !g.ContainsText(filterText)
  {
    forall s: string | Contains(Lower(s), filterText) ensures false {
      LowerIsLower(s);
      ContainedInLowerIsLower(Lower(s), filterText);
    }
  }

  /** The empty filter matches exactly the rows that have a target or a file. */
  lemma EmptyFilterMatchesEveryRow(g: GreetingMatchable)
    ensures g.ContainsText("") <==> g.left.Some? || g.right.Some?
  {
    if g.right.Some? {
      assert StartsWith(Lower(g.right.value), "");
    } else if g.left.Some? {
      assert StartsWith(Lower(g.left.value.communityname), "");
    }
  }

  /** A lower-case filter found in the file name or a recipient field as it is matches. */
  lemma FilterFoundInAFieldMatches(g: GreetingMatchable, filterText: string)
    requires IsLower(filterText)
    requires (g.right.Some? && Contains(g.right.value, filterText)) ||
             (g.left.Some? && (Contains(g.left.value.communityname, filterText) ||
                               Contains(g.left.value.groupname, filterText) ||
                               Contains(g.left.value.agent, filterText)))
    ensures g.ContainsText(filterText)
  {
    assert Lower(filterText) == filterText;
    if g.right.Some? && Contains(g.right.value, filterText) {
      ContainsLower(g.right.value, filterText);
    } else if Contains(g.left.value.communityname, filterText) {
      ContainsLower(g.left.value.communityname, filterText);
    } else if Contains(g.left.value.groupname, filterText) {
      ContainsLower(g.left.value.groupname, filterText);
    } else {
      ContainsLower(g.left.value.agent, filterText);
    }
  }
}

=== FILE: java_strings.dfy ===
/**
 * The parts of java.lang.String, java.lang.Integer and java.util.StringTokenizer
 * that the modelled code relies on. Characters are Unicode scalar values; case mapping
 * is modelled on the ASCII letters only.
 */
module JavaStrings {
  import opened Wrappers

  const MinInt32: int := -0x8000_0000
  const MaxInt32: int := 0x7fff_ffff
  const MinInt64: int := -0x8000_0000_0000_0000
  const MaxInt64: int := 0x7fff_ffff_ffff_ffff

  predicate IsInt32(v: int) { MinInt32 <= v <= MaxInt32 }

  /** A Java (int) cast of a long: the low 32 bits, read as two's complement. */
  function ToInt32(v: int): (r: int)
    ensures MinInt32 <= r <= MaxInt32
    ensures MinInt32 <= v <= MaxInt32 ==> r == v
  {
    if IsInt32(v) then v else (v - MinInt32) % 0x1_0000_0000 + MinInt32
  }

  // ---------------------------------------------------------------------------
  // Decimal rendering and parsing (Integer.toString, Integer.parseInt)
  // ---------------------------------------------------------------------------

  predicate IsDigit(c: char) { '0' <= c <= '9' }

  predicate AllDigits(s: string) { forall i :: 0 <= i < |s| ==> IsDigit(s[i]) }

  /** The regular-expression class `\w`: an ASCII letter, digit or underscore. */
  predicate IsWordChar(c: char)
  {
    ('a' <= c <= 'z') || ('A' <= c <= 'Z') || IsDigit(c) || c == '_'
  }

  predicate AllWord(s: string) { forall i :: 0 <= i < |s| ==> IsWordChar(s[i]) }

  function DigitChar(d: nat): (c: char)
    requires d < 10
    ensures IsDigit(c)
  {
    ((('0' as int) + d) as char)
  }

  function DigitValue(c: char): (d: nat)
    requires IsDigit(c)
    ensures d < 10
  {
    (c as int) - ('0' as int)
  }

  /** The shortest decimal rendering of n (no sign, no leading zero). */
  function NatToString(n: nat): (s: string)
    ensures |s| > 0 && AllDigits(s)
    ensures s[0] == '0' ==> n == 0
    decreases n
  {
    if n < 10 then [DigitChar(n)] else NatToString(n / 10) + [DigitChar(n % 10)]
  }

  /** Integer.toString / String.valueOf for an int. */
  function IntToString(n: int): (s: string)
    ensures |s| > 0
    ensures (s[0] == '-') == (n < 0)
  {
    if n < 0 then "-" + NatToString(-n) else NatToString(n)
  }

  /** The value of a string of decimal digits. */
  function DigitsValue(s: string): nat
    requires AllDigits(s)
  {
    if |s| == 0 then 0 else 10 * DigitsValue(s[..|s| - 1]) + DigitValue(s[|s| - 1])
  }

  lemma {:induction false} NatToStringValue(n: nat)
    ensures DigitsValue(NatToString(n)) == n
    decreases n
  {
    if n >= 10 {
      var s := NatToString(n);
      assert s[..|s| - 1] == NatToString(n / 10);
      NatToStringValue(n / 10);
    }
  }

  /**
   * Integer.parseInt (lo, hi = the int range) and Long.parseLong (the long range):
   * an optional sign followed by at least one decimal digit, whose value lies in
   * [lo, hi]; None stands for NumberFormatException.
   */
  function ParseInteger(s: string, lo: int, hi: int): (r: Option<int>)
    ensures r.Some? ==> lo <= r.value <= hi
    ensures r.Some? ==> |s| > 0
  {
    if |s| == 0 then None
    else
      var digits := if s[0] == '-' || s[0] == '+' then s[1..] else s;
      if |digits| == 0 || !AllDigits(digits) then None
      else
        var d: int := DigitsValue(digits);
        var v := if s[0] == '-' then -d else d;
        if lo <= v <= hi then Some(v) else None
  }

  function ParseInt(s: string): Option<int> { ParseInteger(s, MinInt32, MaxInt32) }

  function ParseLong(s: string): Option<int> { ParseInteger(s, MinInt64, MaxInt64) }

  /** Parsing gives back every in-range number that was rendered. */
  lemma ParseIntegerRoundTrip(n: int, lo: int, hi: int)
    requires lo <= n <= hi
    ensures ParseInteger(IntToString(n), lo, hi) == Some(n)
  {
    var s := IntToString(n);
    if n < 0 {
      assert s[1..] == NatToString(-n);
      NatToStringValue(-n);
    } else {
      NatToStringValue(n);
    }
  }

  lemma ParseIntRoundTrip(n: int)
    requires MinInt32 <= n <= MaxInt32
    ensures ParseInt(IntToString(n)) == Some(n)
  {
    ParseIntegerRoundTrip(n, MinInt32, MaxInt32);
  }

  /** Two numbers with the same rendering are equal. */
  lemma IntToStringInjective(m: int, n: int)
    requires IntToString(m) == IntToString(n)
    ensures m == n
  {
    var lo := if m < n then m else n;
    var hi := if m < n then n else m;
    ParseIntegerRoundTrip(m, lo, hi);
    ParseIntegerRoundTrip(n, lo, hi);
  }

  lemma IntToStringNoDelimiter(n: int, c: char)
    requires c != '-' && !IsDigit(c)
    ensures c !in IntToString(n)
  {
    if n < 0 {
      assert IntToString(n) == "-" + NatToString(-n);
    }
  }

  // ---------------------------------------------------------------------------
  // Whitespace, trimming and case
  // ---------------------------------------------------------------------------

  /** The characters String.trim removes: every code unit up to and including ' '. */
  predicate IsTrimmable(c: char) { c <= ' ' }

  /**
   * Character.isWhitespace, which StringUtils.isBlank applies to every character:
   * the space, line and paragraph separators other than the no-break spaces
   * (U+00A0, U+2007, U+202F), and the controls U+0009-U+000D and U+001C-U+001F.
   */
  predicate IsWhitespace(c: char)
  {
    c == ' ' || ('\t' <= c <= '\r') || ('\U{1C}' <= c <= '\U{1F}') ||
    c == '\U{1680}' || ('\U{2000}' <= c <= '\U{2006}') || ('\U{2008}' <= c <= '\U{200A}') ||
    c == '\U{2028}' || c == '\U{2029}' || c == '\U{205F}' || c == '\U{3000}'
  }

  predicate IsBlank(s: string) { forall i :: 0 <= i < |s| ==> IsWhitespace(s[i]) }

  predicate IsTrimmed(s: string)
  {
    |s| == 0 || (!IsTrimmable(s[0]) && !IsTrimmable(s[|s| - 1]))
  }

  /** The number of trimmable characters at the start of s. */
  function LeadingTrimmable(s: string): (k: nat)
    ensures k <= |s|
    ensures forall i :: 0 <= i < k ==> IsTrimmable(s[i])
    ensures k < |s| ==> !IsTrimmable(s[k])
  {
    if |s| == 0 || !IsTrimmable(s[0]) then 0 else 1 + LeadingTrimmable(s[1..])
  }

  /** The number of trimmable characters at the end of s. */
  function TrailingTrimmable(s: string): (k: nat)
    ensures k <= |s|
    ensures forall i :: |s| - k <= i < |s| ==> IsTrimmable(s[i])
    ensures k < |s| ==> !IsTrimmable(s[|s| - 1 - k])
  {
    if |s| == 0 || !IsTrimmable(s[|s| - 1]) then 0 else 1 + TrailingTrimmable(s[..|s| - 1])
  }

  /** String.trim: s without its leading and trailing characters up to ' '. */
  function Trim(s: string): (r: string)
    ensures IsTrimmed(r)
    ensures |r| <= |s|
    ensures forall c :: c in r ==> c in s
    ensures IsTrimmed(s) ==> r == s
  {
    var t := s[LeadingTrimmable(s)..];
    t[..|t| - TrailingTrimmable(t)]
  }

  function LowerChar(c: char): (d: char)
  {
    if 'A' <= c <= 'Z' then (c as int + 32) as char else c
  }

  /** String.toLowerCase (ASCII letters). */
  function Lower(s: string): (r: string)
    ensures |r| == |s|
    ensures forall i :: 0 <= i < |s| ==> r[i] == LowerChar(s[i])
  {
    seq(|s|, i requires 0 <= i < |s| => LowerChar(s[i]))
  }

  predicate IsLower(s: string) { forall i :: 0 <= i < |s| ==> !('A' <= s[i] <= 'Z') }

  lemma LowerIsLower(s: string)
    ensures IsLower(Lower(s))
  {
  }

  /** String.equalsIgnoreCase (ASCII letters). */
  predicate EqualsIgnoreCase(a: string, b: string) { Lower(a) == Lower(b) }

  // ---------------------------------------------------------------------------
  // Searching, replacing, joining
  // ---------------------------------------------------------------------------

  /** String.indexOf(c): the first position of c, or -1. */
  function IndexOfChar(s: string, c: char): (i: int)
    ensures -1 <= i < |s|
    ensures i >= 0 ==> s[i] == c
    ensures forall j :: 0 <= j < |s| && (i < 0 || j < i) ==> s[j] != c
  {
    if |s| == 0 then -1
    else if s[0] == c then 0
    else
      var j := IndexOfChar(s[1..], c);
      if j < 0 then -1 else j + 1
  }

  /** String.lastIndexOf(c): the last position of c, or -1. */
  function LastIndexOf(s: string, c: char): (i: int)
    ensures -1 <= i < |s|
    ensures i >= 0 ==> s[i] == c
    ensures forall j :: i < j < |s| ==> s[j] != c
  {
    if |s| == 0 then -1
    else if s[|s| - 1] == c then |s| - 1
    else LastIndexOf(s[..|s| - 1], c)
  }

  predicate StartsWith(s: string, p: string) { |p| <= |s| && s[..|p|] == p }

  predicate EndsWith(s: string, p: string) { |p| <= |s| && s[|s| - |p|..] == p }

  /** String.contains. */
  predicate Contains(s: string, t: string)
    decreases |s|
  {
    StartsWith(s, t) || (|s| > 0 && Contains(s[1..], t))
  }

  /** A string found in a string without capital letters has none either. */
  lemma {:induction false} ContainedInLowerIsLower(s: string, t: string)
    requires Contains(s, t) && IsLower(s)
    ensures IsLower(t)
    decreases |s|
  {
    if StartsWith(s, t) {
      forall i | 0 <= i < |t| ensures !('A' <= t[i] <= 'Z') {
        assert t[i] == s[..|t|][i] == s[i];
      }
    } else {
      ContainedInLowerIsLower(s[1..], t);
    }
  }

  /** Lower-casing both sides keeps an occurrence. */
  lemma {:induction false} ContainsLower(s: string, t: string)
    requires Contains(s, t)
    ensures Contains(Lower(s), Lower(t))
    decreases |s|
  {
    if StartsWith(s, t) {
      assert Lower(s)[..|t|] == Lower(t);
    } else {
      ContainsLower(s[1..], t);
      assert Lower(s)[1..] == Lower(s[1..]);
    }
  }

  /** Every occurrence of a character of `from` replaced by `to` (String.replace / replaceAll of a class). */
  function ReplaceChars(s: string, from: set<char>, to: char): (r: string)
    ensures |r| == |s|
    ensures forall i :: 0 <= i < |s| ==> r[i] == (if s[i] in from then to else s[i])
  {
    seq(|s|, i requires 0 <= i < |s| => if s[i] in from then to else s[i])
  }

  /** The strings of `parts` with `sep` between neighbours (String.join). */
  function Join(parts: seq<string>, sep: string): string
  {
    if |parts| == 0 then "" else if |parts| == 1 then parts[0] else parts[0] + sep + Join(parts[1..], sep)
  }

  /** Joining one more part adds a separator and the part (nothing before the first part). */
  lemma {:induction false} JoinSnoc(parts: seq<string>, p: string, sep: string)
    ensures Join(parts + [p], sep) == if parts == [] then p else Join(parts, sep) + sep + p
    decreases |parts|
  {
    if |parts| == 1 {
      assert (parts + [p])[1..] == [p];
    } else if |parts| > 1 {
      assert (parts + [p])[1..] == parts[1..] + [p];
      JoinSnoc(parts[1..], p, sep);
    }
  }

  /** A join starts with the first part and ends with the last: no separator at either end. */
  lemma {:induction false} JoinEnds(parts: seq<string>, sep: string)
    requires |parts| > 0
    ensures StartsWith(Join(parts, sep), parts[0])
    ensures EndsWith(Join(parts, sep), parts[|parts| - 1])
    decreases |parts|
  {
    var j := Join(parts, sep);
    if |parts| > 1 {
      JoinEnds(parts[1..], sep);
      var t := Join(parts[1..], sep);
      var last := parts[|parts| - 1];
      assert j == parts[0] + (sep + t);
      assert j[..|parts[0]|] == parts[0];
      assert t[|t| - |last|..] == last;
      assert j[|j| - |last|..] == t[|t| - |last|..];
    }
  }

  /** The join of non-empty parts is empty only when there are no parts. */
  lemma JoinEmpty(parts: seq<string>, sep: string)
    requires forall i :: 0 <= i < |parts| ==> |parts[i]| > 0
    ensures |Join(parts, sep)| == 0 <==> parts == []
  {
    if |parts| > 0 {
      JoinEnds(parts, sep);
    }
  }

  // ---------------------------------------------------------------------------
  // Tokenising (java.util.StringTokenizer) and splitting
  // ---------------------------------------------------------------------------

  predicate NoneIn(s: string, delims: set<char>) { forall i :: 0 <= i < |s| ==> s[i] !in delims }

  /** The length of the run of non-delimiters that starts s. */
  function RunLength(s: string, delims: set<char>): (k: nat)
    ensures k <= |s| && NoneIn(s[..k], delims)
    ensures k < |s| ==> s[k] in delims
  {
    if |s| == 0 || s[0] in delims then 0 else 1 + RunLength(s[1..], delims)
  }

  /** The maximal runs of characters outside `delims`, in order: what a StringTokenizer returns. */
  function Tokens(s: string, delims: set<char>): (r: seq<string>)
    ensures forall t :: t in r ==> |t| > 0 && NoneIn(t, delims)
    decreases |s|
  {
    if |s| == 0 then []
    else if s[0] in delims then Tokens(s[1..], delims)
    else
      var k := RunLength(s, delims);
      [s[..k]] + Tokens(s[k..], delims)
  }

  /** A string with no delimiter is one token (or none when empty). */
  lemma TokensOfWord(s: string, delims: set<char>)
    requires NoneIn(s, delims)
    ensures Tokens(s, delims) == if s == [] then [] else [s]
  {
    if s != [] {
      RunLengthOfWord(s, delims);
      assert s[..|s|] == s;
      assert s[|s|..] == [];
    }
  }

  lemma {:induction false} RunLengthOfWord(s: string, delims: set<char>)
    requires NoneIn(s, delims)
    ensures RunLength(s, delims) == |s|
  {
    if |s| > 0 {
      RunLengthOfWord(s[1..], delims);
    }
  }

  /** Tokens of w + [d] + rest, for a word w and a delimiter d. */
  lemma TokensCons(w: string, d: char, rest: string, delims: set<char>)
    requires NoneIn(w, delims) && d in delims
    ensures Tokens(w + [d] + rest, delims) == (if w == [] then [] else [w]) + Tokens(rest, delims)
  {
    var t := [d] + rest;
    assert t[1..] == rest;
    assert Tokens(t, delims) == Tokens(rest, delims);
    var s := w + t;
    assert w + [d] + rest == s;
    if w != [] {
      RunLengthPrefix(w, t, delims);
      assert s[..|w|] == w;
      assert s[|w|..] == t;
      assert Tokens(s, delims) == [w] + Tokens(t, delims);
    } else {
      assert s == t;
    }
  }

  lemma {:induction false} RunLengthPrefix(w: string, t: string, delims: set<char>)
    requires NoneIn(w, delims) && |t| > 0 && t[0] in delims
    ensures RunLength(w + t, delims) == |w|
  {
    if |w| > 0 {
      assert (w + t)[1..] == w[1..] + t;
      RunLengthPrefix(w[1..], t, delims);
    } else {
      assert w + t == t;
    }
  }

  /** String.split on one character, before the trailing empty strings are dropped. */
  function SplitOn(s: string, c: char): (r: seq<string>)
    ensures |r| > 0
    decreases |s|
  {
    var i := IndexOfChar(s, c);
    if i < 0 then [s] else [s[..i]] + SplitOn(s[i + 1..], c)
  }

  /** Joining the pieces back with the separator gives the string back. */
  lemma {:induction false} SplitOnJoin(s: string, c: char)
    ensures Join(SplitOn(s, c), [c]) == s
    decreases |s|
  {
    var i := IndexOfChar(s, c);
    if i >= 0 {
      var rest := s[i + 1..];
      SplitOnJoin(rest, c);
      assert SplitOn(s, c)[1..] == SplitOn(rest, c);
      assert s == s[..i] + [c] + rest;
    }
  }

  /** The first c of a + t, for an a without c, is the first c of t. */
  lemma {:induction false} IndexOfCharSkip(a: string, t: string, c: char)
    requires c !in a
    ensures IndexOfChar(a + t, c) == if IndexOfChar(t, c) < 0 then -1 else |a| + IndexOfChar(t, c)
  {
    if a != [] {
      assert (a + t)[1..] == a[1..] + t;
      IndexOfCharSkip(a[1..], t, c);
    } else {
      assert a + t == t;
    }
  }

  /** Splitting a piece without the separator, then the separator, then the rest. */
  lemma SplitOnCons(a: string, rest: string, c: char)
    requires c !in a
    ensures SplitOn(a + [c] + rest, c) == [a] + SplitOn(rest, c)
  {
    var s := a + [c] + rest;
    assert s == a + ([c] + rest);
    IndexOfCharSkip(a, [c] + rest, c);
    assert s[..|a|] == a && s[|a| + 1..] == rest;
  }

  /** A string without the separator is one piece. */
  lemma SplitOnWord(a: string, c: char)
    requires c !in a
    ensures SplitOn(a, c) == [a]
  {
    IndexOfCharSkip(a, [], c);
    assert a + [] == a;
  }
}

=== FILE: logs_script.dfy ===
/**
 * The ACM check-out log retrieval script: it turns command-line arguments into
 * object-store key prefixes built from calendar dates, lists the prefixes in
 * order until one yields objects, and fetches and prints every object found.
 *
 * The object store, the clock and Python's date arithmetic are parameters: a
 * Store gives the keys listed under a prefix and the body of each key, and a
 * Calendar gives the date k days after today (k <= 0 for the past).
 */
module LogsScript {
  import opened Wrappers
  import JavaStrings

  type Year = y: int | 1 <= y <= 9999 witness 1
  type Month = m: int | 1 <= m <= 12 witness 1
  type Day = d: int | 1 <= d <= 31 witness 1

  datatype Date = Date(year: Year, month: Month, day: Day)

  /** The date `k` days after today; `k` may be negative. */
  type Calendar = int -> Date

  datatype Store = Store(list: string -> seq<string>, body: string -> string)

  /** What the script does to the outside world, in order. */
  datatype Event = ListObjects(prefix: string) | GetObject(key: string) | Print(text: string)

  datatype Exit = Exit(code: int) | Crash

  // ---------------------------------------------------------------------------
  // Date rendering: str(date) is the ISO 8601 extended calendar date YYYY-MM-DD
  // (section 4.1.2.2 of ISO 8601:2004); str(year), str(month) are unpadded.
  // ---------------------------------------------------------------------------

  /** The last `width` decimal digits of n, zero-padded. */
  function Digits(n: nat, width: nat): (s: string)
    ensures |s| == width && JavaStrings.AllDigits(s)
  {
    if width == 0 then "" else Digits(n / 10, width - 1) + [JavaStrings.DigitChar(n % 10)]
  }

  function Pow10(k: nat): (p: nat)
    ensures p >= 1
  {
    if k == 0 then 1 else 10 * Pow10(k - 1)
  }

  lemma {:induction false} DigitsValue(n: nat, width: nat)
    requires n < Pow10(width)
    ensures JavaStrings.DigitsValue(Digits(n, width)) == n
  {
    if width > 0 {
      var s := Digits(n, width);
      assert s[..|s| - 1] == Digits(n / 10, width - 1);
      DigitsValue(n / 10, width - 1);
    }
  }

  function IsoDate(d: Date): (s: string)
    ensures |s| == 10 && s[4] == '-' && s[7] == '-'
  {
    Digits(d.year, 4) + "-" + Digits(d.month, 2) + "-" + Digits(d.day, 2)
  }

  /** Writing the value of a digit string back at the same width gives the same digits. */
  lemma {:induction false} DigitsOfValue(s: string)
    requires JavaStrings.AllDigits(s)
    ensures Digits(JavaStrings.DigitsValue(s), |s|) == s
    decreases |s|
  {
    if |s| > 0 {
      var init := s[..|s| - 1];
      assert JavaStrings.AllDigits(init) by {
        forall i | 0 <= i < |init| ensures JavaStrings.IsDigit(init[i]) {
          assert init[i] == s[i];
        }
      }
      DigitsOfValue(init);
      var v := JavaStrings.DigitsValue(s);
      assert v / 10 == JavaStrings.DigitsValue(init) && v % 10 == JavaStrings.DigitValue(s[|s| - 1]);
      assert s == init + [s[|s| - 1]];
    }
  }

  /**
   * Reads a YYYY-MM-DD string back into a date; a string it accepts is exactly
   * the rendering of the date it reads.
   */
  function ParseIsoDate(s: string): (r: Option<Date>)
    ensures r.Some? ==> IsoDate(r.value) == s
  {
    if |s| != 10 || s[4] != '-' || s[7] != '-' then None
    else if !JavaStrings.AllDigits(s[..4]) || !JavaStrings.AllDigits(s[5..7]) || !JavaStrings.AllDigits(s[8..]) then None
    else
      var y := JavaStrings.DigitsValue(s[..4]);
      var m := JavaStrings.DigitsValue(s[5..7]);
      var d := JavaStrings.DigitsValue(s[8..]);
      if 1 <= y <= 9999 && 1 <= m <= 12 && 1 <= d <= 31 then
        RenderParsed(s);
        Some(Date(y, m, d))
      else None
  }

  /** The three digit fields of a YYYY-MM-DD string, written back, give the string. */
  lemma RenderParsed(s: string)
    requires |s| == 10 && s[4] == '-' && s[7] == '-'
    requires JavaStrings.AllDigits(s[..4]) && JavaStrings.AllDigits(s[5..7]) && JavaStrings.AllDigits(s[8..])
    ensures Digits(JavaStrings.DigitsValue(s[..4]), 4) + "-" + Digits(JavaStrings.DigitsValue(s[5..7]), 2) + "-" +
            Digits(JavaStrings.DigitsValue(s[8..]), 2) == s
  {
    DigitsOfValue(s[..4]);
    DigitsOfValue(s[5..7]);
    DigitsOfValue(s[8..]);
    assert s == s[..4] + "-" + s[5..7] + "-" + s[8..];
  }

  /** The rendering is unambiguous: the date can be read back from it. */
  lemma IsoDateRoundTrip(d: Date)
    ensures ParseIsoDate(IsoDate(d)) == Some(d)
  {
    var s := IsoDate(d);
    assert s[..4] == Digits(d.year, 4);
    assert s[5..7] == Digits(d.month, 2);
    assert s[8..] == Digits(d.day, 2);
    DigitsValue(d.year, 4);
    DigitsValue(d.month, 2);
    DigitsValue(d.day, 2);
  }

  lemma IsoDateInjective(d: Date, e: Date)
    requires IsoDate(d) == IsoDate(e)
    ensures d == e
  {
    IsoDateRoundTrip(d);
    IsoDateRoundTrip(e);
  }

  // ---------------------------------------------------------------------------
  // Key prefixes (get_dir)
  // ---------------------------------------------------------------------------

  /** The month's directory: under "logs/", ending with '/'. */
  function MonthDir(d: Date): (r: string)
    ensures JavaStrings.StartsWith(r, "logs/") && r[|r| - 1] == '/'
  {
    "logs/" + JavaStrings.NatToString(d.year) + "/" + JavaStrings.NatToString(d.month) + "/"
  }

  /**
   * Month mode's prefix has no closing '/', so for January it is also a prefix of
   * the October, November and December directories of the same year.
   */
  lemma JanuaryPrefixCoversLaterMonths(d: Date)
    requires d.month >= 10
    ensures JavaStrings.StartsWith(MonthDir(d), "logs/" + JavaStrings.NatToString(d.year) + "/" + JavaStrings.NatToString(1))
  {
    var y := JavaStrings.NatToString(d.year);
    assert JavaStrings.NatToString(d.month) == JavaStrings.NatToString(1) + [JavaStrings.DigitChar(d.month % 10)];
    assert MonthDir(d) == ("logs/" + y + "/" + JavaStrings.NatToString(1)) + ([JavaStrings.DigitChar(d.month % 10)] + "/");
  }

  /** Where consolidated logs of a day live. */
  function ConsolidatedDir(d: Date): string { MonthDir(d) + "log_" + IsoDate(d) }

  /** Where not yet consolidated logs of a day live. */
  function UnconsolidatedDir(d: Date): string { MonthDir(d) + IsoDate(d) }

  /** get_dir: the consolidated prefix, then the unconsolidated one, both inside the day's month directory. */
  function GetDir(d: Date): (r: seq<string>)
    ensures |r| == 2 && JavaStrings.StartsWith(r[0], MonthDir(d)) && JavaStrings.StartsWith(r[1], MonthDir(d))
  {
    [ConsolidatedDir(d), UnconsolidatedDir(d)]
  }

  /**
   * The two prefixes of a day are not prefixes of one another, so no key is
   * listed under both, and each ends with the day's ISO date.
   */
  lemma GetDirDisjoint(d: Date)
    ensures !JavaStrings.StartsWith(GetDir(d)[0], GetDir(d)[1])
    ensures !JavaStrings.StartsWith(GetDir(d)[1], GetDir(d)[0])
    ensures JavaStrings.EndsWith(GetDir(d)[0], IsoDate(d)) && JavaStrings.EndsWith(GetDir(d)[1], IsoDate(d))
  {
    var m := MonthDir(d);
    var c := ConsolidatedDir(d);
    var u := UnconsolidatedDir(d);
    assert c[|m|] == 'l';
    assert u[|m|] == IsoDate(d)[0];
    assert JavaStrings.IsDigit(IsoDate(d)[0]);
    assert |c| > |u|;
    assert c[|c| - 10..] == IsoDate(d);
    assert u[|u| - 10..] == IsoDate(d);
  }

  /** Different days have different prefixes. */
  lemma GetDirInjective(d: Date, e: Date)
    requires GetDir(d)[1] == GetDir(e)[1]
    ensures d == e
  {
    var u := UnconsolidatedDir(d);
    var v := UnconsolidatedDir(e);
    assert u[|u| - 10..] == IsoDate(d);
    assert v[|v| - 10..] == IsoDate(e);
    IsoDateInjective(d, e);
  }

  // ---------------------------------------------------------------------------
  // Listing (get_logs) and printing (dir_printer)
  // ---------------------------------------------------------------------------

  predicate HasObjects(store: Store, prefix: string) { store.list(prefix) != [] }

  /** The position of the first prefix that has objects, or |dirs| when none has. */
  function FirstWithObjects(store: Store, dirs: seq<string>): (i: nat)
    ensures i <= |dirs|
    ensures forall j :: 0 <= j < i ==> !HasObjects(store, dirs[j])
    ensures i < |dirs| ==> HasObjects(store, dirs[i])
  {
    if dirs == [] || HasObjects(store, dirs[0]) then 0 else 1 + FirstWithObjects(store, dirs[1..])
  }

  /** What get_logs returns: the listing of the first prefix that has objects, if any. */
  function FirstListing(store: Store, dirs: seq<string>): Option<seq<string>>
  {
    var i := FirstWithObjects(store, dirs);
    if i < |dirs| then Some(store.list(dirs[i])) else None
  }

  /** The prefixes get_logs lists: up to and including the first with objects. */
  function ListingTrace(store: Store, dirs: seq<string>): seq<Event>
  {
    var i := FirstWithObjects(store, dirs);
    var n := if i < |dirs| then i + 1 else |dirs|;
    seq(n, j requires 0 <= j < n => ListObjects(dirs[j]))
  }

  /** Fetching and printing each key, in listing order. */
  function FetchTrace(store: Store, keys: seq<string>): seq<Event>
  {
    if keys == [] then [] else [GetObject(keys[0]), Print(store.body(keys[0]))] + FetchTrace(store, keys[1..])
  }

  function DirPrinterTrace(store: Store, dirs: seq<string>): seq<Event>
  {
    ListingTrace(store, dirs) + match FirstListing(store, dirs) { case None => [] case Some(keys) => FetchTrace(store, keys) }
  }

  /** get_logs: list the prefixes in order and return the first non-empty listing. */
  method GetLogs(store: Store, dirs: seq<string>) returns (logs: Option<seq<string>>, trace: seq<Event>)
    ensures logs == FirstListing(store, dirs)
    ensures trace == ListingTrace(store, dirs)
  {
    trace := [];
    var i := 0;
    while i < |dirs|
      invariant 0 <= i <= |dirs|
      invariant forall j :: 0 <= j < i ==> !HasObjects(store, dirs[j])
      invariant i <= FirstWithObjects(store, dirs)
      invariant trace == seq(i, j requires 0 <= j < i => ListObjects(dirs[j]))
    {
      var contents := store.list(dirs[i]);
      trace := trace + [ListObjects(dirs[i])];
      if contents != [] {
        return Some(contents), trace;
      }
      i := i + 1;
    }
    return None, trace;
  }

  /** dir_printer: print every object under the first prefix that has any. */
  method DirPrinter(store: Store, dirs: seq<string>) returns (trace: seq<Event>)
    ensures trace == DirPrinterTrace(store, dirs)
  {
    var logs;
    logs, trace := GetLogs(store, dirs);
    if logs.None? {
      return;
    }
    var keys := logs.value;
    var k := 0;
    while k < |keys|
      invariant 0 <= k <= |keys|
      invariant trace + FetchTrace(store, keys[k..]) == DirPrinterTrace(store, dirs)
    {
      assert keys[k..][1..] == keys[k + 1..];
      trace := trace + [GetObject(keys[k]), Print(store.body(keys[k]))];
      k := k + 1;
    }
  }

  /** The nothing-found case: only listings happen, no object is fetched or printed. */
  lemma NothingFetchedWhenEmpty(store: Store, dirs: seq<string>)
    requires forall i :: 0 <= i < |dirs| ==> !HasObjects(store, dirs[i])
    ensures DirPrinterTrace(store, dirs) == seq(|dirs|, i requires 0 <= i < |dirs| => ListObjects(dirs[i]))
  {
    var i := FirstWithObjects(store, dirs);
    assert i == |dirs|;
  }

  /** Once a prefix has objects, the later prefixes are never listed. */
  lemma ListingStopsAtFirstHit(store: Store, dirs: seq<string>, k: nat)
    requires k < |dirs| && HasObjects(store, dirs[k])
    ensures |ListingTrace(store, dirs)| <= k + 1
    ensures FirstListing(store, dirs).Some?
  {
  }

  /** Every listed key is fetched and printed once, in listing order. */
  lemma {:induction false} FetchTraceShape(store: Store, keys: seq<string>)
    ensures |FetchTrace(store, keys)| == 2 * |keys|
    ensures forall k :: 0 <= k < |keys| ==>
      FetchTrace(store, keys)[2 * k] == GetObject(keys[k]) && FetchTrace(store, keys)[2 * k + 1] == Print(store.body(keys[k]))
  {
    if keys != [] {
      FetchTraceShape(store, keys[1..]);
      var t := FetchTrace(store, keys);
      forall k | 1 <= k < |keys|
        ensures t[2 * k] == GetObject(keys[k]) && t[2 * k + 1] == Print(store.body(keys[k]))
      {
        assert keys[k] == keys[1..][k - 1];
        assert 2 * k == 2 + 2 * (k - 1);
      }
    }
  }

  // ---------------------------------------------------------------------------
  // The day window (printer)
  // ---------------------------------------------------------------------------

  /** The prefixes probed for the day `offset` days before today. */
  function PrinterDirs(cal: Calendar, offset: nat): seq<string>
  {
    var date := cal(-(offset as int));
    if offset == 0 || offset == 1 then GetDir(date) else [ConsolidatedDir(date)]
  }

  /**
   * The window's first two days (today and yesterday) probe both prefixes of
   * that day; every older day probes only its consolidated prefix.
   */
  lemma PrinterDirsShape(cal: Calendar, offset: nat)
    ensures |PrinterDirs(cal, offset)| == (if offset <= 1 then 2 else 1)
    ensures PrinterDirs(cal, offset)[0] == ConsolidatedDir(cal(-(offset as int)))
    ensures offset <= 1 ==> PrinterDirs(cal, offset)[1] == UnconsolidatedDir(cal(-(offset as int)))
  {
  }

  /** The events of printing the first numDays days of the window. */
  function PrinterTrace(store: Store, cal: Calendar, numDays: nat): seq<Event>
  {
    if numDays == 0 then [] else PrinterTrace(store, cal, numDays - 1) + DirPrinterTrace(store, PrinterDirs(cal, numDays - 1))
  }

  lemma PrinterTraceStep(store: Store, cal: Calendar, n: nat)
    ensures PrinterTrace(store, cal, n + 1) == PrinterTrace(store, cal, n) + DirPrinterTrace(store, PrinterDirs(cal, n))
  {
  }

  lemma PlanStep(cal: Calendar, plan: seq<seq<string>>, day: nat, baseDir: seq<string>)
    requires |plan| == day && forall k :: 0 <= k < day ==> plan[k] == PrinterDirs(cal, k)
    requires baseDir == PrinterDirs(cal, day)
    ensures forall k :: 0 <= k < day + 1 ==> (plan + [baseDir])[k] == PrinterDirs(cal, k)
  {
  }

  /**
   * printer: visit today, yesterday, ... back to numDays - 1 days ago. The first two
   * days probe both prefixes (they may not be consolidated yet), older days only the
   * consolidated one.
   */
  method Printer(store: Store, cal: Calendar, numDays: nat) returns (plan: seq<seq<string>>, trace: seq<Event>)
    ensures |plan| == numDays
    ensures forall k :: 0 <= k < numDays ==> plan[k] == PrinterDirs(cal, k)
    ensures trace == PrinterTrace(store, cal, numDays)
  {
    plan, trace := [], [];
    var day: int := 0;
    while day < numDays
      invariant 0 <= day <= numDays
      invariant |plan| == day
      invariant forall k :: 0 <= k < day ==> plan[k] == PrinterDirs(cal, k)
      invariant trace == PrinterTrace(store, cal, day)
    {
      var baseDir := PrinterDirs(cal, day);
      var t := DirPrinter(store, baseDir);
      PrinterTraceStep(store, cal, day);
      trace := trace + t;
      PlanStep(cal, plan, day, baseDir);
      plan := plan + [baseDir];
      day := day + 1;
    }
  }

  // ---------------------------------------------------------------------------
  // The command line (__main__)
  // ---------------------------------------------------------------------------

  /**
   * The arguments as argparse leaves them: argc is len(sys.argv) (the script name
   * included), days the positional N, and the -d, -m, -y option values.
   */
  datatype Args = Args(argc: nat, days: Option<int>, date: Option<string>, month: Option<string>, year: Option<string>)

  /** strptime with "%Y-%m-%d", "%Y-%m" and "%Y"; None stands for the ValueError it raises. */
  datatype DateParsers = DateParsers(
    parseDate: string -> Option<Date>,
    parseMonth: string -> Option<(Year, Month)>,
    parseYear: string -> Option<Year>)

  /** Python truthiness of an optional string. */
  predicate Given(s: Option<string>) { s.Some? && s.value != "" }

  /**
   * The script's top level: argument checks, then days, date, month and year
   * mode in that order of precedence.
   */
  method RunScript(args: Args, store: Store, cal: Calendar, parsers: DateParsers) returns (exit: Exit, trace: seq<Event>)
    ensures args.argc > 3 ==> exit == Exit(1) && trace == [Print("Too many arguments passed")]
    ensures args.argc < 2 ==> exit == Exit(0) && trace == PrinterTrace(store, cal, 7)
    ensures 2 <= args.argc <= 3 && args.days.Some? ==>
      var n := args.days.value;
      if 0 < n < 100 then exit == Exit(0) && trace == PrinterTrace(store, cal, n)
      else if -100 < n < 0 then exit == Exit(0) && trace == DirPrinterTrace(store, GetDir(cal(n)))
      else exit == Exit(1) && trace == [Print("Number out of bounds")]
    ensures 2 <= args.argc <= 3 && args.days.None? && Given(args.date) ==>
      (match parsers.parseDate(args.date.value)
       case None => exit == Crash && trace == []
       case Some(d) => exit == Exit(0) && trace == DirPrinterTrace(store, GetDir(d)))
    ensures 2 <= args.argc <= 3 && args.days.None? && !Given(args.date) && Given(args.month) ==>
      (match parsers.parseMonth(args.month.value)
       case None => exit == Crash && trace == []
       case Some(ym) =>
         exit == Exit(0) && trace == DirPrinterTrace(store, ["logs/" + JavaStrings.NatToString(ym.0) + "/" + JavaStrings.NatToString(ym.1)]))
    ensures 2 <= args.argc <= 3 && args.days.None? && !Given(args.date) && !Given(args.month) && Given(args.year) ==>
      (match parsers.parseYear(args.year.value)
       case None => exit == Crash && trace == []
       case Some(y) => exit == Exit(0) && trace == DirPrinterTrace(store, ["logs/" + JavaStrings.NatToString(y)]))
    ensures 2 <= args.argc <= 3 && args.days.None? && !Given(args.date) && !Given(args.month) && !Given(args.year) ==>
      exit == Crash && trace == []
  {
    if args.argc > 3 {
      return Exit(1), [Print("Too many arguments passed")];
    }
    if args.argc < 2 {
      var plan;
      plan, trace := Printer(store, cal, 7);
      return Exit(0), trace;
    }
    var baseDir: seq<string>;
    if args.days.Some? {
      var n := args.days.value;
      if 0 < n < 100 {
        var plan;
        plan, trace := Printer(store, cal, n);
        return Exit(0), trace;
      } else if -100 < n < 0 {
        baseDir := GetDir(cal(n));
      } else {
        return Exit(1), [Print("Number out of bounds")];
      }
    } else if Given(args.date) {
      var d := parsers.parseDate(args.date.value);
      if d.None? {
        return Crash, [];
      }
      baseDir := GetDir(d.value);
    } else if Given(args.month) {
      var ym := parsers.parseMonth(args.month.value);
      if ym.None? {
        return Crash, [];
      }
      baseDir := ["logs/" + JavaStrings.NatToString(ym.value.0) + "/" + JavaStrings.NatToString(ym.value.1)];
    } else if Given(args.year) {
      var y := parsers.parseYear(args.year.value);
      if y.None? {
        return Crash, [];
      }
      baseDir := ["logs/" + JavaStrings.NatToString(y.value)];
    } else {
      // base_dir is never bound: Python raises NameError
      return Crash, [];
    }
    trace := DirPrinter(store, baseDir);
    exit := Exit(0);
  }
}

=== FILE: matcher.dfy ===
/**
 * The content-import matcher: a list of items, each holding a left value (what
 * should exist), a right value (what was found), or both once matched. Items are
 * matched exactly when neighbours in the sorted list agree, or by a score over all
 * left/right pairs; matched right items are squashed out of the list. Left and
 * right values are represented by their toString, and the fuzzy score is a parameter.
 */
module Matcher {
  import opened Wrappers
  import Sorting

  /** MATCH: how an item stands. Consumed is MATCH.NONE, a right item taken by a match. */
  datatype Match = Consumed | LeftOnly | RightOnly | Exact | Token | Fuzzy | Manual
  {
    predicate IsSingle() { LeftOnly? || RightOnly? }

    predicate IsMatch() { Exact? || Token? || Fuzzy? || Manual? }

    /** The position in the declaration of MATCH. */
    function Ordinal(): nat
    {
      match this
      case Consumed => 0
      case LeftOnly => 1
      case RightOnly => 2
      case Exact => 3
      case Token => 4
      case Fuzzy => 5
      case Manual => 6
    }
  }

  datatype Item = Item(left: Option<string>, right: Option<string>, kind: Match, score: int)

  /** What the item factory makes of a left value alone and of a right value alone. */
  function LeftItem(l: string): Item { Item(Some(l), None, LeftOnly, 0) }
  function RightItem(r: string): Item { Item(None, Some(r), RightOnly, 0) }

  /** The counts a matching pass reports. */
  datatype MatchStats = MatchStats(comparisons: int, matches: int)
  {
    predicate Matched() { matches > 0 }

    /** MatchStats.add: the counts of both passes. */
    function Add(other: MatchStats): (r: MatchStats)
      ensures r.comparisons - comparisons == other.comparisons
      ensures r.matches - matches == other.matches
    {
      MatchStats(comparisons + other.comparisons, matches + other.matches)
    }
  }

  const NoStats: MatchStats := MatchStats(0, 0)

  // ---------------------------------------------------------------------------
  // Recording matches and squashing
  // ---------------------------------------------------------------------------

  /**
   * recordMatch(l, r, match, score) on the items at li and ri: the left item takes
   * the right value, the kind and the score; then the right item is marked consumed
   * (so the same item given twice ends up consumed).
   */
  function RecordMatch(s: seq<Item>, li: nat, ri: nat, m: Match, score: int): (r: seq<Item>)
    requires li < |s| && ri < |s|
    ensures |r| == |s|
    ensures r[ri].kind == Consumed
    ensures li != ri ==> r[li] == s[li].(right := s[ri].right, kind := m, score := score)
    ensures forall k :: 0 <= k < |s| && k != li && k != ri ==> r[k] == s[k]
  {
    var t := s[li := s[li].(right := s[ri].right, kind := m, score := score)];
    t[ri := t[ri].(kind := Consumed)]
  }

  /** The items that are not consumed, in order. */
  function Squash(s: seq<Item>): (r: seq<Item>)
    ensures |r| <= |s|
    ensures forall x :: x in r <==> x in s && x.kind != Consumed
  {
    if s == [] then []
    else (if s[0].kind == Consumed then [] else [s[0]]) + Squash(s[1..])
  }

  /** Squashing distributes over concatenation, so the kept items stay in their order. */
  lemma {:induction false} SquashAppend(a: seq<Item>, b: seq<Item>)
    ensures Squash(a + b) == Squash(a) + Squash(b)
    decreases |a|
  {
    if a != [] {
      assert (a + b)[1..] == a[1..] + b;
      SquashAppend(a[1..], b);
    } else {
      assert a + b == b;
    }
  }

  /** A list without consumed items is left as it is; so squashing twice is squashing once. */
  lemma {:induction false} SquashKeeps(s: seq<Item>)
    requires forall k :: 0 <= k < |s| ==> s[k].kind != Consumed
    ensures Squash(s) == s
    decreases |s|
  {
    if s != [] {
      SquashKeeps(s[1..]);
    }
  }

  lemma {:induction false} SquashIdempotent(s: seq<Item>)
    ensures Squash(Squash(s)) == Squash(s)
  {
    var t := Squash(s);
    forall k | 0 <= k < |t| ensures t[k].kind != Consumed {
      assert t[k] in t;
    }
    SquashKeeps(t);
  }

  // ---------------------------------------------------------------------------
  // setData
  // ---------------------------------------------------------------------------

  predicate NoRepeatBefore<T(==)>(s: seq<T>, n: int)
  {
    forall i, j :: 0 <= i < j < n && j < |s| ==> s[i] != s[j]
  }

  /** The position of the first element that repeats an earlier one, or |s| when there is none. */
  function FirstRepeat<T(==)>(s: seq<T>): (d: nat)
    ensures d <= |s|
    ensures NoRepeatBefore(s, d)
    ensures d < |s| ==> s[d] in s[..d]
  {
    if |s| == 0 then 0
    else
      var d := FirstRepeat(s[..|s| - 1]);
      if d < |s| - 1 then (assert s[..|s| - 1][..d] == s[..d]; d)
      else if s[|s| - 1] in s[..|s| - 1] then |s| - 1
      else |s|
  }

  /** Scanning from the start, the first element seen before is the first repeat. */
  lemma FirstRepeatStep<T>(s: seq<T>, k: nat)
    requires k <= FirstRepeat(s) && k < |s|
    ensures s[k] in s[..k] ==> FirstRepeat(s) == k
    ensures s[k] !in s[..k] ==> k + 1 <= FirstRepeat(s)
  {
  }

  function LeftItems(l: seq<string>): (r: seq<Item>)
    ensures |r| == |l| && forall k :: 0 <= k < |l| ==> r[k] == LeftItem(l[k])
  {
    seq(|l|, k requires 0 <= k < |l| => LeftItem(l[k]))
  }

  function RightItems(rs: seq<string>): (r: seq<Item>)
    ensures |r| == |rs| && forall k :: 0 <= k < |rs| ==> r[k] == RightItem(rs[k])
  {
    seq(|rs|, k requires 0 <= k < |rs| => RightItem(rs[k]))
  }

  // ---------------------------------------------------------------------------
  // findExactMatches
  // ---------------------------------------------------------------------------

  /** A left item at k whose right neighbour is a right item: the two get compared. */
  predicate Compared(s: seq<Item>, k: int)
  {
    0 <= k && k + 1 < |s| && s[k].kind == LeftOnly && s[k + 1].kind == RightOnly
  }

  /** ... and their strings are equal: the two get matched. */
  predicate ExactPair(s: seq<Item>, k: int)
  {
    Compared(s, k) && s[k].left == s[k + 1].right
  }

  /** The loop of findExactMatches from index ix on, with the counts so far. */
  function ExactFrom(s: seq<Item>, ix: nat, st: MatchStats): (r: (seq<Item>, MatchStats))
    ensures |r.0| == |s|
    decreases |s| - ix
  {
    if ix + 1 >= |s| then (s, st)
    else if s[ix].kind != LeftOnly then ExactFrom(s, ix + 1, st)
    else if s[ix + 1].kind == RightOnly then
      if s[ix].left == s[ix + 1].right then
        ExactFrom(RecordMatch(s, ix, ix + 1, Exact, 0), ix + 2, MatchStats(st.comparisons + 1, st.matches + 1))
      else ExactFrom(s, ix + 2, MatchStats(st.comparisons + 1, st.matches))
    else if s[ix + 1].kind == LeftOnly then ExactFrom(s, ix + 1, st)
    else ExactFrom(s, ix + 2, st)
  }

  /** The number of compared neighbours, and of matched ones, at positions from ix on. */
  function ComparedFrom(s: seq<Item>, ix: nat): nat
    decreases |s| - ix
  {
    if ix >= |s| then 0 else (if Compared(s, ix) then 1 else 0) + ComparedFrom(s, ix + 1)
  }

  function MatchedFrom(s: seq<Item>, ix: nat): nat
    decreases |s| - ix
  {
    if ix >= |s| then 0 else (if ExactPair(s, ix) then 1 else 0) + MatchedFrom(s, ix + 1)
  }

  /** What the pass does to position k: the left of an exact pair is matched, its right consumed. */
  function ExactItem(s: seq<Item>, ix: nat, k: nat): Item
    requires k < |s|
  {
    if k >= ix && ExactPair(s, k) then s[k].(right := s[k + 1].right, kind := Exact, score := 0)
    else if k >= ix + 1 && ExactPair(s, k - 1) then s[k].(kind := Consumed)
    else s[k]
  }

  lemma {:induction false} ComparedFromSkip(s: seq<Item>, ix: nat)
    requires ix < |s| && !Compared(s, ix)
    ensures ComparedFrom(s, ix) == ComparedFrom(s, ix + 1) && MatchedFrom(s, ix) == MatchedFrom(s, ix + 1)
  {
  }

  /** Counts are the same on two lists that agree from ix on. */
  lemma {:induction false} CountsAgree(s: seq<Item>, t: seq<Item>, ix: nat)
    requires |s| == |t| && forall k :: ix <= k < |s| ==> s[k] == t[k]
    ensures ComparedFrom(s, ix) == ComparedFrom(t, ix) && MatchedFrom(s, ix) == MatchedFrom(t, ix)
    decreases |s| - ix
  {
    if ix < |s| {
      CountsAgree(s, t, ix + 1);
    }
  }

  /**
   * findExactMatches matches exactly the left items whose right neighbour is a right
   * item with the same string, consumes those right items, leaves every other item
   * alone, and counts the comparisons and matches it made.
   */
  lemma {:induction false} ExactFromEffect(s: seq<Item>, ix: nat, st: MatchStats)
    ensures var r := ExactFrom(s, ix, st);
      (forall k :: 0 <= k < |s| ==> r.0[k] == ExactItem(s, ix, k)) &&
      r.1 == MatchStats(st.comparisons + ComparedFrom(s, ix), st.matches + MatchedFrom(s, ix))
    decreases |s| - ix
  {
    if ix + 1 >= |s| {
      if ix < |s| {
        assert !Compared(s, ix);
      }
    } else if s[ix].kind != LeftOnly {
      ExactFromEffect(s, ix + 1, st);
    } else if s[ix + 1].kind == RightOnly {
      if s[ix].left == s[ix + 1].right {
        var t := RecordMatch(s, ix, ix + 1, Exact, 0);
        var st' := MatchStats(st.comparisons + 1, st.matches + 1);
        ExactFromEffect(t, ix + 2, st');
        CountsAgree(s, t, ix + 2);
        ComparedFromSkip(s, ix + 1);
        forall k | 0 <= k < |s| ensures ExactFrom(t, ix + 2, st').0[k] == ExactItem(s, ix, k) {
          if k >= ix + 2 {
            assert ExactPair(t, k) == ExactPair(s, k);
            if k == ix + 2 {
              assert !ExactPair(t, k - 1) && !ExactPair(s, k - 1);
            } else {
              assert ExactPair(t, k - 1) == ExactPair(s, k - 1);
            }
          } else if k == ix + 1 {
            assert !ExactPair(s, k) && ExactPair(s, k - 1);
          }
        }
      } else {
        var st' := MatchStats(st.comparisons + 1, st.matches);
        ExactFromEffect(s, ix + 2, st');
        ComparedFromSkip(s, ix + 1);
      }
    } else if s[ix + 1].kind == LeftOnly {
      ExactFromEffect(s, ix + 1, st);
    } else {
      ExactFromEffect(s, ix + 2, st);
      ComparedFromSkip(s, ix + 1);
    }
  }

  /** The whole pass, from the start, as a statement about every position. */
  lemma {:induction false} ExactMatchesEffect(s: seq<Item>)
    ensures var r := ExactFrom(s, 0, NoStats);
      (forall k :: 0 <= k < |s| ==> r.0[k] == ExactItem(s, 0, k)) &&
      r.1 == MatchStats(ComparedFrom(s, 0), MatchedFrom(s, 0))
  {
    ExactFromEffect(s, 0, NoStats);
  }

  /** A pass never matches more pairs than it compares. */
  lemma {:induction false} MatchedAtMostCompared(s: seq<Item>, ix: nat)
    ensures MatchedFrom(s, ix) <= ComparedFrom(s, ix)
    decreases |s| - ix
  {
    if ix < |s| {
      MatchedAtMostCompared(s, ix + 1);
    }
  }

  // ---------------------------------------------------------------------------
  // matrixMatch
  // ---------------------------------------------------------------------------

  /** The positions, in list order, of the items of one kind. */
  function Positions(s: seq<Item>, m: Match): (r: seq<nat>)
    ensures forall i :: 0 <= i < |r| ==> r[i] < |s| && s[r[i]].kind == m
    ensures forall k :: 0 <= k < |s| && s[k].kind == m ==> k in r
    ensures forall i, j :: 0 <= i < j < |r| ==> r[i] < r[j]
  {
    if s == [] then []
    else
      var p := Positions(s[..|s| - 1], m);
      if s[|s| - 1].kind == m then p + [|s| - 1] else p
  }

  /** A scored pair of a left item and a right item, by their positions. */
  datatype Comparison = Comparison(li: nat, ri: nat, score: int)

  /** The comparisons of the left item at l with every right item, in order. */
  function Row(l: nat, rights: seq<nat>, s: seq<Item>, score: (Item, Item) -> int): (r: seq<Comparison>)
    requires l < |s| && forall j :: 0 <= j < |rights| ==> rights[j] < |s|
    ensures |r| == |rights|
    ensures forall j :: 0 <= j < |rights| ==> r[j] == Comparison(l, rights[j], score(s[l], s[rights[j]]))
  {
    seq(|rights|, j requires 0 <= j < |rights| => Comparison(l, rights[j], score(s[l], s[rights[j]])))
  }

  /** Every left item against every right item, left by left: |lefts| * |rights| comparisons. */
  function Pairs(lefts: seq<nat>, rights: seq<nat>, s: seq<Item>, score: (Item, Item) -> int): (r: seq<Comparison>)
    requires forall i :: 0 <= i < |lefts| ==> lefts[i] < |s|
    requires forall j :: 0 <= j < |rights| ==> rights[j] < |s|
    ensures |r| == |lefts| * |rights|
    ensures forall c :: c in r ==> c.li in lefts && c.ri in rights && c.score == score(s[c.li], s[c.ri])
  {
    if lefts == [] then []
    else
      var p := Pairs(lefts[..|lefts| - 1], rights, s, score);
      var row := Row(lefts[|lefts| - 1], rights, s, score);
      assert |p + row| == (|lefts| - 1) * |rights| + |rights| == |lefts| * |rights|;
      forall c | c in row ensures c.li in lefts && c.ri in rights && c.score == score(s[c.li], s[c.ri]) {
        var j :| 0 <= j < |row| && row[j] == c;
      }
      p + row
  }

  /** The comparator of the comparisons, b.score - a.score: highest score first. */
  function ByScore(): (Comparison, Comparison) -> bool
  {
    (a: Comparison, b: Comparison) => b.score - a.score <= 0
  }

  lemma ByScoreIsTotalPreorder()
    ensures Sorting.TotalPreorder(ByScore())
  {
  }

  /** The kind a fuzzy pass records. */
  function Flavor(tokens: bool): Match { if tokens then Token else Fuzzy }

  /** No comparison pairs a left position with a position that is some comparison's right. */
  predicate PairsApart(s: seq<Item>, cs: seq<Comparison>)
  {
    (forall c :: c in cs ==> c.li < |s| && c.ri < |s|) &&
    (forall c, d :: c in cs && d in cs ==> c.li != d.ri)
  }

  /**
   * The recording loop over the sorted comparisons: stop at the first score below
   * the threshold, skip a comparison whose left item is already matched, and
   * otherwise record the match. With checkRight the comparison is also skipped
   * when its right item is no longer a right item. Returns the items and the
   * comparisons that were recorded.
   */
  function RecordFrom(s: seq<Item>, cs: seq<Comparison>, threshold: int, flavor: Match, checkRight: bool): (r: (seq<Item>, seq<Comparison>))
    requires forall c :: c in cs ==> c.li < |s| && c.ri < |s|
    ensures |r.0| == |s|
    ensures forall a :: a in r.1 ==> a in cs
    decreases |cs|
  {
    if cs == [] || cs[0].score < threshold then (s, [])
    else
      var c := cs[0];
      if !s[c.li].kind.IsMatch() && (!checkRight || s[c.ri].kind == RightOnly) then
        var rest := RecordFrom(RecordMatch(s, c.li, c.ri, flavor, c.score), cs[1..], threshold, flavor, checkRight);
        (rest.0, [c] + rest.1)
      else RecordFrom(s, cs[1..], threshold, flavor, checkRight)
  }

  /** A comparison whose left item is taken (or, when checked, whose right item is) is passed over. */
  lemma {:induction false} RecordSkip(s: seq<Item>, cs: seq<Comparison>, threshold: int, flavor: Match, checkRight: bool)
    requires forall c :: c in cs ==> c.li < |s| && c.ri < |s|
    requires cs != [] && cs[0].score >= threshold
    requires s[cs[0].li].kind.IsMatch() || (checkRight && s[cs[0].ri].kind != RightOnly)
    ensures RecordFrom(s, cs, threshold, flavor, checkRight) == RecordFrom(s, cs[1..], threshold, flavor, checkRight)
  {
  }

  /** matrixMatch as a function: the items afterwards, and the comparisons it recorded. */
  function MatrixPass(s: seq<Item>, threshold: int, tokens: bool, score: (Item, Item) -> int, checkRight: bool): (r: (seq<Item>, seq<Comparison>))
    ensures |r.0| == |s|
    ensures forall a :: a in r.1 ==>
      a.li < |s| && a.ri < |s| && s[a.li].kind == LeftOnly && s[a.ri].kind == RightOnly && a.score == score(s[a.li], s[a.ri])
  {
    var lefts := Positions(s, LeftOnly);
    var rights := Positions(s, RightOnly);
    if |lefts| == 0 || |rights| == 0 then (s, [])
    else
      var cs := Sorting.SortBy(Pairs(lefts, rights, s, score), ByScore());
      SortedPairsValid(s, score, cs);
      RecordFrom(s, cs, threshold, Flavor(tokens), checkRight)
  }

  /** Every comparison matrixMatch sorts pairs a left item with a right item, under its score. */
  lemma {:induction false} SortedPairsValid(s: seq<Item>, score: (Item, Item) -> int, cs: seq<Comparison>)
    requires cs == Sorting.SortBy(Pairs(Positions(s, LeftOnly), Positions(s, RightOnly), s, score), ByScore())
    ensures forall c :: c in cs ==>
      c.li < |s| && c.ri < |s| && s[c.li].kind == LeftOnly && s[c.ri].kind == RightOnly && c.score == score(s[c.li], s[c.ri])
  {
    var lefts, rights := Positions(s, LeftOnly), Positions(s, RightOnly);
    var ps := Pairs(lefts, rights, s, score);
    forall c | c in cs
      ensures c.li < |s| && c.ri < |s| && s[c.li].kind == LeftOnly && s[c.ri].kind == RightOnly && c.score == score(s[c.li], s[c.ri])
    {
      assert c in multiset(ps);
      assert c in ps;
      var i :| 0 <= i < |lefts| && lefts[i] == c.li;
      var j :| 0 <= j < |rights| && rights[j] == c.ri;
    }
  }

  /** matrixMatch as written: a right item already taken can be taken again. */
  function MatrixMatchAsWritten(s: seq<Item>, threshold: int, tokens: bool, score: (Item, Item) -> int): (r: (seq<Item>, seq<Comparison>))
    ensures |r.0| == |s|
    ensures forall a :: a in r.1 ==>
      a.li < |s| && a.ri < |s| && s[a.li].kind == LeftOnly && s[a.ri].kind == RightOnly && a.score == score(s[a.li], s[a.ri])
  {
    MatrixPass(s, threshold, tokens, score, false)
  }

  /** matrixMatch with the right item required to be still untaken. */
  function MatrixMatch(s: seq<Item>, threshold: int, tokens: bool, score: (Item, Item) -> int): (r: (seq<Item>, seq<Comparison>))
    ensures |r.0| == |s|
    ensures forall a :: a in r.1 ==>
      a.li < |s| && a.ri < |s| && s[a.li].kind == LeftOnly && s[a.ri].kind == RightOnly && a.score == score(s[a.li], s[a.ri])
  {
    MatrixPass(s, threshold, tokens, score, true)
  }

  /**
   * Two left items and one right item, every pair scoring 100 against a threshold
   * of 60: as written, both left items are matched to the same right item.
   */
  lemma SameRightMatchedTwiceAsWritten()
    ensures var s := [LeftItem("a"), LeftItem("b"), RightItem("a")];
      var r := MatrixMatchAsWritten(s, 60, false, (l: Item, x: Item) => 100);
      r.0[0].right == Some("a") && r.0[1].right == Some("a") && r.0[0].kind == Fuzzy && r.0[1].kind == Fuzzy
  {
    var s := [LeftItem("a"), LeftItem("b"), RightItem("a")];
    var score := (l: Item, x: Item) => 100;
    ExampleMatrix(s, score);
    ExampleRecord(s);
  }

  lemma ExampleMatrix(s: seq<Item>, score: (Item, Item) -> int)
    requires s == [LeftItem("a"), LeftItem("b"), RightItem("a")]
    requires forall l, x :: score(l, x) == 100
    ensures MatrixMatchAsWritten(s, 60, false, score) == RecordFrom(s, [Comparison(0, 2, 100), Comparison(1, 2, 100)], 60, Fuzzy, false)
  {
    ExamplePositions(s);
    ExamplePairs(s, score);
  }

  lemma ExampleRecord(s: seq<Item>)
    requires s == [LeftItem("a"), LeftItem("b"), RightItem("a")]
    ensures var r := RecordFrom(s, [Comparison(0, 2, 100), Comparison(1, 2, 100)], 60, Fuzzy, false);
      r.0[0].right == Some("a") && r.0[1].right == Some("a") && r.0[0].kind == Fuzzy && r.0[1].kind == Fuzzy
  {
    var c0, c1 := Comparison(0, 2, 100), Comparison(1, 2, 100);
    var t := RecordMatch(s, 0, 2, Fuzzy, 100);
    var u := RecordMatch(t, 1, 2, Fuzzy, 100);
    assert [c0, c1][1..] == [c1] && [c1][1..] == [];
    assert t[1] == s[1] && !t[1].kind.IsMatch();
    assert RecordFrom(u, [], 60, Fuzzy, false) == (u, []);
    assert [c1] + [] == [c1];
    assert RecordFrom(t, [c1], 60, Fuzzy, false) == (u, [c1]);
  }

  lemma ExamplePositions(s: seq<Item>)
    requires s == [LeftItem("a"), LeftItem("b"), RightItem("a")]
    ensures Positions(s, LeftOnly) == [0, 1] && Positions(s, RightOnly) == [2]
  {
    var s1, s2 := s[..1], s[..2];
    assert s1[..0] == [] && s2[..1] == s1 && s[..|s| - 1] == s2;
    assert s1[0].kind == LeftOnly && s2[1].kind == LeftOnly && s[2].kind == RightOnly;
    assert Positions(s1[..0], LeftOnly) == [] && Positions(s1[..0], RightOnly) == [];
    assert Positions(s1, LeftOnly) == [] + [0];
    assert Positions(s1, RightOnly) == [];
    assert Positions(s2, LeftOnly) == [0] + [1];
    assert Positions(s2, RightOnly) == [];
    assert Positions(s, LeftOnly) == [0, 1];
    assert Positions(s, RightOnly) == [] + [2];
  }

  lemma ExamplePairs(s: seq<Item>, score: (Item, Item) -> int)
    requires |s| == 3 && forall l, x :: score(l, x) == 100
    ensures Sorting.SortBy(Pairs([0, 1], [2], s, score), ByScore()) == [Comparison(0, 2, 100), Comparison(1, 2, 100)]
  {
    var c0, c1 := Comparison(0, 2, 100), Comparison(1, 2, 100);
    assert [0, 1][..1] == [0] && [0][..0] == [];
    assert Pairs([0], [2], s, score) == [c0];
    assert Pairs([0, 1], [2], s, score) == [c0, c1];
    assert [c0, c1][1..] == [c1] && [c1][1..] == [];
    assert Sorting.SortBy([c1], ByScore()) == [c1];
  }

  /** The comparison a was recorded on s, giving t: what recordMatch leaves behind. */
  predicate Recorded(s: seq<Item>, t: seq<Item>, a: Comparison, threshold: int, flavor: Match)
    requires a.li < |s| && a.ri < |s| && |t| == |s|
  {
    a.score >= threshold && !s[a.li].kind.IsMatch() &&
    t[a.li] == s[a.li].(right := s[a.ri].right, kind := flavor, score := a.score) &&
    t[a.ri].kind == Consumed
  }

  /** A comparison recorded after c, on what recording c left, also stands against the items before c. */
  lemma {:induction false} RecordedBefore(s: seq<Item>, c: Comparison, a: Comparison, u: seq<Item>, threshold: int, flavor: Match)
    requires c.li < |s| && c.ri < |s| && a.li < |s| && a.ri < |s| && |u| == |s|
    requires c.li != c.ri && a.li != c.ri && a.ri != c.li && flavor.IsMatch()
    requires Recorded(RecordMatch(s, c.li, c.ri, flavor, c.score), u, a, threshold, flavor)
    ensures a.li != c.li && Recorded(s, u, a, threshold, flavor)
  {
  }

  /** The inductive step of RecordApplied: recording c first, then the rest. */
  lemma {:induction false} RecordAppliedStep(s: seq<Item>, c: Comparison, tail: seq<Comparison>, rest: (seq<Item>, seq<Comparison>), threshold: int, flavor: Match)
    requires PairsApart(s, [c] + tail) && flavor.IsMatch()
    requires c.score >= threshold && !s[c.li].kind.IsMatch()
    requires |rest.0| == |s|
    requires var t := RecordMatch(s, c.li, c.ri, flavor, c.score);
      (forall a :: a in rest.1 ==> a in tail && Recorded(t, rest.0, a, threshold, flavor)) &&
      (forall k :: 0 <= k < |s| && (forall a :: a in rest.1 ==> a.li != k && a.ri != k) ==> rest.0[k] == t[k])
    ensures forall a :: a in [c] + rest.1 ==> Recorded(s, rest.0, a, threshold, flavor)
  {
    var t := RecordMatch(s, c.li, c.ri, flavor, c.score);
    assert c in [c] + tail;
    forall a | a in rest.1 ensures Recorded(s, rest.0, a, threshold, flavor) && a.li != c.li && a.ri != c.li {
      assert a in [c] + tail;
      RecordedBefore(s, c, a, rest.0, threshold, flavor);
    }
    assert rest.0[c.li] == t[c.li];
    if a :| a in rest.1 && a.ri == c.ri {
      assert Recorded(t, rest.0, a, threshold, flavor);
    } else {
      assert rest.0[c.ri] == t[c.ri];
    }
  }

  /**
   * Each recorded comparison, in either variant, scored at least the threshold,
   * found its left item unmatched, gave it the right value, the kind and the
   * score, and consumed its right item.
   */
  lemma {:induction false} RecordApplied(s: seq<Item>, cs: seq<Comparison>, threshold: int, flavor: Match, checkRight: bool)
    requires PairsApart(s, cs) && flavor.IsMatch()
    ensures var r := RecordFrom(s, cs, threshold, flavor, checkRight);
      forall a :: a in r.1 ==> a in cs && Recorded(s, r.0, a, threshold, flavor)
    decreases |cs|
  {
    if cs != [] && cs[0].score >= threshold {
      var c := cs[0];
      assert c in cs;
      var tail := cs[1..];
      assert forall d :: d in tail ==> d in cs;
      if !s[c.li].kind.IsMatch() && (!checkRight || s[c.ri].kind == RightOnly) {
        var t := RecordMatch(s, c.li, c.ri, flavor, c.score);
        RecordApplied(t, tail, threshold, flavor, checkRight);
        RecordUntouched(t, tail, threshold, flavor, checkRight);
        var rest := RecordFrom(t, tail, threshold, flavor, checkRight);
        assert RecordFrom(s, cs, threshold, flavor, checkRight) == (rest.0, [c] + rest.1);
        RecordAppliedStep(s, c, tail, rest, threshold, flavor);
      } else {
        RecordSkip(s, cs, threshold, flavor, checkRight);
        RecordApplied(s, tail, threshold, flavor, checkRight);
      }
    }
  }

  /** Items in no recorded comparison are left as they were. */
  lemma {:induction false} RecordUntouched(s: seq<Item>, cs: seq<Comparison>, threshold: int, flavor: Match, checkRight: bool)
    requires forall c :: c in cs ==> c.li < |s| && c.ri < |s|
    ensures var r := RecordFrom(s, cs, threshold, flavor, checkRight);
      forall k :: 0 <= k < |s| && (forall a :: a in r.1 ==> a.li != k && a.ri != k) ==> r.0[k] == s[k]
    decreases |cs|
  {
    if cs != [] && cs[0].score >= threshold {
      var c := cs[0];
      assert c in cs;
      var tail := cs[1..];
      assert forall d :: d in tail ==> d in cs;
      if !s[c.li].kind.IsMatch() && (!checkRight || s[c.ri].kind == RightOnly) {
        var t := RecordMatch(s, c.li, c.ri, flavor, c.score);
        RecordUntouched(t, tail, threshold, flavor, checkRight);
      } else {
        RecordSkip(s, cs, threshold, flavor, checkRight);
        RecordUntouched(s, tail, threshold, flavor, checkRight);
      }
    }
  }

  /** No left item is recorded twice, in either variant. */
  lemma {:induction false} RecordLeftsDistinct(s: seq<Item>, cs: seq<Comparison>, threshold: int, flavor: Match, checkRight: bool)
    requires PairsApart(s, cs) && flavor.IsMatch()
    ensures var r := RecordFrom(s, cs, threshold, flavor, checkRight);
      forall i, j :: 0 <= i < j < |r.1| ==> r.1[i].li != r.1[j].li
    decreases |cs|
  {
    if cs != [] && cs[0].score >= threshold {
      var c := cs[0];
      var tail := cs[1..];
      assert c in cs && forall d :: d in tail ==> d in cs;
      if !s[c.li].kind.IsMatch() && (!checkRight || s[c.ri].kind == RightOnly) {
        var t := RecordMatch(s, c.li, c.ri, flavor, c.score);
        RecordLeftsDistinct(t, tail, threshold, flavor, checkRight);
        RecordApplied(t, tail, threshold, flavor, checkRight);
        var rest := RecordFrom(t, tail, threshold, flavor, checkRight);
        assert RecordFrom(s, cs, threshold, flavor, checkRight) == (rest.0, [c] + rest.1);
        LeftsDistinctStep(s, c, rest.1, rest.0, threshold, flavor);
      } else {
        RecordSkip(s, cs, threshold, flavor, checkRight);
        RecordLeftsDistinct(s, tail, threshold, flavor, checkRight);
      }
    }
  }

  /** The step of RecordLeftsDistinct: the left item of c is matched, so no later comparison is recorded on it. */
  lemma {:induction false} LeftsDistinctStep(s: seq<Item>, c: Comparison, later: seq<Comparison>, u: seq<Item>, threshold: int, flavor: Match)
    requires c.li < |s| && c.ri < |s| && c.li != c.ri && flavor.IsMatch() && |u| == |s|
    requires forall a :: a in later ==>
      a.li < |s| && a.ri < |s| && Recorded(RecordMatch(s, c.li, c.ri, flavor, c.score), u, a, threshold, flavor)
    requires forall i, j :: 0 <= i < j < |later| ==> later[i].li != later[j].li
    ensures forall i, j :: 0 <= i < j < |[c] + later| ==> ([c] + later)[i].li != ([c] + later)[j].li
  {
    var ap := [c] + later;
    forall i, j | 0 <= i < j < |ap| ensures ap[i].li != ap[j].li {
      var a := later[j - 1];
      assert ap[j] == a && a in later;
      if i > 0 {
        assert ap[i] == later[i - 1];
      }
    }
  }

  /** The step of RecordRightsDistinct: the right item of c is consumed, while every later one is still a right item. */
  lemma {:induction false} RightsDistinctStep(t: seq<Item>, c: Comparison, later: seq<Comparison>)
    requires c.ri < |t| && t[c.ri].kind == Consumed
    requires forall a :: a in later ==> a.ri < |t| && t[a.ri].kind == RightOnly
    requires forall i, j :: 0 <= i < j < |later| ==> later[i].ri != later[j].ri
    ensures forall i, j :: 0 <= i < j < |[c] + later| ==> ([c] + later)[i].ri != ([c] + later)[j].ri
  {
    var ap := [c] + later;
    forall i, j | 0 <= i < j < |ap| ensures ap[i].ri != ap[j].ri {
      var a := later[j - 1];
      assert ap[j] == a && a in later;
      if i > 0 {
        assert ap[i] == later[i - 1];
      }
    }
  }

  /** When the right item is checked, every recorded right item was still a right item. */
  lemma {:induction false} RecordRightsFresh(s: seq<Item>, cs: seq<Comparison>, threshold: int, flavor: Match)
    requires PairsApart(s, cs) && flavor.IsMatch()
    ensures var r := RecordFrom(s, cs, threshold, flavor, true);
      forall a :: a in r.1 ==> s[a.ri].kind == RightOnly
    decreases |cs|
  {
    if cs != [] && cs[0].score >= threshold {
      var c := cs[0];
      var tail := cs[1..];
      assert c in cs && forall d :: d in tail ==> d in cs;
      if !s[c.li].kind.IsMatch() && s[c.ri].kind == RightOnly {
        var t := RecordMatch(s, c.li, c.ri, flavor, c.score);
        RecordRightsFresh(t, tail, threshold, flavor);
        var rest := RecordFrom(t, tail, threshold, flavor, true);
        assert RecordFrom(s, cs, threshold, flavor, true) == (rest.0, [c] + rest.1);
        forall a | a in rest.1 ensures s[a.ri].kind == RightOnly {
          assert a in cs && t[a.ri].kind == RightOnly;
        }
      } else {
        RecordSkip(s, cs, threshold, flavor, true);
        RecordRightsFresh(s, tail, threshold, flavor);
      }
    }
  }

  /** When the right item is checked, no right item is used twice. */
  lemma {:induction false} RecordRightsDistinct(s: seq<Item>, cs: seq<Comparison>, threshold: int, flavor: Match)
    requires PairsApart(s, cs) && flavor.IsMatch()
    ensures var r := RecordFrom(s, cs, threshold, flavor, true);
      forall i, j :: 0 <= i < j < |r.1| ==> r.1[i].ri != r.1[j].ri
    decreases |cs|
  {
    if cs != [] && cs[0].score >= threshold {
      var c := cs[0];
      var tail := cs[1..];
      assert c in cs && forall d :: d in tail ==> d in cs;
      if !s[c.li].kind.IsMatch() && s[c.ri].kind == RightOnly {
        var t := RecordMatch(s, c.li, c.ri, flavor, c.score);
        RecordRightsDistinct(t, tail, threshold, flavor);
        RecordRightsFresh(t, tail, threshold, flavor);
        var rest := RecordFrom(t, tail, threshold, flavor, true);
        assert RecordFrom(s, cs, threshold, flavor, true) == (rest.0, [c] + rest.1);
        RightsDistinctStep(t, c, rest.1);
      } else {
        RecordSkip(s, cs, threshold, flavor, true);
        RecordRightsDistinct(s, tail, threshold, flavor);
      }
    }
  }

  /** Every left item meets every right item in the comparisons. */
  lemma {:induction false} PairsComplete(lefts: seq<nat>, rights: seq<nat>, s: seq<Item>, score: (Item, Item) -> int)
    requires forall i :: 0 <= i < |lefts| ==> lefts[i] < |s|
    requires forall j :: 0 <= j < |rights| ==> rights[j] < |s|
    ensures forall l, k :: l in lefts && k in rights ==> Comparison(l, k, score(s[l], s[k])) in Pairs(lefts, rights, s, score)
  {
    if lefts != [] {
      var init := lefts[..|lefts| - 1];
      PairsComplete(init, rights, s, score);
      var row := Row(lefts[|lefts| - 1], rights, s, score);
      assert Pairs(lefts, rights, s, score) == Pairs(init, rights, s, score) + row;
      forall l, k | l in lefts && k in rights
        ensures Comparison(l, k, score(s[l], s[k])) in Pairs(lefts, rights, s, score)
      {
        if l !in init {
          var j :| 0 <= j < |rights| && rights[j] == k;
          assert row[j] == Comparison(l, k, score(s[l], s[k]));
        }
      }
    }
  }

  /** A recording pass never turns an item back into a left-only or a right-only one. */
  lemma {:induction false} RecordKeepsTaken(s: seq<Item>, cs: seq<Comparison>, threshold: int, flavor: Match, checkRight: bool, k: nat)
    requires PairsApart(s, cs) && flavor.IsMatch() && k < |s|
    ensures var r := RecordFrom(s, cs, threshold, flavor, checkRight);
      (s[k].kind != LeftOnly ==> r.0[k].kind != LeftOnly) && (s[k].kind != RightOnly ==> r.0[k].kind != RightOnly)
  {
    RecordApplied(s, cs, threshold, flavor, checkRight);
    RecordUntouched(s, cs, threshold, flavor, checkRight);
    var r := RecordFrom(s, cs, threshold, flavor, checkRight);
    if a :| a in r.1 && a.li == k {
      assert Recorded(s, r.0, a, threshold, flavor);
      assert r.0[k].kind == flavor;
    } else if a :| a in r.1 && a.ri == k {
      assert Recorded(s, r.0, a, threshold, flavor);
      assert r.0[k].kind == Consumed;
    } else {
      assert r.0[k] == s[k];
    }
  }

  /**
   * With the right item checked and the comparisons in descending score order, the
   * pass is maximal: no comparison at or above the threshold is left with both its
   * items still free.
   */
  lemma {:induction false} RecordMaximal(s: seq<Item>, cs: seq<Comparison>, threshold: int, flavor: Match)
    requires PairsApart(s, cs) && flavor.IsMatch() && Sorting.SortedBy(cs, ByScore())
    ensures var r := RecordFrom(s, cs, threshold, flavor, true);
      forall c :: c in cs && c.score >= threshold ==> r.0[c.li].kind != LeftOnly || r.0[c.ri].kind != RightOnly
    decreases |cs|
  {
    var r := RecordFrom(s, cs, threshold, flavor, true);
    if cs != [] && cs[0].score >= threshold {
      var c := cs[0];
      var tail := cs[1..];
      assert c in cs && forall d :: d in tail ==> d in cs;
      var t := if !s[c.li].kind.IsMatch() && s[c.ri].kind == RightOnly then RecordMatch(s, c.li, c.ri, flavor, c.score) else s;
      if !s[c.li].kind.IsMatch() && s[c.ri].kind == RightOnly {
        assert r.0 == RecordFrom(t, tail, threshold, flavor, true).0;
      } else {
        RecordSkip(s, cs, threshold, flavor, true);
      }
      RecordMaximal(t, tail, threshold, flavor);
      RecordKeepsTaken(t, tail, threshold, flavor, true, c.li);
      RecordKeepsTaken(t, tail, threshold, flavor, true, c.ri);
      forall d | d in cs && d.score >= threshold ensures r.0[d.li].kind != LeftOnly || r.0[d.ri].kind != RightOnly {
        if d != c {
          assert d in tail by {
            var i :| 0 <= i < |cs| && cs[i] == d;
            assert tail[i - 1] == d;
          }
        }
      }
    } else if cs != [] {
      forall d | d in cs ensures d.score < threshold {
        var i :| 0 <= i < |cs| && cs[i] == d;
        if i > 0 {
          assert ByScore()(cs[0], cs[i]);
        }
      }
    }
  }

  /**
   * The pass with the right item checked pairs items one to one: each recorded
   * comparison took a left item and a right item that were both free, at a score
   * of at least the threshold; no left item and no right item is used twice; and
   * every item outside the recorded comparisons is unchanged.
   */
  lemma {:induction false} MatrixMatchOneToOne(s: seq<Item>, threshold: int, tokens: bool, score: (Item, Item) -> int)
    ensures var r := MatrixMatch(s, threshold, tokens, score);
      (forall a :: a in r.1 ==> Recorded(s, r.0, a, threshold, Flavor(tokens))) &&
      (forall i, j :: 0 <= i < j < |r.1| ==> r.1[i].li != r.1[j].li && r.1[i].ri != r.1[j].ri) &&
      (forall k :: 0 <= k < |s| && (forall a :: a in r.1 ==> a.li != k && a.ri != k) ==> r.0[k] == s[k])
  {
    var lefts := Positions(s, LeftOnly);
    var rights := Positions(s, RightOnly);
    if |lefts| > 0 && |rights| > 0 {
      var cs := Sorting.SortBy(Pairs(lefts, rights, s, score), ByScore());
      PassApart(s, lefts, rights, score);
      RecordApplied(s, cs, threshold, Flavor(tokens), true);
      RecordLeftsDistinct(s, cs, threshold, Flavor(tokens), true);
      RecordRightsDistinct(s, cs, threshold, Flavor(tokens));
      RecordUntouched(s, cs, threshold, Flavor(tokens), true);
    }
  }

  /** The sorted comparisons of a pass never pair a left position with a right one. */
  lemma {:induction false} PassApart(s: seq<Item>, lefts: seq<nat>, rights: seq<nat>, score: (Item, Item) -> int)
    requires lefts == Positions(s, LeftOnly) && rights == Positions(s, RightOnly)
    ensures PairsApart(s, Sorting.SortBy(Pairs(lefts, rights, s, score), ByScore()))
  {
    var ps := Pairs(lefts, rights, s, score);
    var cs := Sorting.SortBy(ps, ByScore());
    forall c | c in cs ensures c in ps {
      assert c in multiset(cs);
    }
  }

  /**
   * After the pass with the right item checked, no left item still unmatched and
   * right item still free would have scored at least the threshold together.
   */
  lemma {:induction false} MatrixMatchIsMaximal(s: seq<Item>, threshold: int, tokens: bool, score: (Item, Item) -> int)
    ensures var r := MatrixMatch(s, threshold, tokens, score);
      forall l, k :: 0 <= l < |s| && 0 <= k < |s| && r.0[l].kind == LeftOnly && r.0[k].kind == RightOnly ==>
        score(s[l], s[k]) < threshold
  {
    var lefts := Positions(s, LeftOnly);
    var rights := Positions(s, RightOnly);
    var r := MatrixMatch(s, threshold, tokens, score);
    if |lefts| > 0 && |rights| > 0 {
      var ps := Pairs(lefts, rights, s, score);
      var cs := Sorting.SortBy(ps, ByScore());
      PassApart(s, lefts, rights, score);
      PairsComplete(lefts, rights, s, score);
      ByScoreIsTotalPreorder();
      Sorting.SortBySorted(ps, ByScore());
      RecordMaximal(s, cs, threshold, Flavor(tokens));
      forall l, k | 0 <= l < |s| && 0 <= k < |s| && r.0[l].kind == LeftOnly && r.0[k].kind == RightOnly
        ensures score(s[l], s[k]) < threshold
      {
        RecordKeepsTaken(s, cs, threshold, Flavor(tokens), true, l);
        RecordKeepsTaken(s, cs, threshold, Flavor(tokens), true, k);
        var c := Comparison(l, k, score(s[l], s[k]));
        assert c in ps;
        assert c in multiset(ps);
        assert c in cs;
      }
    }
  }

  /** The recorded comparisons keep the order of the comparisons: best score first. */
  lemma {:induction false} RecordInOrder(s: seq<Item>, cs: seq<Comparison>, threshold: int, flavor: Match, checkRight: bool)
    requires forall c :: c in cs ==> c.li < |s| && c.ri < |s|
    requires Sorting.SortedBy(cs, ByScore())
    ensures Sorting.SortedBy(RecordFrom(s, cs, threshold, flavor, checkRight).1, ByScore())
    decreases |cs|
  {
    if cs != [] && cs[0].score >= threshold {
      var c := cs[0];
      var tail := cs[1..];
      assert forall d :: d in tail ==> d in cs;
      if !s[c.li].kind.IsMatch() && (!checkRight || s[c.ri].kind == RightOnly) {
        var t := RecordMatch(s, c.li, c.ri, flavor, c.score);
        RecordInOrder(t, tail, threshold, flavor, checkRight);
        var rest := RecordFrom(t, tail, threshold, flavor, checkRight);
        var ap := [c] + rest.1;
        forall i, j | 0 <= i < j < |ap| ensures ByScore()(ap[i], ap[j]) {
          assert ap[j] == rest.1[j - 1] && rest.1[j - 1] in tail;
          if i > 0 {
            assert ap[i] == rest.1[i - 1];
          } else {
            var m :| 0 <= m < |tail| && tail[m] == ap[j];
            assert cs[m + 1] == ap[j];
          }
        }
      } else {
        RecordSkip(s, cs, threshold, flavor, checkRight);
        RecordInOrder(s, tail, threshold, flavor, checkRight);
      }
    }
  }

  /** Either variant records its matches best score first. */
  lemma {:induction false} MatrixPassBestFirst(s: seq<Item>, threshold: int, tokens: bool, score: (Item, Item) -> int, checkRight: bool)
    ensures Sorting.SortedBy(MatrixPass(s, threshold, tokens, score, checkRight).1, ByScore())
  {
    var lefts := Positions(s, LeftOnly);
    var rights := Positions(s, RightOnly);
    if |lefts| > 0 && |rights| > 0 {
      var ps := Pairs(lefts, rights, s, score);
      PassApart(s, lefts, rights, score);
      ByScoreIsTotalPreorder();
      Sorting.SortBySorted(ps, ByScore());
      RecordInOrder(s, Sorting.SortBy(ps, ByScore()), threshold, Flavor(tokens), checkRight);
    }
  }

  /**
   * As written, the pass still records each left item at most once, each at a
   * score of at least the threshold, and leaves the other items alone; only the
   * right items may repeat.
   */
  lemma {:induction false} MatrixMatchAsWrittenLeftsOnce(s: seq<Item>, threshold: int, tokens: bool, score: (Item, Item) -> int)
    ensures var r := MatrixMatchAsWritten(s, threshold, tokens, score);
      (forall a :: a in r.1 ==> Recorded(s, r.0, a, threshold, Flavor(tokens))) &&
      (forall i, j :: 0 <= i < j < |r.1| ==> r.1[i].li != r.1[j].li) &&
      (forall k :: 0 <= k < |s| && (forall a :: a in r.1 ==> a.li != k && a.ri != k) ==> r.0[k] == s[k])
  {
    var lefts := Positions(s, LeftOnly);
    var rights := Positions(s, RightOnly);
    if |lefts| > 0 && |rights| > 0 {
      var cs := Sorting.SortBy(Pairs(lefts, rights, s, score), ByScore());
      PassApart(s, lefts, rights, score);
      RecordApplied(s, cs, threshold, Flavor(tokens), false);
      RecordLeftsDistinct(s, cs, threshold, Flavor(tokens), false);
      RecordUntouched(s, cs, threshold, Flavor(tokens), false);
    }
  }

  // ---------------------------------------------------------------------------
  // sort
  // ---------------------------------------------------------------------------

  /**
   * The comparator of sort(): unmatched items among themselves, and items with the
   * same kind of match, by the items' own order (base); unmatched before matched;
   * different kinds of match by descending ordinal. Negative means "before".
   */
  function Compare(a: Item, b: Item, base: (Item, Item) -> int): int
  {
    if (!a.kind.IsMatch() && !b.kind.IsMatch()) || a.kind == b.kind then base(a, b)
    else if a.kind.IsMatch() && !b.kind.IsMatch() then 1
    else if !a.kind.IsMatch() && b.kind.IsMatch() then -1
    else b.kind.Ordinal() - a.kind.Ordinal()
  }

  /** "a may come before b" under Compare. */
  function SortOrder(base: (Item, Item) -> int): (Item, Item) -> bool
  {
    (a: Item, b: Item) => Compare(a, b, base) <= 0
  }

  /** The item's group: unmatched items first, then the kinds of match by descending ordinal. */
  function Rank(m: Match): nat
  {
    if m.IsMatch() then 10 - m.Ordinal() else 0
  }

  /** A comparator that is consistent (base(a, b) <= 0 is a total preorder). */
  ghost predicate ConsistentComparator(base: (Item, Item) -> int)
  {
    Sorting.TotalPreorder((a: Item, b: Item) => base(a, b) <= 0)
  }

  /** sort's order is the order by group, then by the items' own order within a group. */
  lemma SortOrderByRank(base: (Item, Item) -> int, a: Item, b: Item)
    ensures SortOrder(base)(a, b) <==>
      Rank(a.kind) < Rank(b.kind) || (Rank(a.kind) == Rank(b.kind) && base(a, b) <= 0)
  {
  }

  lemma SortOrderIsTotalPreorder(base: (Item, Item) -> int)
    requires ConsistentComparator(base)
    ensures Sorting.TotalPreorder(SortOrder(base))
  {
    var b := (a: Item, c: Item) => base(a, c) <= 0;
    forall x: Item, y: Item ensures SortOrder(base)(x, y) || SortOrder(base)(y, x) {
      SortOrderByRank(base, x, y);
      SortOrderByRank(base, y, x);
      assert b(x, y) || b(y, x);
    }
    forall x: Item, y: Item, z: Item | SortOrder(base)(x, y) && SortOrder(base)(y, z)
      ensures SortOrder(base)(x, z)
    {
      SortOrderByRank(base, x, y);
      SortOrderByRank(base, y, z);
      SortOrderByRank(base, x, z);
      if Rank(x.kind) == Rank(y.kind) == Rank(z.kind) {
        assert b(x, y) && b(y, z);
      }
    }
  }

  /** After sort(), every unmatched item comes before every matched one. */
  lemma {:induction false} SortPutsUnmatchedFirst(s: seq<Item>, base: (Item, Item) -> int)
    requires ConsistentComparator(base)
    ensures var r := Sorting.SortBy(s, SortOrder(base));
      forall i, j :: 0 <= i < j < |r| && r[i].kind.IsMatch() ==> r[j].kind.IsMatch()
  {
    SortOrderIsTotalPreorder(base);
    Sorting.SortBySorted(s, SortOrder(base));
    var r := Sorting.SortBy(s, SortOrder(base));
    forall i, j | 0 <= i < j < |r| && r[i].kind.IsMatch() ensures r[j].kind.IsMatch() {
      assert SortOrder(base)(r[i], r[j]);
    }
  }

  // ---------------------------------------------------------------------------
  // The matcher
  // ---------------------------------------------------------------------------

  class Matcher {
    var items: seq<Item>

    constructor ()
      ensures items == []
    {
      items := [];
    }

    /**
     * setData: one left item per left value, then one right item per right value,
     * sorted by the items' own order; a value repeated on either side throws
     * IllegalArgumentException, leaving the items added before it.
     */
    method SetData(left: seq<string>, right: seq<string>, order: (Item, Item) -> bool) returns (thrown: Option<Exception>)
      modifies this
      ensures thrown.Some? <==> FirstRepeat(left) < |left| || FirstRepeat(right) < |right|
      ensures thrown.Some? ==> thrown.value == IllegalArgumentException
      ensures FirstRepeat(left) < |left| ==> items == LeftItems(left[..FirstRepeat(left)])
      ensures FirstRepeat(left) == |left| && FirstRepeat(right) < |right| ==>
        items == LeftItems(left) + RightItems(right[..FirstRepeat(right)])
      ensures thrown.None? ==> items == Sorting.SortBy(LeftItems(left) + RightItems(right), order)
    {
      items := [];
      var testL: set<string> := {};
      var k := 0;
      while k < |left|
        invariant 0 <= k <= |left| && k <= FirstRepeat(left)
        invariant forall x :: x in testL <==> x in left[..k]
        invariant items == LeftItems(left[..k])
      {
        FirstRepeatStep(left, k);
        if left[k] in testL {
          return Some(IllegalArgumentException);
        }
        testL := testL + {left[k]};
        items := items + [LeftItem(left[k])];
        assert left[..k + 1] == left[..k] + [left[k]];
        k := k + 1;
      }
      assert left[..k] == left;
      var testR: set<string> := {};
      k := 0;
      while k < |right|
        invariant 0 <= k <= |right| && k <= FirstRepeat(right)
        invariant forall x :: x in testR <==> x in right[..k]
        invariant items == LeftItems(left) + RightItems(right[..k])
      {
        FirstRepeatStep(right, k);
        if right[k] in testR {
          return Some(IllegalArgumentException);
        }
        testR := testR + {right[k]};
        items := items + [RightItem(right[k])];
        assert right[..k + 1] == right[..k] + [right[k]];
        k := k + 1;
      }
      assert right[..k] == right;
      items := Sorting.SortBy(items, order);
      thrown := None;
    }

    /** findExactMatches: the pass of ExactFrom, then squash. */
    method FindExactMatches() returns (result: MatchStats)
      modifies this
      ensures var r := ExactFrom(old(items), 0, NoStats); items == Squash(r.0) && result == r.1
    {
      result := NoStats;
      var ix := 0;
      while ix < |items| - 1
        invariant 0 <= ix
        invariant ExactFrom(items, ix, result) == ExactFrom(old(items), 0, NoStats)
        decreases |items| - ix
      {
        var item1 := items[ix];
        if item1.kind == LeftOnly {
          var item2 := items[ix + 1];
          if item2.kind == RightOnly {
            result := result.(comparisons := result.comparisons + 1);
            if item1.left == item2.right {
              result := result.(matches := result.matches + 1);
              items := RecordMatch(items, ix, ix + 1, Exact, 0);
            }
            ix := ix + 2;
          } else if item2.kind == LeftOnly {
            ix := ix + 1;
          } else {
            ix := ix + 2;
          }
        } else {
          ix := ix + 1;
        }
      }
      items := Squash(items);
    }

    /** The first loop of matrixMatch: the left-only and the right-only positions, in order. */
    method SplitSides() returns (leftList: seq<nat>, rightList: seq<nat>)
      ensures leftList == Positions(items, LeftOnly)
      ensures rightList == Positions(items, RightOnly)
    {
      leftList := [];
      rightList := [];
      for k := 0 to |items|
        invariant leftList == Positions(items[..k], LeftOnly)
        invariant rightList == Positions(items[..k], RightOnly)
      {
        assert items[..k + 1][..k] == items[..k];
        if items[k].kind == LeftOnly {
          leftList := leftList + [k];
        } else if items[k].kind == RightOnly {
          rightList := rightList + [k];
        }
      }
      assert items[..|items|] == items;
    }

    /** The nested loops of matrixMatch: every left item scored against every right item. */
    method CompareAll(leftList: seq<nat>, rightList: seq<nat>, score: (Item, Item) -> int) returns (comparisons: seq<Comparison>, count: nat)
      requires forall i :: 0 <= i < |leftList| ==> leftList[i] < |items|
      requires forall j :: 0 <= j < |rightList| ==> rightList[j] < |items|
      ensures comparisons == Pairs(leftList, rightList, items, score)
      ensures count == |leftList| * |rightList|
    {
      comparisons := [];
      count := 0;
      for i := 0 to |leftList|
        invariant comparisons == Pairs(leftList[..i], rightList, items, score)
        invariant count == i * |rightList|
      {
        for j := 0 to |rightList|
          invariant comparisons == Pairs(leftList[..i], rightList, items, score) + Row(leftList[i], rightList[..j], items, score)
          invariant count == i * |rightList| + j
        {
          count := count + 1;
          var sc := score(items[leftList[i]], items[rightList[j]]);
          comparisons := comparisons + [Comparison(leftList[i], rightList[j], sc)];
          assert Row(leftList[i], rightList[..j + 1], items, score) == Row(leftList[i], rightList[..j], items, score) + [Comparison(leftList[i], rightList[j], sc)];
        }
        assert rightList[..|rightList|] == rightList;
        assert leftList[..i + 1][..i] == leftList[..i];
      }
      assert leftList[..|leftList|] == leftList;
    }

    /** The last loop of matrixMatch: record the sorted comparisons, best first, as RecordFrom says. */
    method RecordBest(cs: seq<Comparison>, threshold: int, flavor: Match) returns (matches: nat)
      requires forall c :: c in cs ==> c.li < |items| && c.ri < |items|
      modifies this
      ensures var r := RecordFrom(old(items), cs, threshold, flavor, true);
        items == r.0 && matches == |r.1|
    {
      ghost var start := items;
      matches := 0;
      var n := 0;
      while n < |cs|
        invariant 0 <= n <= |cs| && |items| == |start|
        invariant RecordFrom(items, cs[n..], threshold, flavor, true).0 == RecordFrom(start, cs, threshold, flavor, true).0
        invariant matches + |RecordFrom(items, cs[n..], threshold, flavor, true).1| == |RecordFrom(start, cs, threshold, flavor, true).1|
      {
        var mc := cs[n];
        assert mc in cs;
        if mc.score < threshold {
          break;
        }
        assert cs[n..][1..] == cs[n + 1..];
        if !items[mc.li].kind.IsMatch() && items[mc.ri].kind == RightOnly {
          matches := matches + 1;
          items := RecordMatch(items, mc.li, mc.ri, flavor, mc.score);
        }
        n := n + 1;
      }
    }

    /**
     * fuzzyMatchWorker: the matrixMatch pass, with the right item checked (see
     * MatrixMatch), then squash. findTokenMatches runs it with tokens set and
     * findFuzzyMatches without; score stands for scoreMatch with the chosen ratio.
     */
    method FuzzyMatchWorker(threshold: int, tokens: bool, score: (Item, Item) -> int) returns (result: MatchStats)
      modifies this
      ensures var r := MatrixMatch(old(items), threshold, tokens, score);
        items == Squash(r.0) && result.matches == |r.1|
      ensures result.comparisons == |Positions(old(items), LeftOnly)| * |Positions(old(items), RightOnly)|
    {
      var leftList, rightList := SplitSides();
      if |leftList| == 0 || |rightList| == 0 {
        result := NoStats;
      } else {
        var comparisons, count := CompareAll(leftList, rightList, score);
        var cs := Sorting.SortBy(comparisons, ByScore());
        PassApart(items, leftList, rightList, score);
        var matches := RecordBest(cs, threshold, Flavor(tokens));
        result := MatchStats(count, matches);
      }
      items := Squash(items);
    }

    /** sort(): reorders the items by SortOrder. */
    method Sort(base: (Item, Item) -> int)
      modifies this
      ensures items == Sorting.SortBy(old(items), SortOrder(base))
      ensures multiset(items) == multiset(old(items))
    {
      items := Sorting.SortBy(items, SortOrder(base));
    }

    /**
     * unMatch(i): a matched item at a valid index is replaced, in place, by the
     * items disassociate makes of it; otherwise nothing changes.
     */
    method UnMatch(i: int, disassociate: Item -> seq<Item>)
      modifies this
      ensures 0 <= i < |old(items)| && old(items)[i].kind.IsMatch() ==>
        items == old(items)[..i] + disassociate(old(items)[i]) + old(items)[i + 1..]
      ensures !(0 <= i < |old(items)| && old(items)[i].kind.IsMatch()) ==> items == old(items)
    {
      if 0 <= i < |items| {
        var item := items[i];
        if item.kind.IsMatch() {
          var replacements := disassociate(item);
          items := items[..i] + replacements + items[i + 1..];
        }
      }
    }

    /** setMatch: a manual match with score 0, then squash. */
    method SetMatch(li: nat, ri: nat)
      requires li < |items| && ri < |items|
      modifies this
      ensures items == Squash(RecordMatch(old(items), li, ri, Manual, 0))
      ensures li != ri ==> old(items)[li].(right := old(items)[ri].right, kind := Manual, score := 0) in items
      ensures |items| < |old(items)|
    {
      var recorded := RecordMatch(items, li, ri, Manual, 0);
      assert recorded[ri] !in Squash(recorded);
      if li != ri {
        assert recorded[li] in recorded;
      }
      items := Squash(recorded);
      SquashShrinks(recorded, ri);
    }
  }

  lemma {:induction false} SquashShrinks(s: seq<Item>, k: nat)
    requires k < |s| && s[k].kind == Consumed
    ensures |Squash(s)| < |s|
    decreases |s|
  {
    if k > 0 {
      SquashShrinks(s[1..], k - 1);
    } else {
      assert |Squash(s[1..])| <= |s[1..]|;
    }
  }
}

=== FILE: operation_log.dfy ===
/**
 * The operation log front end shared by the applications: events are forwarded to the
 * implementation the application installed, if any, and a timed operation collects its
 * key/value info until it ends. The clock is a parameter; the forwarded calls are recorded.
 */
module OperationLog {
  import opened JavaStrings

  /** A call forwarded to the installed implementation. */
  datatype Call = LogEventCall(name: string, info: map<string, string>) | CloseCall

  /** The key end() records the elapsed time under. */
  const TimeKey := "time"

  /** putAll: the values of `extra` over those of `info`. */
  function Overlay(info: map<string, string>, extra: map<string, string>): (r: map<string, string>)
    ensures r.Keys == info.Keys + extra.Keys
    ensures forall k :: k in extra ==> r[k] == extra[k]
    ensures forall k :: k in info && k !in extra ==> r[k] == info[k]
  {
    info + extra
  }

  /** The info an operation ends with: "time" holds the elapsed milliseconds, the rest stays. */
  function Ended(info: map<string, string>, elapsed: int): (r: map<string, string>)
    ensures r.Keys == info.Keys + {TimeKey}
    ensures r[TimeKey] == IntToString(elapsed)
    ensures forall k :: k in info && k != TimeKey ==> r[k] == info[k]
  {
    info[TimeKey := IntToString(elapsed)]
  }

  /**
   * end(info): the given info wins over values put earlier, and the elapsed time wins over
   * both, even when the given info has its own "time".
   */
  lemma EndWithLayout(put: map<string, string>, extra: map<string, string>, elapsed: int)
    ensures var r := Ended(Overlay(put, extra), elapsed);
      r[TimeKey] == IntToString(elapsed) &&
      (forall k :: k in extra && k != TimeKey ==> r[k] == extra[k]) &&
      (forall k :: k in put && k !in extra && k != TimeKey ==> r[k] == put[k]) &&
      r.Keys == put.Keys + extra.Keys + {TimeKey}
  {
  }

  class OperationLog {
    /** Whether an application has set an implementation. */
    var hasImplementation: bool
    /** The calls forwarded to the implementation, in order. */
    var forwarded: seq<Call>

    constructor ()
      ensures !hasImplementation && forwarded == []
    {
      hasImplementation := false;
      forwarded := [];
    }

    /** setImplementation: installs (or, with false, removes) the implementation. */
    method SetImplementation(present: bool)
      modifies this`hasImplementation
      ensures hasImplementation == present
    {
      hasImplementation := present;
    }

    /** close: forwarded only when an implementation is set. */
    method Close()
      modifies this`forwarded
      ensures forwarded == old(forwarded) + (if hasImplementation then [CloseCall] else [])
    {
      if hasImplementation {
        forwarded := forwarded + [CloseCall];
      }
    }

    /** logEvent: forwarded only when an implementation is set. */
    method LogEvent(name: string, info: map<string, string>)
      modifies this`forwarded
      ensures forwarded == old(forwarded) + (if hasImplementation then [LogEventCall(name, info)] else [])
    {
      if hasImplementation {
        forwarded := forwarded + [LogEventCall(name, info)];
      }
    }

    /** startOperation: a new operation with the given name, started now, with no info. */
    method StartOperation(name: string, now: int) returns (op: OperationEvent)
      ensures fresh(op) && op.name == name && op.startTime == now && op.info == map[]
    {
      op := new OperationEvent(name, now);
    }
  }

  class OperationEvent {
    var info: map<string, string>
    const startTime: int
    const name: string

    constructor (name: string, now: int)
      ensures this.name == name && startTime == now && info == map[]
    {
      this.name := name;
      startTime := now;
      info := map[];
    }

    /** put: the value's string under the key, replacing any earlier value. */
    method Put(key: string, value: string)
      modifies this`info
      ensures info == old(info)[key := value]
    {
      info := info[key := value];
    }

    /** end(): the elapsed time is recorded and the event is logged. */
    method End(now: int, log: OperationLog)
      modifies this`info, log`forwarded
      ensures info == Ended(old(info), now - startTime)
      ensures log.forwarded == old(log.forwarded) + (if log.hasImplementation then [LogEventCall(name, info)] else [])
    {
      info := Ended(info, now - startTime);
      log.LogEvent(name, info);
    }

    /** end(info): the given info is put over the collected one, then end(). */
    method EndWith(extra: map<string, string>, now: int, log: OperationLog)
      modifies this`info, log`forwarded
      ensures info == Ended(Overlay(old(info), extra), now - startTime)
      ensures log.forwarded == old(log.forwarded) + (if log.hasImplementation then [LogEventCall(name, info)] else [])
    {
      info := Overlay(info, extra);
      End(now, log);
    }
  }
}

=== FILE: operation_log_impl.dfy ===
/**
 * The Android TB-Loader's operation log: events are appended as CSV-like lines to the current
 * log file, and closing the log uploads it, and any files left from earlier runs, under
 * "log/tbcd<id>/<file name>". Times, the directory listing and the upload service are
 * parameters and recorded effects.
 */
module OperationLogImpl {
  import opened Wrappers
  import opened JavaStrings

  /** The option that keeps an event from rescheduling the upload. */
  const NoTrigger := "notrigger"

  /** The character that stands for a newline inside a logged value. */
  const ReturnSymbol: char := '\U{21B5}'

  // ---------------------------------------------------------------------------
  // enquote and the line format
  // ---------------------------------------------------------------------------

  /** enquote: every newline becomes '↵', then every comma becomes ';'. */
  function Enquote(value: string): (r: string)
    ensures '\n' !in r && ',' !in r
    ensures |r| == |value|
    ensures forall i :: 0 <= i < |value| && value[i] != '\n' && value[i] != ',' ==> r[i] == value[i]
  {
    ReplaceChars(ReplaceChars(value, {'\n'}, ReturnSymbol), {','}, ';')
  }

  /** A value with neither character is logged as it is. */
  lemma EnquoteOfPlain(value: string)
    requires '\n' !in value && ',' !in value
    ensures Enquote(value) == value
  {
  }

  /** Enquoting twice is enquoting once. */
  lemma EnquoteIdempotent(value: string)
    ensures Enquote(Enquote(value)) == Enquote(value)
  {
    EnquoteOfPlain(Enquote(value));
  }

  /** One entry of an event's info, as it appears in the line after its leading comma. */
  function Field(entry: (string, string)): string
  {
    entry.0 + ":" + Enquote(entry.1)
  }

  /** ",<key>:<value>" for each entry, in iteration order. */
  function EntriesText(entries: seq<(string, string)>): string
  {
    if entries == [] then "" else "," + Field(entries[0]) + EntriesText(entries[1..])
  }

  /** The fields of the entries, in order. */
  function Fields(entries: seq<(string, string)>): (r: seq<string>)
    ensures |r| == |entries| && forall i :: 0 <= i < |entries| ==> r[i] == Field(entries[i])
  {
    if entries == [] then [] else [Field(entries[0])] + Fields(entries[1..])
  }

  /** The line logEvent writes: "<timestamp>,<name>", the entries, and a newline. */
  function LogLine(timestamp: string, name: string, entries: seq<(string, string)>): string
  {
    timestamp + "," + name + EntriesText(entries) + "\n"
  }

  lemma {:induction false} EntriesTextSnoc(entries: seq<(string, string)>, e: (string, string))
    ensures EntriesText(entries + [e]) == EntriesText(entries) + "," + Field(e)
  {
    if entries == [] {
      assert [e][1..] == [];
    } else {
      assert (entries + [e])[1..] == entries[1..] + [e];
      EntriesTextSnoc(entries[1..], e);
    }
  }

  /** logEvent's line, built with one append per entry. */
  method FormatLine(timestamp: string, name: string, entries: seq<(string, string)>) returns (line: string)
    ensures line == LogLine(timestamp, name, entries)
  {
    line := timestamp + "," + name;
    for i := 0 to |entries|
      invariant line == timestamp + "," + name + EntriesText(entries[..i])
    {
      assert entries[..i + 1] == entries[..i] + [entries[i]];
      EntriesTextSnoc(entries[..i], entries[i]);
      line := line + "," + entries[i].0 + ":" + Enquote(entries[i].1);
    }
    assert entries[..|entries|] == entries;
    line := line + "\n";
  }

  lemma {:induction false} FieldsSplit(head: string, entries: seq<(string, string)>)
    requires ',' !in head
    requires forall i :: 0 <= i < |entries| ==> ',' !in entries[i].0
    ensures SplitOn(head + EntriesText(entries), ',') == [head] + Fields(entries)
    decreases |entries|
  {
    if entries == [] {
      assert head + "" == head;
      SplitOnWord(head, ',');
    } else {
      var f := Field(entries[0]);
      assert ',' !in f;
      FieldsSplit(f, entries[1..]);
      assert head + EntriesText(entries) == head + [','] + (f + EntriesText(entries[1..]));
      SplitOnCons(head, f + EntriesText(entries[1..]), ',');
    }
  }

  /**
   * The line reads back: it ends in its only newline, and split on commas it gives the
   * timestamp, the name and each entry's "<key>:<value>", provided the timestamp, the name
   * and the keys hold no comma or newline (keys are not enquoted).
   */
  lemma LogLineFields(timestamp: string, name: string, entries: seq<(string, string)>)
    requires ',' !in timestamp && ',' !in name && '\n' !in timestamp && '\n' !in name
    requires forall i :: 0 <= i < |entries| ==> ',' !in entries[i].0 && '\n' !in entries[i].0
    ensures var line := LogLine(timestamp, name, entries);
      line[|line| - 1] == '\n' && '\n' !in line[..|line| - 1] &&
      SplitOn(line[..|line| - 1], ',') == [timestamp, name] + Fields(entries)
  {
    var body := timestamp + "," + name + EntriesText(entries);
    LineBody(body, LogLine(timestamp, name, entries));
    BodyHasNoNewline(timestamp, name, entries);
    BodyFields(timestamp, name, entries);
  }

  lemma BodyHasNoNewline(timestamp: string, name: string, entries: seq<(string, string)>)
    requires '\n' !in timestamp && '\n' !in name
    requires forall i :: 0 <= i < |entries| ==> '\n' !in entries[i].0
    ensures '\n' !in timestamp + "," + name + EntriesText(entries)
  {
    NoNewline(entries);
    NotInConcat('\n', timestamp, ",");
    NotInConcat('\n', timestamp + ",", name);
    NotInConcat('\n', timestamp + "," + name, EntriesText(entries));
  }

  lemma BodyFields(timestamp: string, name: string, entries: seq<(string, string)>)
    requires ',' !in timestamp && ',' !in name
    requires forall i :: 0 <= i < |entries| ==> ',' !in entries[i].0
    ensures SplitOn(timestamp + "," + name + EntriesText(entries), ',') == [timestamp, name] + Fields(entries)
  {
    var rest := name + EntriesText(entries);
    assert timestamp + "," + name + EntriesText(entries) == timestamp + "," + rest;
    FieldsSplit(name, entries);
    BodySplit(timestamp, rest, timestamp + "," + rest);
    var f := Fields(entries);
    assert [timestamp] + ([name] + f) == [timestamp, name] + f;
  }

  lemma NotInConcat(c: char, a: string, b: string)
    requires c !in a && c !in b
    ensures c !in a + b
  {
  }

  lemma LineBody(body: string, line: string)
    requires line == body + "\n"
    ensures line[|line| - 1] == '\n' && line[..|line| - 1] == body
  {
  }

  lemma BodySplit(timestamp: string, rest: string, body: string)
    requires ',' !in timestamp && body == timestamp + "," + rest
    ensures SplitOn(body, ',') == [timestamp] + SplitOn(rest, ',')
  {
    assert body == timestamp + [','] + rest;
    SplitOnCons(timestamp, rest, ',');
  }

  lemma {:induction false} NoNewline(entries: seq<(string, string)>)
    requires forall i :: 0 <= i < |entries| ==> '\n' !in entries[i].0
    ensures '\n' !in EntriesText(entries)
  {
    if entries != [] {
      NoNewline(entries[1..]);
    }
  }

  // ---------------------------------------------------------------------------
  // Uploads
  // ---------------------------------------------------------------------------

  /** The name a log file is uploaded under. */
  function UploadName(tbcdId: string, fileName: string): (r: string)
    ensures StartsWith(r, "log/tbcd" + tbcdId + "/")
    ensures r[|tbcdId| + 9..] == fileName
  {
    var p := "log/tbcd" + tbcdId + "/";
    assert (p + fileName)[..|p|] == p;
    p + fileName
  }

  /** With no '/' in the id or the file name, the upload name has exactly three path parts. */
  lemma UploadNameParts(tbcdId: string, fileName: string)
    requires '/' !in tbcdId && '/' !in fileName
    ensures SplitOn(UploadName(tbcdId, fileName), '/') == ["log", "tbcd" + tbcdId, fileName]
  {
    var r := UploadName(tbcdId, fileName);
    assert r == "log" + ['/'] + (("tbcd" + tbcdId) + ['/'] + fileName);
    SplitOnWord(fileName, '/');
    SplitOnCons("tbcd" + tbcdId, fileName, '/');
    SplitOnCons("log", ("tbcd" + tbcdId) + ['/'] + fileName, '/');
  }

  /** The upload names of files, in order. */
  function UploadNames(tbcdId: string, names: seq<string>): (r: seq<string>)
    ensures |r| == |names| && forall i :: 0 <= i < |names| ==> r[i] == UploadName(tbcdId, names[i])
  {
    if names == [] then [] else [UploadName(tbcdId, names[0])] + UploadNames(tbcdId, names[1..])
  }

  lemma {:induction false} UploadNamesSnoc(tbcdId: string, names: seq<string>, n: string)
    ensures UploadNames(tbcdId, names + [n]) == UploadNames(tbcdId, names) + [UploadName(tbcdId, n)]
  {
    if names == [] {
      assert [n][1..] == [];
    } else {
      assert (names + [n])[1..] == names[1..] + [n];
      UploadNamesSnoc(tbcdId, names[1..], n);
    }
  }

  // ---------------------------------------------------------------------------
  // handleExistingLogFiles
  // ---------------------------------------------------------------------------

  /** A file found in the log directory at start-up. */
  datatype LogFile = LogFile(name: string, lastModified: int)

  /** File n is the newest, and the first of the newest when several tie. */
  predicate IsNewest(files: seq<LogFile>, n: nat)
  {
    n < |files| &&
    (forall i :: 0 <= i < |files| ==> files[i].lastModified <= files[n].lastModified) &&
    (forall i :: 0 <= i < n ==> files[i].lastModified < files[n].lastModified)
  }

  /** There is only one newest file. */
  lemma NewestUnique(files: seq<LogFile>, n: nat, m: nat)
    requires IsNewest(files, n) && IsNewest(files, m)
    ensures n == m
  {
    assert files[n].lastModified == files[m].lastModified;
  }

  /** The scan for the newest file: a later file replaces it only when strictly newer. */
  method NewestFile(files: seq<LogFile>) returns (n: nat)
    requires |files| > 0
    ensures IsNewest(files, n)
  {
    n := 0;
    var newestTime := files[0].lastModified;
    for i := 0 to |files|
      invariant n < |files| && newestTime == files[n].lastModified
      invariant forall j :: 0 <= j < i ==> files[j].lastModified <= newestTime
      invariant forall j :: 0 <= j < n ==> files[j].lastModified < newestTime
    {
      if files[i].lastModified > newestTime {
        newestTime := files[i].lastModified;
        n := i;
      }
    }
  }

  /** The names of the files, in listing order. */
  function Names(files: seq<LogFile>): (r: seq<string>)
    ensures |r| == |files| && forall i :: 0 <= i < |files| ==> r[i] == files[i].name
  {
    if files == [] then [] else [files[0].name] + Names(files[1..])
  }

  /** The names of the files other than file n, in listing order. */
  function OtherNames(files: seq<LogFile>, n: nat): (r: seq<string>)
    ensures |r| == |files| - (if n < |files| then 1 else 0)
    ensures forall i :: 0 <= i < |files| && i != n ==> r[if i < n then i else i - 1] == files[i].name
  {
    if files == [] then []
    else if n == 0 then Names(files[1..])
    else [files[0].name] + OtherNames(files[1..], n - 1)
  }

  /** The queue of files to upload: every file but the newest, in listing order. */
  method QueueOthers(files: seq<LogFile>, n: nat) returns (queue: seq<string>)
    ensures queue == OtherNames(files, n)
  {
    queue := [];
    for i := 0 to |files|
      invariant queue == OtherNames(files[..i], n)
    {
      OtherNamesSnoc(files[..i], files[i], n);
      assert files[..i + 1] == files[..i] + [files[i]];
      if i != n {
        queue := queue + [files[i].name];
      }
    }
    assert files[..|files|] == files;
  }

  lemma {:induction false} OtherNamesSnoc(files: seq<LogFile>, f: LogFile, n: nat)
    ensures OtherNames(files + [f], n) == OtherNames(files, n) + (if n == |files| then [] else [f.name])
  {
    if files == [] {
      assert [f][1..] == [];
    } else {
      assert (files + [f])[1..] == files[1..] + [f];
      if n == 0 {
        assert Names((files + [f])[1..]) == Names(files[1..]) + [f.name];
      } else {
        OtherNamesSnoc(files[1..], f, n - 1);
      }
    }
  }

  class OperationLogImpl {
    /** The current log file's name, once there is one. */
    var logFile: Option<string>
    /** Files from earlier runs waiting to be uploaded (null in the source when none were queued). */
    var pending: Option<seq<string>>
    /** Whether the delayed upload is scheduled on the handler. */
    var uploadScheduled: bool
    /** What has been appended to each log file. */
    var contents: map<string, string>
    /** The names passed to the upload service, in order. */
    var uploads: seq<string>

    /**
     * The log at start-up (handleExistingLogFiles): the newest file found is appended to, and
     * when there is more than one, all the others are queued for upload.
     */
    constructor (existing: seq<LogFile>)
      ensures |existing| == 0 ==> logFile.None? && pending.None?
      ensures |existing| > 0 ==> exists n: nat :: (IsNewest(existing, n) && logFile == Some(existing[n].name) &&
        pending == (if |existing| > 1 then Some(OtherNames(existing, n)) else Option.None))
      ensures !uploadScheduled && contents == map[] && uploads == []
    {
      var current: Option<string> := Option.None;
      var queue: Option<seq<string>> := Option.None;
      if |existing| > 0 {
        var n := NewestFile(existing);
        current := Some(existing[n].name);
        if |existing| > 1 {
          var others := QueueOthers(existing, n);
          queue := Some(others);
        }
      }
      logFile := current;
      pending := queue;
      uploadScheduled := false;
      contents := map[];
      uploads := [];
    }

    /**
     * logEvent: the line is appended to the current log file, which is named from the
     * given timestamp when there is none yet; an event without the "notrigger" option
     * (re)schedules the upload.
     */
    method LogEvent(timestamp: string, name: string, entries: seq<(string, string)>, options: set<string>, fileStamp: string)
      modifies this`logFile, this`contents, this`uploadScheduled
      ensures logFile == Some(if old(logFile).Some? then old(logFile).value else fileStamp + ".log")
      ensures contents == old(contents)[logFile.value :=
        (if logFile.value in old(contents) then old(contents)[logFile.value] else "") + LogLine(timestamp, name, entries)]
      ensures uploadScheduled == (old(uploadScheduled) || NoTrigger !in options)
    {
      var line := FormatLine(timestamp, name, entries);
      if logFile.None? {
        logFile := Some(fileStamp + ".log");
      }
      var f := logFile.value;
      contents := contents[f := (if f in contents then contents[f] else "") + line];
      if NoTrigger !in options {
        uploadScheduled := true;
      }
    }

    /**
     * closeLogFile: without a tbcd id, only the upload is rescheduled. With one, the current
     * log (if any) is closed and uploaded, then the queued files in order, and the queue is
     * dropped.
     */
    method CloseLogFile(tbcdId: Option<string>)
      modifies this`logFile, this`pending, this`uploadScheduled, this`uploads
      ensures uploadScheduled <==> tbcdId.None?
      ensures tbcdId.None? || old(logFile).None? ==> logFile == old(logFile) && pending == old(pending) && uploads == old(uploads)
      ensures tbcdId.Some? && old(logFile).Some? ==> (logFile.None? && pending.None? &&
        uploads == old(uploads) + [UploadName(tbcdId.value, old(logFile).value)] +
          UploadNames(tbcdId.value, old(pending).GetOr([])))
    {
      uploadScheduled := false;
      if tbcdId.None? {
        uploadScheduled := true;
        return;
      }
      if logFile.Some? {
        var prev := logFile.value;
        logFile := Option.None;
        uploads := uploads + [UploadName(tbcdId.value, prev)];
        UploadPendingLogs(tbcdId.value);
      }
    }

    /** uploadPendingLogs: the queue is polled until empty, each file uploaded in turn. */
    method UploadPendingLogs(tbcdId: string)
      modifies this`pending, this`uploads
      ensures pending.None?
      ensures uploads == old(uploads) + UploadNames(tbcdId, old(pending).GetOr([]))
    {
      if pending.Some? {
        var queue := pending.value;
        for i := 0 to |queue|
          invariant uploads == old(uploads) + UploadNames(tbcdId, queue[..i])
        {
          assert queue[..i + 1] == queue[..i] + [queue[i]];
          UploadNamesSnoc(tbcdId, queue[..i], queue[i]);
          uploads := uploads + [UploadName(tbcdId, queue[i])];
        }
        assert queue[..|queue|] == queue;
        pending := Option.None;
      }
    }
  }
}

=== FILE: playlist.dfy ===
/**
 * A playlist of the content store: an ordered list of audio-item ids, and the
 * builder that assembles one from (position, id) pairs kept in a sorted map.
 */
module Playlist {
  import opened Wrappers

  // ---------------------------------------------------------------------------
  // List operations the playlist relies on (java.util.List)
  // ---------------------------------------------------------------------------

  /** List.indexOf: the position of the first occurrence of x, or -1. */
  function IndexOf(s: seq<string>, x: string): (i: int)
    ensures -1 <= i < |s|
    ensures i == -1 <==> x !in s
    ensures i >= 0 ==> s[i] == x && x !in s[..i]
  {
    if |s| == 0 then -1
    else if s[0] == x then 0
    else
      var j := IndexOf(s[1..], x);
      assert s == [s[0]] + s[1..];
      if j < 0 then -1 else (assert s[..j + 1] == [s[0]] + s[1..][..j]; j + 1)
  }

  /** List.remove(Object): drop the first occurrence of x; nothing changes when x is absent. */
  function RemoveFirst(s: seq<string>, x: string): (r: seq<string>)
    ensures x !in s ==> r == s
    ensures x in s ==> |r| == |s| - 1
    ensures multiset(r) == multiset(s) - multiset{x}
  {
    if |s| == 0 then []
    else
      assert s == [s[0]] + s[1..];
      if s[0] == x then s[1..] else [s[0]] + RemoveFirst(s[1..], x)
  }

  /** Removing x keeps everything before its first occurrence and everything after it. */
  lemma {:induction false} RemoveFirstAtIndex(s: seq<string>, x: string)
    requires x in s
    ensures RemoveFirst(s, x) == s[..IndexOf(s, x)] + s[IndexOf(s, x) + 1..]
  {
    if s[0] == x {
      assert s[..0] == [];
    } else {
      var t := s[1..];
      assert s == [s[0]] + t;
      RemoveFirstAtIndex(t, x);
      Splice(s[0], t, IndexOf(t, x));
    }
  }

  /** Putting an element in front of a list with one position cut out. */
  lemma Splice(a: string, t: seq<string>, j: nat)
    requires j < |t|
    ensures [a] + (t[..j] + t[j + 1..]) == ([a] + t)[..j + 1] + ([a] + t)[j + 2..]
  {
    assert [a] + t[..j] == ([a] + t)[..j + 1];
    assert t[j + 1..] == ([a] + t)[j + 2..];
  }

  /** Appending an id and removing it again gives the list back when the id was absent. */
  lemma AddThenRemove(s: seq<string>, x: string)
    requires x !in s
    ensures RemoveFirst(s + [x], x) == s
  {
    RemoveFirstAtIndex(s + [x], x);
    assert (s + [x])[..|s|] == s;
  }

  // ---------------------------------------------------------------------------
  // The playlist
  // ---------------------------------------------------------------------------

  class Playlist {
    var uuid: Option<string>
    var name: Option<string>
    var audioItems: seq<string>

    constructor (uuid: Option<string>)
      ensures this.uuid == uuid && name.None? && audioItems == []
    {
      this.uuid := uuid;
      name := None;
      audioItems := [];
    }

    /** setUuid. */
    method SetUuid(uuid: Option<string>)
      modifies this`uuid
      ensures this.uuid == uuid
    {
      this.uuid := uuid;
    }

    /** setName. */
    method SetName(name: Option<string>)
      modifies this`name
      ensures this.name == name
    {
      this.name := name;
    }

    /** addAudioItem: append; an id already present is added again. */
    method AddAudioItem(uuid: string)
      modifies this`audioItems
      ensures audioItems == old(audioItems) + [uuid]
      ensures GetNumAudioItems() == old(GetNumAudioItems()) + 1
    {
      audioItems := audioItems + [uuid];
    }

    /** removeAudioItem: only the first occurrence goes; an absent id changes nothing. */
    method RemoveAudioItem(uuid: string)
      modifies this`audioItems
      ensures audioItems == RemoveFirst(old(audioItems), uuid)
    {
      audioItems := RemoveFirst(audioItems, uuid);
    }

    /** getAudioItemPosition: the first position of the id, or -1. */
    function GetAudioItemPosition(uuid: string): (i: int)
      reads this
      ensures i == -1 <==> uuid !in audioItems
      ensures i >= 0 ==> i < |audioItems| && audioItems[i] == uuid && uuid !in audioItems[..i]
    {
      IndexOf(audioItems, uuid)
    }

    /** getNumAudioItems. */
    function GetNumAudioItems(): (n: nat)
      reads this
      ensures n == |audioItems|
    {
      |audioItems|
    }
  }

  // ---------------------------------------------------------------------------
  // The builder's sorted map, as an association list sorted by position
  // ---------------------------------------------------------------------------

  type Entries = seq<(int, string)>

  predicate StrictlySorted(e: Entries)
  {
    forall i, j :: 0 <= i < j < |e| ==> e[i].0 < e[j].0
  }

  /** The map the entries stand for. */
  function ToMap(e: Entries): (m: map<int, string>)
    ensures forall k :: k in m <==> exists i :: 0 <= i < |e| && e[i].0 == k
  {
    if e == [] then map[] else ToMap(e[1..])[e[0].0 := e[0].1]
  }

  /** The values in position order (SortedMap.values()). */
  function Values(e: Entries): (r: seq<string>)
    ensures |r| == |e|
    ensures forall i :: 0 <= i < |e| ==> r[i] == e[i].1
  {
    seq(|e|, i requires 0 <= i < |e| => e[i].1)
  }

  /** In a sorted list every entry is what the map holds for its position. */
  lemma {:induction false} ToMapAt(e: Entries, i: int)
    requires StrictlySorted(e) && 0 <= i < |e|
    ensures e[i].0 in ToMap(e) && ToMap(e)[e[i].0] == e[i].1
  {
    if i > 0 {
      ToMapAt(e[1..], i - 1);
    }
  }

  /** SortedMap.put: the entry for the position is added or replaced, and the order is kept. */
  function Put(e: Entries, position: int, uuid: string): (r: Entries)
    requires StrictlySorted(e)
    ensures StrictlySorted(r)
    ensures ToMap(r) == ToMap(e)[position := uuid]
    ensures forall i :: 0 <= i < |r| ==> r[i].0 == position || r[i] in e
  {
    if e == [] || position < e[0].0 then
      PutFront(e, position, uuid);
      [(position, uuid)] + e
    else if position == e[0].0 then
      PutReplace(e, position, uuid);
      [(position, uuid)] + e[1..]
    else
      var rest := Put(e[1..], position, uuid);
      PutAfterHead(e, position, uuid, rest);
      [e[0]] + rest
  }

  lemma {:induction false} PutFront(e: Entries, position: int, uuid: string)
    requires StrictlySorted(e) && (e == [] || position < e[0].0)
    ensures StrictlySorted([(position, uuid)] + e)
    ensures ToMap([(position, uuid)] + e) == ToMap(e)[position := uuid]
  {
    var r := [(position, uuid)] + e;
    assert r[1..] == e;
    if e != [] {
      assert forall i :: 0 <= i < |e| ==> position < e[i].0;
    }
  }

  lemma {:induction false} PutReplace(e: Entries, position: int, uuid: string)
    requires StrictlySorted(e) && e != [] && position == e[0].0
    ensures StrictlySorted([(position, uuid)] + e[1..])
    ensures ToMap([(position, uuid)] + e[1..]) == ToMap(e)[position := uuid]
  {
    var r := [(position, uuid)] + e[1..];
    assert r[1..] == e[1..];
    var m := ToMap(e[1..]);
    assert ToMap(e) == m[position := e[0].1];
    assert ToMap(r) == m[position := uuid];
    assert m[position := e[0].1][position := uuid] == m[position := uuid];
    forall i, j | 0 <= i < j < |r| ensures r[i].0 < r[j].0 {
      assert r[j] == e[j];
    }
  }

  lemma {:induction false} PutAfterHead(e: Entries, position: int, uuid: string, rest: Entries)
    requires StrictlySorted(e) && e != [] && e[0].0 < position
    requires StrictlySorted(rest) && ToMap(rest) == ToMap(e[1..])[position := uuid]
    requires forall i :: 0 <= i < |rest| ==> rest[i].0 == position || rest[i] in e[1..]
    ensures StrictlySorted([e[0]] + rest)
    ensures ToMap([e[0]] + rest) == ToMap(e)[position := uuid]
    ensures forall i :: 0 <= i < |[e[0]] + rest| ==> ([e[0]] + rest)[i].0 == position || ([e[0]] + rest)[i] in e
  {
    PutAbove(e, position, rest);
    assert ([e[0]] + rest)[1..] == rest;
    MapPutCommutes(ToMap(e[1..]), e[0].0, e[0].1, position, uuid);
    forall i | 0 <= i < |rest| && rest[i] in e[1..] ensures rest[i] in e {
    }
  }

  /** The entries put after the head of a sorted list all come after it. */
  lemma PutAbove(e: Entries, position: int, rest: Entries)
    requires StrictlySorted(e) && e != [] && e[0].0 < position
    requires forall i :: 0 <= i < |rest| ==> rest[i].0 == position || rest[i] in e[1..]
    ensures forall i :: 0 <= i < |rest| ==> e[0].0 < rest[i].0
  {
    forall i | 0 <= i < |rest| ensures e[0].0 < rest[i].0 {
      if rest[i].0 != position {
        var j :| 0 <= j < |e[1..]| && e[1..][j] == rest[i];
        assert rest[i] == e[j + 1];
      }
    }
  }

  /** Writing two different keys in either order gives the same map. */
  lemma MapPutCommutes(m: map<int, string>, k1: int, v1: string, k2: int, v2: string)
    requires k1 != k2
    ensures m[k2 := v2][k1 := v1] == m[k1 := v1][k2 := v2]
  {
  }

  /**
   * build() lists the values in ascending position: each entry's position is larger
   * than the one before, and each value is the one the map holds for its position.
   */
  lemma ValuesInPositionOrder(e: Entries)
    requires StrictlySorted(e)
    ensures |Values(e)| == |ToMap(e)|
    ensures forall i :: 0 <= i < |e| ==> Values(e)[i] == ToMap(e)[e[i].0]
  {
    forall i | 0 <= i < |e| ensures Values(e)[i] == ToMap(e)[e[i].0] {
      ToMapAt(e, i);
    }
    KeysCount(e);
  }

  lemma {:induction false} KeysCount(e: Entries)
    requires StrictlySorted(e)
    ensures |ToMap(e)| == |e|
  {
    if e != [] {
      KeysCount(e[1..]);
      assert e[0].0 !in ToMap(e[1..]);
    }
  }

  // ---------------------------------------------------------------------------
  // The builder
  // ---------------------------------------------------------------------------

  class Builder {
    var items: Entries
    var uuid: Option<string>
    var name: Option<string>
    var playlistPrototype: Option<Playlist>

    /** The positions are kept in ascending order, as in the TreeMap. */
    predicate Valid()
      reads this
    {
      StrictlySorted(items)
    }

    /** Playlist.builder(). */
    constructor ()
      ensures Valid() && items == [] && uuid.None? && name.None? && playlistPrototype.None?
    {
      items := [];
      uuid := None;
      name := None;
      playlistPrototype := None;
    }

    method WithUuid(uuid: Option<string>)
      modifies this`uuid
      ensures this.uuid == uuid
    {
      this.uuid := uuid;
    }

    method WithName(name: Option<string>)
      modifies this`name
      ensures this.name == name
    {
      this.name := name;
    }

    method WithPlaylistPrototype(playlist: Option<Playlist>)
      modifies this`playlistPrototype
      ensures playlistPrototype == playlist
    {
      playlistPrototype := playlist;
    }

    /** addAudioItem(uuid, position): a later id at the same position replaces the earlier one. */
    method AddAudioItem(uuid: string, position: int)
      requires Valid()
      modifies this`items
      ensures Valid()
      ensures ToMap(items) == old(ToMap(items))[position := uuid]
    {
      items := Put(items, position, uuid);
    }

    /**
     * build(): the prototype (or a new playlist with the builder's uuid) is cleared,
     * named, and given the ids in ascending position.
     */
    method Build() returns (playlist: Playlist)
      requires Valid()
      modifies if playlistPrototype.Some? then {playlistPrototype.value} else {}
      ensures playlistPrototype.Some? ==> playlist == playlistPrototype.value && playlist.uuid == old(playlistPrototype.value.uuid)
      ensures playlistPrototype.None? ==> fresh(playlist) && playlist.uuid == uuid
      ensures playlist.name == name
      ensures playlist.audioItems == Values(items)
    {
      if playlistPrototype.None? {
        playlist := new Playlist(uuid);
      } else {
        playlist := playlistPrototype.value;
      }
      playlist.audioItems := [];
      playlist.SetName(name);
      var i := 0;
      while i < |items|
        invariant 0 <= i <= |items|
        invariant playlist.name == name
        invariant playlist.audioItems == Values(items[..i])
        invariant playlistPrototype.None? ==> fresh(playlist) && playlist.uuid == uuid
        invariant playlistPrototype.Some? ==> playlist.uuid == old(playlistPrototype.value.uuid)
      {
        playlist.AddAudioItem(items[i].1);
        assert Values(items[..i + 1]) == Values(items[..i]) + [items[i].1];
        i := i + 1;
      }
      assert items[..i] == items;
    }
  }
}

=== FILE: sorting.dfy ===
/**
 * An insertion sort by a caller-given order, standing for java.util.List.sort
 * and Collections.sort with a comparator: the result is a permutation of the input,
 * ordered when the comparator is a total preorder.
 */
module Sorting {

  ghost predicate TotalPreorder<T(!new)>(leq: (T, T) -> bool)
  {
    (forall a, b :: leq(a, b) || leq(b, a)) &&
    (forall a, b, c :: leq(a, b) && leq(b, c) ==> leq(a, c))
  }

  predicate SortedBy<T>(s: seq<T>, leq: (T, T) -> bool)
  {
    forall i, j :: 0 <= i < j < |s| ==> leq(s[i], s[j])
  }

  /** x placed before the first element it is not after. */
  function Insert<T>(x: T, s: seq<T>, leq: (T, T) -> bool): (r: seq<T>)
    ensures multiset(r) == multiset(s) + multiset{x}
    ensures |r| == |s| + 1
  {
    if s == [] then [x]
    else if leq(x, s[0]) then [x] + s
    else
      assert s == [s[0]] + s[1..];
      [s[0]] + Insert(x, s[1..], leq)
  }

  function SortBy<T>(s: seq<T>, leq: (T, T) -> bool): (r: seq<T>)
    ensures multiset(r) == multiset(s)
    ensures |r| == |s|
  {
    if s == [] then []
    else
      assert s == [s[0]] + s[1..];
      Insert(s[0], SortBy(s[1..], leq), leq)
  }

  lemma {:induction false} InsertSorted<T(!new)>(x: T, s: seq<T>, leq: (T, T) -> bool)
    requires TotalPreorder(leq) && SortedBy(s, leq)
    ensures SortedBy(Insert(x, s, leq), leq)
  {
    if s != [] && !leq(x, s[0]) {
      InsertSorted(x, s[1..], leq);
      var r := Insert(x, s[1..], leq);
      forall j | 0 <= j < |r|
        ensures leq(s[0], r[j])
      {
        assert r[j] in multiset(r);
        assert r[j] in multiset(s[1..]) + multiset{x};
        if r[j] != x {
          assert r[j] in s[1..];
        }
      }
    }
  }

  /** Sorting orders the elements by leq. */
  lemma {:induction false} SortBySorted<T(!new)>(s: seq<T>, leq: (T, T) -> bool)
    requires TotalPreorder(leq)
    ensures SortedBy(SortBy(s, leq), leq)
  {
    if s != [] {
      SortBySorted(s[1..], leq);
      InsertSorted(s[0], SortBy(s[1..], leq), leq);
    }
  }
}

=== FILE: srn_allocation.dfy ===
/**
 * The Talking Book serial-number (SRN) allocator shared by the TB-Loaders: a
 * primary block [primaryBegin, primaryEnd) from which SRNs are handed out in
 * order starting at nextSrn, and a backup block [backupBegin, backupEnd) that
 * takes over when the primary is exhausted. A begin of 0 marks an empty block.
 */
module SrnAllocation {
  import opened Wrappers
  import JavaStrings

  /** Key suffixes under which the allocator is persisted, after the prefix "<id>.". */
  const PrimaryEndName: string := "primaryend"
  const IdName: string := "tbloaderid"
  const HexIdName: string := "tbloaderidhex"
  const NextSrnName: string := "nextsrn"
  const PrimaryBeginName: string := "primarybegin"
  const BackupBeginName: string := "backupbegin"
  const BackupEndName: string := "backupend"

  /** A snapshot of the allocator's seven fields; hex None is a null hex id. */
  datatype SrnState = SrnState(
    id: int, hex: Option<string>, next: int,
    primaryBegin: int, primaryEnd: int, backupBegin: int, backupEnd: int)
  {
    /** There is an SRN left in the primary block. */
    predicate HasNext()
    {
      primaryBegin > 0 && primaryEnd > primaryBegin && primaryBegin <= next < primaryEnd
    }

    predicate HasPrimary() { primaryBegin > 0 && primaryEnd > primaryBegin }

    predicate HasBackup() { backupBegin > 0 && backupEnd > backupBegin }

    /** The full widths of the usable blocks; nextSrn plays no part. */
    function Available(): int
    {
      (if HasPrimary() then primaryEnd - primaryBegin else 0) +
      (if HasBackup() then backupEnd - backupBegin else 0)
    }

    /** i is an SRN not yet handed out from the primary block. */
    predicate InPrimaryRest(i: int)
    {
      primaryBegin > 0 && primaryBegin <= next <= i < primaryEnd
    }

    predicate InBackup(i: int)
    {
      backupBegin > 0 && backupBegin <= i < backupEnd
    }

    /** i is an SRN this allocator may still hand out. */
    predicate Remains(i: int) { InPrimaryRest(i) || InBackup(i) }

    /** Every field fits a Java int, as it does in the object. */
    predicate IsInt32()
    {
      JavaStrings.IsInt32(id) && JavaStrings.IsInt32(next) &&
      JavaStrings.IsInt32(primaryBegin) && JavaStrings.IsInt32(primaryEnd) &&
      JavaStrings.IsInt32(backupBegin) && JavaStrings.IsInt32(backupEnd)
    }

    /** The two blocks do not overlap. */
    ghost predicate Disjoint() { forall i :: !(InPrimaryRest(i) && InBackup(i)) }
  }

  /** String.format("%d.", id). */
  function Prefix(id: int): string { JavaStrings.IntToString(id) + "." }

  /** The seven keys an allocator is stored under. */
  function Keys(p: string): seq<string>
  {
    [p + IdName, p + HexIdName, p + NextSrnName, p + PrimaryBeginName,
     p + PrimaryEndName, p + BackupBeginName, p + BackupEndName]
  }

  /** Two keys under one prefix differ when their suffixes do. */
  lemma PrefixCancel(p: string, a: string, b: string)
    ensures p + a == p + b ==> a == b
  {
    if p + a == p + b {
      assert (p + a)[|p|..] == a;
      assert (p + b)[|p|..] == b;
    }
  }

  lemma KeysDistinct(p: string)
    ensures forall i, j :: 0 <= i < j < 7 ==> Keys(p)[i] != Keys(p)[j]
  {
    var suffixes := [IdName, HexIdName, NextSrnName, PrimaryBeginName, PrimaryEndName, BackupBeginName, BackupEndName];
    forall i, j | 0 <= i < j < 7 ensures Keys(p)[i] != Keys(p)[j] {
      assert Keys(p)[i] == p + suffixes[i] && Keys(p)[j] == p + suffixes[j];
      PrefixCancel(p, suffixes[i], suffixes[j]);
    }
  }

  /** The state of a new allocator (and of a copy of null). */
  const Empty: SrnState := SrnState(-1, None, 0, 0, 0, 0, 0)

  /** What applyReservation returns (or throws) and the state it leaves behind. */
  datatype Applied = Applied(outcome: Result<bool, Exception>, state: SrnState)

  /** The same blocks and the same nextSrn. */
  predicate SameBlocks(a: SrnState, b: SrnState)
  {
    a.next == b.next && a.primaryBegin == b.primaryBegin && a.primaryEnd == b.primaryEnd &&
    a.backupBegin == b.backupBegin && a.backupEnd == b.backupEnd
  }

  /**
   * applyReservation(id, hexid, begin, end) on a snapshot: true exactly for a
   * non-empty positive range, which then fills an empty block and sets the id;
   * otherwise the blocks stay as they were, and with no empty block it throws.
   */
  function Apply(s: SrnState, id: int, hexid: Option<string>, begin: int, end: int): (r: Applied)
    ensures r.outcome.Ok? ==> r.outcome.value == (begin > 0 && end > begin)
    ensures r.outcome.Err? ==> r.outcome.error == IllegalStateException && s.primaryBegin != 0 && s.backupBegin != 0
    ensures r.outcome != Ok(true) ==> SameBlocks(r.state, s)
    ensures r.outcome == Ok(true) ==> r.state.id == id && (r.state.primaryBegin == begin || r.state.backupBegin == begin)
  {
    if !(begin > 0 && end > begin) then Applied(Ok(false), s)
    else
      var t := if id != s.id then s.(id := id, hex := hexid) else s;
      if t.primaryBegin == 0 && t.backupBegin == 0 then
        var mid := begin + (end - begin) / 2;
        Applied(Ok(true), t.(primaryBegin := begin, primaryEnd := mid, backupBegin := mid, backupEnd := end, next := begin))
      else if t.primaryBegin == 0 then
        Applied(Ok(true), t.(primaryBegin := begin, primaryEnd := end, next := begin))
      else if t.backupBegin == 0 then
        Applied(Ok(true), t.(backupBegin := begin, backupEnd := end))
      else
        // the id has already been replaced when the exception is thrown
        Applied(Err(IllegalStateException), t)
  }

  /**
   * allocateNext on a snapshot: the SRN handed out (0 for none) and the new state.
   * An SRN is handed out exactly when there is a next one, and it is nextSrn.
   */
  function Allocate(s: SrnState): (r: (SrnState, int))
    ensures s.HasNext() ==> r.1 == s.next && r.1 > 0
    ensures !s.HasNext() ==> r == (s, 0)
    ensures r.0.id == s.id && r.0.hex == s.hex
  {
    if !s.HasNext() then (s, 0)
    else
      var t := s.(next := s.next + 1);
      if t.next >= t.primaryEnd then
        (t.(primaryBegin := s.backupBegin, primaryEnd := s.backupEnd, backupBegin := 0, backupEnd := 0, next := s.backupBegin), s.next)
      else (t, s.next)
  }

  // ---------------------------------------------------------------------------
  // applyReservation
  // ---------------------------------------------------------------------------

  /** An empty or inverted range is refused and changes nothing. */
  lemma ApplyRejects(s: SrnState, id: int, hexid: Option<string>, begin: int, end: int)
    ensures Apply(s, id, hexid, begin, end).outcome == Ok(false) <==> !(begin > 0 && end > begin)
    ensures !(begin > 0 && end > begin) ==> Apply(s, id, hexid, begin, end).state == s
  {
  }

  /** An accepted range carries its id along; the id changes only when it differs. */
  lemma ApplyId(s: SrnState, id: int, hexid: Option<string>, begin: int, end: int)
    requires begin > 0 && end > begin
    ensures Apply(s, id, hexid, begin, end).state.id == id
    ensures Apply(s, id, hexid, begin, end).state.hex == if id != s.id then hexid else s.hex
  {
  }

  /**
   * With both blocks empty, the range is split in two halves: the lower half is
   * the primary block, handed out from its start, the upper half the backup.
   * Every number of the range becomes available, and nothing else.
   */
  lemma ApplySplits(s: SrnState, id: int, hexid: Option<string>, begin: int, end: int)
    requires begin > 0 && end > begin && s.primaryBegin == 0 && s.backupBegin == 0
    ensures var a := Apply(s, id, hexid, begin, end);
      var mid := begin + (end - begin) / 2;
      a.outcome == Ok(true) &&
      a.state.primaryBegin == begin && a.state.primaryEnd == mid &&
      a.state.backupBegin == mid && a.state.backupEnd == end && a.state.next == begin &&
      (forall i :: a.state.Remains(i) <==> begin <= i < end) &&
      a.state.Disjoint() && a.state.Available() == end - begin
  {
  }

  /** With only the primary block empty, the whole range becomes the primary block. */
  lemma ApplyFillsPrimary(s: SrnState, id: int, hexid: Option<string>, begin: int, end: int)
    requires begin > 0 && end > begin && s.primaryBegin == 0 && s.backupBegin != 0
    ensures var a := Apply(s, id, hexid, begin, end);
      a.outcome == Ok(true) &&
      a.state.primaryBegin == begin && a.state.primaryEnd == end && a.state.next == begin &&
      a.state.backupBegin == s.backupBegin && a.state.backupEnd == s.backupEnd &&
      (forall i :: a.state.InPrimaryRest(i) <==> begin <= i < end)
  {
  }

  /** With only the backup block empty, the range becomes the backup; the primary and nextSrn stay. */
  lemma ApplyFillsBackup(s: SrnState, id: int, hexid: Option<string>, begin: int, end: int)
    requires begin > 0 && end > begin && s.primaryBegin != 0 && s.backupBegin == 0
    ensures var a := Apply(s, id, hexid, begin, end);
      a.outcome == Ok(true) &&
      a.state.backupBegin == begin && a.state.backupEnd == end &&
      a.state.primaryBegin == s.primaryBegin && a.state.primaryEnd == s.primaryEnd && a.state.next == s.next &&
      (forall i :: a.state.InPrimaryRest(i) <==> s.InPrimaryRest(i)) &&
      (forall i :: a.state.InBackup(i) <==> begin <= i < end)
  {
  }

  /** A valid range with no empty block is an error; the blocks are left as they were. */
  lemma ApplyThrowsWhenFull(s: SrnState, id: int, hexid: Option<string>, begin: int, end: int)
    requires begin > 0 && end > begin && s.primaryBegin != 0 && s.backupBegin != 0
    ensures var a := Apply(s, id, hexid, begin, end);
      a.outcome == Err(IllegalStateException) && (forall i :: a.state.Remains(i) <==> s.Remains(i))
  {
  }

  // ---------------------------------------------------------------------------
  // allocateNext
  // ---------------------------------------------------------------------------

  /**
   * allocateNext hands out nextSrn, an SRN still remaining, and removes exactly
   * that number from the remaining ones (the backup is promoted once the primary
   * block is used up). Without a next SRN it returns 0 and changes nothing.
   */
  lemma AllocateTakesOne(s: SrnState)
    requires s.Disjoint()
    ensures var (t, n) := Allocate(s);
      if s.HasNext() then
        n == s.next && n > 0 && s.Remains(n) && (forall i :: t.Remains(i) <==> s.Remains(i) && i != n) && t.Disjoint()
      else
        n == 0 && t == s
  {
    var (t, n) := Allocate(s);
    if s.HasNext() {
      forall i ensures !(t.InPrimaryRest(i) && t.InBackup(i)) {
        if s.next + 1 < s.primaryEnd {
          assert t.InPrimaryRest(i) ==> s.InPrimaryRest(i);
          assert t.InBackup(i) == s.InBackup(i);
        }
      }
    }
  }

  /** When the primary block is used up, the backup takes its place and the backup becomes empty. */
  lemma AllocatePromotesBackup(s: SrnState)
    requires s.HasNext() && s.next + 1 >= s.primaryEnd
    ensures var t := Allocate(s).0;
      t.primaryBegin == s.backupBegin && t.primaryEnd == s.backupEnd &&
      t.backupBegin == 0 && t.backupEnd == 0 && t.next == s.backupBegin
  {
  }

  /** Neither operation takes a field outside the Java int range. */
  lemma OperationsStayInt32(s: SrnState, id: int, hexid: Option<string>, begin: int, end: int)
    requires s.IsInt32() && JavaStrings.IsInt32(id) && JavaStrings.IsInt32(begin) && JavaStrings.IsInt32(end)
    ensures Apply(s, id, hexid, begin, end).state.IsInt32()
    ensures Allocate(s).0.IsInt32() && JavaStrings.IsInt32(Allocate(s).1)
  {
  }

  /** The SRNs handed out by k allocations in a row. */
  function AllocateRun(s: SrnState, k: nat): seq<int>
    decreases k
  {
    if k == 0 then [] else [Allocate(s).1] + AllocateRun(Allocate(s).0, k - 1)
  }

  /**
   * No SRN is handed out twice: over any run of allocations from a state with
   * disjoint blocks, every SRN is 0 or a remaining number, and the non-zero SRNs
   * are pairwise different.
   */
  lemma {:induction false} AllocateRunDistinct(s: SrnState, k: nat)
    requires s.Disjoint()
    decreases k
    ensures |AllocateRun(s, k)| == k
    ensures forall i :: 0 <= i < k ==> AllocateRun(s, k)[i] == 0 || s.Remains(AllocateRun(s, k)[i])
    ensures forall i, j :: 0 <= i < j < k && AllocateRun(s, k)[i] != 0 ==> AllocateRun(s, k)[i] != AllocateRun(s, k)[j]
  {
    if k > 0 {
      var (t, n) := Allocate(s);
      AllocateTakesOne(s);
      AllocateRunDistinct(t, k - 1);
      var rest := AllocateRun(t, k - 1);
      var run := AllocateRun(s, k);
      assert run == [n] + rest;
      if !s.HasNext() {
        assert t == s;
        forall i | 0 <= i < k - 1 ensures rest[i] == 0 {
          AllocateRunStuck(s, k - 1, i);
        }
      }
      forall i, j | 0 <= i < j < k && run[i] != 0
        ensures run[i] != run[j]
      {
        if i == 0 {
          assert run[j] == rest[j - 1];
        }
      }
    }
  }

  /** Without a next SRN the allocator stays as it is and hands out only zeros. */
  lemma {:induction false} AllocateRunStuck(s: SrnState, k: nat, i: nat)
    requires !s.HasNext() && i < k
    decreases k
    ensures |AllocateRun(s, k)| == k && AllocateRun(s, k)[i] == 0
  {
    if i > 0 {
      AllocateRunStuck(s, k - 1, i - 1);
    }
    AllocateRunLength(s, k);
  }

  lemma {:induction false} AllocateRunLength(s: SrnState, k: nat)
    decreases k
    ensures |AllocateRun(s, k)| == k
  {
    if k > 0 {
      AllocateRunLength(Allocate(s).0, k - 1);
    }
  }

  /** available() counts full block widths, whatever nextSrn is. */
  lemma AvailableIgnoresNext(s: SrnState, n: int)
    ensures s.(next := n).Available() == s.Available()
    ensures s.Available() >= 0
  {
  }

  // ---------------------------------------------------------------------------
  // The reservation map returned by the server
  // ---------------------------------------------------------------------------

  /** A value of the JSON object the reservation service returns. */
  datatype JsonValue = JsonLong(n: int) | JsonString(s: string) | JsonNull | JsonOther

  datatype Reservation = Reservation(id: int, hexid: Option<string>, begin: int, end: int)

  /**
   * How applyReservation(Map) reads a number AS WRITTEN: `(Long) getOrDefault(key, -1)`.
   * The default -1 is a boxed Integer, so a missing key makes the cast throw, as
   * does any value that is not a Long; a JSON null fails when it is unboxed.
   */
  function LongFieldAsWritten(m: map<string, JsonValue>, key: string): (r: Result<int, Exception>)
    ensures r.Ok? <==> key in m && m[key].JsonLong?
    ensures r.Ok? ==> JavaStrings.IsInt32(r.value)
  {
    if key !in m then Err(ClassCastException)
    else match m[key]
      case JsonLong(n) => Ok(JavaStrings.ToInt32(n))
      case JsonNull => Err(NullPointerException)
      case _ => Err(ClassCastException)
  }

  /**
   * The number read with the default that the code evidently intends: a missing
   * key reads as -1; a present key reads as it does in the code as written.
   */
  function LongField(m: map<string, JsonValue>, key: string): (r: Result<int, Exception>)
    ensures key in m ==> r == LongFieldAsWritten(m, key)
    ensures key !in m ==> r == Ok(-1)
  {
    if key !in m then Ok(-1)
    else match m[key]
      case JsonLong(n) => Ok(JavaStrings.ToInt32(n))
      case JsonNull => Err(NullPointerException)
      case _ => Err(ClassCastException)
  }

  /** `(String) getOrDefault("hexid", "")`. */
  function HexField(m: map<string, JsonValue>): Result<Option<string>, Exception>
  {
    if "hexid" !in m then Ok(Some(""))
    else match m["hexid"]
      case JsonString(s) => Ok(Some(s))
      case JsonNull => Ok(None)
      case _ => Err(ClassCastException)
  }

  function ReadReservation(begin: Result<int, Exception>, end: Result<int, Exception>,
                           id: Result<int, Exception>, hex: Result<Option<string>, Exception>): Result<Reservation, Exception>
  {
    if begin.Err? then Err(begin.error)
    else if end.Err? then Err(end.error)
    else if id.Err? then Err(id.error)
    else if hex.Err? then Err(hex.error)
    else Ok(Reservation(id.value, hex.value, begin.value, end.value))
  }

  /** The fields applyReservation(Map) reads, in the order it reads them, as written. */
  function ReservationAsWritten(m: map<string, JsonValue>): (r: Result<Reservation, Exception>)
    ensures r.Ok? ==> "begin" in m && "end" in m && "id" in m
    ensures r.Ok? ==> JavaStrings.IsInt32(r.value.begin) && JavaStrings.IsInt32(r.value.end) && JavaStrings.IsInt32(r.value.id)
  {
    ReadReservation(LongFieldAsWritten(m, "begin"), LongFieldAsWritten(m, "end"), LongFieldAsWritten(m, "id"), HexField(m))
  }

  /**
   * The fields with missing numbers read as -1: every map the code as written
   * reads is read the same way, and a missing begin reads as -1.
   */
  function ReservationFromMap(m: map<string, JsonValue>): (r: Result<Reservation, Exception>)
    ensures ReservationAsWritten(m).Ok? ==> r == ReservationAsWritten(m)
    ensures r.Ok? && "begin" !in m ==> r.value.begin == -1
  {
    ReadReservation(LongField(m, "begin"), LongField(m, "end"), LongField(m, "id"), HexField(m))
  }

  /**
   * applyReservation(Map) on a snapshot, with missing numbers read as -1: a range
   * is accepted only when the map holds its begin and end, and the blocks change
   * only when it is accepted.
   */
  function ApplyMap(s: SrnState, m: map<string, JsonValue>): (r: Applied)
    ensures r.outcome == Ok(true) ==> "begin" in m && "end" in m && ReservationFromMap(m).Ok?
    ensures r.outcome != Ok(true) ==> SameBlocks(r.state, s)
  {
    match ReservationFromMap(m)
    case Err(e) => Applied(Err(e), s)
    case Ok(v) => Apply(s, v.id, v.hexid, v.begin, v.end)
  }

  /**
   * As written, the empty map that the ACM helper builds when the service does
   * not answer makes applyReservation(Map) throw instead of returning false.
   */
  lemma EmptyReservationThrowsAsWritten()
    ensures ReservationAsWritten(map[]) == Err(ClassCastException)
  {
  }

  /**
   * With missing numbers read as -1, a reservation without a begin (the empty map
   * included) is refused and leaves the allocator unchanged, as the -1 defaults intend.
   */
  lemma MissingBeginRejected(s: SrnState, m: map<string, JsonValue>)
    requires "begin" !in m && ReservationFromMap(m).Ok?
    ensures var r := ReservationFromMap(m).value;
      Apply(s, r.id, r.hexid, r.begin, r.end) == Applied(Ok(false), s)
  {
  }

  /** Both readings agree whenever the three numbers are present. */
  lemma ReservationReadingsAgree(m: map<string, JsonValue>)
    requires "begin" in m && "end" in m && "id" in m
    ensures ReservationAsWritten(m) == ReservationFromMap(m)
  {
  }

  // ---------------------------------------------------------------------------
  // The object
  // ---------------------------------------------------------------------------

  class TbSrnAllocationInfo {
    var tbloaderid: int
    var tbloaderidHex: Option<string>
    var nextSrn: int
    var primaryBegin: int
    var primaryEnd: int
    var backupBegin: int
    var backupEnd: int

    function State(): SrnState
      reads this
    {
      SrnState(tbloaderid, tbloaderidHex, nextSrn, primaryBegin, primaryEnd, backupBegin, backupEnd)
    }

    /** A new allocator: id -1, no hex id, both blocks empty. */
    constructor ()
      ensures State() == Empty
    {
      tbloaderid, tbloaderidHex, nextSrn := -1, None, 0;
      primaryBegin, primaryEnd, backupBegin, backupEnd := 0, 0, 0, 0;
    }

    constructor Of(s: SrnState)
      ensures State() == s
    {
      tbloaderid, tbloaderidHex, nextSrn := s.id, s.hex, s.next;
      primaryBegin, primaryEnd, backupBegin, backupEnd := s.primaryBegin, s.primaryEnd, s.backupBegin, s.backupEnd;
    }

    /** The copy constructor; copying null gives a new allocator. */
    constructor Copy(other: TbSrnAllocationInfo?)
      ensures State() == if other == null then Empty else other.State()
    {
      tbloaderid, tbloaderidHex, nextSrn := -1, None, 0;
      primaryBegin, primaryEnd, backupBegin, backupEnd := 0, 0, 0, 0;
      if other != null {
        tbloaderid, tbloaderidHex, nextSrn := other.tbloaderid, other.tbloaderidHex, other.nextSrn;
        primaryBegin, primaryEnd := other.primaryBegin, other.primaryEnd;
        backupBegin, backupEnd := other.backupBegin, other.backupEnd;
      }
    }

    /** hasNext, hasBackup and available are those of the snapshot. */
    predicate HasNext()
      reads this
      ensures HasNext() <==> Allocate(State()).1 != 0
    {
      State().HasNext()
    }

    predicate HasBackup()
      reads this
      ensures HasBackup() ==> Available() >= backupEnd - backupBegin > 0
    {
      State().HasBackup()
    }

    function Available(): (r: int)
      reads this
      ensures r >= 0
      ensures HasNext() ==> r >= primaryEnd - nextSrn > 0
    {
      State().Available()
    }

    method ApplyReservation(id: int, hexid: Option<string>, begin: int, end: int) returns (r: Result<bool, Exception>)
      modifies this
      ensures r == Apply(old(State()), id, hexid, begin, end).outcome
      ensures State() == Apply(old(State()), id, hexid, begin, end).state
    {
      if begin > 0 && end > begin {
        if id != tbloaderid {
          tbloaderid, tbloaderidHex := id, hexid;
        }
        if primaryBegin == 0 && backupBegin == 0 {
          primaryBegin := begin;
          primaryEnd := begin + (end - begin) / 2;
          backupBegin := primaryEnd;
          backupEnd := end;
          nextSrn := primaryBegin;
        } else if primaryBegin == 0 {
          primaryBegin := begin;
          primaryEnd := end;
          nextSrn := primaryBegin;
        } else if backupBegin == 0 {
          backupBegin := begin;
          backupEnd := end;
        } else {
          return Err(IllegalStateException);
        }
        return Ok(true);
      }
      return Ok(false);
    }

    /** applyReservation(Map), reading missing numbers as -1 (see ReservationAsWritten for the code as written). */
    method ApplyReservationMap(m: map<string, JsonValue>) returns (r: Result<bool, Exception>)
      modifies this
      ensures r == ApplyMap(old(State()), m).outcome
      ensures State() == ApplyMap(old(State()), m).state
    {
      var v := ReservationFromMap(m);
      if v.Err? {
        return Err(v.error);
      }
      r := ApplyReservation(v.value.id, v.value.hexid, v.value.begin, v.value.end);
    }

    method AllocateNext() returns (next: int)
      modifies this
      ensures (State(), next) == Allocate(old(State()))
    {
      next := 0;
      if primaryBegin > 0 && primaryEnd > primaryBegin && nextSrn >= primaryBegin && nextSrn < primaryEnd {
        next := nextSrn;
        nextSrn := nextSrn + 1;
        if nextSrn >= primaryEnd {
          primaryBegin := backupBegin;
          primaryEnd := backupEnd;
          backupBegin := 0;
          backupEnd := 0;
          nextSrn := primaryBegin;
        }
      }
    }
  }
}

=== FILE: statistics_importer.dfy ===
/**
 * Importing a Talking Book's usage statistics: a CSV file whose first line names the device
 * and its boot cycle, and whose other lines each give an audio item's six counters. The
 * counters are recorded in the item's metadata under (statistic, device, boot cycle).
 */
module StatisticsImporter {
  import opened Wrappers
  import opened JavaStrings

  /** The delimiters of tokenizeCSV: space and comma. */
  const Delims: set<char> := {' ', ','}

  /** The six counters of a data line, in the order of its tokens 1 to 6. */
  datatype Statistic = OpenCount | CompletionCount | CopyCount | Survey1Count | ApplyCount | NoHelpCount

  /** The statistic held by token k (1 to 6) of a data line. */
  function StatisticAt(k: nat): Statistic
    requires 1 <= k <= 6
  {
    match k
    case 1 => OpenCount
    case 2 => CompletionCount
    case 3 => CopyCount
    case 4 => Survey1Count
    case 5 => ApplyCount
    case _ => NoHelpCount
  }

  /** The token a statistic is read from: the inverse of StatisticAt. */
  function Position(s: Statistic): (k: nat)
    ensures 1 <= k <= 6 && StatisticAt(k) == s
  {
    match s
    case OpenCount => 1
    case CompletionCount => 2
    case CopyCount => 3
    case Survey1Count => 4
    case ApplyCount => 5
    case NoHelpCount => 6
  }

  /** An item's statistics: the value of each (statistic, device id, boot cycle). */
  type Stats = map<(Statistic, string, int), int>

  /** The in-memory metadata of the store's items, by audio item id, and an exception that ended the import. */
  datatype Outcome = Outcome(stats: map<string, Stats>, error: Option<Exception>)

  // ---------------------------------------------------------------------------
  // tokenizeCSV
  // ---------------------------------------------------------------------------

  /** A run of non-delimiters that ends at the end or at a delimiter is the first token. */
  lemma RunIsFirstToken(s: string, k: nat)
    requires 0 < k <= |s| && NoneIn(s[..k], Delims) && (k == |s| || s[k] in Delims)
    ensures Tokens(s, Delims) == [s[..k]] + Tokens(s[k..], Delims)
  {
    RunLengthExact(s, k);
  }

  lemma {:induction false} RunLengthExact(s: string, k: nat)
    requires k <= |s| && NoneIn(s[..k], Delims) && (k == |s| || s[k] in Delims)
    ensures RunLength(s, Delims) == k
  {
    if k > 0 {
      assert s[1..][..k - 1] == s[..k][1..];
      RunLengthExact(s[1..], k - 1);
    }
  }

  /** tokenizeCSV: the tokens of the line, read one after the other. */
  method TokenizeCSV(line: string) returns (list: seq<string>)
    ensures list == Tokens(line, Delims)
  {
    list := [];
    var i := 0;
    while i < |line|
      invariant 0 <= i <= |line|
      invariant Tokens(line, Delims) == list + Tokens(line[i..], Delims)
    {
      if line[i] in Delims {
        SkipDelimiter(line, i);
        i := i + 1;
      } else {
        var j := TokenEnd(line, i);
        TakeToken(line, i, j);
        assert list + ([line[i..j]] + Tokens(line[j..], Delims)) == (list + [line[i..j]]) + Tokens(line[j..], Delims);
        list := list + [line[i..j]];
        i := j;
      }
    }
  }

  lemma SkipDelimiter(line: string, i: nat)
    requires i < |line| && line[i] in Delims
    ensures Tokens(line[i..], Delims) == Tokens(line[i + 1..], Delims)
  {
    assert line[i..][1..] == line[i + 1..];
  }

  lemma TakeToken(line: string, i: nat, j: nat)
    requires i < j <= |line| && NoneIn(line[i..j], Delims) && (j == |line| || line[j] in Delims)
    ensures Tokens(line[i..], Delims) == [line[i..j]] + Tokens(line[j..], Delims)
  {
    assert line[i..][..j - i] == line[i..j] && line[i..][j - i..] == line[j..];
    RunIsFirstToken(line[i..], j - i);
  }

  /** Where the token starting at i ends: at the end of the line or at the next delimiter. */
  method TokenEnd(line: string, i: nat) returns (j: nat)
    requires i < |line| && line[i] !in Delims
    ensures i < j <= |line| && NoneIn(line[i..j], Delims) && (j == |line| || line[j] in Delims)
  {
    j := i + 1;
    while j < |line| && line[j] !in Delims
      invariant i < j <= |line| && NoneIn(line[i..j], Delims)
    {
      assert line[i..j + 1] == line[i..j] + [line[j]];
      j := j + 1;
    }
  }

  /** The words of a line joined by commas, none empty or holding a delimiter, tokenise back to the words. */
  lemma {:induction false} TokensOfJoin(words: seq<string>)
    requires forall i :: 0 <= i < |words| ==> |words[i]| > 0 && NoneIn(words[i], Delims)
    ensures Tokens(Join(words, ","), Delims) == words
  {
    if |words| == 1 {
      TokensOfWord(words[0], Delims);
    } else if |words| > 1 {
      TokensOfJoin(words[1..]);
      TokensCons(words[0], ',', Join(words[1..], ","), Delims);
      assert Join(words, ",") == words[0] + [','] + Join(words[1..], ",");
    }
  }

  // ---------------------------------------------------------------------------
  // importStatsFile
  // ---------------------------------------------------------------------------

  /**
   * Tokens k to 6 of a data line, each parsed and recorded in turn: a missing token or one
   * that is not a number stops with the counters before it already recorded.
   */
  function Counters(meta: Stats, deviceId: string, boot: int, tokens: seq<string>, k: nat): (r: (Stats, Option<Exception>))
    requires 1 <= k <= 7
    ensures r.1.None? ==> k == 7 || 7 <= |tokens|
    ensures r.0.Keys >= meta.Keys
    decreases 7 - k
  {
    if k == 7 then (meta, None)
    else if k >= |tokens| then (meta, Some(IndexOutOfBoundsException))
    else
      match ParseInt(tokens[k])
      case None => (meta, Some(NumberFormatException))
      case Some(v) => Counters(meta[(StatisticAt(k), deviceId, boot) := v], deviceId, boot, tokens, k + 1)
  }

  /** One data line: the item named by token 0, if the store knows it, gets the six counters. */
  function ImportLine(stats: map<string, Stats>, deviceId: string, boot: int, line: string): (r: Outcome)
    ensures r.stats.Keys == stats.Keys
  {
    var tokens := Tokens(line, Delims);
    if |tokens| == 0 then Outcome(stats, Some(IndexOutOfBoundsException))
    else if tokens[0] !in stats then Outcome(stats, None)
    else
      var (meta, error) := Counters(stats[tokens[0]], deviceId, boot, tokens, 1);
      Outcome(stats[tokens[0] := meta], error)
  }

  /** The data lines in order, until one throws. */
  function ImportData(stats: map<string, Stats>, deviceId: string, boot: int, lines: seq<string>): (r: Outcome)
    ensures r.stats.Keys == stats.Keys
  {
    if |lines| == 0 then Outcome(stats, None)
    else
      var first := ImportLine(stats, deviceId, boot, lines[0]);
      if first.error.Some? then first else ImportData(first.stats, deviceId, boot, lines[1..])
  }

  /**
   * importStatsFile: the header line gives the device id (token 0) and the boot cycle
   * (token 1); an empty file, a short header or a boot cycle that is not a number throws.
   */
  function ImportFile(stats: map<string, Stats>, lines: seq<string>): (r: Outcome)
    ensures r.stats.Keys == stats.Keys
    ensures |lines| == 0 ==> r == Outcome(stats, Some(NullPointerException))
    ensures |lines| > 0 && |Tokens(lines[0], Delims)| < 2 ==> r == Outcome(stats, Some(IndexOutOfBoundsException))
    ensures |lines| > 0 && |Tokens(lines[0], Delims)| >= 2 && ParseInt(Tokens(lines[0], Delims)[1]).None? ==>
      r == Outcome(stats, Some(NumberFormatException))
  {
    if |lines| == 0 then Outcome(stats, Some(NullPointerException))
    else
      var header := Tokens(lines[0], Delims);
      if |header| < 2 then Outcome(stats, Some(IndexOutOfBoundsException))
      else
        match ParseInt(header[1])
        case None => Outcome(stats, Some(NumberFormatException))
        case Some(boot) => ImportData(stats, header[0], boot, lines[1..])
  }

  /** A line whose item the store does not know changes nothing. */
  lemma UnknownItemSkipped(stats: map<string, Stats>, deviceId: string, boot: int, line: string)
    requires |Tokens(line, Delims)| > 0 && Tokens(line, Delims)[0] !in stats
    ensures ImportLine(stats, deviceId, boot, line) == Outcome(stats, None)
  {
  }

  /**
   * `after` holds token j (k to 6) under the j-th statistic for this device and boot cycle,
   * and every value of `before` recorded under another device or boot cycle.
   */
  predicate Recorded(after: Stats, before: Stats, deviceId: string, boot: int, tokens: seq<string>, k: nat)
  {
    (forall j :: 1 <= j <= 6 && k <= j && j < |tokens| ==>
      (StatisticAt(j), deviceId, boot) in after && ParseInt(tokens[j]) == Some(after[(StatisticAt(j), deviceId, boot)])) &&
    (forall key :: key in before && (key.1 != deviceId || key.2 != boot || Position(key.0) < k) ==>
      key in after && after[key] == before[key])
  }

  /** A line whose tokens 1 to 6 are all numbers records all six counters without error. */
  lemma {:induction false} CountersRecorded(meta: Stats, deviceId: string, boot: int, tokens: seq<string>, k: nat)
    requires 1 <= k <= 7 && 7 <= |tokens|
    requires forall j :: 1 <= j <= 6 ==> ParseInt(tokens[j]).Some?
    ensures Counters(meta, deviceId, boot, tokens, k).1.None?
    ensures Recorded(Counters(meta, deviceId, boot, tokens, k).0, meta, deviceId, boot, tokens, k)
    decreases 7 - k
  {
    if k < 7 {
      var meta' := meta[(StatisticAt(k), deviceId, boot) := ParseInt(tokens[k]).value];
      CountersRecorded(meta', deviceId, boot, tokens, k + 1);
      RecordedStep(Counters(meta', deviceId, boot, tokens, k + 1).0, meta, deviceId, boot, tokens, k);
    }
  }

  lemma RecordedStep(after: Stats, meta: Stats, deviceId: string, boot: int, tokens: seq<string>, k: nat)
    requires 1 <= k <= 6 && k < |tokens| && ParseInt(tokens[k]).Some?
    requires Recorded(after, meta[(StatisticAt(k), deviceId, boot) := ParseInt(tokens[k]).value], deviceId, boot, tokens, k + 1)
    ensures Recorded(after, meta, deviceId, boot, tokens, k)
  {
    forall j | k < j <= 6 ensures StatisticAt(j) != StatisticAt(k) { }
    assert Position(StatisticAt(k)) == k;
  }

  /**
   * A well-formed line of a known item: token j (1 to 6) lands in the j-th statistic for
   * this device and boot cycle, the item's values for other devices and cycles stay, and
   * no other item changes.
   */
  lemma KnownLineLayout(stats: map<string, Stats>, deviceId: string, boot: int, line: string, id: string)
    requires var tokens := Tokens(line, Delims);
      7 <= |tokens| && tokens[0] == id && id in stats && forall j :: 1 <= j <= 6 ==> ParseInt(tokens[j]).Some?
    ensures var r := ImportLine(stats, deviceId, boot, line);
      r.error.None? && id in r.stats &&
      (forall other :: other in stats && other != id ==> other in r.stats && r.stats[other] == stats[other]) &&
      Recorded(r.stats[id], stats[id], deviceId, boot, Tokens(line, Delims), 1)
  {
    CountersRecorded(stats[id], deviceId, boot, Tokens(line, Delims), 1);
  }

  /** The header gives the device and boot cycle the data lines are recorded under. */
  lemma HeaderLayout(stats: map<string, Stats>, deviceId: string, boot: int, rest: seq<string>, data: seq<string>)
    requires |deviceId| > 0 && NoneIn(deviceId, Delims) && IsInt32(boot)
    requires forall i :: 0 <= i < |rest| ==> |rest[i]| > 0 && NoneIn(rest[i], Delims)
    ensures ImportFile(stats, [Join([deviceId, IntToString(boot)] + rest, ",")] + data) == ImportData(stats, deviceId, boot, data)
  {
    var words := [deviceId, IntToString(boot)] + rest;
    IntToStringNoDelimiter(boot, ' ');
    IntToStringNoDelimiter(boot, ',');
    TokensOfJoin(words);
    ParseIntRoundTrip(boot);
    assert ([Join(words, ",")] + data)[1..] == data;
  }

  // ---------------------------------------------------------------------------
  // The store and the folder import
  // ---------------------------------------------------------------------------

  /** importStatsFolder's filter: names ending in ".csv", ignoring case. */
  predicate IsStatsFile(name: string)
  {
    EndsWith(Lower(name), ".csv")
  }

  /** The filter does not depend on the case of the name. */
  lemma StatsFileIgnoresCase(name: string, other: string)
    requires EqualsIgnoreCase(name, other)
    ensures IsStatsFile(name) <==> IsStatsFile(other)
  {
  }

  lemma UpperCaseCsvAccepted(base: string)
    ensures IsStatsFile(base + ".CSV") && IsStatsFile(base + ".csv")
  {
    var a, b := Lower(base + ".CSV"), Lower(base + ".csv");
    assert a[|a| - 4..] == ".csv" && b[|b| - 4..] == ".csv";
  }

  /** The files of the folder whose names pass the filter, in listing order. */
  function StatsFiles(files: seq<(string, seq<string>)>): (r: seq<(string, seq<string>)>)
    ensures forall f :: f in r <==> f in files && IsStatsFile(f.0)
  {
    if |files| == 0 then []
    else (if IsStatsFile(files[0].0) then [files[0]] else []) + StatsFiles(files[1..])
  }

  /** The files in turn, until one throws. */
  function ImportFiles(stats: map<string, Stats>, files: seq<(string, seq<string>)>): (r: Outcome)
    ensures r.stats.Keys == stats.Keys
  {
    if |files| == 0 then Outcome(stats, None)
    else
      var first := ImportFile(stats, files[0].1);
      if first.error.Some? then first else ImportFiles(first.stats, files[1..])
  }

  class MetadataStore {
    /** The statistics in each known audio item's metadata. */
    var stats: map<string, Stats>

    constructor (stats: map<string, Stats>)
      ensures this.stats == stats
    {
      this.stats := stats;
    }

    /** importStatsFile, reading the lines of the file one after the other. */
    method ImportStatsFile(lines: seq<string>) returns (r: Result<(), Exception>)
      modifies this`stats
      ensures Outcome(stats, if r.Err? then Some(r.error) else None) == ImportFile(old(stats), lines)
    {
      if |lines| == 0 {
        return Err(NullPointerException);
      }
      var tokens := TokenizeCSV(lines[0]);
      if |tokens| < 2 {
        return Err(IndexOutOfBoundsException);
      }
      var deviceId := tokens[0];
      var parsed := ParseInt(tokens[1]);
      if parsed.None? {
        return Err(NumberFormatException);
      }
      var boot := parsed.value;
      var data := lines[1..];
      ghost var start := stats;
      var i := 0;
      while i < |data|
        invariant 0 <= i <= |data|
        invariant ImportData(start, deviceId, boot, data) == ImportData(stats, deviceId, boot, data[i..])
      {
        assert data[i..][1..] == data[i + 1..];
        var line := ImportLine(stats, deviceId, boot, data[i]);
        stats := line.stats;
        if line.error.Some? {
          return Err(line.error.value);
        }
        i := i + 1;
      }
      r := Ok(());
    }

    /** importStatsFolder: the files passing the filter, in turn. */
    method ImportStatsFolder(files: seq<(string, seq<string>)>) returns (r: Result<(), Exception>)
      modifies this`stats
      ensures Outcome(stats, if r.Err? then Some(r.error) else None) == ImportFiles(old(stats), StatsFiles(files))
    {
      var chosen := StatsFiles(files);
      ghost var start := stats;
      for i := 0 to |chosen|
        invariant ImportFiles(start, chosen) == ImportFiles(stats, chosen[i..])
      {
        assert chosen[i..][1..] == chosen[i + 1..];
        r := ImportStatsFile(chosen[i].1);
        if r.Err? {
          return;
        }
      }
      r := Ok(());
    }
  }
}

=== FILE: tags_list_model.dfy ===
/**
 * The playlist list of the ACM's resource view: one label per playlist, shown by name and
 * sorted in reverse case-insensitive order of the names.
 */
module TagsListModel {
  import opened JavaStrings

  /**
   * String.compareToIgnoreCase: the difference of the first pair of characters that differ
   * after case folding, or else the difference of the lengths.
   */
  function CompareIgnoreCase(a: string, b: string): (r: int)
    ensures r == 0 <==> EqualsIgnoreCase(a, b)
    decreases |a|
  {
    if |a| == 0 || |b| == 0 then |a| - |b|
    else if LowerChar(a[0]) != LowerChar(b[0]) then LowerChar(a[0]) as int - LowerChar(b[0]) as int
    else
      var r := CompareIgnoreCase(a[1..], b[1..]);
      assert Lower(a) == [LowerChar(a[0])] + Lower(a[1..]);
      assert Lower(b) == [LowerChar(b[0])] + Lower(b[1..]);
      r
  }

  /** Swapping the arguments negates the comparison. */
  lemma {:induction false} CompareIgnoreCaseAntisymmetric(a: string, b: string)
    ensures CompareIgnoreCase(a, b) == -CompareIgnoreCase(b, a)
    decreases |a|
  {
    if |a| > 0 && |b| > 0 && LowerChar(a[0]) == LowerChar(b[0]) {
      CompareIgnoreCaseAntisymmetric(a[1..], b[1..]);
    }
  }

  /** A label shows its playlist. */
  datatype TagLabel = TagLabel(playlistName: string)
  {
    /** toString: the playlist name. */
    function ToString(): (r: string)
      ensures this == TagLabel(r)
    {
      playlistName
    }

    /** compareTo: the reverse of the case-insensitive order of the names. */
    function CompareTo(other: TagLabel): (r: int)
      ensures r == 0 <==> EqualsIgnoreCase(playlistName, other.playlistName)
      ensures r == CompareIgnoreCase(other.playlistName, playlistName)
    {
      CompareIgnoreCaseAntisymmetric(playlistName, other.playlistName);
      -CompareIgnoreCase(playlistName, other.playlistName)
    }
  }

  /** compareTo is sign-antisymmetric, as Comparable requires. */
  lemma CompareToAntisymmetric(a: TagLabel, b: TagLabel)
    ensures a.CompareTo(b) == -b.CompareTo(a)
  {
    CompareIgnoreCaseAntisymmetric(a.playlistName, b.playlistName);
  }

  /** The labels of the model: one per playlist, in the order the playlists come. */
  function Labels(playlists: seq<string>): (r: seq<TagLabel>)
    ensures |r| == |playlists|
    ensures forall i :: 0 <= i < |r| ==> r[i].ToString() == playlists[i]
  {
    if playlists == [] then [] else [TagLabel(playlists[0])] + Labels(playlists[1..])
  }
}

=== FILE: taxonomy.dfy ===
/**
 * The taxonomy: a root category and an index of every category by id. Categories
 * are hung under their parents through `addChild`, which links both ways and
 * indexes the child.
 */
module Taxonomy {
  import opened Wrappers
  import C = Category

  class Taxonomy {
    const rootCategory: C.Category
    var categories: map<string, C.Category>

    /** The constructor registers the root under its id. */
    constructor (root: C.Category)
      ensures rootCategory == root
      ensures categories == map[root.id := root]
      ensures GetCategory(root.id) == Some(root)
    {
      rootCategory := root;
      categories := map[root.id := root];
    }

    /** getCategory: the category registered under the id, or None (null). */
    function GetCategory(categoryId: string): (r: Option<C.Category>)
      reads this
      ensures r.None? <==> categoryId !in categories
      ensures r.Some? ==> categories[categoryId] == r.value
    {
      if categoryId in categories then Some(categories[categoryId]) else None
    }

    /** getCategoryList: the root's children. */
    function GetCategoryList(): (r: seq<C.Category>)
      reads this, rootCategory
      ensures r == rootCategory.children
    {
      rootCategory.children
    }

    /** isRoot: the very root object, not merely an equal one. */
    predicate IsRoot(category: C.Category)
      reads this
      ensures IsRoot(category) ==> category.id == rootCategory.id
      ensures IsRoot(category) <==> category == rootCategory
    {
      category == rootCategory
    }

    /**
     * addChild: the child goes last among the parent's children, gets the parent as
     * its parent, and is registered under its id (replacing any earlier entry).
     */
    method AddChild(parent: C.Category, newChild: C.Category)
      modifies parent`children, newChild`parent, this`categories
      ensures parent.children == old(parent.children) + [newChild]
      ensures newChild.parent == Some(parent)
      ensures categories == old(categories)[newChild.id := newChild]
      ensures GetCategory(newChild.id) == Some(newChild)
    {
      parent.AddChild(newChild);
      newChild.SetParent(Some(parent));
      categories := categories[newChild.id := newChild];
    }
  }

  /**
   * createTaxonomy without the loader: a root category with the given id, named
   * "root" and ordered 0, in a taxonomy of its own.
   */
  method CreateTaxonomy(rootId: string) returns (taxonomy: Taxonomy)
    ensures fresh(taxonomy) && fresh(taxonomy.rootCategory)
    ensures taxonomy.rootCategory.id == rootId && taxonomy.rootCategory.name == "root"
    ensures taxonomy.rootCategory.order == 0 && taxonomy.rootCategory.parent.None?
    ensures taxonomy.IsRoot(taxonomy.rootCategory) && taxonomy.GetCategoryList() == []
    ensures taxonomy.GetCategory(rootId) == Some(taxonomy.rootCategory)
  {
    var root := new C.Category(rootId);
    root.SetName("root");
    root.SetOrder(0);
    taxonomy := new Taxonomy(root);
  }
}

=== FILE: ui_utils.dfy ===
/**
 * The comma-separated lists shown for an audio item in the ACM's tables: its leaf
 * categories and its playlists.
 */
module UIUtils {
  import opened JavaStrings

  /** What the category list needs of a category: its name and whether it has children. */
  datatype CategoryEntry = CategoryEntry(name: string, hasChildren: bool)

  const Separator := ", "

  /** The names of the categories with no children, in list order. */
  function Leaves(cats: seq<CategoryEntry>): seq<string>
  {
    if cats == [] then []
    else (if cats[0].hasChildren then [] else [cats[0].name]) + Leaves(cats[1..])
  }

  /** The names from the first non-empty one on. */
  function DropLeadingEmpty(names: seq<string>): (r: seq<string>)
    ensures r != [] ==> |r[0]| > 0
    ensures |r| <= |names|
  {
    if names == [] then []
    else if names[0] == "" then DropLeadingEmpty(names[1..])
    else names
  }

  lemma {:induction false} DropSnoc(names: seq<string>, n: string)
    ensures DropLeadingEmpty(names + [n]) ==
      if DropLeadingEmpty(names) == [] then DropLeadingEmpty([n]) else DropLeadingEmpty(names) + [n]
  {
    if names != [] {
      assert (names + [n])[1..] == names[1..] + [n];
      if names[0] == "" {
        DropSnoc(names[1..], n);
      }
    }
  }

  lemma {:induction false} LeavesAppend(cats: seq<CategoryEntry>, c: CategoryEntry)
    ensures Leaves(cats + [c]) == Leaves(cats) + (if c.hasChildren then [] else [c.name])
  {
    if cats == [] {
      assert [c][1..] == [];
    } else {
      assert (cats + [c])[1..] == cats[1..] + [c];
      LeavesAppend(cats[1..], c);
    }
  }

  /** The category list after one more leaf name, from the list before it. */
  lemma NameStep(leaves: seq<string>, name: string, s: string)
    requires s == Join(DropLeadingEmpty(leaves), Separator)
    ensures Join(DropLeadingEmpty(leaves + [name]), Separator) == (if |s| > 0 then s + Separator else s) + name
  {
    var d := DropLeadingEmpty(leaves);
    DropSnoc(leaves, name);
    if d != [] {
      JoinSnoc(d, name, Separator);
      JoinEnds(d, Separator);
    }
  }

  /** The category list after one more category, from the list before it. */
  lemma CategoryStep(cats: seq<CategoryEntry>, i: nat, s: string)
    requires i < |cats| && s == Join(DropLeadingEmpty(Leaves(cats[..i])), Separator)
    ensures Join(DropLeadingEmpty(Leaves(cats[..i + 1])), Separator) ==
      if cats[i].hasChildren then s else (if |s| > 0 then s + Separator else s) + cats[i].name
  {
    assert cats[..i + 1] == cats[..i] + [cats[i]];
    LeavesAppend(cats[..i], cats[i]);
    if !cats[i].hasChildren {
      NameStep(Leaves(cats[..i]), cats[i].name, s);
    } else {
      assert Leaves(cats[..i + 1]) == Leaves(cats[..i]);
    }
  }

  /**
   * getCategoryListAsString: the leaf category names joined by ", ". The separator is
   * written only once something has been written, so leading empty names leave no trace.
   */
  method CategoryListAsString(cats: seq<CategoryEntry>) returns (s: string)
    ensures s == Join(DropLeadingEmpty(Leaves(cats)), Separator)
  {
    s := "";
    for i := 0 to |cats|
      invariant s == Join(DropLeadingEmpty(Leaves(cats[..i])), Separator)
    {
      CategoryStep(cats, i, s);
      if !cats[i].hasChildren {
        if |s| > 0 {
          s := s + Separator;
        }
        s := s + cats[i].name;
      }
    }
    assert cats[..|cats|] == cats;
  }

  /** When the first leaf has a name, the category list is exactly the leaves joined by ", ". */
  lemma NamedLeavesJoined(cats: seq<CategoryEntry>)
    requires Leaves(cats) != [] ==> |Leaves(cats)[0]| > 0
    ensures DropLeadingEmpty(Leaves(cats)) == Leaves(cats)
  {
  }

  /** The leaves are the childless categories' names, in order. */
  lemma {:induction false} LeavesMembers(cats: seq<CategoryEntry>, n: string)
    ensures n in Leaves(cats) <==> exists i :: 0 <= i < |cats| && !cats[i].hasChildren && cats[i].name == n
  {
    if cats != [] {
      LeavesMembers(cats[1..], n);
      if exists i :: 0 <= i < |cats[1..]| && !cats[1..][i].hasChildren && cats[1..][i].name == n {
        var i :| 0 <= i < |cats[1..]| && !cats[1..][i].hasChildren && cats[1..][i].name == n;
        assert cats[i + 1] == cats[1..][i];
      }
      if exists i :: 0 <= i < |cats| && !cats[i].hasChildren && cats[i].name == n {
        var i :| 0 <= i < |cats| && !cats[i].hasChildren && cats[i].name == n;
        if i > 0 {
          assert cats[1..][i - 1] == cats[i];
        }
      }
    }
  }

  /** getPlaylistAsString: a separator after every name but the last. */
  method PlaylistAsString(names: seq<string>) returns (s: string)
    ensures s == Join(names, Separator)
  {
    s := "";
    for i := 0 to |names|
      invariant s == Join(names[..i], Separator) + (if 0 < i < |names| then Separator else "")
    {
      assert names[..i + 1] == names[..i] + [names[i]];
      JoinSnoc(names[..i], names[i], Separator);
      s := s + names[i];
      if i != |names| - 1 {
        s := s + Separator;
      }
    }
    assert names[..|names|] == names;
  }

  /** No separator leads or trails: the list starts with the first playlist and ends with the last. */
  lemma PlaylistListEnds(names: seq<string>)
    requires |names| > 0
    ensures StartsWith(Join(names, Separator), names[0]) && EndsWith(Join(names, Separator), names[|names| - 1])
  {
    JoinEnds(names, Separator);
  }
}

=== FILE: wrappers.dfy ===
/** Optional values (Java's null, Python's None) and results of calls that may throw. */
module Wrappers {
  datatype Option<T> = None | Some(value: T)
  {
    function GetOr(default: T): T
    {
      match this
      case None => default
      case Some(v) => v
    }
  }

  /** The outcome of a call that either returns a value or throws the exception named by E. */
  datatype Result<T, E> = Ok(value: T) | Err(error: E)

  /** The Java exceptions that the modelled code throws or lets escape. */
  datatype Exception =
    | IllegalStateException
    | IllegalArgumentException
    | ClassCastException
    | NumberFormatException
    | NullPointerException
    | IndexOutOfBoundsException
    | IOException
    | AudioConverterInitializationException
}
